=== FILE: README.md ===
# ZeroWaste: a verified model

ZeroWaste (Hackovate) is a food-waste application. It has four parts:

- **Two import fixers.** `fix_imports.py` and `client/fix_imports.js` strip the version pin from imports such as `from "lucide-react@0.487.0"` in every TypeScript file of a source tree.
- **An Express server** (`server/src`). It has validators, services over a database, controllers, the admin middleware and the seeding of the food database.
- **A server-backed client** (`client/src`). Its state lives in `AppContext`, and its pages are the dashboard, inventory, food logs, community, resources, food scanning, onboarding, profile and admin dashboard.
- **An older stand-alone client** (`src`). It keeps users, logs and inventory in browser storage and has a login page, a food-log page, a resources page and a top bar.

This project models the core of all four in Dafny and proves what each part promises.

**How effects are modelled**

- **Pure logic is written as functions.** This covers the import rewrite, the validators, filters, scores, labels and form checks. Their `ensures` clauses say what the result means in terms of the input, and lemmas state the laws that tie the functions together (inverses, idempotence, orderings, counts).
- **State changed in place is written as classes.** Each database table is a field of a store class: a `map` by id, or a `seq` for the community tables. The contexts and pages of the clients are classes whose `seq` and option fields the methods reassign.
- **Each method states its whole new state.** Its `ensures` gives the result and the new state in terms of the old state.
- **Outside effects become parameters.** These are the file system of the fixers, the database's answers, the image host, password hashing and token signing, the clock (`now`, in milliseconds) and the server's answers to the client (`Result` values).
- **Integers are mathematical.** Numbers that the source keeps as JavaScript floating point are `real` where a fraction matters, and `int` otherwise.

## Model

| member | source | states |
|---|---|---|
| `ImportRewrite.MatchAt` | fix_imports.py:11 | a match found at position i starts at i, ends inside the text, and spans its package group plus at least the 13 fixed characters of `from "@0.0.0"` |
| `ImportRewrite.MatchAtCorrect` | fix_imports.py:11 | the scanner agrees with the regular expression `from (["'])(.*?)@\d+\.\d+\.\d+\1`: a found match is one of the expression's with the shortest (lazy) group, and when nothing is found no group makes the expression match there |
| `ImportRewrite.GroupHasNoNewline` | fix_imports.py:11 | the package group of a match never contains a line feed, because `.` does not accept one |
| `ImportRewrite.MatchesWellFormed` | fix_imports.py:29 | every match that `sub` replaces is a match of the expression at or after the scan position, and successive matches do not overlap |
| `ImportRewrite.RewriteChangesIffMatch` | fix_imports.py:29-31 | the content changes exactly when the pattern occurs, and each replacement shortens it by at least six characters |
| `ImportRewrite.NoFromNoMatches` | fix_imports.py:11 | content without an `f` has no match and is copied unchanged |
| `ImportRewrite.WithoutFromUnchanged` | client/fix_imports.js:7 | content that never says `from ` is left unchanged |
| `ImportRewrite.RewritePinned` | fix_imports.py:23-27 | `from "p@v"` with a version `v` becomes `from "p"`, with the same quote on both sides |
| `ImportRewrite.RewriteDoublyPinned` | fix_imports.py:23-29 | in `from "p@v1@v2"` the lazy group runs to the second `@`, so the result is `from "p@v1"` |
| `ImportRewrite.NotIdempotent` | fix_imports.py:29 | the rewrite is not idempotent: a second pass over `from "p@v1"` changes it again |
| `ImportRewrite.TwoNumbersNotSuffix` | client/fix_imports.js:7 | `@1.2` followed by the quote is not a version suffix, since three numbers are needed |
| `ImportRewrite.DialectsDiffer` | client/fix_imports.js:7 | the two regular expressions on the same text: for a carriage return in the package name Python's `.` accepts it, JavaScript's refuses it. The Python script never shows this, since its read turns the carriage return into a line feed (`FixImports.TextOf`) |
| `ImportRewrite.JsStopsAtLineTerminator` | client/fix_imports.js:7 | JavaScript's `.` stops at a carriage return that comes before the `@`, so no match starts at that `from` |
| `FixImports.Disk.constructor` | fix_imports.py:15-17 | the disk holds the given files, with the given unreadable and unwritable paths |
| `FixImports.UniversalNewlines` | fix_imports.py:20-21 | Python's text-mode newline translation: no carriage return is left, and the text never grows |
| `FixImports.NewlinesKeepPlain` | fix_imports.py:20-21 | a text without carriage returns is read unchanged |
| `FixImports.NewlinesIdempotent` | fix_imports.py:20-21 | translating twice is translating once |
| `FixImports.TextOf` | fix_imports.py:20-21 | the JavaScript script reads the content as it is; the Python script reads the translated text, which has no carriage return |
| `FixImports.Disk.Read` | fix_imports.py:20-21 | reading succeeds exactly for an existing readable path and gives its text: the bytes for JavaScript, and for Python the text with every `\r\n` and lone `\r` turned into `\n` |
| `FixImports.Disk.Write` | fix_imports.py:32-33 | a write succeeds exactly for a writable path and replaces only that file |
| `FixImports.ProcessFile` | fix_imports.py:15-37 | a file is fixed exactly when it can be read and written and its text as read has a match, and then gets that text rewritten; it fails exactly when reading fails, or when writing fails on a text that would change |
| `FixImports.ProcessPath` | client/fix_imports.js:18-30 | the per-file body (read, rewrite, write only if changed, `catch` on error) does what `ProcessFile` says to the disk |
| `FixImports.RunFrame` | fix_imports.py:13-14 | a walk creates no file and changes no file it does not visit |
| `FixImports.RunLogs` | fix_imports.py:34-37 | every fixed or failed path was visited, and there are no more reports than visits |
| `FixImports.RunPointwise` | fix_imports.py:15-37 | with each file visited once, its final content is the rewrite of its text as read (or the original when it cannot be read or written, or has no match), and it is reported as fixed or failed under exactly the conditions of `ProcessFile` |
| `FixImports.RunFixedDistinct` | fix_imports.py:34 | each file is reported fixed at most once |
| `FixImports.RunFixedAre` | fix_imports.py:35 | the fixed files, whose number is `count`, are exactly the visited readable, writable files whose text as read has a match, in visiting order |
| `FixImports.RunAppend` | client/fix_imports.js:9-33 | walking `a` and then `b` is one walk over `a + b` |
| `FixImports.TsPathsInMembers` | fix_imports.py:14 | the Python script visits exactly the `.ts` and `.tsx` files of a listing |
| `FixImports.FixDirectory` | fix_imports.py:14-37 | the loop over one directory's files ends with the disk and the reports of `Run` over its TypeScript paths, and `count` is the number fixed |
| `FixImports.FixPython` | fix_imports.py:13-39 | the whole `os.walk` loop ends with the disk and the reports of `Run` over all visited TypeScript paths, and `count` is the number fixed |
| `FixImports.Walk` | client/fix_imports.js:9-12 | a missing directory does nothing; otherwise the recursive walk equals `Run` over the tree's TypeScript paths in visiting order |
| `FixImports.WalkEntries` | client/fix_imports.js:13-32 | the loop over a directory's entries equals `Run` over their paths |
| `FixImports.WalkEntry` | client/fix_imports.js:14-27 | a subdirectory is walked recursively, and a TypeScript file is processed |
| `CommunityValidator.ParseDonation` | server/src/validators/community.validator.ts:30-37 | a donation parses exactly when the schema accepts it; the parsed request id, message, quantity, unit and contact are the body's own, and `anonymous` defaults to false |
| `CommunityValidator.ParseReport` | server/src/validators/community.validator.ts:39-43 | a report parses exactly when it has a cuid, a type of `fraud` or `trusted`, and a reason of at most 500 characters; the parsed request id, type and reason are the body's own |
| `AuthValidator.ParseRegister` | server/src/validators/auth.validator.ts:3-11 | a registration parses exactly when the schema accepts it; the parsed e-mail, password, name, district, division, size and each preference are the body's own, and size defaults to 1 and preferences to none |
| `AuthValidator.ProfileRulesMatchRegister` | server/src/validators/auth.validator.ts:18-27 | the fields a valid registration shares with a profile update also pass the update schema, and an empty update passes |
| `InventoryValidator.ParseCreateItem` | server/src/validators/inventory.validator.ts:3-15 | an item parses exactly when the create schema accepts it; every parsed field is the body's own, and meets every bound of the schema |
| `InventoryValidator.UpdateItemAccepts` | server/src/validators/inventory.validator.ts:17-25 | every valid create body is a valid update; an empty update is valid; a null price passes only the update |
| `FoodLogValidator.ParseCreateFoodLog` | server/src/validators/foodLog.validator.ts:3-12 | a log parses exactly when the create schema accepts it; every parsed field is the body's own, and meets every bound of the schema |
| `FoodLogValidator.UpdateCategoryLooser` | server/src/validators/foodLog.validator.ts:9-18 | every valid create body is a valid update, and only the update accepts an empty category |
| `CategoryService.NormalizeShape` | server/src/services/category.service.ts:12 | a stored name has no upper-case letter and no white space at either end |
| `CategoryService.NormalizeTrimFirst` | server/src/services/category.service.ts:12 | lower-casing then trimming equals trimming then lower-casing |
| `CategoryService.NormalizeIdempotent` | server/src/services/category.service.ts:12 | normalizing twice is normalizing once |
| `CategoryService.AddKeepsValid` | server/src/services/category.service.ts:10-14 | adding a row under the next id with a name no row holds keeps ids and names unique, and the name is then present |
| `CategoryService.RenameKeepsValid` | server/src/services/category.service.ts:16-21 | renaming a row to a name no other row holds keeps names unique |
| `CategoryService.CategoryStore.constructor` | server/src/services/category.service.ts:1-3 | an empty table |
| `CategoryService.CategoryStore.GetAll` | server/src/services/category.service.ts:4-8 | every row exactly once, ordered by name |
| `CategoryService.CategoryStore.FindByName` | server/src/services/category.service.ts:29-33 | a row is found exactly when one has the normalized name |
| `CategoryService.CategoryStore.Create` | server/src/services/category.service.ts:10-14 | a taken normalized name is a unique-constraint error that changes nothing; otherwise one new row with a fresh id and the normalized name |
| `CategoryService.CategoryStore.Update` | server/src/services/category.service.ts:16-21 | an unknown id is not found; a name taken by another row is refused; otherwise only that row is renamed |
| `CategoryService.CategoryStore.Delete` | server/src/services/category.service.ts:23-27 | an existing row is removed and returned; an unknown id is not found and changes nothing |
| `CategoryService.FindsEquivalentNames` | server/src/services/category.service.ts:29-33 | names that differ only in case and surrounding spaces find the same category |
| `FoodDatabaseService.FoodDatabaseStore.constructor` | server/src/services/foodDatabase.service.ts:1-3 | an empty table |
| `FoodDatabaseService.FoodDatabaseStore.Query` | server/src/services/foodDatabase.service.ts:4-21 | the rows that pass a filter, each exactly once, ordered by name |
| `FoodDatabaseService.FoodDatabaseStore.GetAll` | server/src/services/foodDatabase.service.ts:4-8 | every row exactly once, ordered by name |
| `FoodDatabaseService.FoodDatabaseStore.Search` | server/src/services/foodDatabase.service.ts:10-21 | exactly the rows whose name or category contains the trimmed, lower-cased query, each once, ordered by name |
| `FoodDatabaseService.FoodDatabaseStore.FindByName` | server/src/services/foodDatabase.service.ts:23-30 | a row is found exactly when one has the name, ignoring case |
| `FoodDatabaseService.FoodDatabaseStore.Create` | server/src/services/foodDatabase.service.ts:32-41 | one new row with a fresh id, the trimmed name and the normalized category |
| `FoodDatabaseService.FoodDatabaseStore.Update` | server/src/services/foodDatabase.service.ts:43-54 | an existing row gets the patch and nothing else changes; an unknown id is not found |
| `FoodDatabaseService.FoodDatabaseStore.Delete` | server/src/services/foodDatabase.service.ts:56-60 | an existing row is removed and returned; an unknown id is not found |
| `FoodDatabaseService.FoodDatabaseStore.FindById` | server/src/services/foodDatabase.service.ts:62-66 | the row exactly when the id exists |
| `FoodDatabaseService.Patched` | server/src/services/foodDatabase.service.ts:45-52 | every supplied field replaces the old one (a name trimmed, a category normalized), every other field is kept, the id never changes, and an empty patch changes nothing |
| `FoodDatabaseService.PatchIdempotent` | server/src/services/foodDatabase.service.ts:45-52 | applying the same patch twice is applying it once |
| `InventoryService.Patched` | server/src/services/inventory.service.ts:48-53 | every supplied field replaces the old one and every other is kept; the id, the owner and the date added never change, and an empty update changes nothing |
| `InventoryService.InventoryStore.constructor` | server/src/services/inventory.service.ts:1-3 | an empty table |
| `InventoryService.InventoryStore.GetAll` | server/src/services/inventory.service.ts:4-9 | exactly the user's items, each once, newest first |
| `InventoryService.InventoryStore.GetByCategory` | server/src/services/inventory.service.ts:67-72 | exactly the user's items in the category, each once, newest first |
| `InventoryService.InventoryStore.GetById` | server/src/services/inventory.service.ts:11-21 | the item exactly when it exists and belongs to the user, and "not found" otherwise |
| `InventoryService.InventoryStore.Create` | server/src/services/inventory.service.ts:23-38 | one new row with a fresh id, the user as owner, `now` as the date added, and the input fields |
| `InventoryService.InventoryStore.Update` | server/src/services/inventory.service.ts:40-56 | succeeds exactly on the user's own item, which gets the patch; otherwise "not found" and nothing changes |
| `InventoryService.InventoryStore.Delete` | server/src/services/inventory.service.ts:58-65 | succeeds exactly on the user's own item, which is removed; otherwise "not found" and nothing changes |
| `InventoryService.CategoryListingWithinAll` | server/src/services/inventory.service.ts:67-72 | the per-category listing holds only items of the full listing |
| `FoodLogService.LogDate` | server/src/services/foodLog.service.ts:37 | a missing or empty date means `now`; any other is parsed |
| `FoodLogService.FoodLogStore.constructor` | server/src/services/foodLog.service.ts:1-3 | an empty table |
| `FoodLogService.FoodLogStore.GetAll` | server/src/services/foodLog.service.ts:4-9 | exactly the user's logs, each once, newest first |
| `FoodLogService.FoodLogStore.GetByDateRange` | server/src/services/foodLog.service.ts:53-63 | exactly the user's logs dated within the range, bounds included, each once, newest first |
| `FoodLogService.FoodLogStore.GetById` | server/src/services/foodLog.service.ts:11-21 | the log exactly when it exists and belongs to the user |
| `FoodLogService.FoodLogStore.Create` | server/src/services/foodLog.service.ts:23-42 | one new row with a fresh id, the user as owner and the date from `LogDate` |
| `FoodLogService.FoodLogStore.Delete` | server/src/services/foodLog.service.ts:44-51 | succeeds exactly on the user's own log, which is removed; otherwise nothing changes |
| `FoodLogService.RangeMonotone` | server/src/services/foodLog.service.ts:53-63 | a narrower range lists only logs that a wider range lists |
| `AuthService.Public` | server/src/services/auth.service.ts:77-80 | the user as returned to clients: every field except the password hash |
| `AuthService.PublicHidesHash` | server/src/services/auth.service.ts:77-80 | the returned user does not depend on the password hash |
| `AuthService.HouseholdOrDefault` | server/src/services/auth.service.ts:33 | `householdSize \|\| 1`: a missing or zero size becomes 1 |
| `AuthService.Patched` | server/src/services/auth.service.ts:107-133 | every supplied field replaces the old one and every other is kept; the id, e-mail, hash and creation time never change, and an empty update changes nothing |
| `AuthService.UserStore.constructor` | server/src/services/auth.service.ts:1-5 | an empty table |
| `AuthService.UserStore.FindByEmail` | server/src/services/auth.service.ts:16-18 | a user is found exactly when one has the e-mail |
| `AuthService.UserStore.Register` | server/src/services/auth.service.ts:6-55 | a taken e-mail is refused and changes nothing; otherwise one new user with the hashed password, and a token signed for it |
| `AuthService.UserStore.Login` | server/src/services/auth.service.ts:57-81 | succeeds exactly when a user has the e-mail and the password verifies against its hash; every failure is the same "invalid credentials" |
| `AuthService.UserStore.GetProfile` | server/src/services/auth.service.ts:83-105 | the public user exactly when the id exists |
| `AuthService.UserStore.UpdateProfile` | server/src/services/auth.service.ts:107-133 | an existing user gets the update and no other row changes |
| `AdminService.CreateCategory` | server/src/services/admin.service.ts:10-17 | a name already present (after normalizing) is refused and changes nothing; otherwise the category is created |
| `AdminService.UpdateCategory` | server/src/services/admin.service.ts:19-26 | a name used by another category is refused; an unknown id is not found; otherwise that row is renamed |
| `AdminService.CreateFood` | server/src/services/admin.service.ts:37-44 | a name already present, ignoring case, is refused first; then an image value the database rejects is refused; otherwise the item is created from the arguments. A refusal changes nothing |
| `AdminService.UpdateFood` | server/src/services/admin.service.ts:46-55 | a new name taken by another item is refused first; then a rejected image value; then an unknown id is not found; otherwise the patch is applied to that row only. A refusal changes nothing |
| `AdminMiddleware.AuthRequest.constructor` | server/src/middleware/admin.ts:10 | a request carrying the given user |
| `AdminMiddleware.RequireAdmin` | server/src/middleware/admin.ts:9-55 | the result is 401 without a user id, 401 for an unknown user, 403 for a user who is not an admin, 500 when the lookup fails, and `next` with the role recorded exactly for an admin |
| `AdminController.ImageUrlOf` | server/src/controllers/admin.controller.ts:153 | a falsy image value means no image; a non-empty string is the URL; any other value is refused |
| `AdminController.CreateCategory` | server/src/controllers/admin.controller.ts:24-52 | a blank name is 400 and changes nothing; a free name always gives 201 with the new category; a taken one is refused |
| `AdminController.UpdateCategory` | server/src/controllers/admin.controller.ts:54-84 | a blank name is 400; with a free name the answer is 200 exactly for an existing id, and "not found" is passed on otherwise; a failure changes nothing |
| `AdminController.DeleteCategory` | server/src/controllers/admin.controller.ts:86-102 | 200 with the row removed exactly when the id exists; otherwise "not found" is passed on |
| `AdminController.CreateFoodRefusal` | server/src/controllers/admin.controller.ts:128-147 | the first failing check, in order: name, then category, then a positive estimate |
| `AdminController.CreateFood` | server/src/controllers/admin.controller.ts:120-169 | 400 on a failed check; then 409 exactly when the name is taken; then the image refusal; 201 exactly when none of these applies, with the item built from the body; a failure changes nothing |
| `AdminController.ImageField` | server/src/controllers/admin.controller.ts:153 | the image stored on create: the body's value exactly when it is a non-empty string |
| `AdminController.UpdateRefusal` | server/src/controllers/admin.controller.ts:180-205 | the first bad supplied field, in order: a blank name, a blank category, an estimate that is not positive |
| `AdminController.PatchOf` | server/src/controllers/admin.controller.ts:180-213 | each field of the patch is present exactly when the body supplies it validly, and is then the body's value; a supplied image is present unless the store would reject it |
| `AdminController.BuildFoodPatch` | server/src/controllers/admin.controller.ts:180-213 | 400 exactly when `UpdateRefusal` finds a bad field, with its message; otherwise the patch `PatchOf` of the body |
| `AdminController.UpdateFood` | server/src/controllers/admin.controller.ts:171-229 | 400 for a bad field; 409 when the new name is taken by another item, and only then; with a free name the image refusal, else 200 exactly for an existing item, with `PatchOf` of the body applied to its row; "not found" otherwise; a failure changes nothing |
| `AdminController.ImageToDelete` | server/src/controllers/admin.controller.ts:239-243 | an item's image is deleted from the host exactly when its URL is non-empty |
| `AdminController.DeleteFood` | server/src/controllers/admin.controller.ts:231-251 | 200 with the row removed exactly when the id exists, together with the image to delete |
| `AdminController.UploadImage` | server/src/controllers/admin.controller.ts:253-295 | unknown item: 404; the old image is deleted before the upload; the host's no-file and parse errors: 400; success stores the new URL and changes nothing else |
| `InventoryController.ComputeStats` | server/src/controllers/inventory.controller.ts:123-152 | the loop gives the item count, the per-category tally and the items expiring within a week |
| `InventoryController.BreakdownAddsUp` | server/src/controllers/inventory.controller.ts:131-139 | the breakdown names exactly the categories present, each count is the number of items in it, and the counts add up to the number of items |
| `InventoryController.CategoryCount` | server/src/controllers/inventory.controller.ts:131-139 | in the user's listing, a category occurs as often as the user has items in it |
| `InventoryController.StatsCount` | server/src/controllers/inventory.controller.ts:123-139 | the listing's length is the number of the user's items, and its tally has exactly the user's categories, each with its number of items |
| `InventoryController.GetStats` | server/src/controllers/inventory.controller.ts:123-152 | always 200; the total is the number of the user's items, the breakdown names exactly the user's categories with the number of items in each, and the expiring items are exactly the user's items that expire within a week |
| `InventoryController.GetItem` | server/src/controllers/inventory.controller.ts:22-43 | 200 with the item exactly when the user owns it, 404 otherwise |
| `InventoryController.UpdateItem` | server/src/controllers/inventory.controller.ts:61-82 | 200 with the patched item exactly when the user owns it, otherwise 404 and no change |
| `InventoryController.DeleteItem` | server/src/controllers/inventory.controller.ts:84-105 | 200 with the item removed exactly when the user owns it, otherwise 404 and no change |
| `InventoryController.UploadImage` | server/src/controllers/inventory.controller.ts:154-176 | 200 with the host's URL, or 400 with its error |
| `Community.GetSortOrder` | server/src/controllers/community.controller.ts:488-499 | `oldest` sorts by creation ascending, `urgent` by needed-by date ascending, anything else newest first |
| `Community.WhereFor` | server/src/controllers/community.controller.ts:21-36 | each filter is applied exactly when given, except that category and status `all` mean no filter |
| `Community.BuildWhere` | server/src/controllers/community.controller.ts:21-36 | building the filter step by step gives `WhereFor` |
| `Community.Window` | server/src/controllers/community.controller.ts:40-45 | `skip`/`take`: at most `take` consecutive rows starting at `skip` |
| `Community.CountKind` | server/src/controllers/community.controller.ts:77-87 | the number of reports of one kind |
| `Community.Skip` | server/src/controllers/community.controller.ts:16 | page 1 skips nothing, and each page's window of `limit` rows ends where the next page's begins |
| `Community.CeilDiv` | server/src/controllers/community.controller.ts:93 | `Math.ceil(total / limit)`: the least page count that covers all rows |
| `Community.CommunityStore.constructor` | server/src/controllers/community.controller.ts:1-4 | empty request, donation and report tables, which are `Linked`: every donation and report refers to a stored request |
| `Community.CommunityStore.Find` | server/src/controllers/community.controller.ts:115-118 | the request with the id exactly when one exists |
| `Community.CommunityStore.ReportsOf` | server/src/controllers/community.controller.ts:77-87 | exactly the reports about the request |
| `Community.CommunityStore.DonationsOf` | server/src/controllers/community.controller.ts:49-56 | exactly the donations made to the request |
| `Community.CommunityStore.Visible` | server/src/controllers/community.controller.ts:77-88 | `map` then `filter`: the page's views, none of which has 5 or more fraud reports, and no more of them than the page has |
| `Community.CommunityStore.GetHelpRequests` | server/src/controllers/community.controller.ts:5-108 | defaults of page 1 and limit 20; the data is the filtered, sorted window with hidden requests removed; the page count is `CeilDiv(total, limit)`, and for a limit of 0 the data is empty and the page count is absent (`Infinity` or `NaN`); next and previous exist exactly when they should |
| `Community.CommunityStore.GetHelpRequest` | server/src/controllers/community.controller.ts:110-185 | 404 for an unknown id, 404 for a hidden request (5 or more fraud reports); success exactly otherwise, with the stored request, its fraud and trusted report counts, and exactly its donations (as a multiset), newest first |
| `Community.CommunityStore.CreateDonation` | server/src/controllers/community.controller.ts:358-425 | 401 without a user; 404 for an unknown request; a closed request is refused; otherwise exactly one donation is appended, whose fields are the body's, with the user as donor, `anonymous` false unless given as true, and the creation time `now`; `Linked` is kept |
| `Community.CommunityStore.CreateReport` | server/src/controllers/community.controller.ts:427-486 | 401 without a user; 404 for an unknown request; a second report by the same user is refused; otherwise exactly one report is appended; `Linked` is kept |
| `Community.CommunityStore.OwnerCheck` | server/src/controllers/community.controller.ts:259-283 | passes exactly for the owner; 401 without a user, 404 for an unknown request, 403 for someone else |
| `Community.CommunityStore.UpdateHelpRequest` | server/src/controllers/community.controller.ts:253-311 | refused exactly when the owner check fails, changing nothing; otherwise only that request gets the patch; `Linked` is kept |
| `Community.CommunityStore.DeleteHelpRequest` | server/src/controllers/community.controller.ts:313-356 | refused with the owner check's answer when it fails; without a cascade, refused with the forwarded error (500) while donations or reports refer to the request; either refusal changes nothing. Otherwise exactly the requests with that id are removed, with a cascade also exactly the donations and reports about it, after which nothing refers to the id; `Linked` is kept |
| `Community.ApplyPatch` | server/src/controllers/community.controller.ts:287-300 | a patch never changes the id, the owner, the creation time or the location; every supplied field replaces the old one and every other is kept, and an empty patch changes nothing |
| `Community.VisibleAreViews` | server/src/controllers/community.controller.ts:41-88 | every listed view belongs to a request of the page and carries that request's own report counts and donations |
| `Community.RemoveLinked` | server/src/controllers/community.controller.ts:345-347 | removing a request with nothing referring to it, or removing it with its donations and reports, leaves nothing referring to it and keeps every remaining donation and report pointing at a stored request |
| `Community.VisibleDropsOnlyHidden` | server/src/controllers/community.controller.ts:88 | a request of the page is listed exactly when it has fewer than 5 fraud reports |
| `Community.PageSorted` | server/src/controllers/community.controller.ts:38-48 | a page is sorted by the requested order |
| `Community.PageFiltered` | server/src/controllers/community.controller.ts:38-48 | every request of a page satisfies the filter |
| `SeedFoodDatabase.FirstExtension` | server/src/utils/seedFoodDatabase.ts:39 | the image extension a file name ends with, when it has one, which is one of the image extensions |
| `SeedFoodDatabase.Stem` | server/src/utils/seedFoodDatabase.ts:53 | for an image file, the lower-cased name is the stem followed by a dot and one of the image extensions; any other name is only lower-cased |
| `SeedFoodDatabase.Candidates` | server/src/utils/seedFoodDatabase.ts:37-41 | exactly the image files, sorted |
| `SeedFoodDatabase.Hyphenate` | server/src/utils/seedFoodDatabase.ts:51 | `replace(/\s+/g, '-')` never lengthens the name |
| `SeedFoodDatabase.HyphenateNoSpaceLeft` | server/src/utils/seedFoodDatabase.ts:51 | no whitespace is left |
| `SeedFoodDatabase.HyphenateNoSpace` | server/src/utils/seedFoodDatabase.ts:51 | a name without whitespace is unchanged |
| `SeedFoodDatabase.HyphenateIdempotent` | server/src/utils/seedFoodDatabase.ts:51 | replacing twice is replacing once |
| `SeedFoodDatabase.MatchImage` | server/src/utils/seedFoodDatabase.ts:52-55 | no image exactly when no stem contains the name; otherwise the first candidate whose stem contains it |
| `SeedFoodDatabase.ImageUrlFor` | server/src/utils/seedFoodDatabase.ts:57-69 | no matching image means no URL; a match gives the upload's answer, and a failed upload gives no URL |
| `SeedFoodDatabase.SeededRows` | server/src/utils/seedFoodDatabase.ts:71-83 | one row per seed item, with consecutive ids, its name, category and estimate, and its image URL |
| `SeedFoodDatabase.Seed` | server/src/utils/seedFoodDatabase.ts:17-91 | a non-empty table, or a seed file that cannot be read, changes nothing; otherwise the table becomes the seeded rows |
| `SeedFoodDatabase.InsertAll` | server/src/utils/seedFoodDatabase.ts:46-83 | the loop inserts exactly the seeded rows |
| `ClientData.MergeUser` | src/lib/AppContext.tsx:116-121 | `{...user, ...updates}`: every supplied field replaces the user's, and every other is kept |
| `ClientData.MergeUserLaws` | src/lib/AppContext.tsx:116-121 | an empty update changes nothing, and applying an update twice is applying it once |
| `ClientData.MergeItem` | src/lib/AppContext.tsx:144-146 | `{...item, ...updates}` on an inventory item: every supplied field replaces the item's, and every other is kept |
| `ClientData.MergeItemLaws` | src/lib/AppContext.tsx:144-146 | an empty update changes nothing, and applying an update twice is applying it once |
| `ClientData.ResourceTypes` | src/components/Resources.tsx:16 | `[...new Set(types)]`: each type present, exactly once |
| `ClientData.ResourceCategories` | src/components/Resources.tsx:15 | each category present, exactly once |
| `ClientData.RemoveKey` | src/lib/AppContext.tsx:131-133 | the filter that deletes by id keeps every other element and leaves none with the id |
| `ClientData.RemoveKeyOrder` | src/lib/AppContext.tsx:148-150 | deleting keeps order, and deleting an absent id changes nothing |
| `ClientData.RemoveKeyAgree` | src/lib/AppContext.tsx:144-150 | two lists that agree on which entries have the id, and on every other entry, give the same list once the id is deleted |
| `ClientData.ReplaceKey` | src/lib/AppContext.tsx:144-146 | the map that updates by id changes exactly the elements with the id |
| `ClientData.AddAbsent` | src/lib/AppContext.tsx:163-167 | a category is appended only when it is absent |
| `ClientData.RemoveAll` | src/lib/AppContext.tsx:169-171 | every copy of the category goes, and every other one stays |
| `ClientData.CategoriesStayDistinct` | client/src/lib/AppContext.tsx:332-340 | adding and deleting keep the category list free of duplicates |
| `ClientData.AddThenRemove` | client/src/lib/AppContext.tsx:332-340 | adding a category and deleting it again is the same as deleting it |
| `ClientData.TogglePreference` | client/src/components/Onboarding.tsx:57-64 | the preference is in the result exactly when it was not before, and every other preference is unchanged |
| `ClientData.ToggleAbsentTwice` | client/src/components/Profile.tsx:41-48 | toggling an absent preference twice gives the list back |
| `ClientData.TogglePresentTwice` | client/src/components/Profile.tsx:41-48 | toggling a present preference twice moves it to the end |
| `ClientData.ToggleKeepsDistinct` | client/src/components/Onboarding.tsx:57-64 | toggling keeps the preferences free of duplicates |
| `ClientData.ParsedOr` | client/src/components/Onboarding.tsx:144 | `parseInt(v) \|\| n`: a missing or zero number gives the fallback, any other the number, and so never zero with a non-zero fallback |
| `ClientData.NonEmpty` | src/components/FoodLogs.tsx:40 | `url \|\| undefined`: an empty text becomes no value |
| `LocalAppContext.FindByEmail` | src/lib/AppContext.tsx:89-96 | the first user with the e-mail, if any |
| `LocalAppContext.DefaultCategoriesDistinct` | src/lib/AppContext.tsx:45-47 | the eight default categories are distinct |
| `LocalAppContext.LocalState.constructor` | src/lib/AppContext.tsx:40-47 | no user, no users, logs or items, and the default categories |
| `LocalAppContext.LocalState.Login` | src/lib/AppContext.tsx:89-96 | succeeds exactly when a user has the e-mail, and then signs that user in; the password is not checked |
| `LocalAppContext.LocalState.Register` | src/lib/AppContext.tsx:98-110 | a taken e-mail fails and changes nothing; otherwise the user is appended with the new id and signed in |
| `LocalAppContext.LocalState.Logout` | src/lib/AppContext.tsx:112-114 | no user is signed in, and the data is kept |
| `LocalAppContext.LocalState.UpdateProfile` | src/lib/AppContext.tsx:116-121 | without a user nothing changes; otherwise the user and their entry in the list get the update |
| `LocalAppContext.LocalState.AddFoodLog` | src/lib/AppContext.tsx:123-129 | the log, with its new id, is appended |
| `LocalAppContext.LocalState.DeleteFoodLog` | src/lib/AppContext.tsx:131-133 | the logs with the id are removed |
| `LocalAppContext.LocalState.AddInventoryItem` | src/lib/AppContext.tsx:135-142 | the item, with its new id and `now` as the date added, is appended |
| `LocalAppContext.LocalState.UpdateInventoryItem` | src/lib/AppContext.tsx:144-146 | the items with the id get the update |
| `LocalAppContext.LocalState.DeleteInventoryItem` | src/lib/AppContext.tsx:148-150 | the items with the id are removed |
| `LocalAppContext.LocalState.AddCategory` | src/lib/AppContext.tsx:163-167 | an absent category is appended, and the list stays free of duplicates |
| `LocalAppContext.LocalState.DeleteCategory` | src/lib/AppContext.tsx:169-171 | the category is removed, and the list stays free of duplicates |
| `LocalAppContext.RegisterThenLogin` | src/lib/AppContext.tsx:89-110 | after registering a new e-mail, logging in with it finds the registered user |
| `LocalAppContext.UpdateKeepsIds` | src/lib/AppContext.tsx:144-146 | an update without an id keeps every item's id |
| `ApiAppContext.OrEmpty` | client/src/lib/AppContext.tsx:73-74 | `value \|\| ''` |
| `ApiAppContext.FromServer` | client/src/lib/AppContext.tsx:127-138 | the client's user built from the server's: id, e-mail, name, size, preferences and onboarding flag copied, the location from district and division (`''` when absent), and no role, image or budget |
| `ApiAppContext.Refreshed` | client/src/lib/AppContext.tsx:208-222 | after a profile update every field the server returns replaces the user's, and role, image and budget are kept |
| `ApiAppContext.DefaultCategoriesDistinct` | client/src/lib/AppContext.tsx:52-54 | the six default categories are distinct |
| `ApiAppContext.ApiState.constructor` | client/src/lib/AppContext.tsx:47-54 | no user, no logs or items, and the default categories |
| `ApiAppContext.ApiState.Fetch` | client/src/lib/AppContext.tsx:98-115 | each list is replaced by the server's when the fetch succeeds, and is kept otherwise |
| `ApiAppContext.ApiState.Login` | client/src/lib/AppContext.tsx:117-151 | succeeds exactly when the server accepts, and then signs in the server's user; a failure changes nothing |
| `ApiAppContext.ApiState.Register` | client/src/lib/AppContext.tsx:153-191 | succeeds exactly when the server accepts, and then signs in the server's user |
| `ApiAppContext.ApiState.Logout` | client/src/lib/AppContext.tsx:193-198 | no user, and the inventory and logs are emptied |
| `ApiAppContext.ApiState.UpdateProfile` | client/src/lib/AppContext.tsx:202-230 | without a user, or on a server error, nothing changes; otherwise the user is refreshed from the answer |
| `ApiAppContext.ApiState.AddFoodLog` | client/src/lib/AppContext.tsx:232-248 | the server's log goes in front when it succeeds |
| `ApiAppContext.ApiState.DeleteFoodLog` | client/src/lib/AppContext.tsx:250-258 | the logs with the id are removed when the server succeeds |
| `ApiAppContext.ApiState.AddInventoryItem` | client/src/lib/AppContext.tsx:260-268 | the server's item goes in front when it succeeds |
| `ApiAppContext.ApiState.UpdateInventoryItem` | client/src/lib/AppContext.tsx:270-278 | the items with the id are replaced by the server's item when it succeeds |
| `ApiAppContext.ApiState.DeleteInventoryItem` | client/src/lib/AppContext.tsx:280-288 | the items with the id are removed when the server succeeds |
| `ApiAppContext.ApiState.AddCategory` | client/src/lib/AppContext.tsx:332-336 | an absent category is appended, and the list stays free of duplicates |
| `ApiAppContext.ApiState.DeleteCategory` | client/src/lib/AppContext.tsx:338-340 | the category is removed, and the list stays free of duplicates |
| `ApiAppContext.ReplaceThenDelete` | client/src/lib/AppContext.tsx:270-288 | deleting after an update is deleting alone, and repeating an update changes nothing |
| `ApiAppContext.AddThenDelete` | client/src/lib/AppContext.tsx:260-288 | deleting an added item's id is deleting it from the old list, which it leaves unchanged when no item had the id |
| `CommunityView.UrgencyPoints` | client/src/components/Community.tsx:245-246 | urgency points are from 0 to 25, and 25 only for `critical` |
| `CommunityView.MatchScore` | client/src/components/Community.tsx:231-258 | the score is never negative, and at most 95 for a request not dated in the future |
| `CommunityView.TopScore` | client/src/components/Community.tsx:231-258 | a score of 95 needs, and follows from, a request in the user's district, of a preferred category, critical, trusted, not suspicious and less than a day old |
| `CommunityView.ReportsMonotone` | client/src/components/Community.tsx:231-258 | one more fraud report never raises a score, one more trusted report never lowers it, and a request both trusted and suspicious has at least five trusted reports |
| `CommunityView.MatchedRequests` | client/src/components/Community.tsx:260-265 | at most ten requests, highest score first, each with its own score |
| `CommunityView.MatchedAreBest` | client/src/components/Community.tsx:260-265 | no request left out scores higher than the tenth shown |
| `CommunityView.Submit` | client/src/components/Community.tsx:135-172 | a request is sent exactly when item, category, quantity and unit are filled, carrying the form's fields; each optional one is absent exactly when blank and otherwise holds the form's text; the form is then reset; otherwise the form is kept |
| `Dashboard.RecentLogs` | client/src/components/Dashboard.tsx:17 | the last five logs, last first |
| `Dashboard.CategoryBreakdown` | client/src/components/Dashboard.tsx:20-24 | exactly the categories present, each with its number of items |
| `Dashboard.BreakdownSumsToTotal` | client/src/components/Dashboard.tsx:20-24 | the breakdown's counts add up to the number of items |
| `Dashboard.RelatedCategories` | client/src/components/Dashboard.tsx:27-32 | exactly the categories of the inventory and of the logs |
| `Dashboard.Recommendations` | client/src/components/Dashboard.tsx:27-47 | at most four resources, each qualifying, and four unless fewer qualify |
| `Dashboard.RecommendationsInOrder` | client/src/components/Dashboard.tsx:27-47 | the recommendations keep the catalogue's order and are all the qualifying ones when at most four qualify |
| `Dashboard.RecommendationsFirst` | client/src/components/Dashboard.tsx:27-47 | a qualifying resource with fewer than four qualifying ones before it in the catalogue is recommended, so the four chosen are the first four |
| `Dashboard.ReasonFor` | client/src/components/Dashboard.tsx:252-266 | the dairy reason exactly for a dairy title with dairy in stock, then vegetables, then the sustainability tip |
| `Dashboard.TipMeansSustainability` | client/src/components/Dashboard.tsx:252-266 | a recommendation shows the tip only when it is in the sustainability category |
| `Dashboard.ExpiringItems` | client/src/components/Dashboard.tsx:55-58 | exactly the items with an estimate of at most seven days and at least 70% of it gone |
| `Dashboard.ExpiringStays` | client/src/components/Dashboard.tsx:55-58 | an item expiring now is still expiring later |
| `FoodLogEntries.Draft` | client/src/components/FoodLogs.tsx:82-86 | the log sent is the form's fields and the image |
| `FoodLogEntries.NewestFirst` | client/src/components/FoodLogs.tsx:190-192 | the same logs, newest date first |
| `FoodLogsPage.PickerItems` | client/src/components/FoodLogs.tsx:43-49 | exactly the in-stock items whose name starts with the query, ignoring case |
| `FoodLogsPage.PickerIsPrefixFilter` | client/src/components/FoodLogs.tsx:43-49 | the picker keeps the inventory's order |
| `FoodLogsPage.SelectItem` | client/src/components/FoodLogs.tsx:51-59 | picking copies the item's name, category and unit, and caps the quantity at the stock |
| `FoodLogsPage.FinalImageUrl` | client/src/components/FoodLogs.tsx:80 | the picked item's non-empty image wins; otherwise the uploaded address when it is not empty; no image exactly when neither exists |
| `FoodLogsPage.RelativeTime` | client/src/components/FoodLogs.tsx:140-152 | today, yesterday, days up to 6, weeks up to 29 days, then the date |
| `FoodLogsPage.StatusNamesDistinct` | client/src/components/FoodLogs.tsx:154-172 | the status names are distinct |
| `FoodLogsPage.FindByName` | client/src/components/FoodLogs.tsx:155-157 | the first item with the name, ignoring case |
| `FoodLogsPage.ExpirationStatus` | client/src/components/FoodLogs.tsx:154-172 | unknown exactly when no item has the name; otherwise by the days left: expired, expiring or fresh |
| `FoodLogsPage.DaysFromAddition` | client/src/components/FoodLogs.tsx:159-163 | the days left are the estimate minus the whole days between addition and log |
| `FoodLogsPage.FilteredLogs` | client/src/components/FoodLogs.tsx:174-188 | exactly the logs that pass both filters, and all of them on `all` |
| `FoodLogsPage.SortedLogs` | client/src/components/FoodLogs.tsx:190-192 | the filtered logs, newest first |
| `InventoryPage.FilteredInventory` | client/src/components/Inventory.tsx:145-150 | exactly the items matching the search and the category |
| `InventoryPage.FilteredIsSubsequence` | client/src/components/Inventory.tsx:145-150 | the filter keeps order, and an empty search on `all` keeps everything |
| `InventoryPage.FilteredFoodDb` | client/src/components/Inventory.tsx:152-155 | exactly the database entries matching the search |
| `InventoryPage.SameSearch` | client/src/components/Inventory.tsx:145-155 | the inventory search and the database search agree on the same name and category |
| `InventoryPage.BadgeThresholds` | client/src/components/Inventory.tsx:161-167 | "expires soon" from 80% of the estimate, "use soon" from 50%, "fresh" below |
| `InventoryPage.FromDatabase` | client/src/components/Inventory.tsx:40-48 | an entry from the database is one piece, with its name, category, estimate and image |
| `InventoryPage.AddManual` | client/src/components/Inventory.tsx:50-76 | the form's fields are sent, with the uploaded image's address exactly when it is not empty; the form is reset to empty name and category, 7 days, price 0, one piece and no image |
| `InventoryPage.EditForm` | client/src/components/Inventory.tsx:99-113 | the edit form is filled from the item: name, category, estimate, quantity, unit, price and image |
| `InventoryPage.Edit` | client/src/components/Inventory.tsx:78-97 | nothing is sent without a selected item; otherwise its id and a patch of the form's name, category, estimate, quantity, unit and price, which never touches the id or the date added, and whose image is the uploaded one, else the form's |
| `InventoryPage.UntouchedEditKeepsItem` | client/src/components/Inventory.tsx:78-113 | saving an untouched edit sends the item's own fields |
| `InventoryPage.AddCategoryInput` | client/src/components/Inventory.tsx:132-138 | a blank name adds nothing and keeps the input; otherwise the trimmed name is added and the input cleared |
| `LocalFoodLogs.Shown` | src/components/FoodLogs.tsx:73-75 | all logs on `all`, otherwise exactly those of the category |
| `LocalFoodLogs.Displayed` | src/components/FoodLogs.tsx:77-79 | the shown logs, newest first |
| `LocalFoodLogs.Submit` | src/components/FoodLogs.tsx:29-49 | the log sent has an image exactly when one was uploaded; the form is reset with today's date |
| `ResourceLibrary.Filtered` | src/components/Resources.tsx:18-26 | exactly the resources that pass the search and both filters |
| `ResourceLibrary.GroupedBuckets` | src/components/Resources.tsx:28-31 | one group per category, each holding the filtered resources of that category |
| `ResourceLibrary.GroupedPartition` | src/components/Resources.tsx:28-31 | the groups together hold every filtered resource, and each in one group |
| `ResourceLibrary.CatalogueTotals` | src/components/Resources.tsx:205-223 | the number of resources, of articles and of videos, and of distinct categories |
| `ResourcesPage.Range` | client/src/components/Resources.tsx:59-88 | the page numbers from `lo` to `hi` |
| `ResourcesPage.RenderPagination` | client/src/components/Resources.tsx:59-88 | no pagination for a single page; otherwise the page list |
| `ResourcesPage.SmallListIsAllPages` | client/src/components/Resources.tsx:63-66 | seven pages or fewer are all listed |
| `ResourcesPage.LargeListShape` | client/src/components/Resources.tsx:67-86 | more than seven: first and last page shown, with an ellipsis after the first exactly when the page is past 3, and before the last exactly when it is before the third-to-last |
| `ResourcesPage.ListIncreasingWithPage` | client/src/components/Resources.tsx:59-88 | the listed pages increase and include the current page |
| `ResourcesPage.ServerCategory` | client/src/components/Resources.tsx:32 | the tab's category, else the filter's, else none |
| `ResourcesPage.Filtered` | client/src/components/Resources.tsx:45-52 | exactly the resources passing the search and the type filter |
| `ResourcesPage.EmptySearchKeepsAll` | client/src/components/Resources.tsx:45-52 | an empty search on all types keeps every resource |
| `FoodScanning.Accepted` | client/src/components/FoodScanning.tsx:84-114 | exactly the readable `image/` files of at most 5 MB become entries |
| `FoodScanning.NewestFirst` | client/src/components/FoodScanning.tsx:38-41 | the stored images, newest first |
| `FoodScanning.Gallery.constructor` | client/src/components/FoodScanning.tsx:24-29 | an empty gallery over the storage slot |
| `FoodScanning.Gallery.Load` | client/src/components/FoodScanning.tsx:31-46 | the stored images, newest first, when the slot is set |
| `FoodScanning.Gallery.Upload` | client/src/components/FoodScanning.tsx:72-122 | the accepted images go in front and are stored; nothing changes when none is accepted |
| `FoodScanning.Gallery.Delete` | client/src/components/FoodScanning.tsx:151-156 | the image with the id is removed and the rest stored |
| `FoodScanning.Gallery.ClearAll` | client/src/components/FoodScanning.tsx:158-166 | with images and confirmation the gallery and the slot are emptied; otherwise nothing changes |
| `FoodScanning.Collect` | client/src/components/FoodScanning.tsx:84-114 | the loop collects exactly the accepted images |
| `FoodScanning.NothingAcceptedNothingAdded` | client/src/components/FoodScanning.tsx:110-114 | nothing is added exactly when no file is both acceptable and readable |
| `Onboarding.CompletionUpdate` | client/src/components/Onboarding.tsx:24-41 | the update on completion: the collected data and the completed flag, nothing else |
| `Onboarding.SkipUpdate` | client/src/components/Onboarding.tsx:43-55 | skipping fills in "Not specified" without a district and the omnivore preference without one |
| `Onboarding.CompletionMarksOnboarded` | client/src/components/Onboarding.tsx:24-55 | completion, either way, marks the user as onboarded and keeps the id, name and e-mail |
| `Onboarding.Wizard.constructor` | client/src/components/Onboarding.tsx:14-22 | step 1, an empty location, a household of 1 and no preference |
| `Onboarding.Wizard.Continue` | client/src/components/Onboarding.tsx:24-41 | step 1 advances only with district and division; step 2 advances; step 3 sends the completion update |
| `Onboarding.Wizard.Back` | client/src/components/Onboarding.tsx:194-198 | one step back, never before step 1 |
| `Onboarding.Wizard.SetLocation` | client/src/components/Onboarding.tsx:96-104 | only the location changes |
| `Onboarding.Wizard.ChooseSize` | client/src/components/Onboarding.tsx:122-153 | a button sets its number, "More than 8" sets 9, and typing gives `parseInt(v) \|\| 1` |
| `Onboarding.Wizard.Toggle` | client/src/components/Onboarding.tsx:57-64 | only the preferences change, by a toggle |
| `Onboarding.ThreeContinues` | client/src/components/Onboarding.tsx:24-41 | with a location filled in, three continues send the completion update of the data |
| `Profile.FormFrom` | client/src/components/Profile.tsx:16-22 | the form holds the user's fields, with a size of 1 for zero, and is empty without a user |
| `Profile.FormUpdate` | client/src/components/Profile.tsx:24-28 | the update sent is the five form fields |
| `Profile.UntouchedSaveKeepsUser` | client/src/components/Profile.tsx:16-28 | saving an untouched form changes nothing in the user |
| `Profile.Editor.constructor` | client/src/components/Profile.tsx:14-22 | not editing, with the form from the user |
| `Profile.Editor.Edit` | client/src/components/Profile.tsx:62 | editing starts, and the form is kept |
| `Profile.Editor.Save` | client/src/components/Profile.tsx:24-28 | the form is sent and editing ends |
| `Profile.Editor.Cancel` | client/src/components/Profile.tsx:30-39 | the form is refilled from the user and editing ends |
| `Profile.Editor.Toggle` | client/src/components/Profile.tsx:41-48 | only the preferences change, by a toggle |
| `Profile.Editor.TypeHouseholdSize` | client/src/components/Profile.tsx:112 | the size becomes `parseInt(v) \|\| 1` |
| `Profile.PeopleLabel` | client/src/components/Profile.tsx:186 | "person" exactly for one, "people" otherwise |
| `Profile.LocationSummary` | client/src/components/Profile.tsx:234 | the district, else the division, else "Not specified"; never empty |
| `AdminDashboard.CategoryRows` | client/src/components/AdminDashboard.tsx:87 | one row per category name, whose id is the name |
| `AdminDashboard.FoodFormError` | client/src/components/AdminDashboard.tsx:148-165 | the first failing check: a blank name or category, then an estimate that is not positive |
| `AdminDashboard.FormOf` | client/src/components/AdminDashboard.tsx:206-214 | the form filled from a database entry |
| `AdminDashboard.DeleteRequest` | client/src/components/AdminDashboard.tsx:135-146 | a delete is sent exactly when confirmed |
| `AdminDashboard.AdminPanel.constructor` | client/src/components/AdminDashboard.tsx:40-60 | both dialogs closed, with empty forms and an estimate of 7 |
| `AdminDashboard.AdminPanel.OpenCreateCategory` | client/src/components/AdminDashboard.tsx:216-220 | the category dialog opens empty, with nothing being edited |
| `AdminDashboard.AdminPanel.OpenEditCategory` | client/src/components/AdminDashboard.tsx:200-204 | the category dialog opens on the row |
| `AdminDashboard.AdminPanel.CreateCategory` | client/src/components/AdminDashboard.tsx:104-117 | nothing is sent exactly for a blank name; the trimmed name otherwise, and the dialog is reset on success |
| `AdminDashboard.AdminPanel.UpdateCategory` | client/src/components/AdminDashboard.tsx:119-133 | nothing is sent without a row or with a blank name; otherwise the row's id and the trimmed name |
| `AdminDashboard.AdminPanel.OpenCreateFood` | client/src/components/AdminDashboard.tsx:222-226 | the food dialog opens with a blank form |
| `AdminDashboard.AdminPanel.OpenEditFood` | client/src/components/AdminDashboard.tsx:206-214 | the food dialog opens on the entry |
| `AdminDashboard.AdminPanel.TypeExpiration` | client/src/components/AdminDashboard.tsx:418 | the estimate becomes `parseInt(v) \|\| 7`, never zero |
| `AdminDashboard.AdminPanel.CreateFood` | client/src/components/AdminDashboard.tsx:148-165 | nothing is sent exactly when a check fails; the form otherwise, reset on success |
| `AdminDashboard.AdminPanel.UpdateFood` | client/src/components/AdminDashboard.tsx:167-185 | nothing is sent without an entry or when a check fails; otherwise the entry's id and the form |
| `AdminDashboard.CreateFoodTwice` | client/src/components/AdminDashboard.tsx:148-165 | after a successful create, a second press sends nothing |
| `AdminDashboard.EditFoodUntouched` | client/src/components/AdminDashboard.tsx:167-214 | saving an untouched valid entry sends its own id and fields and closes the dialog |
| `AdminDashboard.EditCategoryUntouched` | client/src/components/AdminDashboard.tsx:119-204 | saving an untouched row sends its id and trimmed name, and nothing for a blank name |
| `LoginPage.PasswordError` | src/components/Login.tsx:45-53 | a password under 6 characters is refused first, then a confirmation that differs |
| `LoginPage.NewUser` | src/components/Login.tsx:56-66 | the new user: the form's name and e-mail, a household of 1, no preference, not onboarded |
| `LoginPage.HandleLogin` | src/components/Login.tsx:32-39 | welcome exactly when the e-mail is registered, and then that user is signed in |
| `LoginPage.HandleRegister` | src/components/Login.tsx:41-73 | a password error, a taken e-mail, or the account is created and signed in |
| `LoginPage.RegisterThenSignIn` | src/components/Login.tsx:32-73 | registering a valid new account and then signing in with its e-mail succeeds |
| `TopBar.SplitOn` | src/components/TopBar.tsx:33 | `split(' ')` gives at least one piece and no piece holds the separator |
| `TopBar.SplitJoin` | src/components/TopBar.tsx:33 | joining the pieces back gives the name |
| `TopBar.Initials` | client/src/components/TopBar.tsx:31-38 | at most two characters |
| `TopBar.BlankNameNoInitials` | src/components/TopBar.tsx:31-38 | no initials exactly for a name made only of spaces |
| `TopBar.OneWord` | src/components/TopBar.tsx:31-38 | a one-word name gives its first letter in upper case |
| `TopBar.FirstTwoWords` | client/src/components/TopBar.tsx:31-38 | two or more words give the upper-case first letters of the first two |
| `TopBar.LeadingSpaceIgnored` | client/src/components/TopBar.tsx:31-38 | a leading space changes nothing |

## Left out

- Python's `\d` also accepts non-ASCII decimal digits. The model accepts ASCII digits only.
- `client/fix_imports.js` calls `statSync` outside its `try`, so a file that vanishes mid-walk crashes the script. The model treats every listed entry as present.
- A write in the model either fully succeeds or changes nothing. Partial writes and encodings other than UTF-8 are not modelled. Printing is left out. The reports stand for the printed lines, except that `fix_imports.py` prints "Fixing" before it writes: a file whose write fails is announced and then reported as an error, where the model reports it as failed only.
- Python's text-mode write turns each `\n` into `os.linesep`. The model takes a POSIX system, where the text is written as it is.
- The rewrite is not idempotent (`ImportRewrite.NotIdempotent`). The code's behaviour is modelled, not a claim that running it twice is harmless.
- The database is a `map` per table. Prisma's collation, its abstract error types, transactions and concurrent requests are not modelled. A unique-constraint or not-found error is a named string.
- The `createHelpRequest` handler and the whole `foodLog` and `auth` controllers are not part of this model. Their validators and services are.
- JavaScript numbers are `int` or `real`; `NaN` and infinities do not occur. `parseInt` and `parseFloat` become an `Option` (`ClientData.ParsedOr`). Date parsing and formatting are parameters.
- The 80%, 50% and 70% thresholds are compared with exact arithmetic. Floating-point rounding at the boundary is not modelled.
- AdminController.ImageUrlOf: a non-string, truthy `imageUrl` is refused by the model, where the code passes it on to Prisma, which rejects it. The refusal comes after the name lookup, as Prisma's would, so a taken name still gives 409.
- Community.CommunityStore.DeleteHelpRequest: the schema is not part of this model, so the referential action of the donation and report relations is the parameter `cascade`. The error handler `server/src/middleware/errorHandler` is not part of this model either; the forwarded constraint error is taken to answer 500.
- Community.CommunityStore.GetHelpRequests: the owner's `user` fields (id, name, image) are not returned, since the model has no user table. Each row carries its request's whole donations in store order, where the code selects only their id, donor, `anonymous` flag and creation time, in an order the database leaves open.
- Community.CommunityStore.GetHelpRequests: requests with equal sort keys are taken in store order, where the database leaves their order open. Which of them fall on a page is therefore one of the choices the database may make.
- Community.CommunityStore.GetHelpRequest: the owner's `user` fields and each donation's `donor` fields are not returned, since the model has no user table. Donations have no id of their own.
- InventoryService.InventoryStore.GetAll and GetByCategory, FoodLogService.FoodLogStore.GetAll and GetByDateRange: the contracts leave the order of rows with equal creation times open, as the database does. The implementations happen to keep store order.
- Community.CommunityStore.GetHelpRequests: requires a page of at least 1 and a limit that is not negative. The code parses them unchecked; what the database does with a negative skip or take, or with the `NaN` of a non-numeric value, is not modelled. A limit of 0 is modelled.
- The image host (ImageKit) is a parameter: an upload's answer is a `Result`, and a deletion is reported as the URL to delete.
- Database defaults (timestamps, cuid ids) are `now` and the store's next id.
- JavaScript string lengths count UTF-16 code units. The model counts characters (the password length, `slice(0, 2)` on initials). `toUpperCase` and `toLowerCase` are ASCII-only here.
- `Promise.all` over the seed items is modelled as one item after another.
- Loading from `localStorage` on start, JSON parse errors and the storage quota are left out. The stand-alone client's state starts empty, and the scan gallery's slot is a field.
- Family members are validated, but the profile does not store them.
- The server-backed client keeps only the fields `FromServer` names.
- `client/src/lib/AppContext.tsx` provides none of `helpRequests`, `fetchHelpRequests`, `createHelpRequest`, `createDonation` or `reportHelpRequest`, which `client/src/components/Community.tsx` takes from it, nor `resources` and `fetchResources`, which `client/src/components/Resources.tsx` takes. Those calls would fail. The model states what the pages would send, and the filtering and scoring they do on what they would receive.
- The server's user record has no role and no update time, though login and the profile return them.
- CommunityView.Submit: sends the quantity and the needed-by date as the form's text, where the code sends `parseFloat` of the quantity and the date as an ISO string.
- The stand-alone client's data types are taken to be the same as the server-backed client's.
- A request's district is an `Option`. JavaScript's `undefined` and `null` are not told apart.
- `FileReader` is a parameter: each file comes with its content, or none when reading failed. Loading flags and toasts are left out.
- `client/src/components/Inventory.tsx` imports a food database that `client/src/lib/data.ts` does not export, so the database is a parameter of the page's functions.
- The server-backed client's context has no admin calls (create or update a category, the food-database calls, loading categories). The admin page's handlers therefore take whether the server accepted as a parameter (`ok`).
- Day arithmetic uses whole days of 86 400 000 ms. Daylight-saving shifts in `setDate` are not modelled.
- `item.unit || 'pcs'` cannot fall back, since every item has a unit.
- Rendering, toasts, the login page's show-password and mode toggles, and navigation are left out.

=== FILE: admin_controller.dfy ===
/** The admin request handlers for categories and food-database items: body
    validation before any store call, and the mapping of the service's
    errors to statuses. */
module AdminController {
  import opened Wrappers
  import Text
  import opened Json
  import opened Http
  import opened Keyed
  import opened CategoryService
  import opened FoodDatabaseService
  import AdminService

  const CategoryNameRequired: string := "Category name is required"
  const FoodNameRequired: string := "Food item name is required"
  const CategoryRequired: string := "Category is required"
  const EstimateMustBePositive: string := "Expiration estimate must be a positive number"
  const FoodNameMustBeNonEmpty: string := "Food item name must be a non-empty string"
  const CategoryMustBeNonEmpty: string := "Category must be a non-empty string"
  const FoodItemNotFound: string := "Food database item not found"
  const NoImageFile: string := "No image file provided"
  const FormParseFailed: string := "Failed to parse form data"

  /** A string field that is present and not blank after trimming; this
      also excludes the falsy values the handlers test for first. */
  predicate NonBlank(body: Object, key: string) {
    key in body && body[key].Str? && Text.Trim(body[key].s) != []
  }

  /** A positive number (zero, the only falsy number, is not positive). */
  predicate PositiveField(body: Object, key: string) {
    key in body && Positive(body[key])
  }

  /** `imageUrl || undefined` on create, and `imageUrl || null` on update:
      a falsy value means no image, a non-empty string is kept, and any
      other value is one the store refuses. */
  function ImageUrlOf(v: Value): (r: Result<Option<string>, string>)
    ensures r.Ok? <==> !Truthy(v) || v.Str?
    ensures r.Ok? ==> (r.value.Some? <==> Truthy(v))
    ensures r.Ok? && r.value.Some? ==> v == Str(r.value.value) && r.value.value != []
  {
    if !Truthy(v) then Ok(None)
    else if v.Str? then Ok(Some(v.s))
    else Err(AdminService.InvalidImageUrl)
  }

  /** `createCategory`: 400 without a usable name; 409 when the service
      finds the name taken; 201 with the new category otherwise. */
  method CreateCategory(store: CategoryStore, body: Object) returns (resp: Response<Category>)
    requires store.Valid()
    modifies store
    ensures store.Valid()
    ensures !NonBlank(body, "name") ==> resp == Refused(400, CategoryNameRequired) && store.rows == old(store.rows)
    ensures NonBlank(body, "name") ==>
      (resp == Refused(409, AdminService.CategoryExists) <==> old(store.HasName(Normalize(body["name"].s))))
    ensures NonBlank(body, "name") && !old(store.HasName(Normalize(body["name"].s))) ==> resp.Done?
    ensures resp.Done? ==> resp.status == 201 && NonBlank(body, "name")
                           && resp.data == Category(old(store.nextId), Normalize(body["name"].s))
                           && store.rows == old(store.rows)[resp.data.id := resp.data]
    ensures !resp.Done? ==> store.rows == old(store.rows)
  {
    if !NonBlank(body, "name") {
      return Refused(400, CategoryNameRequired);
    }
    var r := AdminService.CreateCategory(store, body["name"].s);
    if r.Ok? {
      resp := Done(201, r.value);
    } else {
      resp := Refused(409, r.error);
    }
  }

  /** `updateCategory`: 400 without a usable name; 409 when another
      category has the name; a missing id is passed on as the store's
      error. */
  method UpdateCategory(store: CategoryStore, id: Id, body: Object) returns (resp: Response<Category>)
    requires store.Valid()
    modifies store
    ensures store.Valid()
    ensures !NonBlank(body, "name") ==> resp == Refused(400, CategoryNameRequired) && store.rows == old(store.rows)
    ensures NonBlank(body, "name") ==>
      (resp == Refused(409, AdminService.CategoryNameTaken)
       <==> old(exists k :: k in store.rows && k != id && store.rows[k].name == Normalize(body["name"].s)))
    ensures resp.Forwarded? ==> resp.error == RecordNotFound && id !in old(store.rows)
    ensures NonBlank(body, "name") && !old(NameElsewhere(store.rows, id, Normalize(body["name"].s)))
            ==> (resp.Done? <==> id in old(store.rows)) && (!resp.Done? ==> resp == Forwarded(RecordNotFound))
    ensures resp.Done? ==> resp.status == 200 && NonBlank(body, "name") && id in old(store.rows)
                           && resp.data == Category(id, Normalize(body["name"].s))
                           && store.rows == old(store.rows)[id := resp.data]
    ensures !resp.Done? ==> store.rows == old(store.rows)
  {
    if !NonBlank(body, "name") {
      return Refused(400, CategoryNameRequired);
    }
    var r := AdminService.UpdateCategory(store, id, body["name"].s);
    if r.Ok? {
      resp := Done(200, r.value);
    } else if r.error == AdminService.CategoryNameTaken {
      resp := Refused(409, r.error);
    } else {
      resp := Forwarded(r.error);
    }
  }

  /** `deleteCategory`: a missing id is passed on as the store's error. */
  method DeleteCategory(store: CategoryStore, id: Id) returns (resp: Response<()>)
    requires store.Valid()
    modifies store
    ensures store.Valid()
    ensures resp.Done? <==> id in old(store.rows)
    ensures resp.Done? ==> resp.status == 200 && store.rows == old(store.rows) - {id}
    ensures !resp.Done? ==> resp == Forwarded(RecordNotFound) && store.rows == old(store.rows)
  {
    var r := store.Delete(id);
    if r.Ok? {
      resp := Done(200, ());
    } else {
      resp := Forwarded(r.error);
    }
  }

  /** The first failing check of `createFoodDatabaseItem`, in the order
      name, category, expiration estimate. */
  function CreateFoodRefusal(body: Object): (r: Option<string>)
    ensures r.None? <==> NonBlank(body, "name") && NonBlank(body, "category")
                         && PositiveField(body, "expirationEstimate")
    ensures !NonBlank(body, "name") ==> r == Some(FoodNameRequired)
    ensures NonBlank(body, "name") && !NonBlank(body, "category") ==> r == Some(CategoryRequired)
    ensures NonBlank(body, "name") && NonBlank(body, "category") && !PositiveField(body, "expirationEstimate")
            ==> r == Some(EstimateMustBePositive)
  {
    if !NonBlank(body, "name") then Some(FoodNameRequired)
    else if !NonBlank(body, "category") then Some(CategoryRequired)
    else if !PositiveField(body, "expirationEstimate") then Some(EstimateMustBePositive)
    else None
  }

  /** A truthy `imageUrl` that is not a string: the store refuses it. */
  predicate BadImage(body: Object) {
    "imageUrl" in body && ImageUrlOf(body["imageUrl"]).Err?
  }

  /** The image of a create body when it is not a bad one: absent counts
      as falsy. */
  function ImageField(body: Object): (r: Option<string>)
    ensures r.Some? <==> "imageUrl" in body && body["imageUrl"].Str? && body["imageUrl"].s != []
    ensures r.Some? ==> body["imageUrl"] == Str(r.value)
  {
    if "imageUrl" in body && ImageUrlOf(body["imageUrl"]).Ok? then ImageUrlOf(body["imageUrl"]).value else None
  }

  /** `createFoodDatabaseItem`: 400 on the first failing check; 409 when
      an item already has the name; the store's refusal of a bad image
      after that; 201 with the new item otherwise. */
  method CreateFood(store: FoodDatabaseStore, body: Object) returns (resp: Response<FoodItem>)
    requires store.Valid()
    modifies store
    ensures store.Valid()
    ensures CreateFoodRefusal(body).Some? ==> resp == Refused(400, CreateFoodRefusal(body).value)
    ensures CreateFoodRefusal(body).None? && old(store.HasNameLike(body["name"].s))
            ==> resp == Refused(409, AdminService.FoodNameTaken)
    ensures CreateFoodRefusal(body).None? && !old(store.HasNameLike(body["name"].s)) && BadImage(body)
            ==> resp == Forwarded(AdminService.InvalidImageUrl)
    ensures resp.Done? <==> CreateFoodRefusal(body).None? && !old(store.HasNameLike(body["name"].s)) && !BadImage(body)
    ensures resp.Done? ==> resp.status == 201
                           && resp.data == FoodItem(old(store.nextId), Text.Trim(body["name"].s),
                                                    Normalize(body["category"].s), body["expirationEstimate"].n,
                                                    ImageField(body))
                           && store.rows == old(store.rows)[resp.data.id := resp.data]
    ensures !resp.Done? ==> store.rows == old(store.rows)
  {
    var refusal := CreateFoodRefusal(body);
    if refusal.Some? {
      return Refused(400, refusal.value);
    }
    var r := AdminService.CreateFood(store, body["name"].s, body["category"].s, body["expirationEstimate"].n,
                                     ImageField(body), BadImage(body));
    if r.Ok? {
      resp := Done(201, r.value);
    } else if r.error == AdminService.FoodNameTaken {
      resp := Refused(409, r.error);
    } else {
      resp := Forwarded(r.error);
    }
  }

  /** The first bad field of `updateFoodDatabaseItem`'s body, in the order
      name, category, expiration estimate; absent fields are not checked. */
  function UpdateRefusal(body: Object): (r: Option<string>)
    ensures r.None? <==> ("name" !in body || NonBlank(body, "name")) && ("category" !in body || NonBlank(body, "category"))
                         && ("expirationEstimate" !in body || PositiveField(body, "expirationEstimate"))
    ensures "name" in body && !NonBlank(body, "name") ==> r == Some(FoodNameMustBeNonEmpty)
    ensures ("name" !in body || NonBlank(body, "name")) && "category" in body && !NonBlank(body, "category")
            ==> r == Some(CategoryMustBeNonEmpty)
    ensures ("name" !in body || NonBlank(body, "name")) && ("category" !in body || NonBlank(body, "category"))
            && "expirationEstimate" in body && !PositiveField(body, "expirationEstimate")
            ==> r == Some(EstimateMustBePositive)
  {
    if "name" in body && !NonBlank(body, "name") then Some(FoodNameMustBeNonEmpty)
    else if "category" in body && !NonBlank(body, "category") then Some(CategoryMustBeNonEmpty)
    else if "expirationEstimate" in body && !PositiveField(body, "expirationEstimate") then Some(EstimateMustBePositive)
    else None
  }

  /** The changes an accepted update body asks for: each supplied field,
      and `imageUrl || null` for a supplied image the store can take. */
  function PatchOf(body: Object): (p: FoodPatch)
    ensures UpdateRefusal(body).None? ==>
      (p.name.Some? <==> "name" in body) && (p.category.Some? <==> "category" in body)
      && (p.expirationEstimate.Some? <==> "expirationEstimate" in body)
    ensures p.name.Some? ==> "name" in body && body["name"] == Str(p.name.value) && p.name.value != []
    ensures p.category.Some? ==> "category" in body && body["category"] == Str(p.category.value)
    ensures p.expirationEstimate.Some? ==>
      "expirationEstimate" in body && body["expirationEstimate"] == Num(p.expirationEstimate.value)
      && p.expirationEstimate.value > 0.0
    ensures p.imageUrl.Some? <==> "imageUrl" in body && !BadImage(body)
    ensures p.imageUrl.Some? ==> p.imageUrl.value == ImageField(body)
  {
    FoodPatch(if NonBlank(body, "name") then Some(body["name"].s) else None,
              if NonBlank(body, "category") then Some(body["category"].s) else None,
              if PositiveField(body, "expirationEstimate") then Some(body["expirationEstimate"].n) else None,
              if "imageUrl" in body && !BadImage(body) then Some(ImageField(body)) else None)
  }

  /** The changes of `updateFoodDatabaseItem`, built field by field: each
      supplied field is checked like on create and copied, the others are
      left out; the first bad field decides the refusal. The image is
      copied unchecked; a bad one is left to the store. */
  method BuildFoodPatch(body: Object) returns (r: Result<FoodPatch, Response<FoodItem>>)
    ensures r.Err? <==> UpdateRefusal(body).Some?
    ensures r.Err? ==> r.error == Refused(400, UpdateRefusal(body).value)
    ensures r.Ok? ==> r.value == PatchOf(body)
  {
    var patch := FoodPatch(None, None, None, None);
    if "name" in body {
      if !NonBlank(body, "name") {
        return Err(Refused(400, FoodNameMustBeNonEmpty));
      }
      patch := patch.(name := Some(body["name"].s));
    }
    if "category" in body {
      if !NonBlank(body, "category") {
        return Err(Refused(400, CategoryMustBeNonEmpty));
      }
      patch := patch.(category := Some(body["category"].s));
    }
    if "expirationEstimate" in body {
      if !PositiveField(body, "expirationEstimate") {
        return Err(Refused(400, EstimateMustBePositive));
      }
      patch := patch.(expirationEstimate := Some(body["expirationEstimate"].n));
    }
    if "imageUrl" in body && !BadImage(body) {
      patch := patch.(imageUrl := Some(ImageField(body)));
    }
    r := Ok(patch);
  }

  /** The body's new name, if any, is not held by another item. */
  ghost predicate NameFree(rows: map<Id, FoodItem>, id: Id, body: Object) {
    !NonBlank(body, "name") || !AdminService.NameTakenByOther(rows, id, body["name"].s)
  }

  /** `updateFoodDatabaseItem`: 400 on the first bad field; 409 when the
      new name belongs to another item; the store's refusal of a bad image
      after that; then 200 with the patched item, or a missing id passed
      on. */
  method UpdateFood(store: FoodDatabaseStore, id: Id, body: Object) returns (resp: Response<FoodItem>)
    requires store.Valid()
    modifies store
    ensures store.Valid()
    ensures UpdateRefusal(body).Some? ==> resp == Refused(400, UpdateRefusal(body).value)
    ensures UpdateRefusal(body).None? && old(AdminService.SurelyTaken(store.rows, id, PatchOf(body)))
            ==> resp == Refused(409, AdminService.FoodNameTaken)
    ensures resp == Refused(409, AdminService.FoodNameTaken)
            ==> UpdateRefusal(body).None? && !old(NameFree(store.rows, id, body))
    ensures UpdateRefusal(body).None? && old(NameFree(store.rows, id, body)) && BadImage(body)
            ==> resp == Forwarded(AdminService.InvalidImageUrl)
    ensures UpdateRefusal(body).None? && old(NameFree(store.rows, id, body)) && !BadImage(body)
            ==> (resp.Done? <==> id in old(store.rows)) && (!resp.Done? ==> resp == Forwarded(RecordNotFound))
    ensures resp.Done? ==> resp.status == 200 && id in old(store.rows)
                           && resp.data == Patched(old(store.rows)[id], PatchOf(body))
                           && store.rows == old(store.rows)[id := resp.data]
    ensures !resp.Done? ==> store.rows == old(store.rows)
  {
    var patch := BuildFoodPatch(body);
    if patch.Err? {
      return patch.error;
    }
    var r := AdminService.UpdateFood(store, id, patch.value, BadImage(body));
    if r.Ok? {
      resp := Done(200, r.value);
    } else if r.error == AdminService.FoodNameTaken {
      resp := Refused(409, r.error);
    } else {
      resp := Forwarded(r.error);
    }
  }

  /** The image an item's deletion removes from the image host: its URL
      when it has a non-empty one. */
  function ImageToDelete(item: Option<FoodItem>): (r: Option<string>)
    ensures r.Some? <==> item.Some? && item.value.imageUrl.Some? && item.value.imageUrl.value != []
    ensures r.Some? ==> r.value == item.value.imageUrl.value
  {
    if item.Some? && item.value.imageUrl.Some? && item.value.imageUrl.value != [] then item.value.imageUrl else None
  }

  /** `deleteFoodDatabaseItem`: removes the item's image first, only when
      it has one, then the item; a missing id is passed on. */
  method DeleteFood(store: FoodDatabaseStore, id: Id) returns (resp: Response<()>, deletedImage: Option<string>)
    requires store.Valid()
    modifies store
    ensures store.Valid()
    ensures deletedImage == ImageToDelete(old(store.FindById(id)))
    ensures resp.Done? <==> id in old(store.rows)
    ensures resp.Done? ==> resp.status == 200 && store.rows == old(store.rows) - {id}
    ensures !resp.Done? ==> resp == Forwarded(RecordNotFound) && store.rows == old(store.rows)
  {
    var item := store.FindById(id);
    deletedImage := ImageToDelete(item);
    var r := store.Delete(id);
    if r.Ok? {
      resp := Done(200, ());
    } else {
      resp := Forwarded(r.error);
    }
  }

  /** `uploadFoodDatabaseImage`: 404 for an unknown item; otherwise the old
      image is removed, and the uploaded URL (`upload`, the image host's
      answer) is stored; the host's no-file and parse errors become 400. */
  method UploadImage(store: FoodDatabaseStore, id: Id, upload: Result<string, string>)
    returns (resp: Response<Option<string>>, deletedImage: Option<string>)
    requires store.Valid()
    modifies store
    ensures store.Valid()
    ensures id !in old(store.rows) ==>
      resp == Refused(404, FoodItemNotFound) && deletedImage.None? && store.rows == old(store.rows)
    ensures id in old(store.rows) ==> deletedImage == ImageToDelete(Some(old(store.rows)[id]))
    ensures id in old(store.rows) && upload.Err? ==>
      store.rows == old(store.rows)
      && resp == if upload.error == NoImageFile || upload.error == FormParseFailed
                 then Refused(400, upload.error) else Forwarded(upload.error)
    ensures id in old(store.rows) && upload.Ok? ==>
      resp == Done(200, Some(upload.value))
      && store.rows == old(store.rows)[id := old(store.rows)[id].(imageUrl := Some(upload.value))]
  {
    var item := store.FindById(id);
    if item.None? {
      return Refused(404, FoodItemNotFound), None;
    }
    deletedImage := ImageToDelete(item);
    if upload.Err? {
      if upload.error == NoImageFile || upload.error == FormParseFailed {
        resp := Refused(400, upload.error);
      } else {
        resp := Forwarded(upload.error);
      }
      return;
    }
    var r := AdminService.UpdateFood(store, id, FoodPatch(None, None, None, Some(Some(upload.value))), false);
    if r.Ok? {
      resp := Done(200, r.value.imageUrl);
    } else {
      assert false;
    }
  }
}

=== FILE: admin_dashboard.dfy ===
/** The administrator's dashboard of the server-backed client: the
    category dialog and the food-database dialog, each used both to create
    and to edit, with the checks the page makes before it calls the server.
    Whether a server call succeeded is a parameter of the handler that makes
    it (`ok`); a failed call leaves the page's state as it was, because the
    handler's `catch` does nothing. */
module AdminDashboard {
  import opened Wrappers
  import Text
  import opened ClientData
  import opened InventoryPage

  /** A row of the categories table. */
  datatype CategoryRow = CategoryRow(id: string, name: string)

  /** The food dialog's form. */
  datatype FoodForm = FoodForm(name: string, category: string, expirationEstimate: int)

  /** The form as the create dialog opens and after each save. */
  const BlankFood := FoodForm("", "", 7)

  const NameAndCategoryRequired: string := "Name and category are required"
  const EstimateMustBePositive: string := "Expiration estimate must be greater than 0"

  /** The categories table, built from the category names: each name is
      its own id. */
  function CategoryRows(categories: seq<string>): (rows: seq<CategoryRow>)
    ensures |rows| == |categories|
    ensures forall i :: 0 <= i < |rows| ==> rows[i].id == categories[i] && rows[i].name == categories[i]
  {
    seq(|categories|, i requires 0 <= i < |categories| => CategoryRow(categories[i], categories[i]))
  }

  /** The checks of the food handlers, in their order: a name and a
      category that are not blank, then a positive estimate. */
  function FoodFormError(f: FoodForm): (e: Option<string>)
    ensures e.None? <==> !Text.AllSpace(f.name) && !Text.AllSpace(f.category) && f.expirationEstimate > 0
    ensures e == Some(NameAndCategoryRequired) <==> Text.AllSpace(f.name) || Text.AllSpace(f.category)
    ensures e == Some(EstimateMustBePositive) <==>
      !Text.AllSpace(f.name) && !Text.AllSpace(f.category) && f.expirationEstimate <= 0
  {
    Text.TrimEmptyIffBlank(f.name);
    Text.TrimEmptyIffBlank(f.category);
    if Text.Trim(f.name) == [] || Text.Trim(f.category) == [] then Some(NameAndCategoryRequired)
    else if f.expirationEstimate <= 0 then Some(EstimateMustBePositive)
    else None
  }

  /** The form filled from a database entry. */
  function FormOf(food: FoodItem): (f: FoodForm)
    ensures f.name == food.name && f.category == food.category && f.expirationEstimate == food.expirationEstimate
  {
    FoodForm(food.name, food.category, food.expirationEstimate)
  }

  /** The delete buttons: the id goes to the server only when the user
      confirms. */
  function DeleteRequest(id: string, confirmed: bool): (r: Option<string>)
    ensures r.Some? <==> confirmed
    ensures r.Some? ==> r.value == id
  {
    if confirmed then Some(id) else None
  }

  class AdminPanel {
    var categoryName: string
    var editingCategory: Option<CategoryRow>
    var categoryDialogOpen: bool
    var foodForm: FoodForm
    var editingFood: Option<FoodItem>
    var foodDialogOpen: bool

    constructor()
      ensures categoryName == [] && editingCategory.None? && !categoryDialogOpen
      ensures foodForm == BlankFood && editingFood.None? && !foodDialogOpen
    {
      categoryName, editingCategory, categoryDialogOpen := [], None, false;
      foodForm, editingFood, foodDialogOpen := BlankFood, None, false;
    }

    /** `openCreateCategory`. */
    method OpenCreateCategory()
      modifies this
      ensures categoryName == [] && editingCategory.None? && categoryDialogOpen
      ensures foodForm == old(foodForm) && editingFood == old(editingFood) && foodDialogOpen == old(foodDialogOpen)
    {
      editingCategory, categoryName, categoryDialogOpen := None, [], true;
    }

    /** `openEditCategory`: the dialog opens on the row's name. */
    method OpenEditCategory(row: CategoryRow)
      modifies this
      ensures categoryName == row.name && editingCategory == Some(row) && categoryDialogOpen
      ensures foodForm == old(foodForm) && editingFood == old(editingFood) && foodDialogOpen == old(foodDialogOpen)
    {
      editingCategory, categoryName, categoryDialogOpen := Some(row), row.name, true;
    }

    /** `handleCreateCategory`: a blank name sends nothing; any other is
      sent trimmed, and once the server accepts it the name is cleared and
      the dialog closed. */
    method CreateCategory(ok: bool) returns (sent: Option<string>)
      modifies this
      ensures sent.None? <==> Text.AllSpace(old(categoryName))
      ensures sent.Some? ==> sent.value == Text.Trim(old(categoryName)) && sent.value != []
      ensures sent.Some? && ok ==> categoryName == [] && !categoryDialogOpen
      ensures sent.None? || !ok ==> categoryName == old(categoryName) && categoryDialogOpen == old(categoryDialogOpen)
      ensures editingCategory == old(editingCategory)
      ensures foodForm == old(foodForm) && editingFood == old(editingFood) && foodDialogOpen == old(foodDialogOpen)
    {
      Text.TrimEmptyIffBlank(categoryName);
      var name := Text.Trim(categoryName);
      if name == [] {
        return None;
      }
      sent := Some(name);
      if ok {
        categoryName, categoryDialogOpen := [], false;
      }
    }

    /** `handleUpdateCategory`: without a row being edited, or with a
      blank name, nothing is sent; otherwise the row's id and the trimmed
      name, and once the server accepts them the dialog is reset and
      closed. */
    method UpdateCategory(ok: bool) returns (sent: Option<(string, string)>)
      modifies this
      ensures sent.None? <==> old(editingCategory).None? || Text.AllSpace(old(categoryName))
      ensures sent.Some? ==> sent.value == (old(editingCategory).value.id, Text.Trim(old(categoryName)))
      ensures sent.Some? && ok ==> categoryName == [] && editingCategory.None? && !categoryDialogOpen
      ensures sent.None? || !ok ==>
        categoryName == old(categoryName) && editingCategory == old(editingCategory)
        && categoryDialogOpen == old(categoryDialogOpen)
      ensures foodForm == old(foodForm) && editingFood == old(editingFood) && foodDialogOpen == old(foodDialogOpen)
    {
      Text.TrimEmptyIffBlank(categoryName);
      var name := Text.Trim(categoryName);
      if editingCategory.None? || name == [] {
        return None;
      }
      sent := Some((editingCategory.value.id, name));
      if ok {
        editingCategory, categoryName, categoryDialogOpen := None, [], false;
      }
    }

    /** `openCreateFood`. */
    method OpenCreateFood()
      modifies this
      ensures foodForm == BlankFood && editingFood.None? && foodDialogOpen
      ensures categoryName == old(categoryName) && editingCategory == old(editingCategory)
      ensures categoryDialogOpen == old(categoryDialogOpen)
    {
      editingFood, foodForm, foodDialogOpen := None, BlankFood, true;
    }

    /** `openEditFood`: the dialog opens on the entry's fields. */
    method OpenEditFood(food: FoodItem)
      modifies this
      ensures foodForm == FormOf(food) && editingFood == Some(food) && foodDialogOpen
      ensures categoryName == old(categoryName) && editingCategory == old(editingCategory)
      ensures categoryDialogOpen == old(categoryDialogOpen)
    {
      editingFood, foodForm, foodDialogOpen := Some(food), FormOf(food), true;
    }

    /** The estimate field: `parseInt(value) || 7`. */
    method TypeExpiration(parsed: Option<int>)
      modifies this
      ensures foodForm == old(foodForm).(expirationEstimate := ParsedOr(parsed, 7))
      ensures foodForm.expirationEstimate != 0
      ensures editingFood == old(editingFood) && foodDialogOpen == old(foodDialogOpen)
      ensures categoryName == old(categoryName) && editingCategory == old(editingCategory)
      ensures categoryDialogOpen == old(categoryDialogOpen)
    {
      foodForm := foodForm.(expirationEstimate := ParsedOr(parsed, 7));
    }

    /** `handleCreateFoodItem`: a form that fails the checks sends nothing;
      any other is sent as it is (not trimmed), and once the server accepts
      it the form is reset and the dialog closed. */
    method CreateFood(ok: bool) returns (sent: Option<FoodForm>)
      modifies this
      ensures sent.None? <==> FoodFormError(old(foodForm)).Some?
      ensures sent.Some? ==> sent.value == old(foodForm)
      ensures sent.Some? && ok ==> foodForm == BlankFood && !foodDialogOpen
      ensures sent.None? || !ok ==> foodForm == old(foodForm) && foodDialogOpen == old(foodDialogOpen)
      ensures editingFood == old(editingFood)
      ensures categoryName == old(categoryName) && editingCategory == old(editingCategory)
      ensures categoryDialogOpen == old(categoryDialogOpen)
    {
      var form := foodForm;
      if FoodFormError(form).Some? {
        sent := None;
      } else {
        sent := Some(form);
        if ok {
          foodForm, foodDialogOpen := BlankFood, false;
        }
      }
    }

    /** `handleUpdateFoodItem`: without an entry being edited, or with a
      form that fails the checks, nothing is sent; otherwise the entry's id
      and the form, and once the server accepts them the dialog is reset
      and closed. */
    method UpdateFood(ok: bool) returns (sent: Option<(string, FoodForm)>)
      modifies this
      ensures sent.None? <==> old(editingFood).None? || FoodFormError(old(foodForm)).Some?
      ensures sent.Some? ==> sent.value == (old(editingFood).value.id, old(foodForm))
      ensures sent.Some? && ok ==> foodForm == BlankFood && editingFood.None? && !foodDialogOpen
      ensures sent.None? || !ok ==>
        foodForm == old(foodForm) && editingFood == old(editingFood) && foodDialogOpen == old(foodDialogOpen)
      ensures categoryName == old(categoryName) && editingCategory == old(editingCategory)
      ensures categoryDialogOpen == old(categoryDialogOpen)
    {
      var form, editing := foodForm, editingFood;
      if editing.None? || FoodFormError(form).Some? {
        sent := None;
      } else {
        sent := Some((editing.value.id, form));
        if ok {
          editingFood, foodForm, foodDialogOpen := None, BlankFood, false;
        }
      }
    }
  }

  /** Once a creation has gone through, pressing create again sends
      nothing: the form was reset to a blank name. */
  method CreateFoodTwice(panel: AdminPanel) returns (first: Option<FoodForm>, second: Option<FoodForm>)
    requires FoodFormError(panel.foodForm).None?
    modifies panel
    ensures first == Some(old(panel.foodForm)) && second.None?
  {
    first := panel.CreateFood(true);
    second := panel.CreateFood(true);
  }

  /** Opening a valid entry for editing and saving it untouched sends the
      entry's own id and fields back to the server and closes the dialog. */
  method EditFoodUntouched(panel: AdminPanel, food: FoodItem) returns (sent: Option<(string, FoodForm)>)
    requires FoodFormError(FormOf(food)).None?
    modifies panel
    ensures sent == Some((food.id, FoodForm(food.name, food.category, food.expirationEstimate)))
    ensures panel.editingFood.None? && !panel.foodDialogOpen
  {
    panel.OpenEditFood(food);
    sent := panel.UpdateFood(true);
  }

  /** Editing a category row and saving it untouched sends the row's id
      with its name trimmed; a row whose name is blank sends nothing. */
  method EditCategoryUntouched(panel: AdminPanel, row: CategoryRow) returns (sent: Option<(string, string)>)
    modifies panel
    ensures sent.None? <==> Text.AllSpace(row.name)
    ensures sent.Some? ==> sent.value == (row.id, Text.Trim(row.name)) && panel.editingCategory.None?
  {
    panel.OpenEditCategory(row);
    sent := panel.UpdateCategory(true);
  }
}

=== FILE: admin_middleware.dfy ===
/** `requireAdmin`: the check in front of every admin route. It reads the
    caller's current role from the user table and lets the request through
    only for an administrator. */
module AdminMiddleware {
  import opened Wrappers

  /** The user the authentication step attached to the request. */
  datatype AuthUser = AuthUser(id: string, email: string, role: Option<string>)

  class AuthRequest {
    var user: Option<AuthUser>

    constructor(user: Option<AuthUser>)
      ensures this.user == user
    {
      this.user := user;
    }
  }

  /** What the middleware does: call `next`, or answer with a status and
      an error. */
  datatype Decision = Next | Deny(status: nat, error: string)

  const AdminRole: string := "admin"
  const AuthenticationRequired: string := "Authentication required"
  const UserNotFound: string := "User not found"
  const AdminAccessRequired: string := "Admin access required"
  const AdminCheckFailed: string := "Error checking admin status"

  /** `requireAdmin`. `lookup` is the user table's answer for the caller's
      id: the stored role of the user, `None` for no such user, or an error
      when the query fails. */
  method RequireAdmin(req: AuthRequest, lookup: string -> Result<Option<string>, string>) returns (d: Decision)
    modifies req
    ensures old(req.user).None? || old(req.user).value.id == [] ==>
      d == Deny(401, AuthenticationRequired) && req.user == old(req.user)
    ensures old(req.user).Some? && old(req.user).value.id != [] ==>
      match lookup(old(req.user).value.id)
      case Err(_) => d == Deny(500, AdminCheckFailed) && req.user == old(req.user)
      case Ok(None) => d == Deny(401, UserNotFound) && req.user == old(req.user)
      case Ok(Some(role)) =>
        if role == AdminRole then d == Next && req.user == Some(old(req.user).value.(role := Some(role)))
        else d == Deny(403, AdminAccessRequired) && req.user == old(req.user)
    ensures d == Next <==> old(req.user).Some? && old(req.user).value.id != []
                           && lookup(old(req.user).value.id) == Ok(Some(AdminRole))
  {
    if req.user.None? || req.user.value.id == [] {
      return Deny(401, AuthenticationRequired);
    }
    var found := lookup(req.user.value.id);
    if found.Err? {
      return Deny(500, AdminCheckFailed);
    }
    if found.value.None? {
      return Deny(401, UserNotFound);
    }
    var role := found.value.value;
    if role != AdminRole {
      return Deny(403, AdminAccessRequired);
    }
    req.user := Some(req.user.value.(role := Some(role)));
    d := Next;
  }
}

=== FILE: admin_service.dfy ===
/** The admin service: name-uniqueness checks in front of the category and
    food-database tables. */
module AdminService {
  import opened Wrappers
  import Text
  import opened Keyed
  import opened CategoryService
  import opened FoodDatabaseService

  const CategoryExists: string := "Category already exists"
  const CategoryNameTaken: string := "Category with this name already exists"
  const FoodNameTaken: string := "Food item with this name already exists"

  /** `createCategory`: refuses a name whose normal form is already stored,
      and otherwise creates it. */
  method CreateCategory(store: CategoryStore, name: string) returns (r: Result<Category, string>)
    requires store.Valid()
    modifies store
    ensures store.Valid()
    ensures r.Err? <==> old(store.HasName(Normalize(name)))
    ensures r.Err? ==> r.error == CategoryExists && store.rows == old(store.rows)
    ensures r.Ok? ==> r.value == Category(old(store.nextId), Normalize(name))
                      && store.rows == old(store.rows)[r.value.id := r.value]
  {
    var existing := store.FindByName(name);
    if existing.Some? {
      return Err(CategoryExists);
    }
    r := store.Create(name);
  }

  /** `updateCategory`: refuses a name another category holds; keeping a
      category's own name is allowed. */
  method UpdateCategory(store: CategoryStore, id: Id, name: string) returns (r: Result<Category, string>)
    requires store.Valid()
    modifies store
    ensures store.Valid()
    ensures r == Err(CategoryNameTaken)
            <==> old(exists k :: k in store.rows && k != id && store.rows[k].name == Normalize(name))
    ensures r.Err? ==> store.rows == old(store.rows)
    ensures r.Err? && r.error != CategoryNameTaken ==> r.error == RecordNotFound && id !in old(store.rows)
    ensures r.Ok? ==> id in old(store.rows) && r.value == Category(id, Normalize(name))
                      && store.rows == old(store.rows)[id := r.value]
  {
    var existing := store.FindByName(name);
    if existing.Some? && existing.value.id != id {
      return Err(CategoryNameTaken);
    }
    r := store.Update(id, name);
  }

  /** The store's refusal of an `imageUrl` that is not a string. */
  const InvalidImageUrl: string := "Invalid value provided for argument `imageUrl`: expected String"

  /** `createFoodDatabaseItem`: refuses a name some item already has,
      ignoring case and surrounding blanks; only then does the store see
      the data, and it refuses an image that is not a string (`badImage`). */
  method CreateFood(store: FoodDatabaseStore, name: string, category: string, expirationEstimate: real,
                    imageUrl: Option<string>, badImage: bool)
    returns (r: Result<FoodItem, string>)
    requires store.Valid()
    modifies store
    ensures store.Valid()
    ensures old(store.HasNameLike(name)) ==> r == Err(FoodNameTaken)
    ensures !old(store.HasNameLike(name)) && badImage ==> r == Err(InvalidImageUrl)
    ensures r.Ok? <==> !old(store.HasNameLike(name)) && !badImage
    ensures r.Err? ==> store.rows == old(store.rows)
    ensures r.Ok? ==> r.value == FoodItem(old(store.nextId), Text.Trim(name), Normalize(category),
                                          expirationEstimate, imageUrl)
                      && store.rows == old(store.rows)[r.value.id := r.value]
  {
    var existing := store.FindByName(name);
    if existing.Some? {
      return Err(FoodNameTaken);
    }
    if badImage {
      return Err(InvalidImageUrl);
    }
    var item := store.Create(name, category, expirationEstimate, imageUrl);
    r := Ok(item);
  }

  /** Another item than `id` has `name`, ignoring case and blanks. */
  ghost predicate NameTakenByOther(rows: map<Id, FoodItem>, id: Id, name: string) {
    exists k :: k in rows && k != id && Text.Lower(rows[k].name) == Text.Lower(Text.Trim(name))
  }

  /** Item `id` itself has `name`, ignoring case and blanks. */
  ghost predicate OwnName(rows: map<Id, FoodItem>, id: Id, name: string) {
    id in rows && Text.Lower(rows[id].name) == Text.Lower(Text.Trim(name))
  }

  /** The name check of an update: a non-empty new name is looked up, and
      the first item found with it is refused unless it is `id`. When both
      `id` and another item have the name, the store may find either. */
  ghost predicate SurelyTaken(rows: map<Id, FoodItem>, id: Id, patch: FoodPatch) {
    patch.name.Some? && patch.name.value != []
    && NameTakenByOther(rows, id, patch.name.value) && !OwnName(rows, id, patch.name.value)
  }

  /** `updateFoodDatabaseItem`: the name check first; then the store, which
      refuses an image that is not a string (`badImage`) before it looks
      the id up. */
  method UpdateFood(store: FoodDatabaseStore, id: Id, patch: FoodPatch, badImage: bool)
    returns (r: Result<FoodItem, string>)
    requires store.Valid()
    modifies store
    ensures store.Valid()
    ensures old(SurelyTaken(store.rows, id, patch)) ==> r == Err(FoodNameTaken)
    ensures r == Err(FoodNameTaken) ==> patch.name.Some? && patch.name.value != []
                                        && old(NameTakenByOther(store.rows, id, patch.name.value))
    ensures (patch.name.None? || patch.name.value == [] || !old(NameTakenByOther(store.rows, id, patch.name.value)))
            ==> r != Err(FoodNameTaken)
    ensures r != Err(FoodNameTaken) && badImage ==> r == Err(InvalidImageUrl)
    ensures !badImage ==> r != Err(InvalidImageUrl)
    ensures r != Err(FoodNameTaken) && !badImage ==> (r.Ok? <==> id in old(store.rows))
    ensures r.Err? ==> store.rows == old(store.rows)
    ensures r.Err? && r.error != FoodNameTaken && r.error != InvalidImageUrl
            ==> r.error == RecordNotFound && id !in old(store.rows)
    ensures r.Ok? ==> id in old(store.rows) && !badImage && r.value == Patched(old(store.rows)[id], patch)
                      && store.rows == old(store.rows)[id := r.value]
  {
    if patch.name.Some? && patch.name.value != [] {
      var existing := store.FindByName(patch.name.value);
      if existing.Some? && existing.value.id != id {
        return Err(FoodNameTaken);
      }
    }
    if badImage {
      return Err(InvalidImageUrl);
    }
    r := store.Update(id, patch);
  }
}

=== FILE: api_app_context.dfy ===
/** The state provider of the server-backed client: each operation calls the
    server first and changes the state only when the call succeeds. A
    server answer is a parameter: `Ok` with the response data, or `Err`
    with the message shown in a toast. */
module ApiAppContext {
  import opened Wrappers
  import Lists
  import opened ClientData

  const DefaultCategories: seq<string> := ["dairy", "grain", "fruit", "vegetable", "protein", "oil"]

  /** A user as the server returns it. */
  datatype ServerUser = ServerUser(id: string, name: string, email: string, householdSize: int,
                                   dietaryPreferences: seq<string>, district: Option<string>,
                                   division: Option<string>, onboardingCompleted: Option<bool>)

  /** `value || ''`: a missing or empty value becomes the empty string. */
  function OrEmpty(v: Option<string>): (r: string)
    ensures v.Some? ==> r == v.value
    ensures v.None? ==> r == ""
  {
    v.GetOr("")
  }

  /** The user `login` and `register` build from the server's answer: the
      server's fields, the location from its district and division. */
  function FromServer(s: ServerUser): (u: User)
    ensures u.id == s.id && u.email == s.email && u.name == s.name
    ensures u.householdSize == s.householdSize && u.dietaryPreferences == s.dietaryPreferences
    ensures u.onboardingCompleted == s.onboardingCompleted
    ensures u.location == Location(OrEmpty(s.district), OrEmpty(s.division))
    ensures u.role.None? && u.imageUrl.None? && u.budgetPreference.None? && u.monthlyBudget.None?
  {
    User(s.id, s.name, s.email, None, s.householdSize, s.dietaryPreferences, None, None,
         Location(OrEmpty(s.district), OrEmpty(s.division)), None, s.onboardingCompleted)
  }

  /** `{ ...current, ...server, location }` after a profile update: the
      server's fields override, the client-only fields stay. */
  function Refreshed(current: User, s: ServerUser): (u: User)
    ensures u.id == s.id && u.email == s.email && u.name == s.name
    ensures u.householdSize == s.householdSize && u.dietaryPreferences == s.dietaryPreferences
    ensures u.onboardingCompleted == s.onboardingCompleted
    ensures u.role == current.role && u.imageUrl == current.imageUrl
    ensures u.budgetPreference == current.budgetPreference && u.monthlyBudget == current.monthlyBudget
    ensures u.location == Location(OrEmpty(s.district), OrEmpty(s.division))
  {
    FromServer(s).(role := current.role, budgetPreference := current.budgetPreference,
                   monthlyBudget := current.monthlyBudget, imageUrl := current.imageUrl)
  }

  function ItemIs(item: InventoryItem): InventoryItem -> InventoryItem { _ => item }

  lemma DefaultCategoriesDistinct()
    ensures Lists.NoDup(DefaultCategories)
  {
  }

  class ApiState {
    var currentUser: Option<User>
    var foodLogs: seq<FoodLog>
    var inventory: seq<InventoryItem>
    var categories: seq<string>

    /** The category list never holds a name twice. */
    ghost predicate Valid()
      reads this
    {
      Lists.NoDup(categories)
    }

    constructor()
      ensures Valid()
      ensures currentUser == None && foodLogs == [] && inventory == [] && categories == DefaultCategories
    {
      currentUser, foodLogs, inventory := None, [], [];
      categories := DefaultCategories;
    }

    /** `fetchInventory` and `fetchFoodLogs`: replace a list with the
        server's, or keep it when the call fails. */
    method Fetch(items: Result<seq<InventoryItem>, string>, logs: Result<seq<FoodLog>, string>)
      modifies this
      ensures inventory == (if items.Ok? then items.value else old(inventory))
      ensures foodLogs == (if logs.Ok? then logs.value else old(foodLogs))
      ensures currentUser == old(currentUser) && categories == old(categories)
    {
      if items.Ok? {
        inventory := items.value;
      }
      if logs.Ok? {
        foodLogs := logs.value;
      }
    }

    /** `login`: on the server's success the returned user becomes current
        and both lists are fetched; on failure nothing changes. */
    method Login(answer: Result<ServerUser, string>, items: Result<seq<InventoryItem>, string>,
                 logs: Result<seq<FoodLog>, string>) returns (ok: bool)
      modifies this
      ensures ok <==> answer.Ok?
      ensures !ok ==> currentUser == old(currentUser) && inventory == old(inventory) && foodLogs == old(foodLogs)
      ensures ok ==> currentUser == Some(FromServer(answer.value))
                     && inventory == (if items.Ok? then items.value else old(inventory))
                     && foodLogs == (if logs.Ok? then logs.value else old(foodLogs))
      ensures categories == old(categories)
    {
      if answer.Err? {
        return false;
      }
      currentUser := Some(FromServer(answer.value));
      Fetch(items, logs);
      return true;
    }

    /** `register`: on the server's success the returned user becomes
        current; no list is fetched. */
    method Register(answer: Result<ServerUser, string>) returns (ok: bool)
      modifies this
      ensures ok <==> answer.Ok?
      ensures currentUser == (if ok then Some(FromServer(answer.value)) else old(currentUser))
      ensures inventory == old(inventory) && foodLogs == old(foodLogs) && categories == old(categories)
    {
      if answer.Err? {
        return false;
      }
      currentUser := Some(FromServer(answer.value));
      return true;
    }

    /** `logout`: the current user, the inventory and the food logs are
        cleared; the categories stay. */
    method Logout()
      modifies this
      ensures currentUser == None && inventory == [] && foodLogs == []
      ensures categories == old(categories)
    {
      currentUser, inventory, foodLogs := None, [], [];
    }

    /** `updateProfile`: nothing without a current user or when the server
        refuses; otherwise the server's fields are spread into the current
        user. */
    method UpdateProfile(answer: Result<ServerUser, string>)
      modifies this
      ensures old(currentUser).None? || answer.Err? ==> currentUser == old(currentUser)
      ensures old(currentUser).Some? && answer.Ok? ==>
        currentUser == Some(Refreshed(old(currentUser).value, answer.value))
      ensures inventory == old(inventory) && foodLogs == old(foodLogs) && categories == old(categories)
    {
      if currentUser.None? || answer.Err? {
        return;
      }
      currentUser := Some(Refreshed(currentUser.value, answer.value));
    }

    /** `addFoodLog`: the server's log is put in front. */
    method AddFoodLog(answer: Result<FoodLog, string>)
      modifies this
      ensures foodLogs == (if answer.Ok? then [answer.value] + old(foodLogs) else old(foodLogs))
      ensures currentUser == old(currentUser) && inventory == old(inventory) && categories == old(categories)
    {
      if answer.Ok? {
        foodLogs := [answer.value] + foodLogs;
      }
    }

    /** `deleteFoodLog`: after the server's success every log with the id
        is removed. */
    method DeleteFoodLog(id: string, answer: Result<(), string>)
      modifies this
      ensures foodLogs == (if answer.Ok? then RemoveKey(old(foodLogs), LogId, id) else old(foodLogs))
      ensures currentUser == old(currentUser) && inventory == old(inventory) && categories == old(categories)
    {
      if answer.Ok? {
        foodLogs := RemoveKey(foodLogs, LogId, id);
      }
    }

    /** `addInventoryItem`: the server's item is put in front. */
    method AddInventoryItem(answer: Result<InventoryItem, string>)
      modifies this
      ensures inventory == (if answer.Ok? then [answer.value] + old(inventory) else old(inventory))
      ensures currentUser == old(currentUser) && foodLogs == old(foodLogs) && categories == old(categories)
    {
      if answer.Ok? {
        inventory := [answer.value] + inventory;
      }
    }

    /** `updateInventoryItem`: every item with the id is replaced by the
        server's version. */
    method UpdateInventoryItem(id: string, answer: Result<InventoryItem, string>)
      modifies this
      ensures inventory == (if answer.Ok? then ReplaceKey(old(inventory), ItemId, id, ItemIs(answer.value))
                            else old(inventory))
      ensures currentUser == old(currentUser) && foodLogs == old(foodLogs) && categories == old(categories)
    {
      if answer.Ok? {
        inventory := ReplaceKey(inventory, ItemId, id, ItemIs(answer.value));
      }
    }

    /** `deleteInventoryItem`: after the server's success every item with
        the id is removed. */
    method DeleteInventoryItem(id: string, answer: Result<(), string>)
      modifies this
      ensures inventory == (if answer.Ok? then RemoveKey(old(inventory), ItemId, id) else old(inventory))
      ensures currentUser == old(currentUser) && foodLogs == old(foodLogs) && categories == old(categories)
    {
      if answer.Ok? {
        inventory := RemoveKey(inventory, ItemId, id);
      }
    }

    /** `addCategory`: appended only when absent (no server call). */
    method AddCategory(category: string)
      requires Valid()
      modifies this
      ensures Valid()
      ensures categories == AddAbsent(old(categories), category)
      ensures currentUser == old(currentUser) && foodLogs == old(foodLogs) && inventory == old(inventory)
    {
      CategoriesStayDistinct(categories, category);
      categories := AddAbsent(categories, category);
    }

    /** `deleteCategory`: every occurrence is removed (no server call). */
    method DeleteCategory(category: string)
      requires Valid()
      modifies this
      ensures Valid()
      ensures categories == RemoveAll(old(categories), category)
      ensures currentUser == old(currentUser) && foodLogs == old(foodLogs) && inventory == old(inventory)
    {
      CategoriesStayDistinct(categories, category);
      categories := RemoveAll(categories, category);
    }
  }

  /** Replacing an item by the server's version of it (which has the same
      id) and then deleting that id leaves what deleting alone leaves, and
      replacing twice is replacing once. */
  lemma ReplaceThenDelete(inventory: seq<InventoryItem>, id: string, item: InventoryItem)
    requires item.id == id
    ensures RemoveKey(ReplaceKey(inventory, ItemId, id, ItemIs(item)), ItemId, id) == RemoveKey(inventory, ItemId, id)
    ensures ReplaceKey(ReplaceKey(inventory, ItemId, id, ItemIs(item)), ItemId, id, ItemIs(item))
            == ReplaceKey(inventory, ItemId, id, ItemIs(item))
  {
    RemoveKeyAgree(ReplaceKey(inventory, ItemId, id, ItemIs(item)), inventory, ItemId, id);
  }

  /** Adding an item and deleting it by its id leaves what deleting from
      the old list leaves: the old list itself when no entry had the id. */
  lemma AddThenDelete(inventory: seq<InventoryItem>, item: InventoryItem)
    ensures RemoveKey([item] + inventory, ItemId, item.id) == RemoveKey(inventory, ItemId, item.id)
    ensures (forall i :: 0 <= i < |inventory| ==> inventory[i].id != item.id)
            ==> RemoveKey([item] + inventory, ItemId, item.id) == inventory
  {
    Lists.FilterAppend([item], inventory, KeyIsNot(ItemId, item.id));
    assert Lists.Filter([item], KeyIsNot(ItemId, item.id)) == [];
    RemoveKeyOrder(inventory, ItemId, item.id);
  }
}

=== FILE: auth_service.dfy ===
/** The user table and the authentication service: registration with a
    unique e-mail, login that fails alike for an unknown e-mail and a wrong
    password, and profile lookup and update. Hashing and token signing are
    given as functions. */
module AuthService {
  import opened Wrappers
  import opened Keyed

  datatype User = User(id: Id, email: string, passwordHash: string, name: string, householdSize: int,
                       dietaryPreferences: seq<string>, district: Option<string>, division: Option<string>,
                       onboardingCompleted: bool, createdAt: int)

  /** A user as the service returns it: every field but the password
      hash. */
  datatype PublicUser = PublicUser(id: Id, email: string, name: string, householdSize: int,
                                   dietaryPreferences: seq<string>, district: Option<string>,
                                   division: Option<string>, onboardingCompleted: bool, createdAt: int)

  /** A user and a signed token for it. */
  datatype Session = Session(user: PublicUser, token: string)

  /** The fields of a registration as the service receives them. */
  datatype RegisterData = RegisterData(email: string, password: string, name: string, householdSize: Option<int>,
                                       dietaryPreferences: Option<seq<string>>, district: Option<string>,
                                       division: Option<string>)

  /** The fields of a profile update. */
  datatype ProfilePatch = ProfilePatch(name: Option<string>, householdSize: Option<int>,
                                       dietaryPreferences: Option<seq<string>>, district: Option<string>,
                                       division: Option<string>, onboardingCompleted: Option<bool>)

  const EmailTaken: string := "User already exists with this email"
  const InvalidCredentials: string := "Invalid email or password"
  const UserNotFound: string := "User not found"

  /** The user without the password hash. */
  function Public(u: User): (p: PublicUser)
    ensures p.id == u.id && p.email == u.email && p.name == u.name && p.householdSize == u.householdSize
    ensures p.dietaryPreferences == u.dietaryPreferences && p.district == u.district && p.division == u.division
    ensures p.onboardingCompleted == u.onboardingCompleted && p.createdAt == u.createdAt
  {
    PublicUser(u.id, u.email, u.name, u.householdSize, u.dietaryPreferences, u.district, u.division,
               u.onboardingCompleted, u.createdAt)
  }

  /** Two users that differ only in their password hash look the same from
      outside: the hash never reaches a caller. */
  lemma PublicHidesHash(u: User, hash: string)
    ensures Public(u.(passwordHash := hash)) == Public(u)
  {
  }

  /** `householdSize || 1`: zero or nothing becomes one. */
  function HouseholdOrDefault(size: Option<int>): (n: int)
    ensures size.None? || size.value == 0 ==> n == 1
    ensures size.Some? && size.value != 0 ==> n == size.value
  {
    if size.Some? && size.value != 0 then size.value else 1
  }

  /** The user after a profile update: the supplied fields replaced, the
      id, e-mail, password hash and creation time kept. */
  function Patched(u: User, p: ProfilePatch): (v: User)
    ensures v.id == u.id && v.email == u.email && v.passwordHash == u.passwordHash && v.createdAt == u.createdAt
    ensures p.name.Some? ==> v.name == p.name.value
    ensures p.householdSize.Some? ==> v.householdSize == p.householdSize.value
    ensures p.dietaryPreferences.Some? ==> v.dietaryPreferences == p.dietaryPreferences.value
    ensures p.district.Some? ==> v.district == p.district
    ensures p.division.Some? ==> v.division == p.division
    ensures p.onboardingCompleted.Some? ==> v.onboardingCompleted == p.onboardingCompleted.value
    ensures p.name.None? ==> v.name == u.name
    ensures p.householdSize.None? ==> v.householdSize == u.householdSize
    ensures p.dietaryPreferences.None? ==> v.dietaryPreferences == u.dietaryPreferences
    ensures p.district.None? ==> v.district == u.district
    ensures p.division.None? ==> v.division == u.division
    ensures p.onboardingCompleted.None? ==> v.onboardingCompleted == u.onboardingCompleted
    ensures p == ProfilePatch(None, None, None, None, None, None) ==> v == u
  {
    u.(name := p.name.GetOr(u.name), householdSize := p.householdSize.GetOr(u.householdSize),
       dietaryPreferences := p.dietaryPreferences.GetOr(u.dietaryPreferences),
       district := if p.district.Some? then p.district else u.district,
       division := if p.division.Some? then p.division else u.division,
       onboardingCompleted := p.onboardingCompleted.GetOr(u.onboardingCompleted))
  }

  class UserStore {
    var rows: map<Id, User>
    var nextId: Id

    /** Each row under its own id, and e-mails unique. */
    ghost predicate Valid()
      reads this
    {
      (forall k :: k in rows ==> rows[k].id == k && k < nextId)
      && (forall a, b :: a in rows && b in rows && a != b ==> rows[a].email != rows[b].email)
    }

    constructor()
      ensures Valid() && rows == map[]
    {
      rows, nextId := map[], 0;
    }

    ghost predicate HasEmail(email: string)
      reads this
    {
      exists k :: k in rows && rows[k].email == email
    }

    /** `findUnique({ where: { email } })`. */
    method FindByEmail(email: string) returns (r: Option<User>)
      requires Valid()
      ensures r.Some? <==> HasEmail(email)
      ensures r.Some? ==> r.value.id in rows && rows[r.value.id] == r.value && r.value.email == email
    {
      if k :| k in rows && rows[k].email == email {
        r := Some(rows[k]);
      } else {
        r := None;
      }
    }

    /** `register`: refuses a taken e-mail and creates nothing; otherwise
        stores the user with the hash of the password, household size 1
        and no dietary preferences unless given, and returns it without the
        hash, with a token signed for its id and e-mail. */
    method Register(data: RegisterData, hash: string -> string, sign: (Id, string) -> string, now: int)
      returns (r: Result<Session, string>)
      requires Valid()
      modifies this
      ensures Valid()
      ensures r.Err? <==> old(HasEmail(data.email))
      ensures r.Err? ==> r.error == EmailTaken && rows == old(rows)
      ensures r.Ok? ==>
        var u := User(old(nextId), data.email, hash(data.password), data.name, HouseholdOrDefault(data.householdSize),
                      data.dietaryPreferences.GetOr([]), data.district, data.division, false, now);
        rows == old(rows)[u.id := u] && r.value == Session(Public(u), sign(u.id, u.email))
    {
      var existing := FindByEmail(data.email);
      if existing.Some? {
        return Err(EmailTaken);
      }
      var u := User(nextId, data.email, hash(data.password), data.name, HouseholdOrDefault(data.householdSize),
                    data.dietaryPreferences.GetOr([]), data.district, data.division, false, now);
      rows := rows[nextId := u];
      nextId := nextId + 1;
      r := Ok(Session(Public(u), sign(u.id, u.email)));
    }

    /** `login`: succeeds exactly when a user has the e-mail and its stored
        hash verifies the password; both failures give the same message. */
    method Login(email: string, password: string, verify: (string, string) -> bool, sign: (Id, string) -> string)
      returns (r: Result<Session, string>)
      requires Valid()
      ensures r.Ok? <==> exists k :: k in rows && rows[k].email == email && verify(rows[k].passwordHash, password)
      ensures r.Err? ==> r.error == InvalidCredentials
      ensures r.Ok? ==> exists k :: k in rows && rows[k].email == email && r.value == Session(Public(rows[k]), sign(k, email))
    {
      var user := FindByEmail(email);
      if user.None? {
        return Err(InvalidCredentials);
      }
      if !verify(user.value.passwordHash, password) {
        return Err(InvalidCredentials);
      }
      r := Ok(Session(Public(user.value), sign(user.value.id, user.value.email)));
    }

    /** `getProfile`. */
    function GetProfile(id: Id): (r: Result<PublicUser, string>)
      reads this
      ensures r.Ok? <==> id in rows
      ensures r.Ok? ==> r.value == Public(rows[id])
      ensures r.Err? ==> r.error == UserNotFound
    {
      if id in rows then Ok(Public(rows[id])) else Err(UserNotFound)
    }

    /** `updateProfile`: only the supplied fields of that user change. */
    method UpdateProfile(id: Id, patch: ProfilePatch) returns (r: Result<PublicUser, string>)
      requires Valid()
      modifies this
      ensures Valid() && nextId == old(nextId)
      ensures r.Ok? <==> id in old(rows)
      ensures r.Err? ==> r.error == RecordNotFound && rows == old(rows)
      ensures r.Ok? ==> rows == old(rows)[id := Patched(old(rows)[id], patch)]
                        && r.value == Public(rows[id])
    {
      if id !in rows {
        return Err(RecordNotFound);
      }
      var u := Patched(rows[id], patch);
      rows := rows[id := u];
      r := Ok(Public(u));
    }
  }
}

=== FILE: auth_validator.dfy ===
/** The zod schemas for registration, login and profile updates. `isEmail`
    and `isUrl` stand for zod's built-in e-mail and URL formats. */
module AuthValidator {
  import opened Wrappers
  import opened Json

  const BudgetPreferences: set<string> := {"low", "medium", "high", "premium"}

  const Genders: set<string> := {"male", "female", "other", "prefer-not-to-say"}

  /** `registerSchema`. */
  predicate RegisterOk(o: Object, isEmail: string -> bool) {
    Required(o, "email", v => StrFormat(v, isEmail))
    && Required(o, "password", v => StrMin(v, 6))
    && Required(o, "name", v => StrLen(v, 1, 100))
    && Optional(o, "householdSize", v => IntIn(v, 1, 20))
    && Optional(o, "dietaryPreferences", StrArray)
    && Optional(o, "district", IsStr)
    && Optional(o, "division", IsStr)
  }

  /** A registration after `registerSchema.parse`. */
  datatype Registration = Registration(email: string, password: string, name: string,
                                       householdSize: int, dietaryPreferences: seq<string>,
                                       district: Option<string>, division: Option<string>)

  /** `registerSchema.parse`: succeeds exactly on valid bodies; the password
      has at least 6 characters, the name 1 to 100, the household size is an
      integer from 1 to 20 that defaults to 1, and the dietary preferences
      default to the empty list. */
  function ParseRegister(o: Object, isEmail: string -> bool): (r: Option<Registration>)
    ensures r.Some? <==> RegisterOk(o, isEmail)
    ensures r.Some? ==>
      isEmail(r.value.email) && |r.value.password| >= 6 && 1 <= |r.value.name| <= 100
      && 1 <= r.value.householdSize <= 20
      && ("householdSize" !in o ==> r.value.householdSize == 1)
      && ("dietaryPreferences" !in o ==> r.value.dietaryPreferences == [])
    ensures r.Some? ==>
      o["email"] == Str(r.value.email) && o["password"] == Str(r.value.password) && o["name"] == Str(r.value.name)
      && ("householdSize" in o ==> o["householdSize"] == Num(r.value.householdSize as real))
      && StrField(o, "district", r.value.district) && StrField(o, "division", r.value.division)
    ensures r.Some? && "dietaryPreferences" in o ==>
      |r.value.dietaryPreferences| == |o["dietaryPreferences"].items|
      && forall i :: 0 <= i < |r.value.dietaryPreferences| ==>
           o["dietaryPreferences"].items[i] == Str(r.value.dietaryPreferences[i])
  {
    if !RegisterOk(o, isEmail) then None
    else
      Some(Registration(
        o["email"].s, o["password"].s, o["name"].s,
        if "householdSize" in o then o["householdSize"].n.Floor else 1,
        if "dietaryPreferences" in o then Strings(o["dietaryPreferences"]) else [],
        OptStr(o, "district"), OptStr(o, "division")))
  }

  /** `loginSchema`: an e-mail and a non-empty password. */
  predicate LoginOk(o: Object, isEmail: string -> bool) {
    Required(o, "email", v => StrFormat(v, isEmail))
    && Required(o, "password", v => StrMin(v, 1))
  }

  /** An entry of `familyMembers`. */
  predicate FamilyMemberOk(v: Value, isUrl: string -> bool) {
    v.Obj?
    && Optional(v.fields, "id", IsStr)
    && Required(v.fields, "name", w => StrMin(w, 1))
    && Optional(v.fields, "age", w => IntIn(w, 0, 120))
    && Optional(v.fields, "gender", w => OneOf(w, Genders))
    && Optional(v.fields, "healthConditions", StrArray)
    && Optional(v.fields, "imageUrl", w => Nullable(w, x => StrFormat(x, isUrl)))
  }

  predicate FamilyMembersOk(v: Value, isUrl: string -> bool) {
    v.Arr? && forall i :: 0 <= i < |v.items| ==> FamilyMemberOk(v.items[i], isUrl)
  }

  /** `updateProfileSchema`: every field optional. */
  predicate UpdateProfileOk(o: Object, isUrl: string -> bool) {
    Optional(o, "name", v => StrLen(v, 1, 100))
    && Optional(o, "householdSize", v => IntIn(v, 1, 20))
    && Optional(o, "dietaryPreferences", StrArray)
    && Optional(o, "budgetPreference", v => OneOf(v, BudgetPreferences))
    && Optional(o, "monthlyBudget", NonNegative)
    && Optional(o, "district", IsStr)
    && Optional(o, "division", IsStr)
    && Optional(o, "imageUrl", v => Nullable(v, x => StrFormat(x, isUrl)))
    && Optional(o, "onboardingCompleted", IsBool)
    && Optional(o, "familyMembers", v => FamilyMembersOk(v, isUrl))
  }

  /** The name and household-size rules are the same on registration and on
      profile update, and an update sending no field is valid. */
  lemma ProfileRulesMatchRegister(o: Object, isEmail: string -> bool, isUrl: string -> bool)
    requires RegisterOk(o, isEmail)
    ensures UpdateProfileOk(map k | k in o && k in {"name", "householdSize", "dietaryPreferences",
                                                    "district", "division"} :: o[k], isUrl)
    ensures UpdateProfileOk(map[], isUrl)
  {
  }
}

=== FILE: category_service.dfy ===
/** The category table and its service: names are stored lower-cased and
    trimmed, are unique in the table, and are listed in name order. */
module CategoryService {
  import opened Wrappers
  import Text
  import Lists
  import opened Keyed

  datatype Category = Category(id: Id, name: string)

  /** The store's error when a write breaks the unique name. */
  const UniqueViolation: string := "Unique constraint failed on the fields: (`name`)"


  /** `name.toLowerCase().trim()`. */
  function Normalize(name: string): string {
    Text.Trim(Text.Lower(name))
  }

  /** Lower-casing and trimming commute, so normalising is the same as
      trimming first. */
  lemma NormalizeTrimFirst(name: string)
    ensures Normalize(name) == Text.Lower(Text.Trim(name))
  {
    Text.LowerTrimCommute(name);
  }

  /** A normalised name holds no upper-case ASCII letter and no white space
      at either end. */
  lemma NormalizeShape(name: string)
    ensures var n := Normalize(name);
      (n == [] || (!Text.IsSpace(n[0]) && !Text.IsSpace(n[|n| - 1])))
      && forall i :: 0 <= i < |n| ==> !Text.IsAsciiUpper(n[i])
  {
    Text.LowerNoUpper(Text.Trim(name));
    NormalizeTrimFirst(name);
  }

  lemma NormalizeIdempotent(name: string)
    ensures Normalize(Normalize(name)) == Normalize(name)
  {
    var n := Normalize(name);
    NormalizeTrimFirst(name);
    NormalizeTrimFirst(n);
    Text.LowerIdempotent(Text.Trim(name));
    assert Text.Lower(n) == n;
    Text.TrimEmptyIffBlank(n);
    if n != [] {
      TrimOfTrimmed(n);
    }
  }

  /** A string with no white space at either end is its own trim. */
  lemma TrimOfTrimmed(s: string)
    requires s != [] && !Text.IsSpace(s[0]) && !Text.IsSpace(s[|s| - 1])
    ensures Text.Trim(s) == s
  {
    assert Text.TrimStart(s) == s;
  }

  function ByName(): (Category, Category) -> bool {
    (a: Category, b: Category) => Text.LexLe(a.name, b.name)
  }

  lemma ByNameTotal()
    ensures Lists.TotalPreorder(ByName())
  {
    forall a: Category, b: Category ensures ByName()(a, b) || ByName()(b, a) {
      Text.LexLeTotal(a.name, b.name);
    }
    forall a: Category, b: Category, c: Category | ByName()(a, b) && ByName()(b, c)
      ensures ByName()(a, c)
    {
      Text.LexLeTrans(a.name, b.name, c.name);
    }
  }

  /** No two rows share a name. */
  predicate DistinctNames(rows: map<Id, Category>) {
    forall a, b :: a in rows && b in rows && a != b ==> rows[a].name != rows[b].name
  }

  /** Each row is stored under its own id, ids below `next` are used, and
      names are unique. */
  predicate ValidRows(rows: map<Id, Category>, next: Id) {
    (forall k :: k in rows ==> rows[k].id == k && k < next)
    && DistinctNames(rows)
  }

  /** Some row is named `n`. */
  predicate NameIn(rows: map<Id, Category>, n: string) {
    exists k :: k in rows && rows[k].name == n
  }

  /** Some row other than `id` is named `n`. */
  predicate NameElsewhere(rows: map<Id, Category>, id: Id, n: string) {
    exists k :: k in rows && k != id && rows[k].name == n
  }

  /** Adding a row under the next id, with a name no row holds, keeps the
      table valid and makes the name present. */
  lemma AddKeepsValid(rows: map<Id, Category>, next: Id, n: string)
    requires ValidRows(rows, next) && !NameIn(rows, n)
    ensures ValidRows(rows[next := Category(next, n)], next + 1)
    ensures NameIn(rows[next := Category(next, n)], n)
  {
    var after := rows[next := Category(next, n)];
    assert after[next].name == n;
    forall a, b | a in after && b in after && a != b
      ensures after[a].name != after[b].name
    {
      if a != next && b != next {
        assert after[a] == rows[a] && after[b] == rows[b];
      }
    }
  }

  /** Renaming a row to a name no other row holds keeps the table valid. */
  lemma RenameKeepsValid(rows: map<Id, Category>, next: Id, id: Id, n: string)
    requires ValidRows(rows, next) && id in rows && !NameElsewhere(rows, id, n)
    ensures ValidRows(rows[id := Category(id, n)], next)
  {
    var after := rows[id := Category(id, n)];
    forall a, b | a in after && b in after && a != b
      ensures after[a].name != after[b].name
    {
      if a != id && b != id {
        assert after[a] == rows[a] && after[b] == rows[b];
      }
    }
  }

  class CategoryStore {
    var rows: map<Id, Category>
    var nextId: Id

    /** Each row is stored under its own id, ids below `nextId` are used,
        and names are unique. */
    ghost predicate Valid()
      reads this
    {
      ValidRows(rows, nextId)
    }

    constructor()
      ensures Valid() && rows == map[]
    {
      rows, nextId := map[], 0;
    }

    /** Some row is named `n`. */
    ghost predicate HasName(n: string)
      reads this
    {
      NameIn(rows, n)
    }

    /** `getAll`: every category once, ordered by name. */
    method GetAll() returns (r: seq<Category>)
      requires Valid()
      ensures |r| == |rows|
      ensures forall i :: 0 <= i < |r| ==> r[i].id in rows && rows[r[i].id] == r[i]
      ensures forall k :: k in rows ==> rows[k] in r
      ensures Lists.SortedBy(r, ByName())
    {
      var s, ids := Rows(rows);
      r := Lists.Sort(s, ByName());
      ByNameTotal();
      Lists.SortSorted(s, ByName());
      forall i | 0 <= i < |r| ensures r[i].id in rows && rows[r[i].id] == r[i] {
        assert r[i] in multiset(s);
        var j :| 0 <= j < |s| && s[j] == r[i];
        assert rows[ids[j]] == s[j];
      }
      forall k | k in rows ensures rows[k] in r {
        var i :| 0 <= i < |ids| && ids[i] == k;
        assert s[i] in multiset(r);
      }
    }

    /** `findByName`: the category whose name is the normalised `name`. */
    method FindByName(name: string) returns (r: Option<Category>)
      requires Valid()
      ensures r.Some? <==> HasName(Normalize(name))
      ensures r.Some? ==> r.value.id in rows && rows[r.value.id] == r.value
                          && r.value.name == Normalize(name)
    {
      var n := Normalize(name);
      if k :| k in rows && rows[k].name == n {
        r := Some(rows[k]);
      } else {
        r := None;
      }
    }

    /** `create`: stores the normalised name under a new id; the store
        refuses a name already present. */
    method Create(name: string) returns (r: Result<Category, string>)
      requires Valid()
      modifies this
      ensures Valid()
      ensures r.Err? <==> old(HasName(Normalize(name)))
      ensures r.Err? ==> r.error == UniqueViolation && rows == old(rows)
      ensures r.Ok? ==> r.value == Category(old(nextId), Normalize(name))
                        && rows == old(rows)[old(nextId) := r.value]
                        && HasName(Normalize(name))
    {
      var n, rs, id := Normalize(name), rows, nextId;
      if NameIn(rs, n) {
        r := Err(UniqueViolation);
      } else {
        AddKeepsValid(rs, id, n);
        r := Ok(Category(id, n));
        rows, nextId := rs[id := r.value], id + 1;
      }
    }

    /** `update`: replaces only the name, normalised; a missing id and a
        name another row holds are refused. */
    method Update(id: Id, name: string) returns (r: Result<Category, string>)
      requires Valid()
      modifies this
      ensures Valid() && nextId == old(nextId)
      ensures id !in old(rows) ==> r == Err(RecordNotFound)
      ensures r.Ok? <==> id in old(rows) && !NameElsewhere(old(rows), id, Normalize(name))
      ensures r.Err? ==> rows == old(rows)
      ensures r.Ok? ==> r.value == Category(id, Normalize(name)) && rows == old(rows)[id := r.value]
    {
      var n, rs, next := Normalize(name), rows, nextId;
      var taken := id in rs && NameElsewhere(rs, id, n);
      if id !in rs {
        r := Err(RecordNotFound);
      } else if taken {
        r := Err(UniqueViolation);
      } else {
        RenameKeepsValid(rs, next, id, n);
        var c := Category(id, n);
        rows := rs[id := c];
        assert ValidRows(rows, next);
        r := Ok(c);
      }
    }

    /** `delete`: removes the row with that id. */
    method Delete(id: Id) returns (r: Result<Category, string>)
      requires Valid()
      modifies this
      ensures Valid() && nextId == old(nextId)
      ensures r.Ok? <==> id in old(rows)
      ensures r.Ok? ==> r.value == old(rows)[id] && rows == old(rows) - {id}
      ensures r.Err? ==> r.error == RecordNotFound && rows == old(rows)
    {
      if id !in rows {
        return Err(RecordNotFound);
      }
      r := Ok(rows[id]);
      rows := rows - {id};
    }
  }

  /** Names that normalise alike find the same category: after `create(n)`
      succeeds, `findByName(m)` succeeds for every `m` with the same
      normalisation, such as `n` with other capitals or surrounding blanks. */
  lemma FindsEquivalentNames(store: CategoryStore, n: string, m: string)
    requires store.HasName(Normalize(n)) && Text.Lower(Text.Trim(m)) == Text.Lower(Text.Trim(n))
    ensures store.HasName(Normalize(m))
  {
    NormalizeTrimFirst(n);
    NormalizeTrimFirst(m);
  }
}

=== FILE: client_data.dfy ===
/** The records the web client keeps in its state (users, food logs,
    inventory items, resources), the partial updates it spreads into them,
    and the list operations both state providers apply to their lists. */
module ClientData {
  import opened Wrappers
  import Lists

  datatype Unit = Kg | Gm | Ltr | Pcs

  /** Milliseconds in a day. */
  const DayMillis: int := 1000 * 60 * 60 * 24

  /** `value || undefined`: the empty string becomes absent. */
  function NonEmpty(s: string): (r: Option<string>)
    ensures r.None? <==> s == []
    ensures r.Some? ==> r.value == s
  {
    if s == [] then None else Some(s)
  }

  datatype Location = Location(district: string, division: string)

  /** A user as the client holds it; dates and times are integer
      milliseconds. */
  datatype User = User(id: string, name: string, email: string, role: Option<string>, householdSize: int,
                       dietaryPreferences: seq<string>, budgetPreference: Option<string>,
                       monthlyBudget: Option<real>, location: Location, imageUrl: Option<string>,
                       onboardingCompleted: Option<bool>)

  datatype FoodLog = FoodLog(id: string, itemName: string, quantity: real, unit: Unit, category: string,
                             date: int, imageUrl: Option<string>)

  datatype InventoryItem = InventoryItem(id: string, name: string, category: string, expirationEstimate: int,
                                         imageUrl: Option<string>, quantity: real, unit: Unit, dateAdded: int,
                                         price: Option<real>)

  datatype Resource = Resource(id: string, title: string, description: string, category: string, kind: string)

  /** `Partial<User>`: a present key replaces the field, an optional field
      may also be set to `undefined` (`Some(None)`). */
  datatype UserPatch = UserPatch(id: Option<string>, name: Option<string>, email: Option<string>,
                                 role: Option<Option<string>>, householdSize: Option<int>,
                                 dietaryPreferences: Option<seq<string>>, budgetPreference: Option<Option<string>>,
                                 monthlyBudget: Option<Option<real>>, location: Option<Location>,
                                 imageUrl: Option<Option<string>>, onboardingCompleted: Option<Option<bool>>)

  /** `Partial<InventoryItem>`. */
  datatype ItemPatch = ItemPatch(id: Option<string>, name: Option<string>, category: Option<string>,
                                 expirationEstimate: Option<int>, imageUrl: Option<Option<string>>,
                                 quantity: Option<real>, unit: Option<Unit>, dateAdded: Option<int>,
                                 price: Option<Option<real>>)

  function Pick<T>(o: Option<T>, current: T): T {
    if o.Some? then o.value else current
  }

  /** One field of a spread: the update's value when it has the key, the
      old value when it does not. */
  predicate Overrides<T(==)>(o: Option<T>, before: T, after: T) {
    (o.Some? ==> after == o.value) && (o.None? ==> after == before)
  }

  /** `{ ...u, ...p }`: every key of `p` overrides, every other field is
      kept. */
  function MergeUser(u: User, p: UserPatch): (r: User)
    ensures Overrides(p.id, u.id, r.id) && Overrides(p.name, u.name, r.name)
            && Overrides(p.email, u.email, r.email) && Overrides(p.role, u.role, r.role)
            && Overrides(p.householdSize, u.householdSize, r.householdSize)
            && Overrides(p.dietaryPreferences, u.dietaryPreferences, r.dietaryPreferences)
            && Overrides(p.budgetPreference, u.budgetPreference, r.budgetPreference)
            && Overrides(p.monthlyBudget, u.monthlyBudget, r.monthlyBudget)
            && Overrides(p.location, u.location, r.location) && Overrides(p.imageUrl, u.imageUrl, r.imageUrl)
            && Overrides(p.onboardingCompleted, u.onboardingCompleted, r.onboardingCompleted)
  {
    User(Pick(p.id, u.id), Pick(p.name, u.name), Pick(p.email, u.email), Pick(p.role, u.role),
         Pick(p.householdSize, u.householdSize), Pick(p.dietaryPreferences, u.dietaryPreferences),
         Pick(p.budgetPreference, u.budgetPreference), Pick(p.monthlyBudget, u.monthlyBudget),
         Pick(p.location, u.location), Pick(p.imageUrl, u.imageUrl), Pick(p.onboardingCompleted, u.onboardingCompleted))
  }

  const NoUserChange := UserPatch(None, None, None, None, None, None, None, None, None, None, None)

  /** Spreading an empty update changes nothing, and spreading the same
      update twice is spreading it once. */
  lemma MergeUserLaws(u: User, p: UserPatch)
    ensures MergeUser(u, NoUserChange) == u
    ensures MergeUser(MergeUser(u, p), p) == MergeUser(u, p)
  {
  }

  /** `{ ...item, ...p }`. */
  function MergeItem(item: InventoryItem, p: ItemPatch): (r: InventoryItem)
    ensures Overrides(p.id, item.id, r.id) && Overrides(p.name, item.name, r.name)
            && Overrides(p.category, item.category, r.category)
            && Overrides(p.expirationEstimate, item.expirationEstimate, r.expirationEstimate)
            && Overrides(p.imageUrl, item.imageUrl, r.imageUrl) && Overrides(p.quantity, item.quantity, r.quantity)
            && Overrides(p.unit, item.unit, r.unit) && Overrides(p.dateAdded, item.dateAdded, r.dateAdded)
            && Overrides(p.price, item.price, r.price)
  {
    InventoryItem(Pick(p.id, item.id), Pick(p.name, item.name), Pick(p.category, item.category),
                  Pick(p.expirationEstimate, item.expirationEstimate), Pick(p.imageUrl, item.imageUrl),
                  Pick(p.quantity, item.quantity), Pick(p.unit, item.unit), Pick(p.dateAdded, item.dateAdded),
                  Pick(p.price, item.price))
  }

  lemma MergeItemLaws(item: InventoryItem, p: ItemPatch)
    ensures MergeItem(item, ItemPatch(None, None, None, None, None, None, None, None, None)) == item
    ensures MergeItem(MergeItem(item, p), p) == MergeItem(item, p)
  {
  }

  /** `[...new Set(resources.map(r => r.type))]`: each type once, in order
      of first occurrence. */
  function ResourceTypes(resources: seq<Resource>): (t: seq<string>)
    ensures Lists.NoDup(t)
    ensures forall k :: k in t <==> exists i :: 0 <= i < |resources| && resources[i].kind == k
  {
    var kinds := seq(|resources|, i requires 0 <= i < |resources| => resources[i].kind);
    assert forall i :: 0 <= i < |resources| ==> kinds[i] == resources[i].kind;
    Lists.Distinct(kinds)
  }

  /** `[...new Set(resources.map(r => r.category))]`. */
  function ResourceCategories(resources: seq<Resource>): (t: seq<string>)
    ensures Lists.NoDup(t)
    ensures forall c :: c in t <==> exists i :: 0 <= i < |resources| && resources[i].category == c
  {
    var cats := seq(|resources|, i requires 0 <= i < |resources| => resources[i].category);
    assert forall i :: 0 <= i < |resources| ==> cats[i] == resources[i].category;
    Lists.Distinct(cats)
  }

  function LogId(l: FoodLog): string { l.id }
  function ItemId(i: InventoryItem): string { i.id }

  /** The test `x => key(x) !== k`. */
  function KeyIsNot<T, K(==)>(key: T -> K, k: K): T -> bool {
    x => key(x) != k
  }

  /** `s.filter(x => key(x) !== k)`: every entry with key `k` gone, the
      others kept, in order. */
  function RemoveKey<T, K(==)>(s: seq<T>, key: T -> K, k: K): (r: seq<T>)
    ensures forall i :: 0 <= i < |r| ==> key(r[i]) != k
    ensures forall i :: 0 <= i < |s| && key(s[i]) != k ==> s[i] in r
    ensures |r| <= |s|
  {
    Lists.Filter(s, KeyIsNot(key, k))
  }

  /** Removing a key nothing carries changes nothing, and what is left is a
      subsequence of the list. */
  lemma RemoveKeyOrder<T, K>(s: seq<T>, key: T -> K, k: K)
    ensures Lists.Subseq(RemoveKey(s, key, k), s)
    ensures (forall i :: 0 <= i < |s| ==> key(s[i]) != k) ==> RemoveKey(s, key, k) == s
  {
    Lists.FilterSubseq(s, KeyIsNot(key, k));
    if forall i :: 0 <= i < |s| ==> key(s[i]) != k {
      Lists.FilterAll(s, KeyIsNot(key, k));
    }
  }

  /** Two lists that agree on which entries carry key `k` and on every
      other entry lose the same entries and keep the same ones. */
  lemma {:induction false} RemoveKeyAgree<T, K>(a: seq<T>, b: seq<T>, key: T -> K, k: K)
    requires |a| == |b|
    requires forall i :: 0 <= i < |a| ==> (key(a[i]) == k <==> key(b[i]) == k)
    requires forall i :: 0 <= i < |a| && key(a[i]) != k ==> a[i] == b[i]
    ensures RemoveKey(a, key, k) == RemoveKey(b, key, k)
    decreases |a|
  {
    if a != [] {
      assert forall i :: 0 <= i < |a| - 1 ==> a[1..][i] == a[i + 1] && b[1..][i] == b[i + 1];
      RemoveKeyAgree(a[1..], b[1..], key, k);
    }
  }

  /** `s.map(x => key(x) === k ? f(x) : x)`: same length and order, only the
      entries with key `k` replaced. */
  function ReplaceKey<T, K(==)>(s: seq<T>, key: T -> K, k: K, f: T -> T): (r: seq<T>)
    ensures |r| == |s|
    ensures forall i :: 0 <= i < |s| && key(s[i]) != k ==> r[i] == s[i]
    ensures forall i :: 0 <= i < |s| && key(s[i]) == k ==> r[i] == f(s[i])
  {
    seq(|s|, i requires 0 <= i < |s| => if key(s[i]) == k then f(s[i]) else s[i])
  }

  /** `if (!s.includes(x)) s = [...s, x]`. */
  function AddAbsent<T(==)>(s: seq<T>, x: T): (r: seq<T>)
    ensures x in r
    ensures |r| == if x in s then |s| else |s| + 1
    ensures forall i :: 0 <= i < |s| ==> r[i] == s[i]
  {
    if x in s then s else s + [x]
  }

  /** The test `y => y !== x`. */
  function Differs<T(==)>(x: T): T -> bool {
    y => y != x
  }

  /** `s.filter(c => c !== x)`. */
  function RemoveAll<T(==)>(s: seq<T>, x: T): (r: seq<T>)
    ensures x !in r
    ensures forall i :: 0 <= i < |s| && s[i] != x ==> s[i] in r
    ensures forall y :: y in r ==> y in s
  {
    Lists.Filter(s, Differs(x))
  }

  /** Adding never introduces a duplicate, and removal keeps a list free of
      duplicates. */
  lemma {:induction false} CategoriesStayDistinct<T>(s: seq<T>, x: T)
    requires Lists.NoDup(s)
    ensures Lists.NoDup(AddAbsent(s, x))
    ensures Lists.NoDup(RemoveAll(s, x))
  {
    FilterNoDup(s, Differs(x));
  }

  lemma {:induction false} FilterNoDup<T>(s: seq<T>, p: T -> bool)
    requires Lists.NoDup(s)
    ensures Lists.NoDup(Lists.Filter(s, p))
    decreases |s|
  {
    if s != [] {
      FilterNoDup(s[1..], p);
      var f := Lists.Filter(s[1..], p);
      assert s[0] !in s[1..];
      if p(s[0]) {
        assert Lists.Filter(s, p) == [s[0]] + f;
        assert s[0] !in f;
      }
    }
  }

  /** `prefs.includes(p) ? prefs.filter(x => x !== p) : [...prefs, p]`,
      the preference toggle of the onboarding and the profile forms: `p`
      changes side, every other preference stays. */
  function TogglePreference(prefs: seq<string>, p: string): (r: seq<string>)
    ensures p in r <==> p !in prefs
    ensures forall x :: x != p ==> (x in r <==> x in prefs)
    ensures p !in prefs ==> r == prefs + [p]
  {
    if p in prefs then RemoveAll(prefs, p) else prefs + [p]
  }

  /** Toggling an absent preference twice gives the list back. */
  lemma ToggleAbsentTwice(prefs: seq<string>, p: string)
    requires p !in prefs
    ensures TogglePreference(TogglePreference(prefs, p), p) == prefs
  {
    assert TogglePreference(prefs, p) == prefs + [p];
    AddThenRemove(prefs, p);
    Lists.FilterAll(prefs, Differs(p));
  }

  /** Toggling a present preference twice moves it to the end. */
  lemma TogglePresentTwice(prefs: seq<string>, p: string)
    requires p in prefs
    ensures TogglePreference(TogglePreference(prefs, p), p) == RemoveAll(prefs, p) + [p]
  {
  }

  /** Toggling never makes a duplicate. */
  lemma ToggleKeepsDistinct(prefs: seq<string>, p: string)
    requires Lists.NoDup(prefs)
    ensures Lists.NoDup(TogglePreference(prefs, p))
  {
    CategoriesStayDistinct(prefs, p);
  }

  /** `parseInt(text) || fallback` on what parsing gave (`None` for
      `NaN`): no number, or zero, becomes the fallback. */
  function ParsedOr(parsed: Option<int>, fallback: int): (n: int)
    ensures parsed.None? || parsed.value == 0 ==> n == fallback
    ensures parsed.Some? && parsed.value != 0 ==> n == parsed.value
    ensures fallback != 0 ==> n != 0
  {
    if parsed.None? || parsed.value == 0 then fallback else parsed.value
  }

  /** Deleting right after adding leaves what deleting alone leaves. */
  lemma {:induction false} AddThenRemove<T>(s: seq<T>, x: T)
    ensures RemoveAll(AddAbsent(s, x), x) == RemoveAll(s, x)
  {
    if x !in s {
      Lists.FilterAppend(s, [x], Differs(x));
      assert Lists.Filter([x], Differs(x)) == [];
    }
  }
}

=== FILE: community.dfy ===
/** The community controller of the server: listing help requests with
    report counts, hiding the ones reported as fraud five times or more,
    pagination, the donation and report gates and the owner checks on
    update and delete.

    The help-request, donation and report tables are fields of a
    `CommunityStore`; a handler's HTTP response is a `Result` whose error
    carries the status code and message. Times are integers. */
module Community {
  import opened Wrappers
  import Lists

  datatype HelpRequest = HelpRequest(
    id: string, userId: string, title: string, description: string, category: string,
    quantity: Option<real>, unit: Option<string>, district: string, division: string,
    contactName: string, contactEmail: Option<string>, contactPhone: Option<string>,
    status: string, createdAt: int, neededBy: int)

  /** A donation; `createdAt` is the time the store stamps on the new row. */
  datatype Donation = Donation(helpRequestId: string, donorUserId: string, message: Option<string>,
                               quantity: Option<real>, unit: Option<string>,
                               contactInfo: Option<string>, anonymous: bool, createdAt: int)

  datatype Report = Report(helpRequestId: string, reporterUserId: string, kind: string,
                           reason: Option<string>)

  /** A failed handler: the status code and the error message. */
  datatype Failure = Failure(code: int, message: string)

  /** How a listing is ordered (`orderBy`). */
  datatype SortOrder = CreatedDesc | CreatedAsc | NeededAsc

  /** `getSortOrder`: `oldest` sorts by creation time ascending, `urgent` by
      the needed-by date ascending, and everything else (`newest`, no value
      or an unknown one) by creation time descending. */
  function GetSortOrder(sortBy: Option<string>): (o: SortOrder)
    ensures o == CreatedAsc <==> sortBy == Some("oldest")
    ensures o == NeededAsc <==> sortBy == Some("urgent")
    ensures o == CreatedDesc <==> sortBy != Some("oldest") && sortBy != Some("urgent")
  {
    match sortBy
    case Some("newest") => CreatedDesc
    case Some("oldest") => CreatedAsc
    case Some("urgent") => NeededAsc
    case _ => CreatedDesc
  }

  /** `a` may come before `b` in the order `o`. */
  function Before(o: SortOrder): (HelpRequest, HelpRequest) -> bool {
    match o
    case CreatedDesc => (a: HelpRequest, b: HelpRequest) => a.createdAt >= b.createdAt
    case CreatedAsc => (a: HelpRequest, b: HelpRequest) => a.createdAt <= b.createdAt
    case NeededAsc => (a: HelpRequest, b: HelpRequest) => a.neededBy <= b.neededBy
  }

  lemma BeforeTotal(o: SortOrder)
    ensures Lists.TotalPreorder(Before(o))
  {
  }

  /** The detail view's donation order, `createdAt: 'desc'`. */
  const NewestFirst: (Donation, Donation) -> bool := (a: Donation, b: Donation) => a.createdAt >= b.createdAt

  lemma NewestFirstTotal()
    ensures Lists.TotalPreorder(NewestFirst)
  {
  }

  /** A query-string value is used only when present and not empty (a
      JavaScript truthiness test). */
  predicate Given(v: Option<string>) { v.Some? && v.value != "" }

  /** The `where` clause of the listing. */
  datatype Where = Where(category: Option<string>, status: Option<string>,
                         district: Option<string>, division: Option<string>)

  /** The `where` clause for the query: category and status only when
      given and not `'all'`, district and division whenever given. */
  function WhereFor(category: Option<string>, status: Option<string>,
                    district: Option<string>, division: Option<string>): (w: Where)
    ensures w.category.Some? <==> Given(category) && category.value != "all"
    ensures w.status.Some? <==> Given(status) && status.value != "all"
    ensures w.district.Some? <==> Given(district)
    ensures w.division.Some? <==> Given(division)
    ensures w.category.Some? ==> w.category == category
    ensures w.status.Some? ==> w.status == status
    ensures w.district.Some? ==> w.district == district
    ensures w.division.Some? ==> w.division == division
  {
    Where(if Given(category) && category.value != "all" then category else None,
          if Given(status) && status.value != "all" then status else None,
          if Given(district) then district else None,
          if Given(division) then division else None)
  }

  /** Build `where` field by field. */
  method BuildWhere(category: Option<string>, status: Option<string>,
                    district: Option<string>, division: Option<string>) returns (w: Where)
    ensures w == WhereFor(category, status, district, division)
  {
    w := Where(None, None, None, None);
    if Given(category) && category.value != "all" {
      w := w.(category := category);
    }
    if Given(status) && status.value != "all" {
      w := w.(status := status);
    }
    if Given(district) {
      w := w.(district := district);
    }
    if Given(division) {
      w := w.(division := division);
    }
  }

  /** A request satisfies every field the `where` clause sets. */
  predicate Satisfies(w: Where, r: HelpRequest) {
    (w.category.Some? ==> r.category == w.category.value)
    && (w.status.Some? ==> r.status == w.status.value)
    && (w.district.Some? ==> r.district == w.district.value)
    && (w.division.Some? ==> r.division == w.division.value)
  }

  /** No view in `vs` has reached the fraud threshold. */
  predicate AllShown(vs: seq<RequestView>) {
    forall i :: 0 <= i < |vs| ==> vs[i].fraudReports < HideThreshold
  }

  /** `skip` and `take`: the part of `s` from `skip` on, at most `take` long. */
  function Window<T>(s: seq<T>, skip: nat, take: nat): (r: seq<T>)
    ensures |r| <= take
    ensures forall i :: 0 <= i < |r| ==> skip + i < |s| && r[i] == s[skip + i]
    ensures |r| == if skip >= |s| then 0 else if |s| - skip < take then |s| - skip else take
  {
    if skip >= |s| then []
    else if |s| - skip < take then s[skip..]
    else s[skip..skip + take]
  }

  /** The number of reports of `kind` among `reports`. */
  function CountKind(reports: seq<Report>, kind: string): (n: nat)
    ensures n == |Lists.Filter(reports, (r: Report) => r.kind == kind)|
    ensures n <= |reports|
  {
    Lists.Count(reports, (r: Report) => r.kind == kind)
  }

  /** A help request as the listing and the detail view return it: the
      request, its fraud and trusted report counts and its donations. */
  datatype RequestView = RequestView(request: HelpRequest, fraudReports: nat, trustedReports: nat,
                                     donations: seq<Donation>)

  /** A request with five or more fraud reports is hidden. */
  const HideThreshold: nat := 5

  /** What `next(error)` answers when the store refuses to delete a request
      that donations or reports still refer to. */
  const ForeignKeyFailure := Failure(500, "Foreign key constraint failed")

  /** `totalPages` is `None` where `Math.ceil(total / limit)` is not a
      finite number (a limit of 0), which the JSON answer writes as `null`. */
  datatype Pagination = Pagination(page: int, limit: int, total: nat, totalPages: Option<nat>,
                                   hasNextPage: bool, hasPreviousPage: bool)

  datatype Listing = Listing(data: seq<RequestView>, pagination: Pagination)

  /** `skip = (page - 1) * limit`: the rows before page `page`. */
  function Skip(page: int, limit: int): (n: nat)
    requires page >= 1 && limit >= 0
    ensures page == 1 ==> n == 0
    ensures n + limit == page * limit
  {
    var k: nat := page - 1;
    assert k * limit + limit == (k + 1) * limit;
    k * limit
  }

  /** `Math.ceil(total / limit)` for a positive `limit`. */
  function CeilDiv(total: nat, limit: int): (q: nat)
    requires limit >= 1
    ensures q * limit >= total
    ensures q == 0 || (q - 1) * limit < total
  {
    (total + limit - 1) / limit
  }

  /** The query of `getHelpRequests`, with `page` and `limit` already
      parsed (`None` when absent or empty). */
  datatype ListQuery = ListQuery(district: Option<string>, division: Option<string>,
                                 category: Option<string>, status: Option<string>,
                                 sortBy: Option<string>, page: Option<int>, limit: Option<int>)

  class CommunityStore {
    var requests: seq<HelpRequest>
    var donations: seq<Donation>
    var reports: seq<Report>

    /** Request ids are unique, and a user reports a request at most once
        (the store's unique key on request and reporter). */
    ghost predicate Valid()
      reads this
    {
      (forall i, j :: 0 <= i < j < |requests| ==> requests[i].id != requests[j].id)
      && (forall i, j :: 0 <= i < j < |reports| ==>
            (reports[i].helpRequestId, reports[i].reporterUserId)
            != (reports[j].helpRequestId, reports[j].reporterUserId))
    }

    constructor()
      ensures Valid() && Linked() && requests == [] && donations == [] && reports == []
    {
      requests, donations, reports := [], [], [];
    }

    /** `findUnique({ where: { id } })`. */
    function Find(id: string): (r: Option<HelpRequest>)
      reads this
      ensures r.Some? <==> exists i :: 0 <= i < |requests| && requests[i].id == id
      ensures r.Some? ==> r.value in requests && r.value.id == id
    {
      FindIn(requests, id)
    }

    /** The reports filed against request `id`. */
    function ReportsOf(id: string): (rs: seq<Report>)
      reads this
      ensures forall i :: 0 <= i < |rs| ==> rs[i] in reports && rs[i].helpRequestId == id
      ensures forall i :: 0 <= i < |reports| && reports[i].helpRequestId == id ==> reports[i] in rs
    {
      Lists.Filter(reports, (r: Report) => r.helpRequestId == id)
    }

    /** The donations made to request `id`, in store order. */
    function DonationsOf(id: string): (ds: seq<Donation>)
      reads this
      ensures forall i :: 0 <= i < |ds| ==> ds[i] in donations && ds[i].helpRequestId == id
      ensures forall i :: 0 <= i < |donations| && donations[i].helpRequestId == id ==> donations[i] in ds
    {
      Lists.Filter(donations, (d: Donation) => d.helpRequestId == id)
    }

    function View(r: HelpRequest): RequestView
      reads this
    {
      var rs := ReportsOf(r.id);
      RequestView(r, CountKind(rs, "fraud"), CountKind(rs, "trusted"), DonationsOf(r.id))
    }

    /** The listing: one page of the requests that satisfy `w`, sorted by
        `o`, with the hidden ones removed from the page afterwards. */
    function PageOf(w: Where, o: SortOrder, skip: nat, take: nat): seq<HelpRequest>
      reads this
    {
      Window(Lists.Sort(Lists.Filter(requests, (r: HelpRequest) => Satisfies(w, r)), Before(o)), skip, take)
    }

    /** Each request of a page with its fraud and trusted report counts. */
    function Views(page: seq<HelpRequest>): (vs: seq<RequestView>)
      reads this
      ensures |vs| == |page|
      ensures forall i :: 0 <= i < |page| ==> vs[i] == View(page[i])
    {
      seq(|page|, i reads this requires 0 <= i < |page| => View(page[i]))
    }

    /** The views of a page with the hidden ones removed. */
    function Visible(page: seq<HelpRequest>): (vs: seq<RequestView>)
      reads this
      ensures |vs| <= |page|
      ensures AllShown(vs)
    {
      Lists.Filter(Views(page), (v: RequestView) => v.fraudReports < HideThreshold)
    }

    /** `getHelpRequests`. Pages are numbered from 1. */
    method GetHelpRequests(q: ListQuery) returns (r: Listing)
      requires q.page.None? || q.page.value >= 1
      requires q.limit.None? || q.limit.value >= 0
      ensures var w := WhereFor(q.category, q.status, q.district, q.division);
        r.data == Visible(PageOf(w, GetSortOrder(q.sortBy), Skip(q.page.GetOr(1), q.limit.GetOr(20)), q.limit.GetOr(20)))
        && r.pagination.total == Lists.Count(requests, (x: HelpRequest) => Satisfies(w, x))
      ensures r.pagination.page == q.page.GetOr(1) && r.pagination.limit == q.limit.GetOr(20)
      ensures r.pagination.limit >= 1 ==> r.pagination.totalPages == Some(CeilDiv(r.pagination.total, r.pagination.limit))
      ensures r.pagination.limit >= 1 ==> (r.pagination.hasNextPage <==> r.pagination.page < r.pagination.totalPages.value)
      ensures r.pagination.limit == 0 ==> r.data == [] && r.pagination.totalPages.None?
                                          && (r.pagination.hasNextPage <==> r.pagination.total > 0)
      ensures r.pagination.hasPreviousPage <==> r.pagination.page > 1
      ensures forall i :: 0 <= i < |r.data| ==> r.data[i].fraudReports < HideThreshold
    {
      var page := if q.page.Some? then q.page.value else 1;
      var limit := if q.limit.Some? then q.limit.value else 20;
      var skip := Skip(page, limit);
      var w := BuildWhere(q.category, q.status, q.district, q.division);
      var rows := PageOf(w, GetSortOrder(q.sortBy), skip, limit);
      var data := Visible(rows);
      var total := Lists.Count(requests, (x: HelpRequest) => Satisfies(w, x));
      if limit == 0 {
        // `total / 0` is Infinity when `total > 0` and NaN when it is 0
        r := Listing(data, Pagination(page, limit, total, None, total > 0, page > 1));
      } else {
        var totalPages := CeilDiv(total, limit);
        r := Listing(data, Pagination(page, limit, total, Some(totalPages), page < totalPages, page > 1));
      }
    }

    /** `getHelpRequest`: 404 when the request does not exist, 404 again when
        it has five or more fraud reports, otherwise the request with its
        counts and all its donations, newest first. */
    method GetHelpRequest(id: string) returns (r: Result<RequestView, Failure>)
      ensures Find(id).None? ==> r == Err(Failure(404, "Help request not found"))
      ensures Find(id).Some? && View(Find(id).value).fraudReports >= HideThreshold
              ==> r == Err(Failure(404, "Help request not available"))
      ensures r.Ok? <==> Find(id).Some? && View(Find(id).value).fraudReports < HideThreshold
      ensures r.Ok? ==> r.value.request.id == id && r.value.request == Find(id).value
      ensures r.Ok? ==> r.value.fraudReports == CountKind(ReportsOf(id), "fraud")
                        && r.value.trustedReports == CountKind(ReportsOf(id), "trusted")
      ensures r.Ok? ==> multiset(r.value.donations) == multiset(DonationsOf(id))
                        && Lists.SortedBy(r.value.donations, NewestFirst)
    {
      var found := Find(id);
      if found.None? {
        return Err(Failure(404, "Help request not found"));
      }
      var v := View(found.value);
      if v.fraudReports >= HideThreshold {
        return Err(Failure(404, "Help request not available"));
      }
      NewestFirstTotal();
      Lists.SortSorted(v.donations, NewestFirst);
      r := Ok(v.(donations := Lists.Sort(v.donations, NewestFirst)));
    }

    /** `createDonation`: 401 without a user, 404 for a missing request,
        400 for a closed one; otherwise one donation is added, anonymous
        only when asked and stamped with the time `now`. */
    method CreateDonation(userId: Option<string>, helpRequestId: string, message: Option<string>,
                          quantity: Option<real>, unit: Option<string>, contactInfo: Option<string>,
                          anonymous: Option<bool>, now: int) returns (r: Result<Donation, Failure>)
      modifies this
      ensures requests == old(requests) && reports == old(reports)
      ensures old(Linked()) ==> Linked()
      ensures !Given(userId) ==> r == Err(Failure(401, "Unauthorized"))
      ensures Given(userId) && old(Find(helpRequestId)).None? ==> r == Err(Failure(404, "Help request not found"))
      ensures Given(userId) && old(Find(helpRequestId)).Some? && old(Find(helpRequestId)).value.status == "closed"
              ==> r == Err(Failure(400, "This help request is closed"))
      ensures r.Ok? <==> Given(userId) && old(Find(helpRequestId)).Some?
                         && old(Find(helpRequestId)).value.status != "closed"
      ensures r.Ok? ==> donations == old(donations) + [r.value]
                        && r.value == Donation(helpRequestId, userId.value, message, quantity, unit, contactInfo,
                                               anonymous == Some(true), now)
      ensures r.Err? ==> donations == old(donations)
    {
      if !Given(userId) {
        return Err(Failure(401, "Unauthorized"));
      }
      var found := Find(helpRequestId);
      if found.None? {
        return Err(Failure(404, "Help request not found"));
      }
      if found.value.status == "closed" {
        return Err(Failure(400, "This help request is closed"));
      }
      var d := Donation(helpRequestId, userId.value, message, quantity, unit, contactInfo,
                        anonymous == Some(true), now);
      donations := donations + [d];
      r := Ok(d);
    }

    /** Every donation and every report refers to a stored request: the
        foreign keys of the donation and report tables. */
    ghost predicate Linked()
      reads this
    {
      LinkedIn(requests, donations, reports)
    }

    /** Some donation or report refers to request `id`. */
    predicate HasDependents(id: string)
      reads this
    {
      Refers(donations, reports, id)
    }

    /** Whether `userId` already reported request `id`. */
    predicate HasReported(id: string, userId: string)
      reads this
    {
      exists i :: 0 <= i < |reports| && reports[i].helpRequestId == id && reports[i].reporterUserId == userId
    }

    /** `createReport`: 401 without a user, 404 for a missing request, 400
        when this user already reported it; otherwise one report is added.
        The store stays valid, so a user's reports on a request never number
        more than one. */
    method CreateReport(userId: Option<string>, helpRequestId: string, kind: string, reason: Option<string>)
      returns (r: Result<Report, Failure>)
      requires Valid()
      modifies this
      ensures Valid()
      ensures requests == old(requests) && donations == old(donations)
      ensures old(Linked()) ==> Linked()
      ensures !Given(userId) ==> r == Err(Failure(401, "Unauthorized"))
      ensures Given(userId) && old(Find(helpRequestId)).None? ==> r == Err(Failure(404, "Help request not found"))
      ensures Given(userId) && old(Find(helpRequestId)).Some? && old(HasReported(helpRequestId, userId.value))
              ==> r == Err(Failure(400, "You have already reported this help request"))
      ensures r.Ok? <==> Given(userId) && old(Find(helpRequestId)).Some?
                         && !old(HasReported(helpRequestId, userId.value))
      ensures r.Ok? ==> reports == old(reports) + [Report(helpRequestId, userId.value, kind, reason)]
      ensures r.Err? ==> reports == old(reports)
    {
      if !Given(userId) {
        return Err(Failure(401, "Unauthorized"));
      }
      var found := Find(helpRequestId);
      if found.None? {
        return Err(Failure(404, "Help request not found"));
      }
      if HasReported(helpRequestId, userId.value) {
        return Err(Failure(400, "You have already reported this help request"));
      }
      var rep := Report(helpRequestId, userId.value, kind, reason);
      reports := reports + [rep];
      r := Ok(rep);
    }

    /** The owner check shared by update and delete: 401 without a user,
        404 for a missing request, 403 for another user's request. */
    function OwnerCheck(userId: Option<string>, id: string, action: string): (r: Option<Failure>)
      reads this
      ensures r.None? <==> Given(userId) && Find(id).Some? && Find(id).value.userId == userId.value
      ensures !Given(userId) ==> r == Some(Failure(401, "Unauthorized"))
      ensures Given(userId) && Find(id).None? ==> r == Some(Failure(404, "Help request not found"))
      ensures Given(userId) && Find(id).Some? && Find(id).value.userId != userId.value
              ==> r == Some(Failure(403, "You can only " + action + " your own help requests"))
    {
      if !Given(userId) then Some(Failure(401, "Unauthorized"))
      else if Find(id).None? then Some(Failure(404, "Help request not found"))
      else if Find(id).value.userId != userId.value then
        Some(Failure(403, "You can only " + action + " your own help requests"))
      else None
    }

    /** `updateHelpRequest`: after the owner check, the supplied fields
        replace the request's (with `neededBy` read as a date); no other
        request changes. */
    method UpdateHelpRequest(userId: Option<string>, id: string, patch: HelpRequestPatch)
      returns (r: Result<HelpRequest, Failure>)
      requires Valid()
      modifies this
      ensures Valid()
      ensures donations == old(donations) && reports == old(reports)
      ensures old(Linked()) ==> Linked()
      ensures r.Err? <==> old(OwnerCheck(userId, id, "update")).Some?
      ensures r.Err? ==> r.error == old(OwnerCheck(userId, id, "update")).value && requests == old(requests)
      ensures r.Ok? ==>
        r.value == ApplyPatch(old(Find(id)).value, patch)
        && |requests| == |old(requests)|
        && forall i :: 0 <= i < |requests| ==>
             requests[i] == if old(requests)[i].id == id then r.value else old(requests)[i]
    {
      var denied := OwnerCheck(userId, id, "update");
      if denied.Some? {
        return Err(denied.value);
      }
      var updated := ApplyPatch(Find(id).value, patch);
      var rs := requests;
      requests := seq(|rs|, i requires 0 <= i < |rs| => if rs[i].id == id then updated else rs[i]);
      forall i | 0 <= i < |donations| && FindIn(rs, donations[i].helpRequestId).Some?
        ensures FindIn(requests, donations[i].helpRequestId).Some?
      {
        FindSameIds(rs, requests, donations[i].helpRequestId);
      }
      forall i | 0 <= i < |reports| && FindIn(rs, reports[i].helpRequestId).Some?
        ensures FindIn(requests, reports[i].helpRequestId).Some?
      {
        FindSameIds(rs, requests, reports[i].helpRequestId);
      }
      r := Ok(updated);
    }

    /** Removes request `id` and, with `cascade`, the donations and reports
        about it. */
    method Remove(id: string, cascade: bool)
      requires !cascade ==> !HasDependents(id)
      modifies this
      ensures requests == Lists.Filter(old(requests), (x: HelpRequest) => x.id != id)
      ensures cascade ==>
        donations == Lists.Filter(old(donations), (d: Donation) => d.helpRequestId != id)
        && reports == Lists.Filter(old(reports), (p: Report) => p.helpRequestId != id)
      ensures !cascade ==> donations == old(donations) && reports == old(reports)
      ensures Find(id).None? && !HasDependents(id)
      ensures old(Linked()) ==> Linked()
    {
      RemoveLinked(requests, donations, reports, id, cascade);
      requests := Lists.Filter(requests, (x: HelpRequest) => x.id != id);
      if cascade {
        donations := Lists.Filter(donations, (d: Donation) => d.helpRequestId != id);
        reports := Lists.Filter(reports, (p: Report) => p.helpRequestId != id);
      }
      FindRemoved(old(requests), id);
    }

    /** `deleteHelpRequest`: after the owner check, the request is removed
        and every other request kept in order. What happens to the donations
        and reports that refer to it is the schema's referential action:
        with `cascade` they are removed with it; otherwise the store refuses
        while any remain, and the forwarded error changes nothing. Either
        way no donation or report is left referring to a missing request. */
    method DeleteHelpRequest(userId: Option<string>, id: string, cascade: bool) returns (r: Result<(), Failure>)
      modifies this
      ensures r.Err? <==> old(OwnerCheck(userId, id, "delete")).Some? || (!cascade && old(HasDependents(id)))
      ensures old(OwnerCheck(userId, id, "delete")).Some? ==> r == Err(old(OwnerCheck(userId, id, "delete")).value)
      ensures old(OwnerCheck(userId, id, "delete")).None? && !cascade && old(HasDependents(id))
              ==> r == Err(ForeignKeyFailure)
      ensures r.Err? ==> requests == old(requests) && donations == old(donations) && reports == old(reports)
      ensures r.Ok? ==> requests == Lists.Filter(old(requests), (x: HelpRequest) => x.id != id)
      ensures r.Ok? && cascade ==>
        donations == Lists.Filter(old(donations), (d: Donation) => d.helpRequestId != id)
        && reports == Lists.Filter(old(reports), (p: Report) => p.helpRequestId != id)
      ensures r.Ok? && !cascade ==> donations == old(donations) && reports == old(reports)
      ensures r.Ok? ==> Find(id).None? && !HasDependents(id)
      ensures old(Linked()) ==> Linked()
    {
      var denied := OwnerCheck(userId, id, "delete");
      if denied.Some? {
        return Err(denied.value);
      }
      if !cascade && HasDependents(id) {
        return Err(ForeignKeyFailure);
      }
      Remove(id, cascade);
      r := Ok(());
    }
  }

  /** The fields an update may carry (`neededBy` already read as a time). */
  datatype HelpRequestPatch = HelpRequestPatch(
    title: Option<string>, description: Option<string>, category: Option<string>,
    quantity: Option<real>, unit: Option<string>, contactName: Option<string>,
    contactEmail: Option<string>, contactPhone: Option<string>, status: Option<string>,
    neededBy: Option<int>)

  /** The request with each supplied field replaced; id and owner never
      change. */
  function ApplyPatch(r: HelpRequest, p: HelpRequestPatch): (u: HelpRequest)
    ensures u.id == r.id && u.userId == r.userId && u.createdAt == r.createdAt
    ensures u.district == r.district && u.division == r.division
    ensures p.title.Some? ==> u.title == p.title.value
    ensures p.description.Some? ==> u.description == p.description.value
    ensures p.category.Some? ==> u.category == p.category.value
    ensures p.quantity.Some? ==> u.quantity == p.quantity
    ensures p.unit.Some? ==> u.unit == p.unit
    ensures p.contactName.Some? ==> u.contactName == p.contactName.value
    ensures p.contactEmail.Some? ==> u.contactEmail == p.contactEmail
    ensures p.contactPhone.Some? ==> u.contactPhone == p.contactPhone
    ensures p.status.Some? ==> u.status == p.status.value
    ensures p.neededBy.Some? ==> u.neededBy == p.neededBy.value
  {
    HelpRequest(r.id, r.userId, p.title.GetOr(r.title), p.description.GetOr(r.description),
                p.category.GetOr(r.category), if p.quantity.Some? then p.quantity else r.quantity,
                if p.unit.Some? then p.unit else r.unit, r.district, r.division,
                p.contactName.GetOr(r.contactName),
                if p.contactEmail.Some? then p.contactEmail else r.contactEmail,
                if p.contactPhone.Some? then p.contactPhone else r.contactPhone,
                p.status.GetOr(r.status), r.createdAt, p.neededBy.GetOr(r.neededBy))
  }

  /** A field the update does not carry keeps its value, so an empty
      update changes nothing. */
  lemma ApplyPatchKeeps(r: HelpRequest, p: HelpRequestPatch)
    ensures var u := ApplyPatch(r, p);
      (p.title.None? ==> u.title == r.title)
      && (p.description.None? ==> u.description == r.description)
      && (p.category.None? ==> u.category == r.category)
      && (p.quantity.None? ==> u.quantity == r.quantity)
      && (p.unit.None? ==> u.unit == r.unit)
      && (p.contactName.None? ==> u.contactName == r.contactName)
      && (p.contactEmail.None? ==> u.contactEmail == r.contactEmail)
      && (p.contactPhone.None? ==> u.contactPhone == r.contactPhone)
      && (p.status.None? ==> u.status == r.status)
      && (p.neededBy.None? ==> u.neededBy == r.neededBy)
    ensures p == HelpRequestPatch(None, None, None, None, None, None, None, None, None, None) ==> ApplyPatch(r, p) == r
  {
  }

  function FindIn(s: seq<HelpRequest>, id: string): (r: Option<HelpRequest>)
    ensures r.Some? <==> exists i :: 0 <= i < |s| && s[i].id == id
    ensures r.Some? ==> r.value in s && r.value.id == id
  {
    if s == [] then None
    else if s[0].id == id then Some(s[0])
    else
      var r := FindIn(s[1..], id);
      assert forall i :: 1 <= i < |s| ==> s[i] == s[1..][i - 1];
      r
  }

  /** Tables with the same ids position by position find the same ids. */
  lemma FindSameIds(s: seq<HelpRequest>, t: seq<HelpRequest>, id: string)
    requires |s| == |t| && forall i :: 0 <= i < |s| ==> s[i].id == t[i].id
    requires FindIn(s, id).Some?
    ensures FindIn(t, id).Some?
  {
    var i :| 0 <= i < |s| && s[i].id == id;
    assert t[i].id == id;
  }

  /** Every donation and report in `ds` and `ps` refers to a request of `rs`. */
  ghost predicate LinkedIn(rs: seq<HelpRequest>, ds: seq<Donation>, ps: seq<Report>) {
    (forall i :: 0 <= i < |ds| ==> FindIn(rs, ds[i].helpRequestId).Some?)
    && (forall i :: 0 <= i < |ps| ==> FindIn(rs, ps[i].helpRequestId).Some?)
  }

  /** Some donation of `ds` or report of `ps` refers to request `id`. */
  predicate Refers(ds: seq<Donation>, ps: seq<Report>, id: string) {
    (exists i :: 0 <= i < |ds| && ds[i].helpRequestId == id)
    || (exists i :: 0 <= i < |ps| && ps[i].helpRequestId == id)
  }

  /** Removing request `id`, with its donations and reports under a
      cascade, leaves nothing referring to it and keeps linked tables
      linked. */
  lemma RemoveLinked(rs: seq<HelpRequest>, ds: seq<Donation>, ps: seq<Report>, id: string, cascade: bool)
    requires !cascade ==> !Refers(ds, ps, id)
    ensures var ds' := if cascade then Lists.Filter(ds, (d: Donation) => d.helpRequestId != id) else ds;
            var ps' := if cascade then Lists.Filter(ps, (p: Report) => p.helpRequestId != id) else ps;
            !Refers(ds', ps', id)
            && (LinkedIn(rs, ds, ps) ==> LinkedIn(Lists.Filter(rs, (x: HelpRequest) => x.id != id), ds', ps'))
  {
    var ds' := if cascade then Lists.Filter(ds, (d: Donation) => d.helpRequestId != id) else ds;
    var ps' := if cascade then Lists.Filter(ps, (p: Report) => p.helpRequestId != id) else ps;
    assert forall i :: 0 <= i < |ds'| ==> ds'[i].helpRequestId != id;
    assert forall i :: 0 <= i < |ps'| ==> ps'[i].helpRequestId != id;
    if LinkedIn(rs, ds, ps) {
      assert LinkedIn(rs, ds', ps');
      RemoveKeepsLinked(rs, ds', ps', id);
    }
  }

  /** With nothing referring to `id`, removing request `id` keeps the
      tables linked. */
  lemma RemoveKeepsLinked(rs: seq<HelpRequest>, ds: seq<Donation>, ps: seq<Report>, id: string)
    requires LinkedIn(rs, ds, ps)
    requires forall i :: 0 <= i < |ds| ==> ds[i].helpRequestId != id
    requires forall i :: 0 <= i < |ps| ==> ps[i].helpRequestId != id
    ensures LinkedIn(Lists.Filter(rs, (x: HelpRequest) => x.id != id), ds, ps)
  {
    forall i | 0 <= i < |ds| ensures FindIn(Lists.Filter(rs, (x: HelpRequest) => x.id != id), ds[i].helpRequestId).Some? {
      FindAfterRemove(rs, id, ds[i].helpRequestId);
    }
    forall i | 0 <= i < |ps| ensures FindIn(Lists.Filter(rs, (x: HelpRequest) => x.id != id), ps[i].helpRequestId).Some? {
      FindAfterRemove(rs, id, ps[i].helpRequestId);
    }
  }

  /** After removing the requests with id `id`, none is found. */
  lemma FindRemoved(s: seq<HelpRequest>, id: string)
    ensures FindIn(Lists.Filter(s, (x: HelpRequest) => x.id != id), id).None?
  {
  }

  /** Removing the requests with id `id` keeps every other id findable. */
  lemma FindAfterRemove(s: seq<HelpRequest>, id: string, other: string)
    requires FindIn(s, other).Some? && other != id
    ensures FindIn(Lists.Filter(s, (x: HelpRequest) => x.id != id), other).Some?
  {
    var x := FindIn(s, other).value;
    var i :| 0 <= i < |s| && s[i] == x;
    var f := Lists.Filter(s, (x: HelpRequest) => x.id != id);
    assert x in f;
    var j :| 0 <= j < |f| && f[j] == x;
  }

  /** A request of the fetched page is shown exactly when it has fewer than
      five fraud reports (the total, counted before this filter, still
      includes the hidden ones). */
  lemma VisibleDropsOnlyHidden(store: CommunityStore, page: seq<HelpRequest>, x: HelpRequest)
    requires x in page
    ensures store.View(x).fraudReports < HideThreshold <==> store.View(x) in store.Visible(page)
  {
    var i :| 0 <= i < |page| && page[i] == x;
    assert store.Views(page)[i] == store.View(x);
  }

  /** Every view of a listing belongs to a request of the page and carries
      that request's own report counts and donations. */
  lemma VisibleAreViews(store: CommunityStore, page: seq<HelpRequest>)
    ensures forall i :: 0 <= i < |store.Visible(page)| ==>
      store.Visible(page)[i].request in page && store.Visible(page)[i] == store.View(store.Visible(page)[i].request)
  {
    var all := store.Views(page);
    var vs := store.Visible(page);
    forall i | 0 <= i < |vs| ensures vs[i].request in page && vs[i] == store.View(vs[i].request) {
      assert vs[i] in all;
      var j :| 0 <= j < |all| && all[j] == vs[i];
      assert all[j] == store.View(page[j]) && all[j].request == page[j];
    }
  }

  /** A listing is sorted by the order the query asks for. */
  lemma PageSorted(store: CommunityStore, w: Where, o: SortOrder, skip: nat, take: nat)
    ensures Lists.SortedBy(store.PageOf(w, o, skip, take), Before(o))
  {
    var all := Lists.Sort(Lists.Filter(store.requests, (r: HelpRequest) => Satisfies(w, r)), Before(o));
    BeforeTotal(o);
    Lists.SortSorted(Lists.Filter(store.requests, (r: HelpRequest) => Satisfies(w, r)), Before(o));
    var pg := Window(all, skip, take);
    forall i, j | 0 <= i < j < |pg| ensures Before(o)(pg[i], pg[j]) {
      assert pg[i] == all[skip + i] && pg[j] == all[skip + j];
    }
  }

  /** Every request on a page satisfies the filters. */
  lemma PageFiltered(store: CommunityStore, w: Where, o: SortOrder, skip: nat, take: nat)
    ensures forall i :: 0 <= i < |store.PageOf(w, o, skip, take)| ==> Satisfies(w, store.PageOf(w, o, skip, take)[i])
  {
    var sel := Lists.Filter(store.requests, (r: HelpRequest) => Satisfies(w, r));
    var all := Lists.Sort(sel, Before(o));
    forall i | 0 <= i < |Window(all, skip, take)| ensures Satisfies(w, Window(all, skip, take)[i]) {
      var x := all[skip + i];
      assert x in multiset(all);
      assert x in multiset(sel);
      assert x in sel;
    }
  }
}

=== FILE: community_validator.dfy ===
/** The zod schemas for help requests, donations and reports. `isEmail` and
    `isCuid` stand for zod's built-in e-mail and cuid formats. */
module CommunityValidator {
  import opened Wrappers
  import opened Json

  /** The units of `z.enum(['kg', 'gm', 'ltr', 'pcs'])`. */
  const Units: set<string> := {"kg", "gm", "ltr", "pcs"}

  const Statuses: set<string> := {"open", "fulfilled", "closed"}

  const ReportTypes: set<string> := {"fraud", "trusted"}

  predicate IsUnit(v: Value) { OneOf(v, Units) }

  /** `createHelpRequestSchema`. */
  predicate CreateHelpRequestOk(o: Object, isEmail: string -> bool) {
    Required(o, "title", v => StrLen(v, 3, 200))
    && Required(o, "description", v => StrLen(v, 10, 2000))
    && Required(o, "category", v => StrMin(v, 1))
    && Optional(o, "quantity", Positive)
    && Optional(o, "unit", IsUnit)
    && Optional(o, "district", IsStr)
    && Optional(o, "division", IsStr)
    && Required(o, "contactName", v => StrMin(v, 1))
    && Optional(o, "contactEmail", v => StrFormat(v, isEmail))
    && Optional(o, "contactPhone", IsStr)
    && Optional(o, "neededBy", IsStr)
  }

  /** `updateHelpRequestSchema`: every field optional, and the title and
      description bounds stricter than on create. */
  predicate UpdateHelpRequestOk(o: Object, isEmail: string -> bool, isDateTime: string -> bool) {
    Optional(o, "title", v => StrLen(v, 5, 200))
    && Optional(o, "description", v => StrLen(v, 20, 2000))
    && Optional(o, "category", v => StrMin(v, 1))
    && Optional(o, "quantity", Positive)
    && Optional(o, "unit", IsUnit)
    && Optional(o, "contactName", v => StrMin(v, 1))
    && Optional(o, "contactEmail", v => StrFormat(v, isEmail))
    && Optional(o, "contactPhone", IsStr)
    && Optional(o, "neededBy", v => StrFormat(v, isDateTime))
    && Optional(o, "status", v => OneOf(v, Statuses))
  }

  /** A donation after `createDonationSchema.parse`. */
  datatype DonationInput = DonationInput(helpRequestId: string, message: Option<string>,
                                         quantity: Option<real>, unit: Option<string>,
                                         contactInfo: Option<string>, anonymous: bool)

  predicate CreateDonationOk(o: Object, isCuid: string -> bool) {
    Required(o, "helpRequestId", v => StrFormat(v, isCuid))
    && Optional(o, "message", v => StrMax(v, 500))
    && Optional(o, "quantity", Positive)
    && Optional(o, "unit", IsUnit)
    && Optional(o, "contactInfo", v => StrMax(v, 200))
    && Optional(o, "anonymous", IsBool)
  }

  /** `createDonationSchema.parse`: succeeds exactly on valid bodies, keeps
      the bounds, and fills in `anonymous` as `false` when absent. */
  function ParseDonation(o: Object, isCuid: string -> bool): (r: Option<DonationInput>)
    ensures r.Some? <==> CreateDonationOk(o, isCuid)
    ensures r.Some? ==>
      isCuid(r.value.helpRequestId)
      && (r.value.message.Some? ==> |r.value.message.value| <= 500)
      && (r.value.contactInfo.Some? ==> |r.value.contactInfo.value| <= 200)
      && (r.value.quantity.Some? ==> r.value.quantity.value > 0.0)
      && (r.value.unit.Some? ==> r.value.unit.value in Units)
      && r.value.anonymous == ("anonymous" in o && o["anonymous"] == Bool(true))
    ensures r.Some? ==>
      o["helpRequestId"] == Str(r.value.helpRequestId) && StrField(o, "message", r.value.message)
      && NumField(o, "quantity", r.value.quantity) && StrField(o, "unit", r.value.unit)
      && StrField(o, "contactInfo", r.value.contactInfo)
  {
    if !CreateDonationOk(o, isCuid) then None
    else
      Some(DonationInput(o["helpRequestId"].s, OptStr(o, "message"), OptNum(o, "quantity"),
                         OptStr(o, "unit"), OptStr(o, "contactInfo"),
                         "anonymous" in o && o["anonymous"].b))
  }

  /** A report after `createReportSchema.parse`. */
  datatype ReportInput = ReportInput(helpRequestId: string, kind: string, reason: Option<string>)

  predicate CreateReportOk(o: Object, isCuid: string -> bool) {
    Required(o, "helpRequestId", v => StrFormat(v, isCuid))
    && Required(o, "type", v => OneOf(v, ReportTypes))
    && Optional(o, "reason", v => StrMax(v, 500))
  }

  /** `createReportSchema.parse`: the type is fraud or trusted and the
      reason at most 500 characters. */
  function ParseReport(o: Object, isCuid: string -> bool): (r: Option<ReportInput>)
    ensures r.Some? <==> CreateReportOk(o, isCuid)
    ensures r.Some? ==>
      (r.value.kind == "fraud" || r.value.kind == "trusted")
      && (r.value.reason.Some? ==> |r.value.reason.value| <= 500)
    ensures r.Some? ==>
      o["helpRequestId"] == Str(r.value.helpRequestId) && o["type"] == Str(r.value.kind)
      && StrField(o, "reason", r.value.reason)
  {
    if !CreateReportOk(o, isCuid) then None
    else Some(ReportInput(o["helpRequestId"].s, o["type"].s, OptStr(o, "reason")))
  }
}

=== FILE: community_view.dfy ===
/** The community page of the client: the score that ranks help requests
    for the current user, the ten best matches, the trusted and suspicious
    flags, and the guard on a new help request. Times are milliseconds;
    `now` stands for `Date.now()`. */
module CommunityView {
  import opened Wrappers
  import Lists
  import opened ClientData

  /** A help request as the page receives it from the server. */
  datatype HelpRequest = HelpRequest(id: string, district: Option<string>, category: string,
                                     urgencyLevel: string, trustedReports: nat, fraudReports: nat,
                                     createdAt: int)

  /** `trustedReports - fraudReports >= 3`. */
  predicate IsTrusted(r: HelpRequest) { r.trustedReports - r.fraudReports >= 3 }

  /** `fraudReports >= 2`. */
  predicate IsSuspicious(r: HelpRequest) { r.fraudReports >= 2 }

  /** Whole days since creation, rounded down. */
  function DaysOld(r: HelpRequest, now: int): int {
    (now - r.createdAt) / DayMillis
  }

  /** `{ critical: 25, high: 15, medium: 10, low: 5 }[level] || 0`. */
  function UrgencyPoints(level: string): (p: int)
    ensures 0 <= p <= 25
    ensures p == 25 <==> level == "critical"
  {
    match level
    case "critical" => 25
    case "high" => 15
    case "medium" => 10
    case "low" => 5
    case _ => 0
  }

  /** The user's district equals the request's. The server sends a
      missing district as `null`, which neither a user's district nor the
      `undefined` of a missing user equals, so neither case matches. */
  predicate SameDistrict(user: Option<User>, r: HelpRequest) {
    user.Some? && r.district.Some? && user.value.location.district == r.district.value
  }

  predicate PrefersCategory(user: Option<User>, r: HelpRequest) {
    user.Some? && r.category in user.value.dietaryPreferences
  }

  function Max(a: int, b: int): int { if a < b then b else a }

  /** The score as a sum of its independent parts, floored at zero. */
  function Score(user: Option<User>, r: HelpRequest, now: int): int {
    Max(0, (if SameDistrict(user, r) then 30 else 0)
           + (if PrefersCategory(user, r) then 20 else 0)
           + UrgencyPoints(r.urgencyLevel)
           + (if IsTrusted(r) then 10 else 0) - (if IsSuspicious(r) then 15 else 0)
           + Max(0, 10 - DaysOld(r, now)))
  }

  /** `calculateMatchScore`: the score built up step by step. */
  method MatchScore(user: Option<User>, r: HelpRequest, now: int) returns (score: int)
    ensures score == Score(user, r, now)
    ensures 0 <= score
    ensures DaysOld(r, now) >= 0 ==> score <= 95
  {
    score := 0;
    if user.Some? && r.district.Some? && user.value.location.district == r.district.value {
      score := score + 30;
    }
    if user.Some? && r.category in user.value.dietaryPreferences {
      score := score + 20;
    }
    score := score + UrgencyPoints(r.urgencyLevel);
    var trustScore := r.trustedReports - r.fraudReports;
    if trustScore >= 3 {
      score := score + 10;
    }
    if r.fraudReports >= 2 {
      score := score - 15;
    }
    var daysOld := (now - r.createdAt) / DayMillis;
    score := score + Max(0, 10 - daysOld);
    score := Max(0, score);
  }

  /** The top score, 95, needs a fresh (less than a day old), critical,
      trusted, not suspicious request in the user's district and of a
      preferred category. */
  lemma TopScore(user: Option<User>, r: HelpRequest, now: int)
    requires DaysOld(r, now) >= 0
    ensures Score(user, r, now) == 95 <==>
      SameDistrict(user, r) && PrefersCategory(user, r) && r.urgencyLevel == "critical"
      && IsTrusted(r) && !IsSuspicious(r) && DaysOld(r, now) == 0
  {
  }

  /** Reports move the score the way they read: one more fraud report
      never raises it, one more trusted report never lowers it, and a
      request is trusted and suspicious at once only with five or more
      trusted reports. */
  lemma ReportsMonotone(user: Option<User>, r: HelpRequest, now: int)
    ensures Score(user, r.(fraudReports := r.fraudReports + 1), now) <= Score(user, r, now)
    ensures Score(user, r.(trustedReports := r.trustedReports + 1), now) >= Score(user, r, now)
    ensures IsTrusted(r) && IsSuspicious(r) ==> r.trustedReports >= 5
  {
  }

  /** A request with its matching score. */
  datatype Scored = Scored(request: HelpRequest, score: int)

  function ByScoreDesc(): (Scored, Scored) -> bool {
    (a: Scored, b: Scored) => a.score >= b.score
  }

  lemma ByScoreDescTotal()
    ensures Lists.TotalPreorder(ByScoreDesc())
  {
  }

  function ScoredAll(user: Option<User>, requests: seq<HelpRequest>, now: int): (s: seq<Scored>)
    ensures |s| == |requests|
    ensures forall i :: 0 <= i < |s| ==> s[i] == Scored(requests[i], Score(user, requests[i], now))
  {
    seq(|requests|, i requires 0 <= i < |requests| => Scored(requests[i], Score(user, requests[i], now)))
  }

  /** `getMatchedRequests`: the requests by non-increasing score, the first
      ten. */
  function MatchedRequests(user: Option<User>, requests: seq<HelpRequest>, now: int): (r: seq<Scored>)
    ensures |r| == if |requests| < 10 then |requests| else 10
    ensures Lists.SortedBy(r, ByScoreDesc())
    ensures forall i :: 0 <= i < |r| ==> r[i].score == Score(user, r[i].request, now) && r[i].request in requests
  {
    var all := ScoredAll(user, requests, now);
    var sorted := Lists.Sort(all, ByScoreDesc());
    ByScoreDescTotal();
    Lists.SortSorted(all, ByScoreDesc());
    forall i | 0 <= i < |sorted| ensures sorted[i] in all {
      assert sorted[i] in multiset(all);
    }
    Lists.Take(sorted, 10)
  }

  /** No request left out of the ten scores higher than the last one
      shown: whatever the sort leaves after the tenth place scores at most
      the tenth's score. */
  lemma {:induction false} MatchedAreBest(user: Option<User>, requests: seq<HelpRequest>, now: int)
    requires |requests| > 10
    ensures var sorted := Lists.Sort(ScoredAll(user, requests, now), ByScoreDesc());
            MatchedRequests(user, requests, now) == sorted[..10]
            && multiset(ScoredAll(user, requests, now)) == multiset(sorted[..10]) + multiset(sorted[10..])
            && forall j :: 10 <= j < |sorted| ==> sorted[j].score <= sorted[9].score
  {
    var all := ScoredAll(user, requests, now);
    var sorted := Lists.Sort(all, ByScoreDesc());
    ByScoreDescTotal();
    Lists.SortSorted(all, ByScoreDesc());
    assert sorted == sorted[..10] + sorted[10..];
    assert Lists.Take(sorted, 10) == sorted[..10];
  }

  /** The help-request form as the page holds it. */
  datatype Form = Form(itemName: string, category: string, quantityNeeded: string, unit: string,
                       urgencyLevel: string, description: string, contactName: string, contactEmail: string,
                       contactPhone: string, district: string, division: string, neededBy: string)

  /** What the page sends for a new help request: empty optional fields
      are left out. */
  datatype Draft = Draft(title: string, category: string, quantity: string, unit: string,
                         description: Option<string>, contactName: string, contactEmail: string,
                         contactPhone: Option<string>, district: Option<string>, division: Option<string>,
                         neededBy: Option<string>)

  /** The form after a submission, prefilled from the current user. */
  function EmptyForm(user: Option<User>): Form {
    var name := if user.Some? then user.value.name else "";
    var email := if user.Some? then user.value.email else "";
    var district := if user.Some? then user.value.location.district else "";
    var division := if user.Some? then user.value.location.division else "";
    Form("", "", "", "", "medium", "", name, email, "", district, division, "")
  }

  /** `handleSubmitHelpRequest`: nothing is sent, and the form is kept,
      unless item name, category, quantity and unit are all filled in;
      otherwise the draft is sent and the form reset. */
  function Submit(form: Form, user: Option<User>): (r: (Option<Draft>, Form))
    ensures r.0.Some? <==> form.itemName != [] && form.category != [] && form.quantityNeeded != [] && form.unit != []
    ensures r.0.None? ==> r.1 == form
    ensures r.0.Some? ==> r.0.value.title == form.itemName && r.1 == EmptyForm(user)
    ensures r.0.Some? ==> r.0.value.category == form.category && r.0.value.quantity == form.quantityNeeded
                          && r.0.value.unit == form.unit
                          && r.0.value.contactName == form.contactName && r.0.value.contactEmail == form.contactEmail
    ensures r.0.Some? ==> (r.0.value.description.Some? <==> form.description != [])
                          && (r.0.value.contactPhone.Some? <==> form.contactPhone != [])
                          && (r.0.value.district.Some? <==> form.district != [])
                          && (r.0.value.division.Some? <==> form.division != [])
                          && (r.0.value.neededBy.Some? <==> form.neededBy != [])
    ensures r.0.Some? ==> (r.0.value.description.Some? ==> r.0.value.description.value == form.description)
                          && (r.0.value.contactPhone.Some? ==> r.0.value.contactPhone.value == form.contactPhone)
                          && (r.0.value.district.Some? ==> r.0.value.district.value == form.district)
                          && (r.0.value.division.Some? ==> r.0.value.division.value == form.division)
                          && (r.0.value.neededBy.Some? ==> r.0.value.neededBy.value == form.neededBy)
  {
    if form.itemName == [] || form.category == [] || form.quantityNeeded == [] || form.unit == [] then
      (None, form)
    else
      (Some(Draft(form.itemName, form.category, form.quantityNeeded, form.unit, NonEmpty(form.description),
                  form.contactName, form.contactEmail, NonEmpty(form.contactPhone), NonEmpty(form.district),
                  NonEmpty(form.division), NonEmpty(form.neededBy))),
       EmptyForm(user))
  }
}

=== FILE: counting.dfy ===
/** Counting occurrences into a dictionary, the shape of
    `list.reduce((acc, x) => { acc[x] = (acc[x] || 0) + 1; return acc }, {})`,
    and the fact that the counts add up to the length of the list. */
module Counting {
  import Lists

  /** `x => x === k`. */
  function Equals<T(==)>(k: T): T -> bool {
    x => x == k
  }

  /** The counts after visiting `s` from left to right. */
  function Tally<T(==)>(s: seq<T>): (m: map<T, nat>)
    decreases |s|
  {
    if s == [] then map[]
    else
      var m := Tally(s[..|s| - 1]);
      var x := s[|s| - 1];
      m[x := (if x in m then m[x] else 0) + 1]
  }

  /** One more element adds one to its own count. */
  function Bump<T>(m: map<T, nat>, x: T): map<T, nat> {
    m[x := (if x in m then m[x] else 0) + 1]
  }

  lemma TallySnoc<T>(s: seq<T>, x: T)
    ensures Tally(s + [x]) == Bump(Tally(s), x)
  {
    assert (s + [x])[..|s + [x]| - 1] == s;
  }

  /** The keys are exactly the values that occur, and each count is the
      number of occurrences. */
  lemma {:induction false} TallyCounts<T>(s: seq<T>)
    ensures forall k :: k in Tally(s) <==> k in s
    ensures forall k :: k in Tally(s) ==> Tally(s)[k] == Lists.Count(s, Equals(k))
    decreases |s|
  {
    if s != [] {
      var init, x := s[..|s| - 1], s[|s| - 1];
      assert s == init + [x];
      TallyCounts(init);
      TallySnoc(init, x);
      forall k | k in Tally(s) ensures Tally(s)[k] == Lists.Count(s, Equals(k)) {
        CountSnoc(init, x, k);
        if k !in Tally(init) {
          assert k == x;
          CountAbsent(init, k);
        }
      }
    }
  }

  /** A value that does not occur is counted zero times. */
  lemma {:induction false} CountAbsent<T>(s: seq<T>, k: T)
    requires k !in s
    ensures Lists.Count(s, Equals(k)) == 0
    decreases |s|
  {
    if s != [] {
      assert s[0] != k;
      assert forall y :: y in s[1..] ==> y in s;
      CountAbsent(s[1..], k);
    }
  }

  /** One more element adds one to the count of its own value only. */
  lemma CountSnoc<T>(init: seq<T>, x: T, k: T)
    ensures Lists.Count(init + [x], Equals(k)) == Lists.Count(init, Equals(k)) + (if x == k then 1 else 0)
  {
    var e := Equals(k);
    Lists.FilterAppend(init, [x], e);
    assert Lists.Count([x], e) == if x == k then 1 else 0 by {
      assert [x][1..] == [];
    }
  }

  /** The sum of `m`'s values over `keys`. */
  function SumOver<T>(keys: seq<T>, m: map<T, nat>): nat
    requires forall i :: 0 <= i < |keys| ==> keys[i] in m
    decreases |keys|
  {
    if keys == [] then 0 else SumOver(keys[..|keys| - 1], m) + m[keys[|keys| - 1]]
  }

  /** Changing a key outside `keys` does not change the sum. */
  lemma {:induction false} SumOverOther<T>(keys: seq<T>, m: map<T, nat>, x: T, v: nat)
    requires forall i :: 0 <= i < |keys| ==> keys[i] in m
    requires x !in keys
    ensures SumOver(keys, m[x := v]) == SumOver(keys, m)
    decreases |keys|
  {
    if keys != [] {
      SumOverOther(keys[..|keys| - 1], m, x, v);
    }
  }

  /** Bumping a key that occurs once in `keys` adds one to the sum. */
  lemma {:induction false} SumOverBump<T>(keys: seq<T>, m: map<T, nat>, x: T)
    requires forall i :: 0 <= i < |keys| ==> keys[i] in m
    requires Lists.NoDup(keys) && x in keys
    ensures SumOver(keys, Bump(m, x)) == SumOver(keys, m) + 1
    decreases |keys|
  {
    var init, last := keys[..|keys| - 1], keys[|keys| - 1];
    assert keys == init + [last];
    if last == x {
      assert x !in init;
      SumOverOther(init, m, x, m[x] + 1);
    } else {
      assert x in init;
      SumOverBump(init, m, x);
    }
  }

  /** Every distinct value has a count. */
  lemma DistinctCounted<T>(s: seq<T>)
    ensures forall i :: 0 <= i < |Lists.Distinct(s)| ==> Lists.Distinct(s)[i] in Tally(s)
  {
    TallyCounts(s);
  }

  /** The step of `TallySum` for a value seen before. */
  lemma SumStepSeen<T>(init: seq<T>, x: T)
    requires x in init
    requires forall i :: 0 <= i < |Lists.Distinct(init)| ==> Lists.Distinct(init)[i] in Tally(init)
    requires SumOver(Lists.Distinct(init), Tally(init)) == |init|
    ensures SumOver(Lists.Distinct(init + [x]), Tally(init + [x])) == |init| + 1
  {
    DistinctCounted(init);
    DistinctCounted(init + [x]);
    TallySnoc(init, x);
    Lists.DistinctSnoc(init, x);
    SumOverBump(Lists.Distinct(init), Tally(init), x);
  }

  /** The step of `TallySum` for a new value. */
  lemma SumStepNew<T>(init: seq<T>, x: T)
    requires x !in init
    requires forall i :: 0 <= i < |Lists.Distinct(init)| ==> Lists.Distinct(init)[i] in Tally(init)
    requires SumOver(Lists.Distinct(init), Tally(init)) == |init|
    ensures SumOver(Lists.Distinct(init + [x]), Tally(init + [x])) == |init| + 1
  {
    var d := Lists.Distinct(init);
    DistinctCounted(init);
    DistinctCounted(init + [x]);
    TallySnoc(init, x);
    TallyCounts(init);
    Lists.DistinctSnoc(init, x);
    assert x !in Tally(init);
    assert x !in d;
    SumOverOther(d, Tally(init), x, 1);
    assert (d + [x])[..|d + [x]| - 1] == d;
  }

  /** The counts, summed over the distinct values, give the length of the
      list. */
  lemma {:induction false} TallySum<T>(s: seq<T>)
    ensures forall i :: 0 <= i < |Lists.Distinct(s)| ==> Lists.Distinct(s)[i] in Tally(s)
    ensures SumOver(Lists.Distinct(s), Tally(s)) == |s|
    decreases |s|
  {
    DistinctCounted(s);
    if s != [] {
      var init, x := s[..|s| - 1], s[|s| - 1];
      assert s == init + [x];
      TallySum(init);
      if x in init {
        SumStepSeen(init, x);
      } else {
        SumStepNew(init, x);
      }
    }
  }
}

=== FILE: dashboard.dfy ===
/** The dashboard of the server-backed client: the recent logs, the
    inventory breakdown by category, the recommended resources with the
    reason shown under each, and the items about to expire. Times are
    milliseconds; `now` stands for `Date.now()`. */
module Dashboard {
  import Text
  import Lists
  import opened Counting
  import opened ClientData

  /** `[...foodLogs].reverse().slice(0, 5)`: the last five logs (all of
      them when there are fewer), the last one first. */
  function RecentLogs(logs: seq<FoodLog>): (r: seq<FoodLog>)
    ensures |r| == if |logs| < 5 then |logs| else 5
    ensures forall i :: 0 <= i < |r| ==> r[i] == logs[|logs| - 1 - i]
  {
    Lists.Take(Lists.Reverse(logs), 5)
  }

  function ItemCategories(inventory: seq<InventoryItem>): (c: seq<string>)
    ensures |c| == |inventory|
    ensures forall i :: 0 <= i < |inventory| ==> c[i] == inventory[i].category
  {
    seq(|inventory|, i requires 0 <= i < |inventory| => inventory[i].category)
  }

  function LogCategories(logs: seq<FoodLog>): (c: seq<string>)
    ensures |c| == |logs|
    ensures forall i :: 0 <= i < |logs| ==> c[i] == logs[i].category
  {
    seq(|logs|, i requires 0 <= i < |logs| => logs[i].category)
  }

  /** `categoryBreakdown`: each category of the inventory with the number
      of its items. */
  function CategoryBreakdown(inventory: seq<InventoryItem>): (m: map<string, nat>)
    ensures forall c :: c in m <==> c in ItemCategories(inventory)
    ensures forall c :: c in m ==> m[c] == Lists.Count(ItemCategories(inventory), Equals(c))
  {
    var cats := ItemCategories(inventory);
    TallyCounts(cats);
    Tally(cats)
  }

  /** The counts, one per category, add up to `totalItems`. */
  lemma BreakdownSumsToTotal(inventory: seq<InventoryItem>)
    ensures var keys := Lists.Distinct(ItemCategories(inventory));
            (forall i :: 0 <= i < |keys| ==> keys[i] in CategoryBreakdown(inventory))
            && SumOver(keys, CategoryBreakdown(inventory)) == |inventory|
  {
    TallySum(ItemCategories(inventory));
  }

  /** The categories of the inventory and of the logs together. */
  function RelatedCategories(inventory: seq<InventoryItem>, logs: seq<FoodLog>): (c: seq<string>)
    ensures forall k :: k in c <==> k in ItemCategories(inventory) || k in LogCategories(logs)
  {
    var all := ItemCategories(inventory) + LogCategories(logs);
    var d := Lists.Distinct(all);
    forall k ensures k in d <==> k in all {
      if k in d {
        var i :| 0 <= i < |d| && d[i] == k;
      }
      if k in all {
        var i :| 0 <= i < |all| && all[i] == k;
      }
    }
    d
  }

  /** The filter of `getRecommendations`: a dairy nutrition resource, or a
      vegetable, protein or grain resource by its title, when the user has
      that category; any sustainability resource. */
  predicate Qualifies(categories: seq<string>, r: Resource) {
    ("dairy" in categories && r.category == "nutrition" && Text.Contains(r.title, "Dairy"))
    || ("vegetable" in categories && Text.Contains(r.title, "Vegetable"))
    || ("protein" in categories && Text.Contains(r.title, "Protein"))
    || ("grain" in categories && Text.Contains(r.title, "Grain"))
    || r.category == "sustainability"
  }

  function QualifiesFor(categories: seq<string>): Resource -> bool {
    (r: Resource) => Qualifies(categories, r)
  }

  /** `getRecommendations`: the first four qualifying resources of the
      catalogue, in catalogue order. */
  function Recommendations(resources: seq<Resource>, inventory: seq<InventoryItem>, logs: seq<FoodLog>)
    : (r: seq<Resource>)
    ensures |r| <= 4
    ensures forall i :: 0 <= i < |r| ==> r[i] in resources && Qualifies(RelatedCategories(inventory, logs), r[i])
    ensures |r| == if Lists.Count(resources, QualifiesFor(RelatedCategories(inventory, logs))) < 4
                   then Lists.Count(resources, QualifiesFor(RelatedCategories(inventory, logs))) else 4
  {
    Lists.Take(Lists.Filter(resources, QualifiesFor(RelatedCategories(inventory, logs))), 4)
  }

  /** The recommendations keep the catalogue's order, and when at most
      four resources qualify every sustainability resource is among
      them, whatever the user's categories. */
  lemma RecommendationsInOrder(resources: seq<Resource>, inventory: seq<InventoryItem>, logs: seq<FoodLog>)
    ensures Lists.Subseq(Recommendations(resources, inventory, logs), resources)
    ensures Lists.Count(resources, QualifiesFor(RelatedCategories(inventory, logs))) <= 4 ==>
      forall i :: 0 <= i < |resources| && resources[i].category == "sustainability" ==>
        resources[i] in Recommendations(resources, inventory, logs)
  {
    var q := QualifiesFor(RelatedCategories(inventory, logs));
    var f := Lists.Filter(resources, q);
    Lists.FilterSubseq(resources, q);
    PrefixSubseq(f, resources, 4);
    if Lists.Count(resources, q) <= 4 {
      assert Recommendations(resources, inventory, logs) == f;
      forall i | 0 <= i < |resources| && resources[i].category == "sustainability"
        ensures resources[i] in Recommendations(resources, inventory, logs)
      {
        assert q(resources[i]);
        assert resources[i] in f;
      }
    }
  }

  /** The recommendations are the first qualifying resources: one that
      qualifies with fewer than four qualifying resources before it in the
      catalogue is always recommended. */
  lemma RecommendationsFirst(resources: seq<Resource>, inventory: seq<InventoryItem>, logs: seq<FoodLog>, i: nat)
    requires i < |resources| && Qualifies(RelatedCategories(inventory, logs), resources[i])
    requires Lists.Count(resources[..i], QualifiesFor(RelatedCategories(inventory, logs))) < 4
    ensures resources[i] in Recommendations(resources, inventory, logs)
  {
    Lists.TakeFilterFirst(resources, QualifiesFor(RelatedCategories(inventory, logs)), 4, i);
  }

  /** A prefix of a subsequence is a subsequence. */
  lemma {:induction false} PrefixSubseq<T>(a: seq<T>, b: seq<T>, n: nat)
    requires Lists.Subseq(a, b)
    ensures Lists.Subseq(Lists.Take(a, n), b)
    decreases |b|
  {
    if n < |a| && n > 0 {
      assert a[..n][1..] == a[1..][..n - 1];
      if a[0] == b[0] && Lists.Subseq(a[1..], b[1..]) {
        PrefixSubseq(a[1..], b[1..], n - 1);
      } else {
        PrefixSubseq(a, b[1..], n);
      }
    }
  }

  /** The label under a recommendation. */
  datatype Reason = DairyItems | Vegetables | ProteinItems | Grains | SustainabilityTip

  /** The first title rule whose category the user has, else the
      sustainability tip. */
  function ReasonFor(r: Resource, categories: seq<string>): (why: Reason)
    ensures why == DairyItems <==> Text.Contains(r.title, "Dairy") && "dairy" in categories
    ensures why == Vegetables <==> !(Text.Contains(r.title, "Dairy") && "dairy" in categories)
                                   && Text.Contains(r.title, "Vegetable") && "vegetable" in categories
    ensures why == SustainabilityTip <==>
      !(Text.Contains(r.title, "Dairy") && "dairy" in categories)
      && !(Text.Contains(r.title, "Vegetable") && "vegetable" in categories)
      && !(Text.Contains(r.title, "Protein") && "protein" in categories)
      && !(Text.Contains(r.title, "Grain") && "grain" in categories)
  {
    if Text.Contains(r.title, "Dairy") && "dairy" in categories then DairyItems
    else if Text.Contains(r.title, "Vegetable") && "vegetable" in categories then Vegetables
    else if Text.Contains(r.title, "Protein") && "protein" in categories then ProteinItems
    else if Text.Contains(r.title, "Grain") && "grain" in categories then Grains
    else SustainabilityTip
  }

  /** A recommendation labelled "Sustainability tip" qualified only as a
      sustainability resource. */
  lemma TipMeansSustainability(resources: seq<Resource>, inventory: seq<InventoryItem>, logs: seq<FoodLog>)
    ensures var cats := RelatedCategories(inventory, logs);
            var r := Recommendations(resources, inventory, logs);
            forall i :: 0 <= i < |r| && ReasonFor(r[i], cats) == SustainabilityTip ==> r[i].category == "sustainability"
  {
  }

  /** `expiringItems`: an estimate of at most a week, and at least seven
      tenths of it (rounded down) spent in the inventory. */
  predicate Expiring(now: int, item: InventoryItem) {
    var days := (now - item.dateAdded) / DayMillis;
    item.expirationEstimate <= 7 && days >= (7 * item.expirationEstimate) / 10
  }

  function ExpiringAt(now: int): InventoryItem -> bool {
    (item: InventoryItem) => Expiring(now, item)
  }

  function ExpiringItems(inventory: seq<InventoryItem>, now: int): (r: seq<InventoryItem>)
    ensures forall i :: 0 <= i < |r| ==> r[i] in inventory && r[i].expirationEstimate <= 7
    ensures forall i :: 0 <= i < |inventory| && Expiring(now, inventory[i]) ==> inventory[i] in r
    ensures forall i :: 0 <= i < |r| ==> Expiring(now, r[i])
  {
    Lists.Filter(inventory, ExpiringAt(now))
  }

  /** Time only adds to the expiring list: an item expiring now is still
      expiring later. */
  lemma ExpiringStays(inventory: seq<InventoryItem>, now: int, later: int)
    requires now <= later
    ensures forall i :: 0 <= i < |inventory| && Expiring(now, inventory[i]) ==> Expiring(later, inventory[i])
    ensures forall x :: x in ExpiringItems(inventory, now) ==> x in ExpiringItems(inventory, later)
  {
    forall x | x in ExpiringItems(inventory, now) ensures x in ExpiringItems(inventory, later) {
      DaysGrow(now - x.dateAdded, later - x.dateAdded);
    }
    forall i | 0 <= i < |inventory| && Expiring(now, inventory[i]) ensures Expiring(later, inventory[i]) {
      DaysGrow(now - inventory[i].dateAdded, later - inventory[i].dateAdded);
    }
  }

  lemma DaysGrow(a: int, b: int)
    requires a <= b
    ensures a / DayMillis <= b / DayMillis
  {
  }
}

=== FILE: fix_imports.dfy ===
/** The two import-fixing scripts: each walks a source tree, applies the
    rewrite of `ImportRewrite` to every `.ts`/`.tsx` file, writes a file back
    only when the rewrite changed it, and reports every file that could not
    be processed without stopping the walk.

    The disk is a `Disk` object whose `files` map paths to contents; the
    paths that cannot be read (missing or without permission, and for the
    Python script also a file that is not UTF-8, where the JavaScript read
    replaces the bad bytes instead) and those that cannot be written are
    fixed sets. `Run` is the specification of a
    walk: the outcome of processing a list of paths one after the other. */
module FixImports {
  import opened Wrappers
  import Text
  import Lists
  import opened ImportRewrite

  /** Python's text mode (universal newlines): `\r\n` and a lone `\r`
      both read as `\n`. */
  function UniversalNewlines(s: string): (r: string)
    ensures '\r' !in r
    ensures |r| <= |s|
    decreases |s|
  {
    if s == [] then []
    else if s[0] == '\r' then "\n" + UniversalNewlines(if |s| > 1 && s[1] == '\n' then s[2..] else s[1..])
    else [s[0]] + UniversalNewlines(s[1..])
  }

  /** A text without carriage returns reads as itself, so reading a file
      the Python script wrote gives back what it wrote. */
  lemma {:induction false} NewlinesKeepPlain(s: string)
    requires '\r' !in s
    ensures UniversalNewlines(s) == s
    decreases |s|
  {
    if s != [] {
      NewlinesKeepPlain(s[1..]);
    }
  }

  lemma NewlinesIdempotent(s: string)
    ensures UniversalNewlines(UniversalNewlines(s)) == UniversalNewlines(s)
  {
    NewlinesKeepPlain(UniversalNewlines(s));
  }

  /** The text a script reads from a file holding `raw`: the Python script
      opens it in text mode, the JavaScript one reads it as it is. */
  function TextOf(d: Dialect, raw: string): (t: string)
    ensures d == JavaScript ==> t == raw
    ensures d == Python ==> '\r' !in t && t == UniversalNewlines(raw)
  {
    match d
    case Python => UniversalNewlines(raw)
    case JavaScript => raw
  }

  class Disk {
    var files: map<string, string>
    const unreadable: set<string>
    const unwritable: set<string>

    constructor(contents: map<string, string>, noRead: set<string>, noWrite: set<string>)
      ensures files == contents && unreadable == noRead && unwritable == noWrite
    {
      files := contents;
      unreadable := noRead;
      unwritable := noWrite;
    }

    /** Read a whole file as script `d` reads it; `None` when reading
        raises. */
    method Read(d: Dialect, path: string) returns (r: Option<string>)
      ensures r.Some? <==> path in files && path !in unreadable
      ensures r.Some? ==> r.value == TextOf(d, files[path])
    {
      if path in files && path !in unreadable {
        r := Some(TextOf(d, files[path]));
      } else {
        r := None;
      }
    }

    /** Overwrite a file; `false` (and nothing written) when opening it for
        writing raises. */
    method Write(path: string, content: string) returns (ok: bool)
      modifies this
      ensures ok == (path !in unwritable)
      ensures files == if ok then old(files)[path := content] else old(files)
    {
      ok := path !in unwritable;
      if ok {
        files := files[path := content];
      }
    }
  }

  /** What processing one file does: rewrite it (`Fixed`), leave it alone
      because the rewrite changed nothing (`Unchanged`), or report it
      (`Failed`) because reading or writing raised. */
  datatype Outcome = Fixed(content: string) | Unchanged | Failed

  function ProcessFile(d: Dialect, files: map<string, string>, noRead: set<string>,
                       noWrite: set<string>, path: string): (o: Outcome)
    ensures o.Fixed? <==> path in files && path !in noRead && path !in noWrite
                          && Matches(d, TextOf(d, files[path])) != []
    ensures o.Fixed? ==> o.content == Rewrite(d, TextOf(d, files[path])) && o.content != TextOf(d, files[path])
    ensures o.Failed? <==> path !in files || path in noRead
                           || (path in noWrite && Matches(d, TextOf(d, files[path])) != [])
  {
    if path in files then RewriteChangesIffMatch(d, TextOf(d, files[path])); Step(d, files, noRead, noWrite, path)
    else Step(d, files, noRead, noWrite, path)
  }

  function Step(d: Dialect, files: map<string, string>, noRead: set<string>,
                noWrite: set<string>, path: string): Outcome
  {
    if path !in files || path in noRead then Failed
    else
      var content := TextOf(d, files[path]);
      var updated := Rewrite(d, content);
      if updated == content then Unchanged
      else if path in noWrite then Failed
      else Fixed(updated)
  }

  /** The disk after a walk, with the files fixed and the files reported,
      each in processing order. */
  datatype Report = Report(files: map<string, string>, fixed: seq<string>, failed: seq<string>)

  /** Record the outcome `o` of processing `p` in the report `r`. */
  function Apply(r: Report, p: string, o: Outcome): Report {
    match o
    case Fixed(c) => Report(r.files[p := c], r.fixed + [p], r.failed)
    case Unchanged => r
    case Failed => Report(r.files, r.fixed, r.failed + [p])
  }

  /** Processing `paths` one after the other. */
  function Run(d: Dialect, files: map<string, string>, noRead: set<string>,
               noWrite: set<string>, paths: seq<string>): Report
  {
    if paths == [] then Report(files, [], [])
    else
      var r := Run(d, files, noRead, noWrite, paths[..|paths| - 1]);
      var p := paths[|paths| - 1];
      Apply(r, p, ProcessFile(d, r.files, noRead, noWrite, p))
  }

  /** A walk changes no file it does not visit and creates no file. */
  lemma {:induction false} RunFrame(d: Dialect, files: map<string, string>, noRead: set<string>,
                                    noWrite: set<string>, paths: seq<string>)
    ensures Run(d, files, noRead, noWrite, paths).files.Keys == files.Keys
    ensures forall p :: p in files && p !in paths ==>
      Run(d, files, noRead, noWrite, paths).files[p] == files[p]
    decreases |paths|
  {
    if paths != [] {
      var init := paths[..|paths| - 1];
      RunFrame(d, files, noRead, noWrite, init);
      assert forall p :: p in init ==> p in paths;
    }
  }

  /** Every visited path is reported at most once, as fixed or as failed,
      and each fixed or failed path was visited. */
  lemma {:induction false} RunLogs(d: Dialect, files: map<string, string>, noRead: set<string>,
                                   noWrite: set<string>, paths: seq<string>)
    ensures var r := Run(d, files, noRead, noWrite, paths);
      |r.fixed| + |r.failed| <= |paths|
      && (forall i :: 0 <= i < |r.fixed| ==> r.fixed[i] in paths)
      && (forall i :: 0 <= i < |r.failed| ==> r.failed[i] in paths)
    decreases |paths|
  {
    if paths != [] {
      RunLogs(d, files, noRead, noWrite, paths[..|paths| - 1]);
      assert forall p :: p in paths[..|paths| - 1] ==> p in paths;
    }
  }

  /** When each file is visited once, its final content is the rewrite of
      its original content as read, unless it cannot be read or written, and
      it is listed as fixed exactly when it was written with a changed
      content. */
  lemma {:induction false} RunPointwise(d: Dialect, files: map<string, string>, noRead: set<string>,
                                        noWrite: set<string>, paths: seq<string>, p: string)
    requires Lists.NoDup(paths) && p in paths && p in files
    ensures var r := Run(d, files, noRead, noWrite, paths);
      p in r.files
      && r.files[p] == (if p in noRead || p in noWrite || Matches(d, TextOf(d, files[p])) == [] then files[p]
                        else Rewrite(d, TextOf(d, files[p])))
      && (p in r.fixed <==> p !in noRead && p !in noWrite && Matches(d, TextOf(d, files[p])) != [])
      && (p in r.failed <==> p in noRead || (p in noWrite && Matches(d, TextOf(d, files[p])) != []))
    decreases |paths|
  {
    var init := paths[..|paths| - 1];
    var last := paths[|paths| - 1];
    var r := Run(d, files, noRead, noWrite, init);
    assert Lists.NoDup(init);
    RunFrame(d, files, noRead, noWrite, init);
    RunLogs(d, files, noRead, noWrite, init);
    if p == last {
      assert p !in init by {
        forall i | 0 <= i < |init| ensures init[i] != p {
          assert init[i] == paths[i];
        }
      }
      RewriteChangesIffMatch(d, TextOf(d, files[p]));
    } else {
      assert p in init by {
        var i :| 0 <= i < |paths| && paths[i] == p;
        assert init[i] == p;
      }
      RunPointwise(d, files, noRead, noWrite, init, p);
    }
  }

  /** The fixed files are distinct when the visited paths are. */
  lemma {:induction false} RunFixedDistinct(d: Dialect, files: map<string, string>, noRead: set<string>,
                                            noWrite: set<string>, paths: seq<string>)
    requires Lists.NoDup(paths)
    ensures Lists.NoDup(Run(d, files, noRead, noWrite, paths).fixed)
    decreases |paths|
  {
    if paths != [] {
      var init := paths[..|paths| - 1];
      var last := paths[|paths| - 1];
      assert Lists.NoDup(init);
      RunFixedDistinct(d, files, noRead, noWrite, init);
      RunLogs(d, files, noRead, noWrite, init);
      assert last !in init by {
        forall i | 0 <= i < |init| ensures init[i] != last {
          assert init[i] == paths[i];
        }
      }
    }
  }

  /** A file the walk rewrites: readable, writable, and with a match. */
  predicate WillFix(d: Dialect, files: map<string, string>, noRead: set<string>,
                    noWrite: set<string>, p: string) {
    p in files && p !in noRead && p !in noWrite && Matches(d, TextOf(d, files[p])) != []
  }

  /** When each file is visited once, the fixed files (whose number is the
      Python script's `count`) are exactly the visited files with a match
      that can be read and written, in visiting order: one per file,
      however many imports it had. */
  lemma {:induction false} RunFixedAre(d: Dialect, files: map<string, string>, noRead: set<string>,
                                       noWrite: set<string>, paths: seq<string>)
    requires Lists.NoDup(paths)
    ensures Run(d, files, noRead, noWrite, paths).fixed
         == Lists.Filter(paths, p => WillFix(d, files, noRead, noWrite, p))
    decreases |paths|
  {
    var will := p => WillFix(d, files, noRead, noWrite, p);
    if paths != [] {
      var init := paths[..|paths| - 1];
      var last := paths[|paths| - 1];
      assert Lists.NoDup(init);
      RunFixedAre(d, files, noRead, noWrite, init);
      assert last !in init by {
        forall i | 0 <= i < |init| ensures init[i] != last {
          assert init[i] == paths[i];
        }
      }
      RunFixedStep(d, files, noRead, noWrite, init, last);
      assert paths == init + [last];
      Lists.FilterAppend(init, [last], will);
      assert Lists.Filter([last], will) == if will(last) then [last] else [];
    }
  }

  /** A path not visited before is added to the fixed list exactly when
      it will be fixed. */
  lemma RunFixedStep(d: Dialect, files: map<string, string>, noRead: set<string>,
                     noWrite: set<string>, init: seq<string>, last: string)
    requires last !in init
    ensures Run(d, files, noRead, noWrite, init + [last]).fixed
         == Run(d, files, noRead, noWrite, init).fixed
            + (if WillFix(d, files, noRead, noWrite, last) then [last] else [])
  {
    var paths := init + [last];
    assert paths[..|paths| - 1] == init && paths[|paths| - 1] == last;
    RunFrame(d, files, noRead, noWrite, init);
    var r := Run(d, files, noRead, noWrite, init);
    var o := ProcessFile(d, r.files, noRead, noWrite, last);
    assert o.Fixed? <==> WillFix(d, files, noRead, noWrite, last);
  }

  /** A walk over `a` and then `b` is one walk over `a + b`. */
  lemma {:induction false} RunAppend(d: Dialect, files: map<string, string>, noRead: set<string>,
                                     noWrite: set<string>, a: seq<string>, b: seq<string>)
    ensures var r1 := Run(d, files, noRead, noWrite, a);
      var r2 := Run(d, r1.files, noRead, noWrite, b);
      Run(d, files, noRead, noWrite, a + b) == Report(r2.files, r1.fixed + r2.fixed, r1.failed + r2.failed)
    decreases |b|
  {
    var r1 := Run(d, files, noRead, noWrite, a);
    if b == [] {
      assert a + b == a;
    } else {
      var init := b[..|b| - 1];
      var p := b[|b| - 1];
      assert (a + b)[..|a + b| - 1] == a + init;
      assert (a + b)[|a + b| - 1] == p;
      RunAppend(d, files, noRead, noWrite, a, init);
      var r2 := Run(d, r1.files, noRead, noWrite, init);
      var o := ProcessFile(d, r2.files, noRead, noWrite, p);
      assert Run(d, files, noRead, noWrite, a + b)
          == Apply(Report(r2.files, r1.fixed + r2.fixed, r1.failed + r2.failed), p, o);
      assert r1.fixed + (r2.fixed + [p]) == (r1.fixed + r2.fixed) + [p];
      assert r1.failed + (r2.failed + [p]) == (r1.failed + r2.failed) + [p];
    }
  }

  /** The body of both scripts' `try` for one path: read, rewrite, and write
      back only when the content changed. */
  method ProcessPath(d: Dialect, disk: Disk, path: string) returns (o: Outcome)
    modifies disk
    ensures o == ProcessFile(d, old(disk.files), disk.unreadable, disk.unwritable, path)
    ensures disk.files == Apply(Report(old(disk.files), [], []), path, o).files
  {
    var content := disk.Read(d, path);
    if content.None? {
      return Failed;
    }
    var updated := Rewrite(d, content.value);
    if content.value == updated {
      return Unchanged;
    }
    var ok := disk.Write(path, updated);
    o := if ok then Fixed(updated) else Failed;
  }

  predicate IsTypeScript(name: string) {
    Text.EndsWith(name, ".tsx") || Text.EndsWith(name, ".ts")
  }

  /** `os.path.join` / `path.join` of a directory and an entry name. */
  function Join(dir: string, name: string): string {
    dir + "/" + name
  }

  // ---------------------------------------------------------------------
  // fix_imports.py: `os.walk` lists each directory with the names of its
  // files; the script visits them in that order.

  datatype Listing = Listing(dir: string, names: seq<string>)

  /** The TypeScript files among `names`, joined to `dir`, in order. */
  function TsPathsIn(dir: string, names: seq<string>): seq<string> {
    if names == [] then []
    else
      var n := names[|names| - 1];
      TsPathsIn(dir, names[..|names| - 1]) + (if IsTypeScript(n) then [Join(dir, n)] else [])
  }

  /** The Python script visits exactly the `.ts` and `.tsx` files of a
      directory listing. */
  lemma {:induction false} TsPathsInMembers(dir: string, names: seq<string>, p: string)
    ensures p in TsPathsIn(dir, names) <==> exists n :: n in names && IsTypeScript(n) && p == Join(dir, n)
    decreases |names|
  {
    if names != [] {
      var init := names[..|names| - 1];
      var last := names[|names| - 1];
      assert names == init + [last];
      TsPathsInMembers(dir, init, p);
    }
  }

  /** The paths the Python script processes, in order. */
  function WalkPaths(walk: seq<Listing>): seq<string> {
    if walk == [] then []
    else
      var l := walk[|walk| - 1];
      WalkPaths(walk[..|walk| - 1]) + TsPathsIn(l.dir, l.names)
  }

  lemma TsPathsSnoc(dir: string, names: seq<string>, j: nat)
    requires j < |names|
    ensures TsPathsIn(dir, names[..j + 1])
         == TsPathsIn(dir, names[..j]) + (if IsTypeScript(names[j]) then [Join(dir, names[j])] else [])
  {
    assert names[..j + 1][..j] == names[..j];
  }

  lemma WalkPathsSnoc(walk: seq<Listing>, i: nat)
    requires i < |walk|
    ensures WalkPaths(walk[..i + 1]) == WalkPaths(walk[..i]) + TsPathsIn(walk[i].dir, walk[i].names)
  {
    assert walk[..i + 1][..i] == walk[..i];
  }

  lemma RunSnoc(d: Dialect, files: map<string, string>, noRead: set<string>,
                noWrite: set<string>, done: seq<string>, p: string)
    ensures var r := Run(d, files, noRead, noWrite, done);
      Run(d, files, noRead, noWrite, done + [p]) == Apply(r, p, ProcessFile(d, r.files, noRead, noWrite, p))
  {
    assert (done + [p])[..|done|] == done;
  }

  /** The Python script: returns the final `count` and the paths it printed
      as fixed and as failed. */
  method FixPython(disk: Disk, walk: seq<Listing>) returns (count: nat, fixed: seq<string>, failed: seq<string>)
    modifies disk
    ensures Report(disk.files, fixed, failed)
         == Run(Python, old(disk.files), disk.unreadable, disk.unwritable, WalkPaths(walk))
    ensures count == |fixed|
  {
    count, fixed, failed := 0, [], [];
    ghost var files0 := disk.files;
    for i := 0 to |walk|
      invariant Report(disk.files, fixed, failed)
             == Run(Python, files0, disk.unreadable, disk.unwritable, WalkPaths(walk[..i]))
      invariant count == |fixed|
    {
      ghost var done := WalkPaths(walk[..i]);
      ghost var r := Run(Python, files0, disk.unreadable, disk.unwritable, done);
      var n, f, g := FixDirectory(disk, walk[i].dir, walk[i].names);
      RunAppend(Python, files0, disk.unreadable, disk.unwritable, done, TsPathsIn(walk[i].dir, walk[i].names));
      WalkPathsSnoc(walk, i);
      count, fixed, failed := count + n, fixed + f, failed + g;
    }
    assert walk[..|walk|] == walk;
  }

  /** The inner loop of the Python script, over the files of one directory. */
  method FixDirectory(disk: Disk, dir: string, names: seq<string>) returns (count: nat, fixed: seq<string>, failed: seq<string>)
    modifies disk
    ensures Report(disk.files, fixed, failed)
         == Run(Python, old(disk.files), disk.unreadable, disk.unwritable, TsPathsIn(dir, names))
    ensures count == |fixed|
  {
    count, fixed, failed := 0, [], [];
    ghost var files0 := disk.files;
    for j := 0 to |names|
      invariant Report(disk.files, fixed, failed)
             == Run(Python, files0, disk.unreadable, disk.unwritable, TsPathsIn(dir, names[..j]))
      invariant count == |fixed|
    {
      ghost var done := TsPathsIn(dir, names[..j]);
      TsPathsSnoc(dir, names, j);
      if IsTypeScript(names[j]) {
        var path := Join(dir, names[j]);
        RunSnoc(Python, files0, disk.unreadable, disk.unwritable, done, path);
        var o := ProcessPath(Python, disk, path);
        match o {
          case Fixed(_) =>
            fixed := fixed + [path];
            count := count + 1;
          case Unchanged =>
          case Failed =>
            failed := failed + [path];
        }
        assert TsPathsIn(dir, names[..j + 1]) == done + [path];
      } else {
        assert TsPathsIn(dir, names[..j + 1]) == done;
      }
    }
    assert names[..|names|] == names;
  }

  // ---------------------------------------------------------------------
  // client/fix_imports.js: a recursive walk over the directory tree.

  /** A directory entry as `readdirSync` and `statSync` see it. */
  datatype Entry = File(name: string) | Dir(name: string, children: seq<Entry>)

  /** The TypeScript files under `dir`, whose entries are `es`, in the
      order the recursive walk reaches them (depth first, entries in listed
      order). */
  function TreePaths(dir: string, es: seq<Entry>): seq<string>
    decreases es
  {
    if es == [] then []
    else
      var init := es[..|es| - 1];
      var e := es[|es| - 1];
      assert e in es;
      TreePaths(dir, init) + EntryPaths(dir, e)
  }

  function EntryPaths(dir: string, e: Entry): seq<string>
    decreases e
  {
    match e
    case File(n) => if IsTypeScript(n) then [Join(dir, n)] else []
    case Dir(n, cs) => TreePaths(Join(dir, n), cs)
  }

  /** `walk(dir)`, where `tree` is what the directory holds (`None` when it
      does not exist). */
  method Walk(disk: Disk, dir: string, tree: Option<seq<Entry>>) returns (fixed: seq<string>, failed: seq<string>)
    modifies disk
    ensures tree.None? ==> disk.files == old(disk.files) && fixed == [] && failed == []
    ensures tree.Some? ==>
      Report(disk.files, fixed, failed) == Run(JavaScript, old(disk.files), disk.unreadable, disk.unwritable, TreePaths(dir, tree.value))
  {
    if tree.None? {
      return [], [];
    }
    fixed, failed := WalkEntries(disk, dir, tree.value);
  }

  method WalkEntries(disk: Disk, dir: string, es: seq<Entry>) returns (fixed: seq<string>, failed: seq<string>)
    modifies disk
    ensures Report(disk.files, fixed, failed)
      == Run(JavaScript, old(disk.files), disk.unreadable, disk.unwritable, TreePaths(dir, es))
    decreases es
  {
    fixed, failed := [], [];
    ghost var files0 := disk.files;
    for i := 0 to |es|
      invariant Report(disk.files, fixed, failed)
        == Run(JavaScript, files0, disk.unreadable, disk.unwritable, TreePaths(dir, es[..i]))
    {
      var e := es[i];
      assert es[..i + 1][..i] == es[..i] && es[..i + 1][i] == e;
      ghost var done := TreePaths(dir, es[..i]);
      ghost var r := Run(JavaScript, files0, disk.unreadable, disk.unwritable, done);
      assert e in es;
      var f, g := WalkEntry(disk, dir, e);
      RunAppend(JavaScript, files0, disk.unreadable, disk.unwritable, done, EntryPaths(dir, e));
      fixed, failed := fixed + f, failed + g;
    }
    assert es[..|es|] == es;
  }

  method WalkEntry(disk: Disk, dir: string, e: Entry) returns (fixed: seq<string>, failed: seq<string>)
    modifies disk
    ensures Report(disk.files, fixed, failed)
      == Run(JavaScript, old(disk.files), disk.unreadable, disk.unwritable, EntryPaths(dir, e))
    decreases e
  {
    fixed, failed := [], [];
    match e
    case Dir(n, cs) =>
      fixed, failed := WalkEntries(disk, Join(dir, n), cs);
    case File(n) =>
      if IsTypeScript(n) {
        var path := Join(dir, n);
        assert [path][..0] == [];
        var o := ProcessPath(JavaScript, disk, path);
        match o {
          case Fixed(_) => fixed := [path];
          case Unchanged =>
          case Failed => failed := [path];
        }
      }
  }
}

=== FILE: food_database_service.dfy ===
/** The food-database table and its service: name-ordered listing, a
    case-insensitive search on name and category, lookup by name ignoring
    case, and creation and partial update with normalised names. */
module FoodDatabaseService {
  import opened Wrappers
  import Text
  import Lists
  import opened Keyed
  import CategoryService

  datatype FoodItem = FoodItem(id: Id, name: string, category: string, expirationEstimate: real,
                               imageUrl: Option<string>)


  function ByName(): (FoodItem, FoodItem) -> bool {
    (a: FoodItem, b: FoodItem) => Text.LexLe(a.name, b.name)
  }

  lemma ByNameTotal()
    ensures Lists.TotalPreorder(ByName())
  {
    forall a: FoodItem, b: FoodItem ensures ByName()(a, b) || ByName()(b, a) {
      Text.LexLeTotal(a.name, b.name);
    }
    forall a: FoodItem, b: FoodItem, c: FoodItem | ByName()(a, b) && ByName()(b, c)
      ensures ByName()(a, c)
    {
      Text.LexLeTrans(a.name, b.name, c.name);
    }
  }

  /** What `search` keeps: the name or the category contains the term,
      ignoring case. */
  predicate SearchHit(term: string, item: FoodItem) {
    Text.ContainsIgnoringCase(item.name, term) || Text.ContainsIgnoringCase(item.category, term)
  }

  /** The fields of a food item's update (`imageUrl` may be set to `null`). */
  datatype FoodPatch = FoodPatch(name: Option<string>, category: Option<string>,
                                 expirationEstimate: Option<real>, imageUrl: Option<Option<string>>)

  /** `sorted` is every row of `rows` that `keep` accepts, each once, in name
      order. */
  ghost predicate ListsRows(sorted: seq<FoodItem>, rows: map<Id, FoodItem>, keep: FoodItem -> bool) {
    (forall i :: 0 <= i < |sorted| ==> sorted[i].id in rows && rows[sorted[i].id] == sorted[i] && keep(sorted[i]))
    && (forall k :: k in rows && keep(rows[k]) ==> rows[k] in sorted)
    && Lists.NoDup(sorted)
    && Lists.SortedBy(sorted, ByName())
  }

  class FoodDatabaseStore {
    var rows: map<Id, FoodItem>
    var nextId: Id

    ghost predicate Valid()
      reads this
    {
      forall k :: k in rows ==> rows[k].id == k && k < nextId
    }

    constructor()
      ensures Valid() && rows == map[]
    {
      rows, nextId := map[], 0;
    }

    /** The rows `keep` accepts, in name order. */
    method Query(keep: FoodItem -> bool) returns (r: seq<FoodItem>)
      requires Valid()
      ensures ListsRows(r, rows, keep)
    {
      var s, ids := Rows(rows);
      var hits := Lists.Filter(s, keep);
      r := Lists.Sort(hits, ByName());
      ByNameTotal();
      Lists.SortSorted(hits, ByName());
      assert Injective(rows);
      RowsNoDup(rows, s, ids);
      Lists.NoDupSub(hits, s);
      Lists.NoDupSub(r, hits);
      forall i | 0 <= i < |r| ensures r[i].id in rows && rows[r[i].id] == r[i] && keep(r[i]) {
        assert r[i] in multiset(hits);
        var j :| 0 <= j < |s| && s[j] == r[i];
        assert rows[ids[j]] == s[j];
      }
      forall k | k in rows && keep(rows[k]) ensures rows[k] in r {
        var i :| 0 <= i < |ids| && ids[i] == k;
        assert s[i] in hits;
        assert s[i] in multiset(r);
      }
    }

    /** `getAll`: every item once, in name order. */
    method GetAll() returns (r: seq<FoodItem>)
      requires Valid()
      ensures ListsRows(r, rows, (x: FoodItem) => true) && |r| == |rows|
    {
      var s, ids := Rows(rows);
      r := Lists.Sort(s, ByName());
      ByNameTotal();
      Lists.SortSorted(s, ByName());
      assert Injective(rows);
      RowsNoDup(rows, s, ids);
      Lists.NoDupSub(r, s);
      forall i | 0 <= i < |r| ensures r[i].id in rows && rows[r[i].id] == r[i] {
        assert r[i] in multiset(s);
        var j :| 0 <= j < |s| && s[j] == r[i];
        assert rows[ids[j]] == s[j];
      }
      forall k | k in rows ensures rows[k] in r {
        var i :| 0 <= i < |ids| && ids[i] == k;
        assert s[i] in multiset(r);
      }
    }

    /** `search`: the items whose name or category contains the lower-cased,
        trimmed query, ignoring case, in name order. */
    method Search(query: string) returns (r: seq<FoodItem>)
      requires Valid()
      ensures ListsRows(r, rows, (x: FoodItem) => SearchHit(Text.Trim(Text.Lower(query)), x))
    {
      var term := Text.Trim(Text.Lower(query));
      r := Query((x: FoodItem) => SearchHit(term, x));
    }

    /** Some item's name equals `name` ignoring case. */
    ghost predicate HasNameLike(name: string)
      reads this
    {
      exists k :: k in rows && Text.Lower(rows[k].name) == Text.Lower(Text.Trim(name))
    }

    /** `findByName`: an item whose name equals the trimmed `name`, ignoring
        case. */
    method FindByName(name: string) returns (r: Option<FoodItem>)
      requires Valid()
      ensures r.Some? <==> HasNameLike(name)
      ensures r.Some? ==> r.value.id in rows && rows[r.value.id] == r.value
                          && Text.Lower(r.value.name) == Text.Lower(Text.Trim(name))
    {
      var normalized := Text.Lower(Text.Trim(name));
      if k :| k in rows && Text.Lower(rows[k].name) == normalized {
        r := Some(rows[k]);
      } else {
        r := None;
      }
    }

    /** `create`: the name trimmed (its case kept), the category lower-cased
        and trimmed. */
    method Create(name: string, category: string, expirationEstimate: real, imageUrl: Option<string>)
      returns (item: FoodItem)
      requires Valid()
      modifies this
      ensures Valid()
      ensures item == FoodItem(old(nextId), Text.Trim(name), CategoryService.Normalize(category),
                               expirationEstimate, imageUrl)
      ensures old(nextId) !in old(rows) && rows == old(rows)[item.id := item]
    {
      var id := nextId;
      item := FoodItem(id, Text.Trim(name), CategoryService.Normalize(category), expirationEstimate, imageUrl);
      rows, nextId := rows[id := item], id + 1;
    }

    /** `update`: builds the changes field by field from the supplied
        fields, normalised like `create`, and applies them to the item. */
    method Update(id: Id, patch: FoodPatch) returns (r: Result<FoodItem, string>)
      requires Valid()
      modifies this
      ensures Valid() && nextId == old(nextId)
      ensures r.Ok? <==> id in old(rows)
      ensures r.Err? ==> r.error == RecordNotFound && rows == old(rows)
      ensures r.Ok? ==> rows == old(rows)[id := r.value] && r.value == Patched(old(rows)[id], patch)
    {
      if id !in rows {
        return Err(RecordNotFound);
      }
      var item := PatchFields(rows[id], patch);
      rows := rows[id := item];
      r := Ok(item);
    }

    /** The changes of `update`, built field by field. */
    static method PatchFields(current: FoodItem, patch: FoodPatch) returns (item: FoodItem)
      ensures item == Patched(current, patch)
    {
      item := current;
      if patch.name.Some? {
        item := item.(name := Text.Trim(patch.name.value));
      }
      if patch.category.Some? {
        item := item.(category := CategoryService.Normalize(patch.category.value));
      }
      if patch.expirationEstimate.Some? {
        item := item.(expirationEstimate := patch.expirationEstimate.value);
      }
      if patch.imageUrl.Some? {
        item := item.(imageUrl := patch.imageUrl.value);
      }
    }

    /** `delete`. */
    method Delete(id: Id) returns (r: Result<FoodItem, string>)
      requires Valid()
      modifies this
      ensures Valid() && nextId == old(nextId)
      ensures r.Ok? <==> id in old(rows)
      ensures r.Ok? ==> r.value == old(rows)[id] && rows == old(rows) - {id}
      ensures r.Err? ==> r.error == RecordNotFound && rows == old(rows)
    {
      if id !in rows {
        return Err(RecordNotFound);
      }
      r := Ok(rows[id]);
      rows := rows - {id};
    }

    /** `findById`. */
    function FindById(id: Id): (r: Option<FoodItem>)
      reads this
      ensures r.Some? <==> id in rows
      ensures r.Some? ==> r.value == rows[id]
    {
      if id in rows then Some(rows[id]) else None
    }
  }

  /** The item after an update: each supplied field replaced (name trimmed,
      category normalised), every other field and the id kept. */
  function Patched(item: FoodItem, p: FoodPatch): (u: FoodItem)
    ensures u.id == item.id
    ensures p.name.None? ==> u.name == item.name
    ensures p.category.None? ==> u.category == item.category
    ensures p.expirationEstimate.None? ==> u.expirationEstimate == item.expirationEstimate
    ensures p.imageUrl.None? ==> u.imageUrl == item.imageUrl
    ensures p.name.Some? ==> u.name == Text.Trim(p.name.value)
    ensures p.category.Some? ==> u.category == CategoryService.Normalize(p.category.value)
    ensures p.expirationEstimate.Some? ==> u.expirationEstimate == p.expirationEstimate.value
    ensures p.imageUrl.Some? ==> u.imageUrl == p.imageUrl.value
    ensures p == FoodPatch(None, None, None, None) ==> u == item
  {
    FoodItem(item.id,
             if p.name.Some? then Text.Trim(p.name.value) else item.name,
             if p.category.Some? then CategoryService.Normalize(p.category.value) else item.category,
             p.expirationEstimate.GetOr(item.expirationEstimate),
             if p.imageUrl.Some? then p.imageUrl.value else item.imageUrl)
  }

  /** Sending the same update twice gives the item the first one gave. */
  lemma PatchIdempotent(item: FoodItem, p: FoodPatch)
    ensures Patched(Patched(item, p), p) == Patched(item, p)
  {
    if p.name.Some? {
      var t := Text.Trim(p.name.value);
      if t != [] {
        CategoryService.TrimOfTrimmed(t);
      }
    }
    if p.category.Some? {
      CategoryService.NormalizeIdempotent(p.category.value);
    }
  }
}

=== FILE: food_log_entries.dfy ===
/** What both food-log pages share: the form a new log is typed into, the
    record the page hands to `addFoodLog`, and the display order of the
    logs, newest date first. */
module FoodLogEntries {
  import opened Wrappers
  import Lists
  import opened ClientData

  /** The add-log form; `date` is the `YYYY-MM-DD` text of the date input. */
  datatype LogForm = LogForm(itemName: string, quantity: real, unit: Unit, category: string, date: string)

  /** The new log as the page passes it to `addFoodLog`. */
  datatype LogDraft = LogDraft(itemName: string, quantity: real, unit: Unit, category: string, date: string,
                               imageUrl: Option<string>)

  /** The form as the page opens it and after every submission, on the day
      whose date text is `today`. */
  function EmptyLogForm(today: string): LogForm {
    LogForm("", 1.0, Pcs, "", today)
  }

  /** `{ ...formData, quantity, imageUrl }`. */
  function Draft(form: LogForm, imageUrl: Option<string>): (d: LogDraft)
    ensures d.itemName == form.itemName && d.category == form.category && d.quantity == form.quantity
    ensures d.unit == form.unit && d.date == form.date && d.imageUrl == imageUrl
  {
    LogDraft(form.itemName, form.quantity, form.unit, form.category, form.date, imageUrl)
  }

  /** The comparison `new Date(b.date) - new Date(a.date)`: `a` may come
      first when it is not older. */
  function ByDateDesc(): (FoodLog, FoodLog) -> bool {
    (a: FoodLog, b: FoodLog) => a.date >= b.date
  }

  lemma ByDateDescTotal()
    ensures Lists.TotalPreorder(ByDateDesc())
  {
  }

  /** `[...logs].sort(byDateDesc)`: the same logs, newest first. */
  function NewestFirst(logs: seq<FoodLog>): (r: seq<FoodLog>)
    ensures multiset(r) == multiset(logs)
    ensures forall i, j :: 0 <= i < j < |r| ==> r[i].date >= r[j].date
  {
    ByDateDescTotal();
    Lists.SortSorted(logs, ByDateDesc());
    Lists.Sort(logs, ByDateDesc())
  }
}

=== FILE: food_log_service.dfy ===
/** The food-log table and its service: every operation is scoped to the
    calling user, listings are newest first, and a log without a date is
    stamped with the current time. */
module FoodLogService {
  import opened Wrappers
  import Lists
  import opened Keyed
  import FoodLogValidator

  datatype FoodLog = FoodLog(id: Id, userId: Id, itemName: string, quantity: real, unit: string,
                             category: string, date: int, imageUrl: Option<string>)

  const LogNotFound: string := "Food log not found"

  /** `orderBy: { date: 'desc' }`. */
  function NewestFirst(): (FoodLog, FoodLog) -> bool {
    (a: FoodLog, b: FoodLog) => a.date >= b.date
  }

  lemma NewestFirstTotal()
    ensures Lists.TotalPreorder(NewestFirst())
  {
  }

  /** `data.date ? new Date(data.date) : new Date()`: a non-empty date
      string is read by `parseDate`, otherwise the current time is used. */
  function LogDate(date: Option<string>, parseDate: string -> int, now: int): (d: int)
    ensures date.None? || date.value == [] ==> d == now
    ensures date.Some? && date.value != [] ==> d == parseDate(date.value)
  {
    if date.Some? && date.value != [] then parseDate(date.value) else now
  }

  /** Within the inclusive range `start..end`. */
  predicate InRange(log: FoodLog, start: int, end: int) {
    start <= log.date <= end
  }

  class FoodLogStore {
    var rows: map<Id, FoodLog>
    var nextId: Id

    ghost predicate Valid()
      reads this
    {
      forall k :: k in rows ==> rows[k].id == k && k < nextId
    }

    constructor()
      ensures Valid() && rows == map[]
    {
      rows, nextId := map[], 0;
    }

    predicate Owns(userId: Id, id: Id)
      reads this
    {
      id in rows && rows[id].userId == userId
    }

    /** `getAll`: the caller's logs and no one else's, newest first. */
    method GetAll(userId: Id) returns (r: seq<FoodLog>)
      requires Valid()
      ensures Selected(r, rows, (x: FoodLog) => x.userId == userId, NewestFirst())
      ensures forall i :: 0 <= i < |r| ==> r[i].userId == userId
    {
      NewestFirstTotal();
      assert Injective(rows);
      r := Select(rows, (x: FoodLog) => x.userId == userId, NewestFirst());
    }

    /** `getByDateRange`: the caller's logs dated from `start` to `end`,
        both included, newest first. */
    method GetByDateRange(start: int, end: int, userId: Id) returns (r: seq<FoodLog>)
      requires Valid()
      ensures Selected(r, rows, (x: FoodLog) => x.userId == userId && InRange(x, start, end), NewestFirst())
      ensures forall i :: 0 <= i < |r| ==> r[i].userId == userId && start <= r[i].date <= end
    {
      NewestFirstTotal();
      assert Injective(rows);
      r := Select(rows, (x: FoodLog) => x.userId == userId && InRange(x, start, end), NewestFirst());
    }

    /** `getById`: the log only when both its id and its owner match. */
    function GetById(id: Id, userId: Id): (r: Result<FoodLog, string>)
      reads this
      ensures r.Ok? <==> Owns(userId, id)
      ensures r.Ok? ==> r.value == rows[id]
      ensures r.Err? ==> r.error == LogNotFound
    {
      if id in rows && rows[id].userId == userId then Ok(rows[id]) else Err(LogNotFound)
    }

    /** `create`: the validated fields, the caller as owner, and the date
        given or else `now`. */
    method Create(data: FoodLogValidator.FoodLogInput, userId: Id, parseDate: string -> int, now: int)
      returns (log: FoodLog)
      requires Valid()
      modifies this
      ensures Valid()
      ensures log == FoodLog(old(nextId), userId, data.itemName, data.quantity, data.unit, data.category,
                             LogDate(data.date, parseDate, now), data.imageUrl)
      ensures old(nextId) !in old(rows) && rows == old(rows)[log.id := log]
    {
      log := FoodLog(nextId, userId, data.itemName, data.quantity, data.unit, data.category,
                     LogDate(data.date, parseDate, now), data.imageUrl);
      rows := rows[nextId := log];
      nextId := nextId + 1;
    }

    /** `delete`: the ownership check first; a non-owned log is never
        removed. */
    method Delete(id: Id, userId: Id) returns (r: Result<FoodLog, string>)
      requires Valid()
      modifies this
      ensures Valid() && nextId == old(nextId)
      ensures r.Ok? <==> old(Owns(userId, id))
      ensures r.Err? ==> r.error == LogNotFound && rows == old(rows)
      ensures r.Ok? ==> r.value == old(rows)[id] && rows == old(rows) - {id}
    {
      var owned := GetById(id, userId);
      if owned.Err? {
        return Err(owned.error);
      }
      r := Ok(rows[id]);
      rows := rows - {id};
    }
  }

  /** Widening the range never loses a log. */
  lemma RangeMonotone(store: FoodLogStore, userId: Id, s1: int, e1: int, s2: int, e2: int,
                      narrow: seq<FoodLog>, wide: seq<FoodLog>)
    requires s2 <= s1 && e1 <= e2
    requires Selected(narrow, store.rows, (x: FoodLog) => x.userId == userId && InRange(x, s1, e1), NewestFirst())
    requires Selected(wide, store.rows, (x: FoodLog) => x.userId == userId && InRange(x, s2, e2), NewestFirst())
    ensures forall i :: 0 <= i < |narrow| ==> narrow[i] in wide
  {
    forall i | 0 <= i < |narrow| ensures narrow[i] in wide {
      assert narrow[i] in store.rows.Values;
      var k :| k in store.rows && store.rows[k] == narrow[i];
    }
  }
}

=== FILE: food_logs_page.dfy ===
/** The food-log page of the server-backed client: the inventory picker of
    the add dialog, the form after picking an item, the relative-time
    label, the expiration status of a log against the inventory, and the
    filtered, newest-first list. Times are milliseconds. */
module FoodLogsPage {
  import opened Wrappers
  import Text
  import Lists
  import opened ClientData
  import opened FoodLogEntries

  /** In stock, and the lower-cased name starts with the lower-cased
      query. */
  predicate Offered(query: string, item: InventoryItem) {
    item.quantity > 0.0 && Text.StartsWith(Text.Lower(item.name), Text.Lower(query))
  }

  function InStock(): InventoryItem -> bool {
    (item: InventoryItem) => item.quantity > 0.0
  }

  function OfferedFor(query: string): InventoryItem -> bool {
    (item: InventoryItem) => Offered(query, item)
  }

  /** `filteredInventoryItems`: with no query the items in stock, otherwise
      those whose name starts with the query, ignoring case. */
  function PickerItems(inventory: seq<InventoryItem>, query: string): (r: seq<InventoryItem>)
    ensures forall i :: 0 <= i < |r| ==> r[i] in inventory && Offered(query, r[i])
    ensures forall i :: 0 <= i < |inventory| && Offered(query, inventory[i]) ==> inventory[i] in r
  {
    if query == [] then Lists.Filter(inventory, InStock())
    else Lists.Filter(inventory, OfferedFor(query))
  }

  /** The empty-query shortcut agrees with the prefix test, which every
      name passes for the empty query: the picker is always the prefix
      filter, kept in inventory order. */
  lemma PickerIsPrefixFilter(inventory: seq<InventoryItem>, query: string)
    ensures PickerItems(inventory, query) == Lists.Filter(inventory, OfferedFor(query))
    ensures Lists.Subseq(PickerItems(inventory, query), inventory)
  {
    if query == [] {
      SameFilter(inventory, InStock(), OfferedFor(query));
    }
    Lists.FilterSubseq(inventory, OfferedFor(query));
  }

  lemma {:induction false} SameFilter(s: seq<InventoryItem>, p: InventoryItem -> bool, q: InventoryItem -> bool)
    requires forall x :: p(x) == q(x)
    ensures Lists.Filter(s, p) == Lists.Filter(s, q)
    decreases |s|
  {
    if s != [] {
      SameFilter(s[1..], p, q);
    }
  }

  /** `handleInventoryItemSelect`: name, category and unit come from the
      item, the quantity is capped at what the item still has, the date
      stays. */
  function SelectItem(form: LogForm, item: InventoryItem): (f: LogForm)
    ensures f.itemName == item.name && f.category == item.category && f.unit == item.unit
    ensures f.quantity <= form.quantity && f.quantity <= item.quantity
    ensures f.quantity == form.quantity || f.quantity == item.quantity
    ensures f.date == form.date
  {
    LogForm(item.name, if form.quantity < item.quantity then form.quantity else item.quantity,
            item.unit, item.category, form.date)
  }

  /** `selectedInventoryItem?.imageUrl || imageUrl || undefined`: the
      picked item's image, else the uploaded one, else none. */
  function FinalImageUrl(selected: Option<InventoryItem>, uploadedUrl: string): (r: Option<string>)
    ensures selected.Some? && selected.value.imageUrl.Some? && selected.value.imageUrl.value != [] ==>
      r == selected.value.imageUrl
    ensures r.None? <==>
      (selected.None? || selected.value.imageUrl.None? || selected.value.imageUrl.value == []) && uploadedUrl == []
    ensures (selected.None? || selected.value.imageUrl.None? || selected.value.imageUrl.value == []) ==>
      (r.Some? ==> r.value == uploadedUrl)
  {
    if selected.Some? && selected.value.imageUrl.Some? && selected.value.imageUrl.value != [] then
      selected.value.imageUrl
    else NonEmpty(uploadedUrl)
  }

  /** The label `formatRelativeTime` shows. */
  datatype RelativeLabel = Today | Yesterday | DaysAgo(days: int) | WeeksAgo(weeks: int) | OnDate

  /** `Math.floor((now - logDate) / day)`. */
  function DaysSince(now: int, logDate: int): int {
    (now - logDate) / DayMillis
  }

  /** `formatRelativeTime` on the whole days elapsed. A date in the future
      (negative days) falls under "N days ago", as the comparisons let it. */
  function RelativeTime(days: int): (l: RelativeLabel)
    ensures l == Today <==> days == 0
    ensures l == Yesterday <==> days == 1
    ensures l.DaysAgo? <==> days < 7 && days != 0 && days != 1
    ensures l.DaysAgo? ==> l.days == days
    ensures l.WeeksAgo? <==> 7 <= days < 30
    ensures l.WeeksAgo? ==> 1 <= l.weeks <= 4 && 7 * l.weeks <= days < 7 * l.weeks + 7
    ensures l == OnDate <==> days >= 30
  {
    if days == 0 then Today
    else if days == 1 then Yesterday
    else if days < 7 then DaysAgo(days)
    else if days < 30 then WeeksAgo(days / 7)
    else OnDate
  }

  /** The status of a log against the inventory. */
  datatype Status = Unknown | Expired | ExpiringSoon | Fresh

  /** The value the status filter compares with. */
  function StatusName(s: Status): string {
    match s
    case Unknown => "unknown"
    case Expired => "expired"
    case ExpiringSoon => "expiring-soon"
    case Fresh => "fresh"
  }

  lemma StatusNamesDistinct(a: Status, b: Status)
    ensures StatusName(a) == StatusName(b) <==> a == b
  {
  }

  predicate SameName(item: InventoryItem, name: string) {
    Text.Lower(item.name) == Text.Lower(name)
  }

  /** `inventory.find(...)`: the first item whose name equals `name`,
      ignoring case. */
  function FindByName(inventory: seq<InventoryItem>, name: string): (r: Option<InventoryItem>)
    ensures r.None? <==> forall i :: 0 <= i < |inventory| ==> !SameName(inventory[i], name)
    ensures r.Some? ==> exists i :: 0 <= i < |inventory| && inventory[i] == r.value && SameName(r.value, name)
                                    && forall j :: 0 <= j < i ==> !SameName(inventory[j], name)
  {
    if inventory == [] then None
    else if SameName(inventory[0], name) then Some(inventory[0])
    else
      var r := FindByName(inventory[1..], name);
      assert forall j :: 1 <= j < |inventory| ==> inventory[j] == inventory[1..][j - 1];
      if r.Some? then
        var i :| 0 <= i < |inventory[1..]| && inventory[1..][i] == r.value && SameName(r.value, name)
                 && forall j :: 0 <= j < i ==> !SameName(inventory[1..][j], name);
        assert inventory[i + 1] == r.value;
        r
      else
        r
  }

  /** Whole days from the log's date to the item's expiry: the item's
      added date plus its estimate in days, minus the log's date, rounded
      down. */
  function DaysUntilExpiration(item: InventoryItem, logDate: int): int {
    (item.dateAdded + item.expirationEstimate * DayMillis - logDate) / DayMillis
  }

  /** `getExpirationStatus`. */
  function ExpirationStatus(inventory: seq<InventoryItem>, log: FoodLog): (s: Status)
    ensures s == Unknown <==> FindByName(inventory, log.itemName).None?
    ensures s != Unknown ==>
      var days := DaysUntilExpiration(FindByName(inventory, log.itemName).value, log.date);
      (s == Expired <==> days < 0) && (s == ExpiringSoon <==> 0 <= days <= 2) && (s == Fresh <==> days > 2)
  {
    var m := FindByName(inventory, log.itemName);
    if m.None? then Unknown
    else
      var days := DaysUntilExpiration(m.value, log.date);
      if days < 0 then Expired else if days <= 2 then ExpiringSoon else Fresh
  }

  /** The whole-day count is the estimate plus the whole days from the
      log back to the item's addition: a log on the day the item was added
      is fresh exactly when the estimate exceeds two days. */
  lemma DaysFromAddition(item: InventoryItem, logDate: int)
    ensures DaysUntilExpiration(item, logDate) == item.expirationEstimate + (item.dateAdded - logDate) / DayMillis
    ensures logDate == item.dateAdded ==> DaysUntilExpiration(item, logDate) == item.expirationEstimate
  {
    var d := item.dateAdded - logDate;
    assert item.dateAdded + item.expirationEstimate * DayMillis - logDate == d + item.expirationEstimate * DayMillis;
    ShiftDays(d, item.expirationEstimate);
  }

  lemma ShiftDays(d: int, k: int)
    ensures (d + k * DayMillis) / DayMillis == d / DayMillis + k
  {
    var q, r := d / DayMillis, d % DayMillis;
    assert d == q * DayMillis + r && 0 <= r < DayMillis;
    assert d + k * DayMillis == (q + k) * DayMillis + r;
  }

  predicate Passes(inventory: seq<InventoryItem>, categoryFilter: string, statusFilter: string, log: FoodLog) {
    (categoryFilter == "all" || log.category == categoryFilter)
    && (statusFilter == "all" || StatusName(ExpirationStatus(inventory, log)) == statusFilter)
  }

  function CategoryIs(c: string): FoodLog -> bool {
    (l: FoodLog) => l.category == c
  }

  function StatusIs(inventory: seq<InventoryItem>, statusFilter: string): FoodLog -> bool {
    (l: FoodLog) => StatusName(ExpirationStatus(inventory, l)) == statusFilter
  }

  /** `filteredLogs`: the category filter, then the status filter, each
      skipped on `'all'`. */
  function FilteredLogs(logs: seq<FoodLog>, inventory: seq<InventoryItem>, categoryFilter: string,
                        statusFilter: string): (r: seq<FoodLog>)
    ensures forall i :: 0 <= i < |r| ==> r[i] in logs && Passes(inventory, categoryFilter, statusFilter, r[i])
    ensures forall i :: 0 <= i < |logs| && Passes(inventory, categoryFilter, statusFilter, logs[i]) ==>
      logs[i] in r
    ensures categoryFilter == "all" && statusFilter == "all" ==> r == logs
  {
    var byCategory := if categoryFilter != "all" then Lists.Filter(logs, CategoryIs(categoryFilter)) else logs;
    if statusFilter != "all" then Lists.Filter(byCategory, StatusIs(inventory, statusFilter)) else byCategory
  }

  /** `sortedLogs`: the filtered logs, each as often as it passes, newest
      first. */
  function SortedLogs(logs: seq<FoodLog>, inventory: seq<InventoryItem>, categoryFilter: string,
                      statusFilter: string): (r: seq<FoodLog>)
    ensures multiset(r) == multiset(FilteredLogs(logs, inventory, categoryFilter, statusFilter))
    ensures forall i, j :: 0 <= i < j < |r| ==> r[i].date >= r[j].date
    ensures forall i :: 0 <= i < |r| ==> Passes(inventory, categoryFilter, statusFilter, r[i])
  {
    var f := FilteredLogs(logs, inventory, categoryFilter, statusFilter);
    var r := NewestFirst(f);
    forall i | 0 <= i < |r| ensures r[i] in f {
      assert r[i] in multiset(f);
    }
    r
  }
}

=== FILE: food_scanning.dfy ===
/** The food-scanning page of the server-backed client: a gallery of
    uploaded photos kept in the page's state and mirrored into one slot of
    the browser's storage. The file reader, the clock and the random part
    of an id are parameters: each file arrives with its content (none when
    reading it failed), and the caller supplies one id and one time per
    file. Times are milliseconds. */
module FoodScanning {
  import opened Wrappers
  import Text
  import Lists
  import opened ClientData

  datatype ScannedImage = ScannedImage(id: string, imageData: string, timestamp: int, fileName: string)

  /** A file as the browser hands it over, with what reading it gave. */
  datatype FileInfo = FileInfo(name: string, mimeType: string, size: int, content: Option<string>)

  const MaxFileSize: int := 5 * 1024 * 1024

  /** The two checks of `handleFileUpload`: an image type, at most five
      megabytes. */
  predicate Acceptable(f: FileInfo) {
    Text.StartsWith(f.mimeType, "image/") && f.size <= MaxFileSize
  }

  /** The image a file becomes. */
  function ImageOf(f: FileInfo, id: string, time: int): ScannedImage
    requires f.content.Some?
  {
    ScannedImage(id, f.content.value, time, f.name)
  }

  /** `img` is what one acceptable, readable file of the upload became. */
  predicate ProducedBy(files: seq<FileInfo>, ids: seq<string>, times: seq<int>, img: ScannedImage)
    requires |ids| == |files| && |times| == |files|
  {
    exists i :: 0 <= i < |files| && Acceptable(files[i]) && files[i].content.Some?
                && img == ImageOf(files[i], ids[i], times[i])
  }

  /** What the rest of an upload produced, the whole upload produced. */
  lemma ProducedByTail(files: seq<FileInfo>, ids: seq<string>, times: seq<int>, img: ScannedImage)
    requires |ids| == |files| && |times| == |files| && |files| > 0
    requires ProducedBy(files[1..], ids[1..], times[1..], img)
    ensures ProducedBy(files, ids, times, img)
  {
    var j :| 0 <= j < |files[1..]| && Acceptable(files[1..][j]) && files[1..][j].content.Some?
             && img == ImageOf(files[1..][j], ids[1..][j], times[1..][j]);
    assert files[j + 1] == files[1..][j] && ids[j + 1] == ids[1..][j] && times[j + 1] == times[1..][j];
  }

  /** The images an upload produces: one per acceptable file that could be
      read, in the files' order. */
  function Accepted(files: seq<FileInfo>, ids: seq<string>, times: seq<int>): (r: seq<ScannedImage>)
    requires |ids| == |files| && |times| == |files|
    ensures |r| <= |files|
    ensures forall k :: 0 <= k < |r| ==> ProducedBy(files, ids, times, r[k])
    ensures forall i :: 0 <= i < |files| && Acceptable(files[i]) && files[i].content.Some? ==>
      ImageOf(files[i], ids[i], times[i]) in r
  {
    ScanSound(files, ids, times);
    Scan(files, ids, times)
  }

  /** The recursion behind `Accepted`: the first file's image, if any,
      then those of the rest. */
  function Scan(files: seq<FileInfo>, ids: seq<string>, times: seq<int>): seq<ScannedImage>
    requires |ids| == |files| && |times| == |files|
    decreases |files|
  {
    if files == [] then []
    else
      (if Acceptable(files[0]) && files[0].content.Some? then [ImageOf(files[0], ids[0], times[0])] else [])
      + Scan(files[1..], ids[1..], times[1..])
  }

  lemma {:induction false} ScanSound(files: seq<FileInfo>, ids: seq<string>, times: seq<int>)
    requires |ids| == |files| && |times| == |files|
    ensures |Scan(files, ids, times)| <= |files|
    ensures forall k :: 0 <= k < |Scan(files, ids, times)| ==> ProducedBy(files, ids, times, Scan(files, ids, times)[k])
    ensures forall i :: 0 <= i < |files| && Acceptable(files[i]) && files[i].content.Some? ==>
      ImageOf(files[i], ids[i], times[i]) in Scan(files, ids, times)
    decreases |files|
  {
    if files != [] {
      var rest := Scan(files[1..], ids[1..], times[1..]);
      ScanSound(files[1..], ids[1..], times[1..]);
      assert forall i :: 1 <= i < |files| ==>
        files[i] == files[1..][i - 1] && ids[i] == ids[1..][i - 1] && times[i] == times[1..][i - 1];
      forall k | 0 <= k < |rest| ensures ProducedBy(files, ids, times, rest[k]) {
        ProducedByTail(files, ids, times, rest[k]);
      }
    }
  }

  /** One step of `Scan`, at position `i`. */
  lemma ScanStep(files: seq<FileInfo>, ids: seq<string>, times: seq<int>, i: nat)
    requires |ids| == |files| && |times| == |files| && i < |files|
    ensures Scan(files[i..], ids[i..], times[i..])
      == (if Acceptable(files[i]) && files[i].content.Some? then [ImageOf(files[i], ids[i], times[i])] else [])
         + Scan(files[i + 1..], ids[i + 1..], times[i + 1..])
  {
    assert files[i..][1..] == files[i + 1..] && ids[i..][1..] == ids[i + 1..] && times[i..][1..] == times[i + 1..];
  }

  function ImageId(img: ScannedImage): string { img.id }

  /** The comparison `new Date(b.timestamp) - new Date(a.timestamp)`. */
  function ByTimeDesc(): (ScannedImage, ScannedImage) -> bool {
    (a: ScannedImage, b: ScannedImage) => a.timestamp >= b.timestamp
  }

  lemma ByTimeDescTotal()
    ensures Lists.TotalPreorder(ByTimeDesc())
  {
  }

  /** The stored images, newest first. */
  function NewestFirst(images: seq<ScannedImage>): (r: seq<ScannedImage>)
    ensures multiset(r) == multiset(images)
    ensures forall i, j :: 0 <= i < j < |r| ==> r[i].timestamp >= r[j].timestamp
  {
    ByTimeDescTotal();
    Lists.SortSorted(images, ByTimeDesc());
    Lists.Sort(images, ByTimeDesc())
  }

  class Gallery {
    /** `scannedImages`. */
    var images: seq<ScannedImage>
    /** The storage slot `foodScans`; `None` when it is empty. */
    var stored: Option<seq<ScannedImage>>

    constructor(slot: Option<seq<ScannedImage>>)
      ensures images == [] && stored == slot
    {
      images, stored := [], slot;
    }

    /** `loadImagesFromStorage`: the stored images, newest first; nothing
        changes when the slot is empty. */
    method Load()
      modifies this
      ensures stored == old(stored)
      ensures images == if stored.Some? then NewestFirst(stored.value) else old(images)
    {
      if stored.Some? {
        images := NewestFirst(stored.value);
      }
    }

    /** `handleFileUpload`: no list or an empty one does nothing; otherwise
        each file is checked and read in turn, and when at least one image
        came out of it the new images go in front of the old ones, in the
        files' order, and the whole list is stored. */
    method Upload(files: Option<seq<FileInfo>>, ids: seq<string>, times: seq<int>) returns (added: nat)
      requires files.Some? ==> |ids| == |files.value| && |times| == |files.value|
      modifies this
      ensures files.None? ==> added == 0
      ensures files.Some? ==> added == |Accepted(files.value, ids, times)|
      ensures added == 0 ==> images == old(images) && stored == old(stored)
      ensures added > 0 ==> images == Accepted(files.value, ids, times) + old(images) && stored == Some(images)
    {
      if files.None? || |files.value| == 0 {
        return 0;
      }
      var newImages := Collect(files.value, ids, times);
      if |newImages| > 0 {
        images := newImages + images;
        stored := Some(images);
      }
      return |newImages|;
    }

    /** `handleDeleteImage`: every image with the id is removed, and the
        list is stored. */
    method Delete(id: string)
      modifies this
      ensures images == RemoveKey(old(images), ImageId, id)
      ensures stored == Some(images)
    {
      images := RemoveKey(images, ImageId, id);
      stored := Some(images);
    }

    /** `handleClearAll`: with images and the user's confirmation, the
        list and the storage slot are emptied; otherwise nothing changes. */
    method ClearAll(confirmed: bool)
      modifies this
      ensures old(images) != [] && confirmed ==> images == [] && stored == None
      ensures old(images) == [] || !confirmed ==> images == old(images) && stored == old(stored)
    {
      if |images| == 0 {
        return;
      }
      if confirmed {
        images := [];
        stored := None;
      }
    }
  }

  /** The loop of `handleFileUpload`: a file of another type or too large
      is skipped, as is one whose reading failed. */
  method Collect(files: seq<FileInfo>, ids: seq<string>, times: seq<int>) returns (newImages: seq<ScannedImage>)
    requires |ids| == |files| && |times| == |files|
    ensures newImages == Accepted(files, ids, times)
  {
    newImages := [];
    var i := 0;
    while i < |files|
      invariant 0 <= i <= |files|
      invariant newImages + Scan(files[i..], ids[i..], times[i..]) == Scan(files, ids, times)
    {
      ScanStep(files, ids, times, i);
      var file := files[i];
      if Text.StartsWith(file.mimeType, "image/") && file.size <= MaxFileSize && file.content.Some? {
        newImages := newImages + [ImageOf(file, ids[i], times[i])];
      }
      i := i + 1;
    }
    assert files[i..] == [];
  }

  /** An upload in which no file is both acceptable and readable leaves
      the gallery as it was. */
  lemma NothingAcceptedNothingAdded(files: seq<FileInfo>, ids: seq<string>, times: seq<int>)
    requires |ids| == |files| && |times| == |files|
    ensures Accepted(files, ids, times) == [] <==>
      forall i :: 0 <= i < |files| ==> !Acceptable(files[i]) || files[i].content.None?
  {
    var r := Accepted(files, ids, times);
    if r != [] {
      assert r[0] in r;
    }
  }
}

=== FILE: foodlog_validator.dfy ===
/** The zod schemas for food-log entries. */
module FoodLogValidator {
  import opened Wrappers
  import opened Json
  import CommunityValidator

  /** `createFoodLogSchema`. */
  predicate CreateFoodLogOk(o: Object) {
    Required(o, "itemName", v => StrLen(v, 1, 100))
    && Required(o, "quantity", Positive)
    && Required(o, "unit", CommunityValidator.IsUnit)
    && Required(o, "category", v => StrMin(v, 1))
    && Optional(o, "date", IsStr)
    && Optional(o, "imageUrl", v => Nullable(v, IsStr))
  }

  /** A food-log entry after `createFoodLogSchema.parse`. */
  datatype FoodLogInput = FoodLogInput(itemName: string, quantity: real, unit: string,
                                       category: string, date: Option<string>, imageUrl: Option<string>)

  /** `createFoodLogSchema.parse`: succeeds exactly on valid bodies; the
      item name has 1 to 100 characters, the quantity is positive, the unit
      comes from its list and the category is not empty. */
  function ParseCreateFoodLog(o: Object): (r: Option<FoodLogInput>)
    ensures r.Some? <==> CreateFoodLogOk(o)
    ensures r.Some? ==>
      1 <= |r.value.itemName| <= 100 && r.value.quantity > 0.0
      && r.value.unit in CommunityValidator.Units && r.value.category != []
    ensures r.Some? ==>
      o["itemName"] == Str(r.value.itemName) && o["quantity"] == Num(r.value.quantity)
      && o["unit"] == Str(r.value.unit) && o["category"] == Str(r.value.category)
      && StrField(o, "date", r.value.date) && NullableStrField(o, "imageUrl", r.value.imageUrl)
  {
    if !CreateFoodLogOk(o) then None
    else
      Some(FoodLogInput(o["itemName"].s, o["quantity"].n, o["unit"].s, o["category"].s,
                        OptStr(o, "date"),
                        if "imageUrl" in o && o["imageUrl"].Str? then Some(o["imageUrl"].s) else None))
  }

  /** `updateFoodLogSchema`: every field optional, and any string is a
      category. */
  predicate UpdateFoodLogOk(o: Object) {
    Optional(o, "itemName", v => StrLen(v, 1, 100))
    && Optional(o, "quantity", Positive)
    && Optional(o, "unit", CommunityValidator.IsUnit)
    && Optional(o, "category", IsStr)
    && Optional(o, "date", IsStr)
    && Optional(o, "imageUrl", v => Nullable(v, IsStr))
  }

  /** The update schema accepts an empty category, which the create schema
      refuses; every valid create body is a valid update body. */
  lemma UpdateCategoryLooser(o: Object)
    ensures CreateFoodLogOk(o) ==> UpdateFoodLogOk(o) && UpdateFoodLogOk(o["category" := Str("")])
    ensures !CreateFoodLogOk(o["category" := Str("")])
  {
  }
}

=== FILE: http.dfy ===
/** What a request handler does with the response: answers with a status and
    data, refuses with a status and an error message, or passes an error on
    to the error-handling middleware (`next(error)`). */
module Http {
  datatype Response<T> = Done(status: nat, data: T) | Refused(status: nat, error: string) | Forwarded(error: string)
}

=== FILE: import_rewrite.dfy ===
/** The rewrite both import fixers apply to a source text: every occurrence of
    the regular expression

        from (["'])(.*?)@\d+\.\d+\.\d+\1

    becomes `from`, a space, the quote, the package specifier and the same
    quote again, so that a pinned import such as `from "lucide-react@0.487.0"`
    reads `from "lucide-react"`. Occurrences are found left to right and never
    overlap (Python's `pattern.sub`, JavaScript's `replace` with the `/g` flag).

    The regular expression is modelled as a scanner: at each position it
    tries "from ", a quote, then the SHORTEST group (the lazy `.*?`) after
    which a version suffix `@D.D.D` and the same quote follow. Each `D` is a
    run of ASCII digits. What `.` accepts depends on the dialect. */
module ImportRewrite {
  import opened Wrappers
  import Text
  import Lists

  datatype Dialect = Python | JavaScript

  /** Python's `.` refuses only a line feed; JavaScript's `.` also refuses
      carriage return and the two Unicode line terminators. */
  predicate DotMatches(d: Dialect, c: char) {
    match d
    case Python => c != '\n'
    case JavaScript => c != '\n' && c != '\r' && c != '\U{2028}' && c != '\U{2029}'
  }

  predicate IsQuote(c: char) { c == '"' || c == '\'' }

  predicate AllDot(d: Dialect, t: string) {
    forall i :: 0 <= i < |t| ==> DotMatches(d, t[i])
  }

  predicate AllDigits(t: string) {
    forall i :: 0 <= i < |t| ==> Text.IsDigit(t[i])
  }

  /** `AllDigits(s[lo..hi])`, stated on the positions of `s`. */
  predicate DigitsIn(s: string, lo: int, hi: int) {
    0 <= lo <= hi <= |s| && forall i :: lo <= i < hi ==> Text.IsDigit(s[i])
  }

  lemma DigitsInSlice(s: string, lo: int, hi: int)
    requires 0 <= lo <= hi <= |s|
    ensures DigitsIn(s, lo, hi) <==> AllDigits(s[lo..hi])
  {
    if AllDigits(s[lo..hi]) {
      forall i | lo <= i < hi ensures Text.IsDigit(s[i]) {
        assert s[lo..hi][i - lo] == s[i];
      }
    }
  }

  const From: string := "from "

  // ---------------------------------------------------------------------
  // The declarative reading of the regular expression.

  /** `v` is `D.D.D` with the two dots at `a` and `b`. */
  predicate VersionAt(v: string, a: int, b: int) {
    0 < a && a + 1 < b && b + 1 < |v| && v[a] == '.' && v[b] == '.'
    && AllDigits(v[..a]) && AllDigits(v[a + 1..b]) && AllDigits(v[b + 1..])
  }

  /** `v` is three non-empty digit runs separated by dots
      (`\d+\.\d+\.\d+`, the MAJOR.MINOR.PATCH shape of Semantic Versioning
      2.0.0, leading zeros allowed). */
  ghost predicate IsVersionCore(v: string) {
    exists a, b :: VersionAt(v, a, b)
  }

  /** `t` is `@`, a version core and the closing quote `q`. */
  ghost predicate IsSuffix(t: string, q: char) {
    |t| >= 2 && t[0] == '@' && t[|t| - 1] == q && IsVersionCore(t[1..|t| - 1])
  }

  /** The regular expression matches `s[i..e]`, with a group of length `k`. */
  ghost predicate Candidate(d: Dialect, s: string, i: int, k: int, e: int) {
    0 <= i && 0 <= k && i + 6 + k <= e <= |s|
    && s[i..i + 5] == From && IsQuote(s[i + 5])
    && AllDot(d, s[i + 6..i + 6 + k])
    && IsSuffix(s[i + 6 + k..e], s[i + 5])
  }

  // ---------------------------------------------------------------------
  // The scanner.

  /** The length of the run of digits starting at `j` (`\d+` is greedy, and
      since a digit is neither a dot nor a quote the run is always taken whole). */
  function DigitRun(s: string, j: nat): (n: nat)
    requires j <= |s|
    ensures j + n <= |s|
    ensures j + n == |s| || !Text.IsDigit(s[j + n])
    decreases |s| - j
  {
    if j < |s| && Text.IsDigit(s[j]) then
      1 + DigitRun(s, j + 1)
    else 0
  }

  /** The run holds only digits. */
  lemma {:induction false} DigitRunDigits(s: string, j: nat)
    requires j <= |s|
    ensures DigitsIn(s, j, j + DigitRun(s, j))
    decreases |s| - j
  {
    if j < |s| && Text.IsDigit(s[j]) {
      DigitRunDigits(s, j + 1);
    }
  }

  /** A non-empty run of digits starting at `p` and then the character `c`:
      where `c` stands. */
  function RunThen(s: string, p: nat, c: char): (r: Option<nat>)
    requires p <= |s|
    ensures r.Some? ==> p < r.value < |s| && s[r.value] == c
  {
    var n := DigitRun(s, p);
    if n > 0 && p + n < |s| && s[p + n] == c then Some(p + n) else None
  }

  /** What stands between `p` and where `RunThen` finds `c` is digits. */
  lemma RunThenDigits(s: string, p: nat, c: char)
    requires p <= |s| && RunThen(s, p, c).Some?
    ensures DigitsIn(s, p, RunThen(s, p, c).value)
  {
    DigitRunDigits(s, p);
  }

  /** Where a suffix `@D.D.D` followed by the quote `q` starting at `j` ends. */
  function SuffixEnd(s: string, j: nat, q: char): (r: Option<nat>)
    requires j <= |s|
    ensures r.Some? ==> j + 7 <= r.value <= |s|
  {
    if j < |s| && s[j] == '@' then
      match RunThen(s, j + 1, '.')
      case None => None
      case Some(a) =>
        match RunThen(s, a + 1, '.')
        case None => None
        case Some(b) =>
          match RunThen(s, b + 1, q)
          case None => None
          case Some(c) => Some(c + 1)
    else None
  }

  /** One match: where it starts and ends, the quote and the package group. */
  datatype Match = Match(start: nat, quote: char, group: string, end: nat)

  /** The lazy group: starting at `j`, extend one character at a time while
      `.` accepts it, and stop at the first place a suffix follows. Returns
      where the group ends and where the match ends. */
  function GroupEnd(d: Dialect, s: string, j: nat, q: char): (r: Option<(nat, nat)>)
    requires j <= |s|
    ensures r.Some? ==> j <= r.value.0 && r.value.0 + 7 <= r.value.1 <= |s|
    decreases |s| - j
  {
    match SuffixEnd(s, j, q)
    case Some(e) => Some((j, e))
    case None => if j < |s| && DotMatches(d, s[j]) then GroupEnd(d, s, j + 1, q) else None
  }

  /** The match of the regular expression at position `i`, if any. */
  function MatchAt(d: Dialect, s: string, i: nat): (r: Option<Match>)
    requires i <= |s|
    ensures r.Some? ==> r.value.start == i && i + 13 <= r.value.end <= |s|
    ensures r.Some? ==> |r.value.group| + 13 <= r.value.end - i
  {
    if i + 6 <= |s| && s[i..i + 5] == From && IsQuote(s[i + 5]) then
      match GroupEnd(d, s, i + 6, s[i + 5])
      case Some((g, e)) => Some(Match(i, s[i + 5], s[i + 6..g], e))
      case None => None
    else None
  }

  /** What a match is replaced with: `from {quote}{pkg}{quote}`. */
  function Replacement(m: Match): string {
    From + [m.quote] + m.group + [m.quote]
  }

  /** The rewrite of `s[i..]`, scanning left to right. */
  function RewriteFrom(d: Dialect, s: string, i: nat): string
    requires i <= |s|
    decreases |s| - i
  {
    if i == |s| then []
    else
      match MatchAt(d, s, i)
      case Some(m) => Replacement(m) + RewriteFrom(d, s, m.end)
      case None => [s[i]] + RewriteFrom(d, s, i + 1)
  }

  /** The matches found in `s[i..]`, in the order they are replaced. */
  function MatchesFrom(d: Dialect, s: string, i: nat): seq<Match>
    requires i <= |s|
    decreases |s| - i
  {
    if i == |s| then []
    else
      match MatchAt(d, s, i)
      case Some(m) => [m] + MatchesFrom(d, s, m.end)
      case None => MatchesFrom(d, s, i + 1)
  }

  /** `pattern.sub(replacer, content)` / `content.replace(pattern, …)`. */
  function Rewrite(d: Dialect, s: string): string {
    RewriteFrom(d, s, 0)
  }

  function Matches(d: Dialect, s: string): seq<Match> {
    MatchesFrom(d, s, 0)
  }

  // ---------------------------------------------------------------------
  // The scanner agrees with the regular expression.

  lemma DigitRunExact(s: string, j: nat, n: nat)
    requires j + n <= |s| && DigitsIn(s, j, j + n) && (j + n == |s| || !Text.IsDigit(s[j + n]))
    ensures DigitRun(s, j) == n
    decreases n
  {
    if n > 0 {
      DigitRunExact(s, j + 1, n - 1);
    }
  }

  lemma RunThenExact(s: string, p: nat, c: char, e: nat)
    requires p < e < |s| && DigitsIn(s, p, e) && s[e] == c && !Text.IsDigit(c)
    ensures RunThen(s, p, c) == Some(e)
  {
    DigitRunExact(s, p, e - p);
  }

  /** Three digit runs separated by dots at `a` and `b` form a version core. */
  lemma VersionFromPositions(s: string, lo: int, a: int, b: int, hi: int)
    requires 0 <= lo < a && a + 1 < b && b + 1 < hi <= |s| && s[a] == '.' && s[b] == '.'
    requires DigitsIn(s, lo, a) && DigitsIn(s, a + 1, b) && DigitsIn(s, b + 1, hi)
    ensures VersionAt(s[lo..hi], a - lo, b - lo)
  {
    var v := s[lo..hi];
    DigitsInSlice(s, lo, a);
    DigitsInSlice(s, a + 1, b);
    DigitsInSlice(s, b + 1, hi);
    Lists.SliceOfSlice(s, lo, hi, 0, a - lo);
    Lists.SliceOfSlice(s, lo, hi, a - lo + 1, b - lo);
    Lists.SliceOfSlice(s, lo, hi, b - lo + 1, hi - lo);
    assert v[a - lo] == s[a] && v[b - lo] == s[b];
  }

  /** A suffix the scanner finds has the shape the regular expression demands. */
  lemma SuffixEndSound(s: string, j: nat, q: char)
    requires j <= |s| && SuffixEnd(s, j, q).Some?
    ensures IsSuffix(s[j..SuffixEnd(s, j, q).value], q)
  {
    var a, b, c := SuffixEndParts(s, j, q);
    RunThenDigits(s, j + 1, '.');
    RunThenDigits(s, a + 1, '.');
    RunThenDigits(s, b + 1, q);
    SuffixShape(s, j, a, b, c, q);
  }

  /** The positions of the two dots and the closing quote of a suffix the
      scanner found. */
  lemma SuffixEndParts(s: string, j: nat, q: char) returns (a: nat, b: nat, c: nat)
    requires j <= |s| && SuffixEnd(s, j, q).Some?
    ensures j < |s| && s[j] == '@' && SuffixEnd(s, j, q) == Some(c + 1)
    ensures RunThen(s, j + 1, '.') == Some(a) && RunThen(s, a + 1, '.') == Some(b)
    ensures RunThen(s, b + 1, q) == Some(c)
  {
    a := RunThen(s, j + 1, '.').value;
    b := RunThen(s, a + 1, '.').value;
    c := RunThen(s, b + 1, q).value;
  }

  /** `@`, three digit runs separated by dots and then `q`, laid out at
      the given positions, form a suffix. */
  lemma SuffixShape(s: string, j: nat, a: nat, b: nat, c: nat, q: char)
    requires j + 1 < a && a + 1 < b && b + 1 < c < |s|
    requires s[j] == '@' && s[a] == '.' && s[b] == '.' && s[c] == q
    requires DigitsIn(s, j + 1, a) && DigitsIn(s, a + 1, b) && DigitsIn(s, b + 1, c)
    ensures IsSuffix(s[j..c + 1], q)
  {
    VersionFromPositions(s, j + 1, a, b, c);
    var t := s[j..c + 1];
    Lists.SliceOfSlice(s, j, c + 1, 1, |t| - 1);
    assert t[0] == s[j] && t[|t| - 1] == s[c];
  }

  /** The scanner finds a suffix whose dots sit at `a` and `b`. */
  lemma SuffixEndAt(s: string, j: nat, a: nat, b: nat, e: nat, q: char)
    requires IsQuote(q) && j + 1 < a && a + 1 < b && b + 1 < e - 1 && e <= |s|
    requires s[j] == '@' && s[a] == '.' && s[b] == '.' && s[e - 1] == q
    requires DigitsIn(s, j + 1, a) && DigitsIn(s, a + 1, b) && DigitsIn(s, b + 1, e - 1)
    ensures SuffixEnd(s, j, q) == Some(e)
  {
    RunThenExact(s, j + 1, '.', a);
    RunThenExact(s, a + 1, '.', b);
    RunThenExact(s, b + 1, q, e - 1);
    SuffixEndSteps(s, j, q, a, b, e - 1);
  }

  /** The scanner's three steps, each finding its digit run and separator,
      give the end of the suffix. */
  lemma SuffixEndSteps(s: string, j: nat, q: char, a: nat, b: nat, c: nat)
    requires j < |s| && s[j] == '@'
    requires RunThen(s, j + 1, '.') == Some(a) && RunThen(s, a + 1, '.') == Some(b)
    requires RunThen(s, b + 1, q) == Some(c)
    ensures SuffixEnd(s, j, q) == Some(c + 1)
  {
  }

  /** When the third step fails, there is no suffix. */
  lemma SuffixEndStepsFail(s: string, j: nat, q: char, a: nat, b: nat)
    requires j < |s| && s[j] == '@'
    requires RunThen(s, j + 1, '.') == Some(a) && RunThen(s, a + 1, '.') == Some(b)
    requires RunThen(s, b + 1, q) == None
    ensures SuffixEnd(s, j, q) == None
  {
  }

  /** Where a version core sits inside a text, its dots and digit runs sit
      at the shifted positions. */
  lemma VersionPositions(s: string, lo: nat, v: string, a: int, b: int)
    requires lo + |v| <= |s| && s[lo..lo + |v|] == v && VersionAt(v, a, b)
    ensures s[lo + a] == '.' && s[lo + b] == '.'
    ensures DigitsIn(s, lo, lo + a) && DigitsIn(s, lo + a + 1, lo + b) && DigitsIn(s, lo + b + 1, lo + |v|)
  {
    Lists.SliceOfSlice(s, lo, lo + |v|, 0, a);
    Lists.SliceOfSlice(s, lo, lo + |v|, a + 1, b);
    Lists.SliceOfSlice(s, lo, lo + |v|, b + 1, |v|);
    assert s[lo + a] == v[a] && s[lo + b] == v[b];
    DigitsInSlice(s, lo, lo + a);
    DigitsInSlice(s, lo + a + 1, lo + b);
    DigitsInSlice(s, lo + b + 1, lo + |v|);
  }

  /** Every suffix of the demanded shape is found by the scanner. */
  lemma SuffixEndComplete(s: string, j: nat, q: char, e: nat)
    requires IsQuote(q) && j < e <= |s| && IsSuffix(s[j..e], q)
    ensures SuffixEnd(s, j, q) == Some(e)
  {
    var t := s[j..e];
    Lists.SliceOfSlice(s, j, e, 1, |t| - 1);
    var v := s[j + 1..e - 1];
    var a', b' :| VersionAt(v, a', b');
    VersionPositions(s, j + 1, v, a', b');
    assert s[j] == t[0] && s[e - 1] == t[|t| - 1];
    SuffixEndAt(s, j, j + 1 + a', j + 1 + b', e, q);
  }

  lemma SuffixEndIff(s: string, j: nat, q: char, e: nat)
    requires IsQuote(q) && j <= |s|
    ensures SuffixEnd(s, j, q) == Some(e) <==> j < e <= |s| && IsSuffix(s[j..e], q)
  {
    if SuffixEnd(s, j, q) == Some(e) {
      SuffixEndSound(s, j, q);
    }
    if j < e <= |s| && IsSuffix(s[j..e], q) {
      SuffixEndComplete(s, j, q, e);
    }
  }

  /** A longer group covers position `j`, so `.` must accept `s[j]`. */
  lemma CandidateCovers(d: Dialect, s: string, i: int, k: int, e: int, j: int)
    requires Candidate(d, s, i, k, e) && i + 6 <= j < i + 6 + k
    ensures j < |s| && DotMatches(d, s[j])
  {
    assert s[i + 6..i + 6 + k][j - i - 6] == s[j];
  }

  /** No group length in `lo..hi` makes the expression match at `i`. */
  ghost predicate NoCandidateIn(d: Dialect, s: string, i: int, lo: int, hi: int) {
    forall k, e :: lo <= k < hi ==> !Candidate(d, s, i, k, e)
  }

  /** No group length from `lo` on makes the expression match at `i`. */
  ghost predicate NoCandidateFrom(d: Dialect, s: string, i: int, lo: int) {
    forall k, e :: lo <= k ==> !Candidate(d, s, i, k, e)
  }

  lemma AllDotExtend(d: Dialect, s: string, lo: int, j: int)
    requires 0 <= lo <= j < |s| && AllDot(d, s[lo..j]) && DotMatches(d, s[j])
    ensures AllDot(d, s[lo..j + 1])
  {
    assert s[lo..j + 1] == s[lo..j] + [s[j]];
  }

  /** When no suffix starts at `j`, the group cannot end at `j`. */
  lemma NoSuffixNoCandidate(d: Dialect, s: string, i: nat, j: nat)
    requires i + 6 <= j <= |s| && IsQuote(s[i + 5]) && SuffixEnd(s, j, s[i + 5]).None?
    ensures NoCandidateIn(d, s, i, j - i - 6, j - i - 5)
  {
    forall k, e | j - i - 6 <= k < j - i - 5 ensures !Candidate(d, s, i, k, e) {
      if e >= 0 {
        SuffixEndIff(s, j, s[i + 5], e);
      }
    }
  }

  /** When `.` refuses `s[j]` (or the text ends), no group reaches past `j`. */
  lemma BlockedNoCandidate(d: Dialect, s: string, i: nat, j: nat)
    requires i + 6 <= j <= |s| && !(j < |s| && DotMatches(d, s[j]))
    ensures NoCandidateFrom(d, s, i, j - i - 5)
  {
    forall k, e | j - i - 5 <= k && Candidate(d, s, i, k, e) ensures false {
      CandidateCovers(d, s, i, k, e, j);
    }
  }

  /** The lazy group search finds the shortest group that is followed by a
      suffix, and fails only when no group is. */
  lemma {:induction false} GroupEndSpec(d: Dialect, s: string, i: nat, j: nat)
    requires i + 6 <= j <= |s| && s[i..i + 5] == From && IsQuote(s[i + 5])
    requires AllDot(d, s[i + 6..j])
    ensures match GroupEnd(d, s, j, s[i + 5])
      case Some((g, e)) => Candidate(d, s, i, g - i - 6, e) && NoCandidateIn(d, s, i, j - i - 6, g - i - 6)
      case None => NoCandidateFrom(d, s, i, j - i - 6)
    decreases |s| - j
  {
    var q := s[i + 5];
    match SuffixEnd(s, j, q)
    case Some(e) =>
      SuffixEndSound(s, j, q);
    case None =>
      NoSuffixNoCandidate(d, s, i, j);
      if j < |s| && DotMatches(d, s[j]) {
        AllDotExtend(d, s, i + 6, j);
        GroupEndSpec(d, s, i, j + 1);
      } else {
        BlockedNoCandidate(d, s, i, j);
      }
  }

  /** `m` is a match of the regular expression at `m.start`: the opening
      quote is `m.quote`, the group is the text after it, and the match is
      closed by the same quote. */
  ghost predicate IsRegexMatch(d: Dialect, s: string, m: Match) {
    Candidate(d, s, m.start, |m.group|, m.end) && m.quote == s[m.start + 5]
    && m.group == s[m.start + 6..m.start + 6 + |m.group|] && s[m.end - 1] == m.quote
  }

  /** Without `from ` and a quote at `i` the expression cannot match there. */
  lemma NoOpeningNoCandidate(d: Dialect, s: string, i: nat)
    requires i <= |s| && !(i + 6 <= |s| && s[i..i + 5] == From && IsQuote(s[i + 5]))
    ensures NoCandidateFrom(d, s, i, 0)
  {
  }

  lemma GroupMatch(d: Dialect, s: string, i: nat, g: nat, e: nat)
    requires i + 6 <= g <= e <= |s| && Candidate(d, s, i, g - i - 6, e)
    ensures IsRegexMatch(d, s, Match(i, s[i + 5], s[i + 6..g], e))
  {
    var t := s[g..e];
    assert t[|t| - 1] == s[e - 1];
  }

  /** The scanner's match at `i` is the regular expression's: it matches,
      its group is the shortest that does, and when the scanner finds
      nothing no group makes the expression match at `i`. */
  lemma MatchAtCorrect(d: Dialect, s: string, i: nat)
    requires i <= |s|
    ensures match MatchAt(d, s, i)
      case Some(m) =>
        IsRegexMatch(d, s, m) && NoCandidateIn(d, s, i, 0, |m.group|)
      case None =>
        NoCandidateFrom(d, s, i, 0)
  {
    if i + 6 <= |s| && s[i..i + 5] == From && IsQuote(s[i + 5]) {
      GroupEndSpec(d, s, i, i + 6);
      match GroupEnd(d, s, i + 6, s[i + 5])
      case Some((g, e)) =>
        GroupMatch(d, s, i, g, e);
      case None =>
    } else {
      NoOpeningNoCandidate(d, s, i);
    }
  }

  /** The group never holds a character that `.` refuses; for Python that is
      a line feed. */
  lemma GroupHasNoNewline(d: Dialect, s: string, i: nat)
    requires i <= |s| && MatchAt(d, s, i).Some?
    ensures '\n' !in MatchAt(d, s, i).value.group
  {
    MatchAtCorrect(d, s, i);
    var g := MatchAt(d, s, i).value.group;
    assert AllDot(d, g);
  }

  // ---------------------------------------------------------------------
  // Properties of the rewrite.

  /** Each replacement shortens the text by at least six characters (the
      `@`, three digits and two dots of the shortest suffix), so the rewrite
      never lengthens content. */
  lemma {:induction false} RewriteLength(d: Dialect, s: string, i: nat)
    requires i <= |s|
    ensures |RewriteFrom(d, s, i)| + 6 * |MatchesFrom(d, s, i)| <= |s| - i
    decreases |s| - i
  {
    if i < |s| {
      match MatchAt(d, s, i)
      case Some(m) => RewriteLength(d, s, m.end);
      case None => RewriteLength(d, s, i + 1);
    }
  }

  /** With no match the text is copied unchanged. */
  lemma {:induction false} NoMatchesCopy(d: Dialect, s: string, i: nat)
    requires i <= |s| && MatchesFrom(d, s, i) == []
    ensures RewriteFrom(d, s, i) == s[i..]
    decreases |s| - i
  {
    if i < |s| {
      NoMatchesCopy(d, s, i + 1);
      assert s[i..] == [s[i]] + s[i + 1..];
    }
  }

  /** The content changes exactly when the pattern occurs in it, and then it
      gets shorter by at least six characters per occurrence. */
  lemma RewriteChangesIffMatch(d: Dialect, s: string)
    ensures Rewrite(d, s) != s <==> Matches(d, s) != []
    ensures |Rewrite(d, s)| <= |s| - 6 * |Matches(d, s)|
  {
    RewriteLength(d, s, 0);
    if Matches(d, s) == [] {
      NoMatchesCopy(d, s, 0);
    }
  }

  /** `ms` are matches of the regular expression at or after `i`, each
      ending before the next starts. */
  ghost predicate ScanOrder(d: Dialect, s: string, i: int, ms: seq<Match>) {
    (forall n :: 0 <= n < |ms| ==> i <= ms[n].start && IsRegexMatch(d, s, ms[n]))
    && (forall n :: 0 < n < |ms| ==> ms[n - 1].end <= ms[n].start)
  }

  lemma ScanOrderCons(d: Dialect, s: string, i: int, m: Match, rest: seq<Match>)
    requires i <= m.start <= m.end && IsRegexMatch(d, s, m) && ScanOrder(d, s, m.end, rest)
    ensures ScanOrder(d, s, i, [m] + rest)
  {
    var all := [m] + rest;
    forall n | 0 <= n < |all| ensures i <= all[n].start && IsRegexMatch(d, s, all[n]) {
      if n > 0 {
        assert all[n] == rest[n - 1];
      }
    }
    forall n | 0 < n < |all| ensures all[n - 1].end <= all[n].start {
      if n > 1 {
        assert all[n - 1] == rest[n - 2] && all[n] == rest[n - 1];
      }
    }
  }

  lemma MatchAtIsRegexMatch(d: Dialect, s: string, i: nat)
    requires i <= |s| && MatchAt(d, s, i).Some?
    ensures IsRegexMatch(d, s, MatchAt(d, s, i).value)
  {
    MatchAtCorrect(d, s, i);
  }

  /** Every found match is one of the regular expression's, found at or
      after the scan position, and matches follow each other without
      overlapping. */
  lemma {:induction false} MatchesWellFormed(d: Dialect, s: string, i: nat)
    requires i <= |s|
    ensures ScanOrder(d, s, i, MatchesFrom(d, s, i))
    decreases |s| - i
  {
    if i < |s| {
      match MatchAt(d, s, i)
      case Some(m) =>
        MatchAtIsRegexMatch(d, s, i);
        MatchesWellFormed(d, s, m.end);
        ScanOrderCons(d, s, i, m, MatchesFrom(d, s, m.end));
      case None =>
        MatchesWellFormed(d, s, i + 1);
    }
  }

  /** A match needs the text `from ` where it starts, so content without an
      `f` from position `i` on has no match there. */
  lemma {:induction false} NoFromNoMatches(d: Dialect, s: string, i: nat)
    requires i <= |s| && forall j :: i <= j < |s| ==> s[j] != 'f'
    ensures MatchesFrom(d, s, i) == [] && RewriteFrom(d, s, i) == s[i..]
    decreases |s| - i
  {
    if i < |s| {
      if i + 6 <= |s| {
        assert s[i..i + 5][0] == s[i];
      }
      NoFromNoMatches(d, s, i + 1);
      assert s[i..] == [s[i]] + s[i + 1..];
    }
  }

  lemma MatchNeedsFrom(d: Dialect, s: string, i: nat)
    requires i <= |s| && MatchAt(d, s, i).Some?
    ensures Text.OccursAt(s, From, i)
  {
  }

  /** Content that never says `from ` is left unchanged. */
  lemma {:induction false} WithoutFromUnchanged(d: Dialect, s: string, i: nat)
    requires i <= |s| && forall j :: i <= j ==> !Text.OccursAt(s, From, j)
    ensures RewriteFrom(d, s, i) == s[i..]
    decreases |s| - i
  {
    if i < |s| {
      if MatchAt(d, s, i).Some? {
        MatchNeedsFrom(d, s, i);
      }
      WithoutFromUnchanged(d, s, i + 1);
      assert s[i..] == [s[i]] + s[i + 1..];
    }
  }

  // ---------------------------------------------------------------------
  // Pinned imports.

  /** `from {q}{p}@{v}{q}`: an import of package `p` pinned to version `v`. */
  function Pinned(q: char, p: string, v: string): string {
    From + [q] + p + ['@'] + v + [q]
  }

  /** A version core holds only digits and dots, so `.` accepts all of it
      and it contains no `@`. */
  lemma VersionChars(d: Dialect, v: string)
    requires IsVersionCore(v)
    ensures AllDot(d, v) && '@' !in v
  {
    var a, b :| VersionAt(v, a, b);
    forall x | 0 <= x < |v| ensures v[x] == '.' || Text.IsDigit(v[x]) {
      if x < a {
        assert v[..a][x] == v[x];
      } else if a < x < b {
        assert v[a + 1..b][x - a - 1] == v[x];
      } else if b < x {
        assert v[b + 1..][x - b - 1] == v[x];
      }
    }
  }

  /** Skipping over positions where no suffix starts and `.` accepts the
      character does not change where the lazy group ends. */
  lemma {:induction false} GroupEndSkip(d: Dialect, s: string, j: nat, j2: nat, q: char)
    requires j <= j2 <= |s|
    requires forall x :: j <= x < j2 ==> Skippable(d, s, x)
    ensures GroupEnd(d, s, j, q) == GroupEnd(d, s, j2, q)
    decreases j2 - j
  {
    if j < j2 {
      assert Skippable(d, s, j);
      GroupEndStep(d, s, j, q);
      GroupEndSkip(d, s, j + 1, j2, q);
    }
  }

  /** `x` holds no `@`, so no suffix starts there, and `.` accepts the
      character there. */
  predicate Skippable(d: Dialect, s: string, x: nat) {
    x < |s| && s[x] != '@' && DotMatches(d, s[x])
  }

  lemma GroupEndStep(d: Dialect, s: string, j: nat, q: char)
    requires Skippable(d, s, j)
    ensures GroupEnd(d, s, j, q) == GroupEnd(d, s, j + 1, q)
  {
  }

  /** Where there is no `@` and `.` accepts every character, each
      position can be skipped. */
  lemma SkippableRange(d: Dialect, s: string, lo: nat, hi: nat)
    requires lo <= hi <= |s| && AllDot(d, s[lo..hi]) && '@' !in s[lo..hi]
    ensures forall x :: lo <= x < hi ==> Skippable(d, s, x)
  {
    forall x | lo <= x < hi ensures Skippable(d, s, x) {
      assert s[lo..hi][x - lo] == s[x];
    }
  }

  lemma AllDotSlice(d: Dialect, s: string, lo: nat, hi: nat)
    requires lo <= hi <= |s| && AllDot(d, s[lo..hi])
    ensures forall x :: lo <= x < hi ==> DotMatches(d, s[x])
  {
    forall x | lo <= x < hi ensures DotMatches(d, s[x]) {
      assert s[lo..hi][x - lo] == s[x];
    }
  }

  /** When the whole text is one match with group `s[6..g]`, the rewrite is
      that match's replacement. */
  lemma WholeMatch(d: Dialect, s: string, q: char, g: nat)
    requires 6 <= g <= |s| && s[..5] == From && s[5] == q && IsQuote(q)
    requires GroupEnd(d, s, 6, q) == Some((g, |s|))
    ensures Rewrite(d, s) == From + [q] + s[6..g] + [q]
  {
    assert s[0..5] == s[..5];
    var m := Match(0, q, s[6..g], |s|);
    assert MatchAt(d, s, 0) == Some(m);
    assert RewriteFrom(d, s, |s|) == [];
    assert Rewrite(d, s) == Replacement(m) + [];
  }

  /** Where the parts of a pinned import sit. */
  lemma PinnedLayout(q: char, p: string, v: string)
    ensures var s := Pinned(q, p, v);
      |s| == 8 + |p| + |v| && s[..5] == From && s[5] == q && s[6..6 + |p|] == p
      && s[6 + |p|] == '@' && s[7 + |p|..7 + |p| + |v|] == v && s[|s| - 1] == q
      && s[6 + |p|..] == ['@'] + v + [q]
  {
  }

  /** `@v` and the quote form a suffix when `v` is a version core. */
  lemma PinnedSuffix(s: string, at: nat, v: string, q: char)
    requires IsQuote(q) && IsVersionCore(v) && at < |s| && s[at..] == ['@'] + v + [q]
    ensures SuffixEnd(s, at, q) == Some(|s|)
  {
    assert s[at..|s|] == s[at..];
    assert (['@'] + v + [q])[1..|v| + 1] == v;
    SuffixEndComplete(s, at, q, |s|);
  }

  /** A pinned import loses its version and keeps its quotes and package. */
  lemma RewritePinned(d: Dialect, q: char, p: string, v: string)
    requires IsQuote(q) && IsVersionCore(v) && AllDot(d, p) && '@' !in p
    ensures Rewrite(d, Pinned(q, p, v)) == From + [q] + p + [q]
  {
    var s := Pinned(q, p, v);
    var at := 6 + |p|;
    PinnedLayout(q, p, v);
    PinnedSuffix(s, at, v, q);
    SkippableRange(d, s, 6, at);
    GroupEndSkip(d, s, 6, at, q);
    WholeMatch(d, s, q, at);
  }

  /** Past the first `@`, the group runs through the first version to the
      second `@`, where the last version and the quote follow. */
  lemma SecondVersionEndsGroup(d: Dialect, s: string, q: char, at1: nat, v1: string, v2: string)
    requires IsQuote(q) && IsVersionCore(v1) && IsVersionCore(v2)
    requires |s| == at1 + 3 + |v1| + |v2| && s[at1 + 1..at1 + 1 + |v1|] == v1
    requires s[at1 + 1 + |v1|..] == ['@'] + v2 + [q]
    ensures GroupEnd(d, s, at1 + 1, q) == Some((at1 + 1 + |v1|, |s|))
  {
    SkippableVersion(d, s, at1 + 1, v1);
    GroupEndAtPinned(d, s, at1 + 1, at1 + 1 + |v1|, v2, q);
  }

  /** Past skippable positions, the lazy group ends at an `@` that a
      version and the quote follow to the end of the text. */
  lemma GroupEndAtPinned(d: Dialect, s: string, j: nat, j2: nat, v: string, q: char)
    requires IsQuote(q) && IsVersionCore(v) && j <= j2 < |s| && s[j2..] == ['@'] + v + [q]
    requires forall x :: j <= x < j2 ==> Skippable(d, s, x)
    ensures GroupEnd(d, s, j, q) == Some((j2, |s|))
  {
    PinnedSuffix(s, j2, v, q);
    GroupEndAfterSkip(d, s, j, j2, |s|, q);
  }

  /** Past skippable positions, the lazy group ends where the first
      suffix starts. */
  lemma GroupEndAfterSkip(d: Dialect, s: string, j: nat, j2: nat, e: nat, q: char)
    requires j <= j2 <= |s| && forall x :: j <= x < j2 ==> Skippable(d, s, x)
    requires SuffixEnd(s, j2, q) == Some(e)
    ensures GroupEnd(d, s, j, q) == Some((j2, e))
  {
    GroupEndSkip(d, s, j, j2, q);
  }

  /** The group can run over a version core: it holds no `@` and `.`
      accepts its digits and dots. */
  lemma SkippableVersion(d: Dialect, s: string, lo: nat, v: string)
    requires IsVersionCore(v) && lo + |v| <= |s| && s[lo..lo + |v|] == v
    ensures forall x :: lo <= x < lo + |v| ==> Skippable(d, s, x)
  {
    VersionChars(d, v);
    SkippableRange(d, s, lo, lo + |v|);
  }

  /** In `from "p@v1@v2"` the lazy group runs past the first `@` (where the
      version is not followed by the quote) to the second. */
  lemma DoublyPinnedGroup(d: Dialect, s: string, q: char, p: string, v1: string, v2: string)
    requires IsQuote(q) && IsVersionCore(v1) && IsVersionCore(v2) && AllDot(d, p) && '@' !in p
    requires |s| == 9 + |p| + |v1| + |v2| && s[6..6 + |p|] == p && s[6 + |p|] == '@'
    requires s[7 + |p|..7 + |p| + |v1|] == v1 && s[7 + |p| + |v1|..] == ['@'] + v2 + [q]
    ensures GroupEnd(d, s, 6, q) == Some((7 + |p| + |v1|, |s|))
  {
    var at1 := 6 + |p|;
    FirstVersionNotClosed(s, at1, v1, q);
    SkippableRange(d, s, 6, at1);
    GroupEndSkip(d, s, 6, at1, q);
    assert GroupEnd(d, s, at1, q) == GroupEnd(d, s, at1 + 1, q);
    SecondVersionEndsGroup(d, s, q, at1, v1, v2);
  }

  lemma DoublyPinnedLayout(q: char, p: string, v1: string, v2: string)
    ensures var s := Pinned(q, p + ['@'] + v1, v2);
      |s| == 9 + |p| + |v1| + |v2| && s[6..6 + |p|] == p && s[6 + |p|] == '@'
      && s[7 + |p|..7 + |p| + |v1|] == v1 && s[7 + |p| + |v1|..] == ['@'] + v2 + [q]
      && s[6..7 + |p| + |v1|] == p + ['@'] + v1 && s[..5] == From && s[5] == q
  {
    var p' := p + ['@'] + v1;
    var s := Pinned(q, p', v2);
    PinnedLayout(q, p', v2);
    Lists.SliceOfSlice(s, 6, 6 + |p'|, 0, |p|);
    Lists.SliceOfSlice(s, 6, 6 + |p'|, |p| + 1, |p'|);
    assert s[6 + |p|] == p'[|p|];
  }

  /** An import pinned twice, `from "p@1.2.3@4.5.6"`, loses only its last
      version: the lazy group stops at the first `@` that a version and the
      closing quote follow, and the version before it is not followed by the
      quote. */
  lemma RewriteDoublyPinned(d: Dialect, q: char, p: string, v1: string, v2: string)
    requires IsQuote(q) && IsVersionCore(v1) && IsVersionCore(v2) && AllDot(d, p) && '@' !in p
    ensures Rewrite(d, Pinned(q, p + ['@'] + v1, v2)) == Pinned(q, p, v1)
  {
    var s := Pinned(q, p + ['@'] + v1, v2);
    DoublyPinnedLayout(q, p, v1, v2);
    DoublyPinnedGroup(d, s, q, p, v1, v2);
    WholeMatch(d, s, q, 7 + |p| + |v1|);
    PinnedRegroup(q, p, v1);
  }

  lemma PinnedRegroup(q: char, p: string, v: string)
    ensures From + [q] + (p + ['@'] + v) + [q] == Pinned(q, p, v)
  {
  }

  /** A digit run followed by something other than `c` is not `D` then `c`. */
  lemma RunThenBlocked(s: string, p: nat, e: nat, c: char)
    requires p <= e < |s| && DigitsIn(s, p, e) && s[e] != c && !Text.IsDigit(s[e])
    ensures RunThen(s, p, c) == None
  {
    DigitRunExact(s, p, e - p);
  }

  /** `@D.D.D` followed by `@` instead of the quote is not a suffix. */
  lemma SuffixBlocked(s: string, at: nat, a: nat, b: nat, e: nat, q: char)
    requires IsQuote(q) && at + 1 < a && a + 1 < b && b + 1 < e < |s| && s[at] == '@'
    requires s[a] == '.' && s[b] == '.' && s[e] == '@'
    requires DigitsIn(s, at + 1, a) && DigitsIn(s, a + 1, b) && DigitsIn(s, b + 1, e)
    ensures SuffixEnd(s, at, q).None?
  {
    RunThenExact(s, at + 1, '.', a);
    RunThenExact(s, a + 1, '.', b);
    RunThenBlocked(s, b + 1, e, q);
    SuffixEndStepsFail(s, at, q, a, b);
  }

  /** A version followed by `@` instead of the quote is not a suffix. */
  lemma FirstVersionNotClosed(s: string, at: nat, v: string, q: char)
    requires IsQuote(q) && IsVersionCore(v) && at + 1 + |v| < |s|
    requires s[at + 1..at + 1 + |v|] == v && s[at + 1 + |v|] == '@'
    ensures SuffixEnd(s, at, q).None?
  {
    var a, b :| VersionAt(v, a, b);
    var lo := at + 1;
    VersionPositions(s, lo, v, a, b);
    if s[at] == '@' {
      SuffixBlocked(s, at, lo + a, lo + b, lo + |v|, q);
    }
  }

  /** The rewrite is not idempotent: a second pass over the result of the
      first changes it again. */
  lemma NotIdempotent(d: Dialect, q: char, p: string, v1: string, v2: string)
    requires IsQuote(q) && IsVersionCore(v1) && IsVersionCore(v2) && AllDot(d, p) && '@' !in p
    ensures var once := Rewrite(d, Pinned(q, p + ['@'] + v1, v2));
      once == Pinned(q, p, v1) && Rewrite(d, once) == From + [q] + p + [q] && Rewrite(d, once) != once
  {
    RewriteDoublyPinned(d, q, p, v1, v2);
    RewritePinned(d, q, p, v1);
    assert |Pinned(q, p, v1)| > |From + [q] + p + [q]|;
  }

  /** Two numbers are not a version: `@1.2` followed by the quote is not a
      suffix, so such an import is never matched there. */
  lemma TwoNumbersNotSuffix(q: char, major: string, minor: string)
    requires IsQuote(q) && |major| > 0 && |minor| > 0 && AllDigits(major) && AllDigits(minor)
    ensures !IsSuffix(['@'] + major + ['.'] + minor + [q], q)
  {
    var t := ['@'] + major + ['.'] + minor + [q];
    var v := major + ['.'] + minor;
    assert t[1..|t| - 1] == v;
    forall a, b | VersionAt(v, a, b) ensures false {
      OnlyDotAt(major, minor, a);
      OnlyDotAt(major, minor, b);
    }
  }

  lemma OnlyDotAt(major: string, minor: string, x: int)
    requires AllDigits(major) && AllDigits(minor) && 0 <= x < |major| + 1 + |minor|
    ensures (major + ['.'] + minor)[x] == '.' <==> x == |major|
  {
    var v := major + ['.'] + minor;
    if x < |major| {
      assert v[x] == major[x];
    } else if x > |major| {
      assert v[x] == minor[x - |major| - 1];
    }
  }

  /** The two scripts disagree on a carriage return inside the package
      name: Python's `.` accepts it, so the version is removed; JavaScript's
      does not, so the import is left as it is. */
  lemma DialectsDiffer(q: char, p1: string, p2: string, v: string)
    requires IsQuote(q) && IsVersionCore(v)
    requires AllDot(JavaScript, p1) && AllDot(JavaScript, p2) && '@' !in p1 + p2
    requires 'f' !in p1 + p2
    ensures var s := Pinned(q, p1 + ['\r'] + p2, v);
      Rewrite(Python, s) == From + [q] + p1 + ['\r'] + p2 + [q] && Rewrite(JavaScript, s) == s
  {
    var p := p1 + ['\r'] + p2;
    CarriageReturnPackage(p1, p2);
    RewritePinned(Python, q, p, v);
    JsKeepsCarriageReturn(q, p1, p2, v);
  }

  /** JavaScript leaves an import whose package holds a carriage return
      as it is. */
  lemma JsKeepsCarriageReturn(q: char, p1: string, p2: string, v: string)
    requires IsQuote(q) && IsVersionCore(v)
    requires AllDot(JavaScript, p1) && AllDot(JavaScript, p2) && '@' !in p1 + p2
    requires 'f' !in p1 + p2
    ensures var s := Pinned(q, p1 + ['\r'] + p2, v); Rewrite(JavaScript, s) == s
  {
    var s := Pinned(q, p1 + ['\r'] + p2, v);
    JsNoMatchAtFrom(q, p1, p2, v);
    NoSecondFrom(q, p1, p2, v);
    NoFromNoMatches(JavaScript, s, 1);
    assert s == [s[0]] + s[1..];
  }

  lemma JsNoMatchAtFrom(q: char, p1: string, p2: string, v: string)
    requires IsQuote(q) && AllDot(JavaScript, p1) && '@' !in p1 + p2
    ensures MatchAt(JavaScript, Pinned(q, p1 + ['\r'] + p2, v), 0) == None
  {
    var p := p1 + ['\r'] + p2;
    var s := Pinned(q, p, v);
    var r := 6 + |p1|;
    PinnedLayout(q, p, v);
    assert s[6..r] == p1 && s[r] == '\r' && s[6..r + 1] == p1 + ['\r'];
    JsStopsAtLineTerminator(s, q, r);
  }

  /** A package name with a carriage return and no `@` or `f` elsewhere:
      Python's `.` accepts all of it. */
  lemma CarriageReturnPackage(p1: string, p2: string)
    requires AllDot(JavaScript, p1) && AllDot(JavaScript, p2) && '@' !in p1 + p2
    ensures var p := p1 + ['\r'] + p2; AllDot(Python, p) && '@' !in p
  {
    var p := p1 + ['\r'] + p2;
    forall x | 0 <= x < |p| ensures DotMatches(Python, p[x]) && p[x] != '@' {
      if x < |p1| {
        assert p[x] == (p1 + p2)[x];
      } else if x > |p1| {
        assert p[x] == (p1 + p2)[x - 1];
      }
    }
  }

  /** JavaScript's `.` stops at a carriage return that comes before any `@`,
      so no match starts at the `from`. */
  lemma JsStopsAtLineTerminator(s: string, q: char, r: nat)
    requires 6 <= r < |s| && s[..5] == From && s[5] == q && s[r] == '\r'
    requires '@' !in s[6..r + 1] && AllDot(JavaScript, s[6..r])
    ensures MatchAt(JavaScript, s, 0) == None
  {
    assert s[6..r + 1] == s[6..r] + [s[r]];
    SkippableRange(JavaScript, s, 6, r);
    GroupEndSkip(JavaScript, s, 6, r, q);
    assert GroupEnd(JavaScript, s, r, q) == None;
    assert s[0..5] == s[..5];
  }

  /** The only `f` of the pinned import is the one of its leading `from`. */
  lemma NoSecondFrom(q: char, p1: string, p2: string, v: string)
    requires IsQuote(q) && IsVersionCore(v) && 'f' !in p1 + p2
    ensures var s := Pinned(q, p1 + ['\r'] + p2, v);
      forall x :: 1 <= x < |s| ==> s[x] != 'f'
  {
    var p := p1 + ['\r'] + p2;
    var s := Pinned(q, p, v);
    VersionChars(JavaScript, v);
    PinnedLayout(q, p, v);
    forall x | 1 <= x < |s| ensures s[x] != 'f' {
      if 6 <= x < 6 + |p| {
        assert s[x] == p[x - 6];
        if x - 6 < |p1| {
          assert p[x - 6] == (p1 + p2)[x - 6];
        } else if x - 6 > |p1| {
          assert p[x - 6] == (p1 + p2)[x - 7];
        }
      } else if 7 + |p| <= x < |s| - 1 {
        assert s[x] == v[x - 7 - |p|];
        assert v[x - 7 - |p|] == '.' || Text.IsDigit(v[x - 7 - |p|]) by {
          assert AllDot(JavaScript, v);
        }
      }
    }
  }
}

=== FILE: inventory_controller.dfy ===
/** The inventory request handlers: the statistics of a user's inventory,
    and the mapping of the service's not-found error to 404. */
module InventoryController {
  import opened Wrappers
  import Lists
  import opened Counting
  import opened Http
  import opened Keyed
  import opened InventoryService

  /** `{ totalItems, categoryBreakdown, expiringItems }`. */
  datatype Stats = Stats(totalItems: nat, categoryBreakdown: map<string, nat>, expiringItems: seq<InventoryItem>)

  /** The categories of the items, in order. */
  function Categories(items: seq<InventoryItem>): (r: seq<string>)
    ensures |r| == |items| && forall i :: 0 <= i < |r| ==> r[i] == items[i].category
  {
    seq(|items|, i requires 0 <= i < |items| => items[i].category)
  }

  /** An item expected to keep at most a week. */
  predicate ExpiresWithinWeek(item: InventoryItem) {
    item.expirationEstimate <= 7
  }

  /** The statistics of `items`: their number, the count of each
      category (built by updating one dictionary item by item) and the
      items expiring within a week in their original order. */
  method ComputeStats(items: seq<InventoryItem>) returns (st: Stats)
    ensures st.totalItems == |items|
    ensures st.categoryBreakdown == Tally(Categories(items))
    ensures st.expiringItems == Lists.Filter(items, ExpiresWithinWeek)
  {
    var acc: map<string, nat> := map[];
    for i := 0 to |items|
      invariant acc == Tally(Categories(items[..i]))
    {
      var c := items[i].category;
      assert Categories(items[..i + 1]) == Categories(items[..i]) + [c];
      TallySnoc(Categories(items[..i]), c);
      acc := acc[c := (if c in acc then acc[c] else 0) + 1];
    }
    assert items[..|items|] == items;
    st := Stats(|items|, acc, Lists.Filter(items, ExpiresWithinWeek));
  }

  /** The breakdown has a key for exactly the categories present, each
      counting the items of that category, and the counts sum to the total. */
  lemma BreakdownAddsUp(items: seq<InventoryItem>)
    ensures forall c :: c in Tally(Categories(items)) <==> c in Categories(items)
    ensures forall c :: c in Tally(Categories(items)) ==>
      Tally(Categories(items))[c] == Lists.Count(Categories(items), Equals(c))
    ensures forall i :: 0 <= i < |Lists.Distinct(Categories(items))| ==>
      Lists.Distinct(Categories(items))[i] in Tally(Categories(items))
    ensures SumOver(Lists.Distinct(Categories(items)), Tally(Categories(items))) == |items|
  {
    TallyCounts(Categories(items));
    TallySum(Categories(items));
  }

  /** The ids of `userId`'s items. */
  ghost function ItemsOf(rows: map<Id, InventoryItem>, userId: Id): set<Id> {
    set k | k in rows && rows[k].userId == userId
  }

  /** The ids of `userId`'s items of category `c`. */
  ghost function ItemsIn(rows: map<Id, InventoryItem>, userId: Id, c: string): set<Id> {
    set k | k in rows && rows[k].userId == userId && rows[k].category == c
  }

  /** The items of category `c`. */
  function OfCategory(c: string): InventoryItem -> bool {
    (x: InventoryItem) => x.category == c
  }

  /** Counting a category among the categories is counting the items of
      that category. */
  lemma {:induction false} CountCategory(items: seq<InventoryItem>, c: string)
    ensures Lists.Count(Categories(items), Equals(c)) == |Lists.Filter(items, OfCategory(c))|
    decreases |items|
  {
    if items != [] {
      assert Categories(items)[1..] == Categories(items[1..]);
      CountCategory(items[1..], c);
    }
  }

  /** In a listing of `userId`'s items, a category is counted as many times
      as the table holds items of theirs in it. */
  lemma CategoryCount(rows: map<Id, InventoryItem>, userId: Id, items: seq<InventoryItem>, c: string)
    requires Injective(rows)
    requires Selected(items, rows, (x: InventoryItem) => x.userId == userId, NewestFirst())
    ensures Lists.Count(Categories(items), Equals(c)) == |ItemsIn(rows, userId, c)|
  {
    var mine := (x: InventoryItem) => x.userId == userId;
    CountCategory(items, c);
    assert forall i :: 0 <= i < |items| ==> items[i] in rows.Values && mine(items[i]);
    assert forall k :: k in rows && mine(rows[k]) ==> rows[k] in items;
    forall k ensures k in ItemsIn(rows, userId, c) <==> k in rows && mine(rows[k]) && OfCategory(c)(rows[k]) {
    }
    FilterMatching(items, rows, mine, OfCategory(c), ItemsIn(rows, userId, c));
  }

  /** The statistics of a listing of `userId`'s items count the table's items
      of theirs: in all, and per category present. */
  lemma StatsCount(rows: map<Id, InventoryItem>, userId: Id, items: seq<InventoryItem>)
    requires Injective(rows)
    requires Selected(items, rows, (x: InventoryItem) => x.userId == userId, NewestFirst())
    ensures |items| == |ItemsOf(rows, userId)|
    ensures forall c :: c in Tally(Categories(items)) <==> ItemsIn(rows, userId, c) != {}
    ensures forall c :: c in Tally(Categories(items)) ==> Tally(Categories(items))[c] == |ItemsIn(rows, userId, c)|
  {
    var mine := (x: InventoryItem) => x.userId == userId;
    SelectedCount(items, rows, mine, NewestFirst());
    assert ItemsOf(rows, userId) == Matching(rows, mine);
    TallyCounts(Categories(items));
    forall c ensures c in Tally(Categories(items)) <==> ItemsIn(rows, userId, c) != {} {
      CategoryCount(rows, userId, items, c);
      var cs := Categories(items);
      if c in cs {
        var i :| 0 <= i < |cs| && cs[i] == c;
        assert Equals(c)(cs[i]);
        assert cs[i] in Lists.Filter(cs, Equals(c));
        assert Lists.Count(cs, Equals(c)) > 0;
        assert |ItemsIn(rows, userId, c)| > 0;
      } else {
        CountAbsent(cs, c);
        assert |ItemsIn(rows, userId, c)| == 0;
      }
    }
    forall c | c in Tally(Categories(items)) ensures Tally(Categories(items))[c] == |ItemsIn(rows, userId, c)| {
      CategoryCount(rows, userId, items, c);
    }
  }

  /** `getInventoryStats`: the statistics of the caller's items. */
  method GetStats(store: InventoryStore, userId: Id) returns (resp: Response<Stats>)
    requires store.Valid()
    ensures resp.Done? && resp.status == 200
    ensures resp.data.totalItems == |ItemsOf(store.rows, userId)|
    ensures forall c :: c in resp.data.categoryBreakdown <==> ItemsIn(store.rows, userId, c) != {}
    ensures forall c :: c in resp.data.categoryBreakdown ==>
      resp.data.categoryBreakdown[c] == |ItemsIn(store.rows, userId, c)|
    ensures forall i :: 0 <= i < |resp.data.expiringItems| ==>
      resp.data.expiringItems[i].userId == userId && ExpiresWithinWeek(resp.data.expiringItems[i])
    ensures forall k :: k in store.rows && store.rows[k].userId == userId && ExpiresWithinWeek(store.rows[k]) ==>
      store.rows[k] in resp.data.expiringItems
  {
    var items := store.GetAll(userId);
    var st := ComputeStats(items);
    assert Injective(store.rows);
    StatsCount(store.rows, userId, items);
    resp := Done(200, st);
  }

  /** `getInventoryItem`: the item, or 404 when the caller owns no item
      with that id. */
  method GetItem(store: InventoryStore, id: Id, userId: Id) returns (resp: Response<InventoryItem>)
    ensures resp.Done? <==> store.Owns(userId, id)
    ensures resp.Done? ==> resp == Done(200, store.rows[id])
    ensures !resp.Done? ==> resp == Refused(404, ItemNotFound)
  {
    var r := store.GetById(id, userId);
    if r.Ok? {
      resp := Done(200, r.value);
    } else {
      resp := Refused(404, r.error);
    }
  }

  /** `updateInventoryItem`: 404 when the caller owns no such item. */
  method UpdateItem(store: InventoryStore, id: Id, patch: ItemPatch, userId: Id) returns (resp: Response<InventoryItem>)
    requires store.Valid()
    modifies store
    ensures store.Valid()
    ensures resp.Done? <==> old(store.Owns(userId, id))
    ensures resp.Done? ==> resp.status == 200 && resp.data == InventoryService.Patched(old(store.rows)[id], patch)
                           && store.rows == old(store.rows)[id := resp.data]
    ensures !resp.Done? ==> resp == Refused(404, ItemNotFound) && store.rows == old(store.rows)
  {
    var r := store.Update(id, patch, userId);
    if r.Ok? {
      resp := Done(200, r.value);
    } else {
      resp := Refused(404, r.error);
    }
  }

  /** `deleteInventoryItem`: 404 when the caller owns no such item. */
  method DeleteItem(store: InventoryStore, id: Id, userId: Id) returns (resp: Response<()>)
    requires store.Valid()
    modifies store
    ensures store.Valid()
    ensures resp.Done? <==> old(store.Owns(userId, id))
    ensures resp.Done? ==> resp.status == 200 && store.rows == old(store.rows) - {id}
    ensures !resp.Done? ==> resp == Refused(404, ItemNotFound) && store.rows == old(store.rows)
  {
    var r := store.Delete(id, userId);
    if r.Ok? {
      resp := Done(200, ());
    } else {
      resp := Refused(404, r.error);
    }
  }

  /** `uploadInventoryImage`: the uploaded URL (`upload`, the image host's
      answer), or 400 with the host's error message. */
  function UploadImage(upload: Result<string, string>): (resp: Response<string>)
    ensures upload.Ok? ==> resp == Done(200, upload.value)
    ensures upload.Err? ==> resp == Refused(400, upload.error)
  {
    match upload
    case Ok(url) => Done(200, url)
    case Err(e) => Refused(400, e)
  }
}

=== FILE: inventory_page.dfy ===
/** The inventory page of the server-backed client: the search and
    category filter over the inventory, the search over the food
    database, the freshness badge of an item, what the add, add-from-database
    and edit dialogs send, and the guard on a new category. Times are
    milliseconds; `now` stands for `Date.now()`. */
module InventoryPage {
  import opened Wrappers
  import Text
  import Lists
  import opened ClientData

  /** An entry of the food database. */
  datatype FoodItem = FoodItem(id: string, name: string, category: string, expirationEstimate: int,
                               imageUrl: Option<string>)

  /** The name or the category contains the query, ignoring case. */
  predicate MatchesSearch(query: string, name: string, category: string) {
    Text.ContainsIgnoringCase(name, query) || Text.ContainsIgnoringCase(category, query)
  }

  predicate Shown(query: string, categoryFilter: string, item: InventoryItem) {
    MatchesSearch(query, item.name, item.category) && (categoryFilter == "all" || item.category == categoryFilter)
  }

  function ShownFor(query: string, categoryFilter: string): InventoryItem -> bool {
    (item: InventoryItem) => Shown(query, categoryFilter, item)
  }

  /** `filteredInventory`. */
  function FilteredInventory(inventory: seq<InventoryItem>, query: string, categoryFilter: string)
    : (r: seq<InventoryItem>)
    ensures forall i :: 0 <= i < |r| ==> r[i] in inventory && Shown(query, categoryFilter, r[i])
    ensures forall i :: 0 <= i < |inventory| && Shown(query, categoryFilter, inventory[i]) ==> inventory[i] in r
  {
    Lists.Filter(inventory, ShownFor(query, categoryFilter))
  }

  /** The filtered list keeps the inventory's order, and the empty search
      with `'all'` shows the whole inventory. */
  lemma FilteredIsSubsequence(inventory: seq<InventoryItem>, query: string, categoryFilter: string)
    ensures Lists.Subseq(FilteredInventory(inventory, query, categoryFilter), inventory)
    ensures query == [] && categoryFilter == "all" ==> FilteredInventory(inventory, query, categoryFilter) == inventory
  {
    Lists.FilterSubseq(inventory, ShownFor(query, categoryFilter));
    if query == [] && categoryFilter == "all" {
      forall i | 0 <= i < |inventory| ensures Shown(query, categoryFilter, inventory[i]) {
        Text.ContainsEmpty(Text.Lower(inventory[i].name));
      }
      Lists.FilterAll(inventory, ShownFor(query, categoryFilter));
    }
  }

  function FoodMatches(query: string): FoodItem -> bool {
    (f: FoodItem) => MatchesSearch(query, f.name, f.category)
  }

  /** `filteredFoodDb`: the same search over the food database. */
  function FilteredFoodDb(database: seq<FoodItem>, query: string): (r: seq<FoodItem>)
    ensures forall i :: 0 <= i < |r| ==> r[i] in database && MatchesSearch(query, r[i].name, r[i].category)
    ensures forall i :: 0 <= i < |database| && MatchesSearch(query, database[i].name, database[i].category) ==>
      database[i] in r
  {
    Lists.Filter(database, FoodMatches(query))
  }

  /** The food database and the inventory answer a search alike: an item
      whose name and category equal an entry's is shown exactly when the
      entry is. */
  lemma SameSearch(query: string, f: FoodItem, item: InventoryItem)
    requires item.name == f.name && item.category == f.category
    ensures Shown(query, "all", item) <==> FoodMatches(query)(f)
  {
  }

  /** The freshness badge. */
  datatype Freshness = ExpiresSoon | UseSoon | FreshItem

  /** `getDaysInInventory`: whole days since the item was added. */
  function DaysInInventory(now: int, dateAdded: int): int {
    (now - dateAdded) / DayMillis
  }

  /** `getExpirationStatus` on the days in inventory and the estimate:
      the share of the estimate used, as a percentage, against 80 and 50.
      A zero estimate gives an infinite share for a positive day count and
      no number at all for zero days (both comparisons then fail), as the
      division in the page does. */
  function Badge(days: int, estimate: int): Freshness {
    if estimate == 0 then
      if days > 0 then ExpiresSoon else FreshItem
    else
      var used := (days as real / estimate as real) * 100.0;
      if used >= 80.0 then ExpiresSoon else if used >= 50.0 then UseSoon else FreshItem
  }

  /** For a positive estimate the thresholds in whole numbers: at least
      four fifths of the estimate gone is "Expires Soon", at least half is
      "Use Soon", less is "Fresh". */
  lemma BadgeThresholds(days: int, estimate: int)
    requires estimate > 0
    ensures Badge(days, estimate) == ExpiresSoon <==> 5 * days >= 4 * estimate
    ensures Badge(days, estimate) == UseSoon <==> 2 * days >= estimate && 5 * days < 4 * estimate
    ensures Badge(days, estimate) == FreshItem <==> 2 * days < estimate
  {
    var d, e := days as real, estimate as real;
    var used := (d / e) * 100.0;
    assert used * e == d * 100.0 by {
      assert (d / e) * e == d;
    }
    ShareThreshold(used, d, e, 80.0);
    ShareThreshold(used, d, e, 50.0);
    assert d * 100.0 >= 80.0 * e <==> 5 * days >= 4 * estimate;
    assert d * 100.0 >= 50.0 * e <==> 2 * days >= estimate;
  }

  /** A share `u` of `e` that is `d` percent of it reaches `t` exactly
      when `d` percent reach `t` times `e`. */
  lemma ShareThreshold(u: real, d: real, e: real, t: real)
    requires e > 0.0 && u * e == d * 100.0
    ensures u >= t <==> d * 100.0 >= t * e
  {
    ScaleMonotone(u, t, e);
  }

  /** Multiplying by a positive number keeps the order. */
  lemma ScaleMonotone(a: real, b: real, e: real)
    requires e > 0.0
    ensures a >= b <==> a * e >= b * e
  {
    if a >= b {
      assert a * e - b * e == (a - b) * e;
    } else {
      assert b * e - a * e == (b - a) * e;
    }
  }

  /** The form of the add and edit dialogs. */
  datatype ItemForm = ItemForm(name: string, category: string, expirationEstimate: int, price: Option<real>,
                               quantity: real, unit: Unit, imageUrl: string)

  /** The item the page hands to `addInventoryItem`. */
  datatype ItemDraft = ItemDraft(name: string, category: string, expirationEstimate: int,
                                 imageUrl: Option<string>, price: Option<real>, quantity: real, unit: Unit)

  /** `handleAddFromDatabase`: the entry, one piece of it. */
  function FromDatabase(food: FoodItem): (d: ItemDraft)
    ensures d.quantity == 1.0 && d.unit == Pcs
    ensures d.name == food.name && d.category == food.category
    ensures d.expirationEstimate == food.expirationEstimate && d.imageUrl == food.imageUrl
    ensures d.price.None?
  {
    ItemDraft(food.name, food.category, food.expirationEstimate, food.imageUrl, None, 1.0, Pcs)
  }

  /** The form as the add dialog opens and after each addition. */
  const EmptyItemForm := ItemForm("", "", 7, Some(0.0), 1.0, Pcs, "")

  /** `handleAddManual`: the form's fields with the uploaded image's
      address, none when that is empty; the form is then emptied. */
  function AddManual(form: ItemForm, uploadedUrl: string): (r: (ItemDraft, ItemForm))
    ensures r.0.name == form.name && r.0.category == form.category && r.0.quantity == form.quantity
    ensures r.0.unit == form.unit && r.0.price == form.price
    ensures r.0.expirationEstimate == form.expirationEstimate
    ensures r.0.imageUrl.None? <==> uploadedUrl == []
    ensures r.0.imageUrl.Some? ==> r.0.imageUrl.value == uploadedUrl
    ensures r.1.name == [] && r.1.category == [] && r.1.expirationEstimate == 7 && r.1.quantity == 1.0
    ensures r.1.price == Some(0.0) && r.1.unit == Pcs && r.1.imageUrl == []
  {
    (ItemDraft(form.name, form.category, form.expirationEstimate, NonEmpty(uploadedUrl), form.price,
               form.quantity, form.unit), EmptyItemForm)
  }

  /** `openEditDialog`: the form filled from the item, a missing image as
      the empty address. */
  function EditForm(item: InventoryItem): (f: ItemForm)
    ensures f.name == item.name && f.category == item.category && f.price == item.price
    ensures f.expirationEstimate == item.expirationEstimate && f.quantity == item.quantity && f.unit == item.unit
    ensures f.imageUrl == if item.imageUrl.Some? then item.imageUrl.value else ""
  {
    ItemForm(item.name, item.category, item.expirationEstimate, item.price, item.quantity, item.unit,
             if item.imageUrl.Some? then item.imageUrl.value else "")
  }

  /** `handleEdit`: nothing without a selected item; otherwise the update
      for it, every field from the form and the image from a new upload
      when there is one. */
  function Edit(form: ItemForm, selected: Option<InventoryItem>, uploadedUrl: Option<string>)
    : (r: Option<(string, ItemPatch)>)
    ensures r.None? <==> selected.None?
    ensures r.Some? ==> r.value.0 == selected.value.id
    ensures r.Some? ==> r.value.1.id.None? && r.value.1.dateAdded.None?
    ensures r.Some? ==> r.value.1.name == Some(form.name) && r.value.1.category == Some(form.category)
                        && r.value.1.expirationEstimate == Some(form.expirationEstimate)
                        && r.value.1.quantity == Some(form.quantity) && r.value.1.unit == Some(form.unit)
                        && r.value.1.price == Some(form.price)
    ensures r.Some? ==> r.value.1.imageUrl == Some(Some(if uploadedUrl.Some? then uploadedUrl.value else form.imageUrl))
  {
    if selected.None? then None
    else
      var url := if uploadedUrl.Some? then uploadedUrl.value else form.imageUrl;
      Some((selected.value.id,
            ItemPatch(None, Some(form.name), Some(form.category), Some(form.expirationEstimate), Some(Some(url)),
                      Some(form.quantity), Some(form.unit), None, Some(form.price))))
  }

  /** Saving the edit dialog untouched gives the item back, except that
      an item without an image now has the empty address. */
  lemma UntouchedEditKeepsItem(item: InventoryItem)
    ensures var r := Edit(EditForm(item), Some(item), None);
            r.Some? && MergeItem(item, r.value.1) == item.(imageUrl := Some(if item.imageUrl.Some? then item.imageUrl.value else ""))
  {
  }

  /** `handleAddCategory`: a name that trims to nothing is ignored and the
      input kept; any other is added trimmed and the input cleared. */
  function AddCategoryInput(input: string): (r: (Option<string>, string))
    ensures r.0.None? <==> Text.AllSpace(input)
    ensures r.0.Some? ==> r.0.value == Text.Trim(input) && r.0.value != [] && r.1 == []
    ensures r.0.Some? ==> !Text.IsSpace(r.0.value[0]) && !Text.IsSpace(r.0.value[|r.0.value| - 1])
    ensures r.0.None? ==> r.1 == input
  {
    Text.TrimEmptyIffBlank(input);
    var t := Text.Trim(input);
    if t != [] then (Some(t), []) else (None, input)
  }
}

=== FILE: inventory_service.dfy ===
/** The inventory table and its service: every operation is scoped to the
    calling user, and listings are newest first. */
module InventoryService {
  import opened Wrappers
  import Lists
  import opened Keyed
  import InventoryValidator

  datatype InventoryItem = InventoryItem(id: Id, userId: Id, name: string, category: string, quantity: real,
                                         unit: string, expirationEstimate: int, price: Option<real>,
                                         imageUrl: Option<string>, dateAdded: int)

  const ItemNotFound: string := "Inventory item not found"

  /** `orderBy: { dateAdded: 'desc' }`. */
  function NewestFirst(): (InventoryItem, InventoryItem) -> bool {
    (a: InventoryItem, b: InventoryItem) => a.dateAdded >= b.dateAdded
  }

  lemma NewestFirstTotal()
    ensures Lists.TotalPreorder(NewestFirst())
  {
  }

  /** The fields of an update; the price may be set to `null`. */
  datatype ItemPatch = ItemPatch(name: Option<string>, category: Option<string>, quantity: Option<real>,
                                 unit: Option<string>, expirationEstimate: Option<int>,
                                 price: Option<Option<real>>, imageUrl: Option<Option<string>>)

  /** The item with the supplied fields replaced and every other field,
      the id, the owner and the date added kept. */
  function Patched(item: InventoryItem, p: ItemPatch): (u: InventoryItem)
    ensures u.id == item.id && u.userId == item.userId && u.dateAdded == item.dateAdded
    ensures p.name.Some? ==> u.name == p.name.value
    ensures p.category.Some? ==> u.category == p.category.value
    ensures p.quantity.Some? ==> u.quantity == p.quantity.value
    ensures p.unit.Some? ==> u.unit == p.unit.value
    ensures p.expirationEstimate.Some? ==> u.expirationEstimate == p.expirationEstimate.value
    ensures p.price.Some? ==> u.price == p.price.value
    ensures p.imageUrl.Some? ==> u.imageUrl == p.imageUrl.value
    ensures p.name.None? ==> u.name == item.name
    ensures p.category.None? ==> u.category == item.category
    ensures p.quantity.None? ==> u.quantity == item.quantity
    ensures p.unit.None? ==> u.unit == item.unit
    ensures p.expirationEstimate.None? ==> u.expirationEstimate == item.expirationEstimate
    ensures p.price.None? ==> u.price == item.price
    ensures p.imageUrl.None? ==> u.imageUrl == item.imageUrl
    ensures p == ItemPatch(None, None, None, None, None, None, None) ==> u == item
  {
    InventoryItem(item.id, item.userId, p.name.GetOr(item.name), p.category.GetOr(item.category),
                  p.quantity.GetOr(item.quantity), p.unit.GetOr(item.unit),
                  p.expirationEstimate.GetOr(item.expirationEstimate), p.price.GetOr(item.price),
                  p.imageUrl.GetOr(item.imageUrl), item.dateAdded)
  }

  class InventoryStore {
    var rows: map<Id, InventoryItem>
    var nextId: Id

    ghost predicate Valid()
      reads this
    {
      forall k :: k in rows ==> rows[k].id == k && k < nextId
    }

    constructor()
      ensures Valid() && rows == map[]
    {
      rows, nextId := map[], 0;
    }

    /** The item `id` exists and belongs to `userId`. */
    predicate Owns(userId: Id, id: Id)
      reads this
    {
      id in rows && rows[id].userId == userId
    }

    /** `getAll`: the caller's items and no one else's, newest first. */
    method GetAll(userId: Id) returns (r: seq<InventoryItem>)
      requires Valid()
      ensures Selected(r, rows, (x: InventoryItem) => x.userId == userId, NewestFirst())
      ensures forall i :: 0 <= i < |r| ==> r[i].userId == userId
    {
      NewestFirstTotal();
      assert Injective(rows);
      r := Select(rows, (x: InventoryItem) => x.userId == userId, NewestFirst());
    }

    /** `getByCategory`: the caller's items of exactly that category,
        newest first. */
    method GetByCategory(category: string, userId: Id) returns (r: seq<InventoryItem>)
      requires Valid()
      ensures Selected(r, rows, (x: InventoryItem) => x.userId == userId && x.category == category, NewestFirst())
      ensures forall i :: 0 <= i < |r| ==> r[i].userId == userId && r[i].category == category
    {
      NewestFirstTotal();
      assert Injective(rows);
      r := Select(rows, (x: InventoryItem) => x.userId == userId && x.category == category, NewestFirst());
    }

    /** `getById`: the item only when both its id and its owner match. */
    function GetById(id: Id, userId: Id): (r: Result<InventoryItem, string>)
      reads this
      ensures r.Ok? <==> Owns(userId, id)
      ensures r.Ok? ==> r.value == rows[id]
      ensures r.Err? ==> r.error == ItemNotFound
    {
      if id in rows && rows[id].userId == userId then Ok(rows[id]) else Err(ItemNotFound)
    }

    /** `create`: the validated fields together with the caller as owner;
        the database stamps `dateAdded` with `now`. */
    method Create(data: InventoryValidator.ItemInput, userId: Id, now: int) returns (item: InventoryItem)
      requires Valid()
      modifies this
      ensures Valid()
      ensures item == InventoryItem(old(nextId), userId, data.name, data.category, data.quantity, data.unit,
                                    data.expirationEstimate, data.price, data.imageUrl, now)
      ensures old(nextId) !in old(rows) && rows == old(rows)[item.id := item]
    {
      item := InventoryItem(nextId, userId, data.name, data.category, data.quantity, data.unit,
                            data.expirationEstimate, data.price, data.imageUrl, now);
      rows := rows[nextId := item];
      nextId := nextId + 1;
    }

    /** `update`: the ownership check first; then only the supplied
        fields of that one item change. */
    method Update(id: Id, patch: ItemPatch, userId: Id) returns (r: Result<InventoryItem, string>)
      requires Valid()
      modifies this
      ensures Valid() && nextId == old(nextId)
      ensures r.Ok? <==> old(Owns(userId, id))
      ensures r.Err? ==> r.error == ItemNotFound && rows == old(rows)
      ensures r.Ok? ==> r.value == Patched(old(rows)[id], patch) && rows == old(rows)[id := r.value]
    {
      var owned := GetById(id, userId);
      if owned.Err? {
        return Err(owned.error);
      }
      var item := Patched(rows[id], patch);
      rows := rows[id := item];
      r := Ok(item);
    }

    /** `delete`: the ownership check first; a non-owned item is never
        removed. */
    method Delete(id: Id, userId: Id) returns (r: Result<InventoryItem, string>)
      requires Valid()
      modifies this
      ensures Valid() && nextId == old(nextId)
      ensures r.Ok? <==> old(Owns(userId, id))
      ensures r.Err? ==> r.error == ItemNotFound && rows == old(rows)
      ensures r.Ok? ==> r.value == old(rows)[id] && rows == old(rows) - {id}
    {
      var owned := GetById(id, userId);
      if owned.Err? {
        return Err(owned.error);
      }
      r := Ok(rows[id]);
      rows := rows - {id};
    }
  }

  /** The items of one category are among the owner's items. */
  lemma CategoryListingWithinAll(store: InventoryStore, userId: Id, category: string,
                                 all: seq<InventoryItem>, some: seq<InventoryItem>)
    requires Selected(all, store.rows, (x: InventoryItem) => x.userId == userId, NewestFirst())
    requires Selected(some, store.rows, (x: InventoryItem) => x.userId == userId && x.category == category,
                      NewestFirst())
    ensures forall i :: 0 <= i < |some| ==> some[i] in all
  {
    forall i | 0 <= i < |some| ensures some[i] in all {
      assert some[i] in store.rows.Values;
      var k :| k in store.rows && store.rows[k] == some[i];
    }
  }
}

=== FILE: inventory_validator.dfy ===
/** The zod schemas for inventory items. */
module InventoryValidator {
  import opened Wrappers
  import opened Json
  import CommunityValidator

  const Categories: set<string> := {"dairy", "grain", "fruit", "vegetable", "protein", "oil"}

  /** `createItemSchema`. */
  predicate CreateItemOk(o: Object) {
    Required(o, "name", v => StrLen(v, 1, 100))
    && Required(o, "category", v => OneOf(v, Categories))
    && Required(o, "quantity", Positive)
    && Required(o, "unit", CommunityValidator.IsUnit)
    && Required(o, "expirationEstimate", PositiveInt)
    && Optional(o, "price", NonNegative)
    && Optional(o, "imageUrl", v => Nullable(v, IsStr))
  }

  /** An item after `createItemSchema.parse`. */
  datatype ItemInput = ItemInput(name: string, category: string, quantity: real, unit: string,
                                 expirationEstimate: int, price: Option<real>, imageUrl: Option<string>)

  /** `createItemSchema.parse`: succeeds exactly on valid bodies; the name
      has 1 to 100 characters, the category and unit come from their lists,
      the quantity is positive, the expiration estimate a positive integer
      and the price, when given, non-negative. */
  function ParseCreateItem(o: Object): (r: Option<ItemInput>)
    ensures r.Some? <==> CreateItemOk(o)
    ensures r.Some? ==>
      1 <= |r.value.name| <= 100 && r.value.category in Categories && r.value.quantity > 0.0
      && r.value.unit in CommunityValidator.Units && r.value.expirationEstimate >= 1
      && (r.value.price.Some? ==> r.value.price.value >= 0.0)
    ensures r.Some? ==>
      o["name"] == Str(r.value.name) && o["category"] == Str(r.value.category)
      && o["quantity"] == Num(r.value.quantity) && o["unit"] == Str(r.value.unit)
      && o["expirationEstimate"] == Num(r.value.expirationEstimate as real)
      && NumField(o, "price", r.value.price) && NullableStrField(o, "imageUrl", r.value.imageUrl)
  {
    if !CreateItemOk(o) then None
    else
      Some(ItemInput(o["name"].s, o["category"].s, o["quantity"].n, o["unit"].s,
                     o["expirationEstimate"].n.Floor, OptNum(o, "price"),
                     if "imageUrl" in o && o["imageUrl"].Str? then Some(o["imageUrl"].s) else None))
  }

  /** `updateItemSchema`: every field optional; the price may also be
      `null`. */
  predicate UpdateItemOk(o: Object) {
    Optional(o, "name", v => StrLen(v, 1, 100))
    && Optional(o, "category", v => OneOf(v, Categories))
    && Optional(o, "quantity", Positive)
    && Optional(o, "unit", CommunityValidator.IsUnit)
    && Optional(o, "expirationEstimate", PositiveInt)
    && Optional(o, "price", v => Nullable(v, NonNegative))
    && Optional(o, "imageUrl", v => Nullable(v, IsStr))
  }

  /** Every valid create body is a valid update body, also with its price
      cleared, which no create body may be; the empty update is valid. */
  lemma UpdateItemAccepts(o: Object)
    ensures CreateItemOk(o) ==> UpdateItemOk(o) && UpdateItemOk(o["price" := Null])
    ensures !CreateItemOk(o["price" := Null])
    ensures UpdateItemOk(map[])
  {
  }
}

=== FILE: json.dfy ===
/** Request bodies as the server receives them (parsed JSON), and the
    building blocks of the zod schemas that validate them: each schema is
    read as a predicate on a JSON object. */
module Json {
  import opened Wrappers

  datatype Value = Null | Bool(b: bool) | Num(n: real) | Str(s: string) | Arr(items: seq<Value>)
                 | Obj(fields: map<string, Value>)

  type Object = map<string, Value>

  /** `z.number().int()`. */
  predicate IsInt(n: real) { n.Floor as real == n }

  predicate IsStr(v: Value) { v.Str? }

  /** JavaScript truthiness of a JSON value (`NaN` does not occur in JSON). */
  predicate Truthy(v: Value) {
    match v
    case Null => false
    case Bool(b) => b
    case Num(n) => n != 0.0
    case Str(s) => s != []
    case _ => true
  }

  predicate IsBool(v: Value) { v.Bool? }

  /** A string in a format zod checks (`.email()`, `.cuid()`, `.url()`,
      `.datetime()`), given as `format`. */
  predicate StrFormat(v: Value, format: string -> bool) { v.Str? && format(v.s) }

  /** `z.string().min(lo).max(hi)`. */
  predicate StrLen(v: Value, lo: nat, hi: nat) { v.Str? && lo <= |v.s| <= hi }

  /** `z.string().min(lo)`. */
  predicate StrMin(v: Value, lo: nat) { v.Str? && lo <= |v.s| }

  /** `z.string().max(hi)`. */
  predicate StrMax(v: Value, hi: nat) { v.Str? && |v.s| <= hi }

  /** `z.enum([...])`. */
  predicate OneOf(v: Value, options: set<string>) { v.Str? && v.s in options }

  /** `z.number().positive()`. */
  predicate Positive(v: Value) { v.Num? && v.n > 0.0 }

  /** `z.number().nonnegative()` and `z.number().min(0)`. */
  predicate NonNegative(v: Value) { v.Num? && v.n >= 0.0 }

  /** `z.number().int().min(lo).max(hi)`. */
  predicate IntIn(v: Value, lo: int, hi: int) { v.Num? && IsInt(v.n) && lo as real <= v.n <= hi as real }

  /** `z.number().int().positive()`. */
  predicate PositiveInt(v: Value) { v.Num? && IsInt(v.n) && v.n > 0.0 }

  /** `z.array(z.string())`. */
  predicate StrArray(v: Value) {
    v.Arr? && forall i :: 0 <= i < |v.items| ==> v.items[i].Str?
  }

  /** A required field: present and accepted by `p`. */
  predicate Required(o: Object, key: string, p: Value -> bool) { key in o && p(o[key]) }

  /** `.optional()`: absent, or present and accepted by `p`. */
  predicate Optional(o: Object, key: string, p: Value -> bool) { key !in o || p(o[key]) }

  /** `.nullable()`: `null`, or accepted by `p`. */
  predicate Nullable(v: Value, p: Value -> bool) { v == Null || p(v) }

  /** `r` is the optional string field `key` of `o`: present exactly when
      the field is, and then the field's string. */
  predicate StrField(o: Object, key: string, r: Option<string>) {
    (r.Some? <==> key in o) && (r.Some? ==> o[key] == Str(r.value))
  }

  /** `r` is the optional number field `key` of `o`. */
  predicate NumField(o: Object, key: string, r: Option<real>) {
    (r.Some? <==> key in o) && (r.Some? ==> o[key] == Num(r.value))
  }

  /** `r` is the nullable string field `key` of `o`: absent and `null`
      both read as no value. */
  predicate NullableStrField(o: Object, key: string, r: Option<string>) {
    (r.Some? <==> key in o && o[key] != Null) && (r.Some? ==> o[key] == Str(r.value))
  }

  /** The strings of a string array. */
  function Strings(v: Value): (r: seq<string>)
    requires StrArray(v)
    ensures |r| == |v.items| && forall i :: 0 <= i < |r| ==> v.items[i] == Str(r[i])
  {
    seq(|v.items|, i requires 0 <= i < |v.items| => v.items[i].s)
  }

  /** The string of an optional string field. */
  function OptStr(o: Object, key: string): (r: Option<string>)
    requires Optional(o, key, IsStr)
    ensures r.Some? <==> key in o
    ensures r.Some? ==> o[key] == Str(r.value)
  {
    if key in o then Some(o[key].s) else None
  }

  /** The number of an optional number field. */
  function OptNum(o: Object, key: string): (r: Option<real>)
    requires key in o ==> o[key].Num?
    ensures r.Some? <==> key in o
    ensures r.Some? ==> o[key] == Num(r.value)
  {
    if key in o then Some(o[key].n) else None
  }
}

=== FILE: keyed.dfy ===
/** The database tables the services use, read as maps from id to row, and
    the listing of a table's rows in some order (a query without `orderBy`
    returns them in an order the database chooses). */
module Keyed {
  import Lists

  /** Ids the database generates. */
  type Id = nat

  /** The store's error when the row to change or delete does not exist. */
  const RecordNotFound: string := "Record to update not found."

  /** The rows of `m` in some order: each exactly once. */
  method Rows<V>(m: map<Id, V>) returns (s: seq<V>, ghost ids: seq<Id>)
    ensures |s| == |ids| == |m|
    ensures forall i :: 0 <= i < |s| ==> ids[i] in m && m[ids[i]] == s[i]
    ensures forall k :: k in m ==> k in ids
    ensures Lists.NoDup(ids)
  {
    s, ids := [], [];
    var rest := m;
    while rest != map[]
      invariant |s| == |ids| && |ids| + |rest| == |m|
      invariant forall k :: k in rest ==> k in m && rest[k] == m[k]
      invariant forall i :: 0 <= i < |s| ==> ids[i] in m && m[ids[i]] == s[i] && ids[i] !in rest
      invariant forall k :: k in m ==> k in ids || k in rest
      invariant Lists.NoDup(ids)
      decreases |rest|
    {
      var k :| k in rest;
      s, ids := s + [rest[k]], ids + [k];
      assert rest.Keys - {k} == (rest - {k}).Keys;
      rest := rest - {k};
    }
  }

  /** Different ids hold different rows (every row carries its own id). */
  predicate Injective<V(==)>(m: map<Id, V>) {
    forall a, b :: a in m && b in m && a != b ==> m[a] != m[b]
  }

  /** The rows of a table whose rows differ are listed without duplicates. */
  lemma RowsNoDup<V>(m: map<Id, V>, s: seq<V>, ids: seq<Id>)
    requires Injective(m) && |s| == |ids| && Lists.NoDup(ids)
    requires forall i :: 0 <= i < |s| ==> ids[i] in m && m[ids[i]] == s[i]
    ensures Lists.NoDup(s)
  {
  }

  /** The ids of the rows listed in `r`. */
  ghost function KeysOf<V>(m: map<Id, V>, r: seq<V>): set<Id> {
    set k | k in m && m[k] in r
  }

  /** A list of different rows of a table names as many ids as it is long. */
  lemma {:induction false} KeysOfCard<V>(m: map<Id, V>, r: seq<V>)
    requires Injective(m) && Lists.NoDup(r)
    requires forall i :: 0 <= i < |r| ==> r[i] in m.Values
    ensures |KeysOf(m, r)| == |r|
    decreases |r|
  {
    if r != [] {
      var init, x := r[..|r| - 1], r[|r| - 1];
      assert r == init + [x];
      assert Lists.NoDup(init);
      assert forall i :: 0 <= i < |init| ==> init[i] == r[i];
      KeysOfCard(m, init);
      assert x in m.Values;
      var kx :| kx in m && m[kx] == x;
      assert x !in init;
      assert KeysOf(m, r) == KeysOf(m, init) + {kx};
    }
  }

  /** A query with `where` and `orderBy`: the rows `keep` accepts, each
      once, ordered by `le` (ties in an order the database chooses). */
  ghost predicate Selected<V>(r: seq<V>, m: map<Id, V>, keep: V -> bool, le: (V, V) -> bool) {
    (forall i :: 0 <= i < |r| ==> r[i] in m.Values && keep(r[i]))
    && (forall k :: k in m && keep(m[k]) ==> m[k] in r)
    && Lists.NoDup(r)
    && Lists.SortedBy(r, le)
  }

  method Select<V(==,!new)>(m: map<Id, V>, keep: V -> bool, le: (V, V) -> bool) returns (r: seq<V>)
    requires Lists.TotalPreorder(le) && Injective(m)
    ensures Selected(r, m, keep, le)
    ensures |r| <= |m|
  {
    var s, ids := Rows(m);
    var hits := Lists.Filter(s, keep);
    r := Lists.Sort(hits, le);
    Lists.SortSorted(hits, le);
    RowsNoDup(m, s, ids);
    Lists.NoDupSub(hits, s);
    Lists.NoDupSub(r, hits);
    forall i | 0 <= i < |r| ensures r[i] in m.Values && keep(r[i]) {
      assert r[i] in multiset(hits);
      var j :| 0 <= j < |s| && s[j] == r[i];
      assert m[ids[j]] == s[j];
    }
    forall k | k in m && keep(m[k]) ensures m[k] in r {
      var i :| 0 <= i < |ids| && ids[i] == k;
      assert s[i] in hits;
      assert s[i] in multiset(r);
    }
  }

  /** The ids of the rows `keep` accepts. */
  ghost function Matching<V>(m: map<Id, V>, keep: V -> bool): set<Id> {
    set k | k in m && keep(m[k])
  }

  /** Filtering a list of different rows of a table, which holds every row
      `keep` accepts, leaves one element per row both `keep` and `p` accept:
      as many as the ids in `ks`. */
  lemma FilterMatching<V>(r: seq<V>, m: map<Id, V>, keep: V -> bool, p: V -> bool, ks: set<Id>)
    requires Injective(m) && Lists.NoDup(r)
    requires forall i :: 0 <= i < |r| ==> r[i] in m.Values && keep(r[i])
    requires forall k :: k in m && keep(m[k]) ==> m[k] in r
    requires forall k :: k in ks <==> k in m && keep(m[k]) && p(m[k])
    ensures |Lists.Filter(r, p)| == |ks|
  {
    var f := Lists.Filter(r, p);
    Lists.NoDupSub(f, r);
    forall i | 0 <= i < |f| ensures f[i] in m.Values {
      assert f[i] in r;
    }
    KeysOfCard(m, f);
    forall k | k in ks ensures k in KeysOf(m, f) {
      var i :| 0 <= i < |r| && r[i] == m[k];
      assert p(r[i]);
    }
    assert KeysOf(m, f) == ks;
  }

  /** A listing has one element per row the query accepts. */
  lemma SelectedCount<V>(r: seq<V>, m: map<Id, V>, keep: V -> bool, le: (V, V) -> bool)
    requires Selected(r, m, keep, le) && Injective(m)
    ensures |r| == |Matching(m, keep)|
  {
    KeysOfCard(m, r);
    assert KeysOf(m, r) == Matching(m, keep);
  }
}

=== FILE: lists.dfy ===
/** Sequence operations that the server and the client apply to their lists:
    `Array.prototype.filter`, de-duplication through a `Set` (which keeps the
    first occurrence of each value), counting, and sorting by a comparison. */
module Lists {

  /** `s.filter(p)`: the elements satisfying `p`, in their original order. */
  function Filter<T>(s: seq<T>, p: T -> bool): (r: seq<T>)
    ensures |r| <= |s|
    ensures forall i :: 0 <= i < |r| ==> r[i] in s && p(r[i])
    ensures forall i :: 0 <= i < |s| && p(s[i]) ==> s[i] in r
    ensures multiset(r) <= multiset(s)
  {
    if s == [] then []
    else
      assert s == [s[0]] + s[1..];
      (if p(s[0]) then [s[0]] else []) + Filter(s[1..], p)
  }

  /** `a` is a subsequence of `b`: `b` with some elements dropped, order kept. */
  predicate Subseq<T(==)>(a: seq<T>, b: seq<T>)
    decreases |b|
  {
    a == [] || (b != [] && ((a[0] == b[0] && Subseq(a[1..], b[1..])) || Subseq(a, b[1..])))
  }

  lemma {:induction false} FilterSubseq<T>(s: seq<T>, p: T -> bool)
    ensures Subseq(Filter(s, p), s)
    decreases |s|
  {
    if s != [] {
      FilterSubseq(s[1..], p);
      var f := Filter(s, p);
      if p(s[0]) {
        assert f[0] == s[0] && f[1..] == Filter(s[1..], p);
      } else {
        assert f == Filter(s[1..], p);
      }
    }
  }

  /** Filtering twice is filtering once by the conjunction. */
  lemma {:induction false} FilterFilter<T>(s: seq<T>, p: T -> bool, q: T -> bool)
    ensures Filter(Filter(s, p), q) == Filter(s, x => p(x) && q(x))
    decreases |s|
  {
    if s != [] {
      FilterFilter(s[1..], p, q);
      FilterAppend([s[0]], Filter(s[1..], p), q);
      if p(s[0]) {
        assert Filter(s, p) == [s[0]] + Filter(s[1..], p);
      } else {
        assert Filter(s, p) == Filter(s[1..], p);
      }
    }
  }

  lemma {:induction false} FilterAppend<T>(a: seq<T>, b: seq<T>, p: T -> bool)
    ensures Filter(a + b, p) == Filter(a, p) + Filter(b, p)
    decreases |a|
  {
    if a != [] {
      assert (a + b)[1..] == a[1..] + b;
      FilterAppend(a[1..], b, p);
    } else {
      assert a + b == b;
    }
  }

  /** Filtering by a predicate every element satisfies changes nothing. */
  lemma {:induction false} FilterAll<T>(s: seq<T>, p: T -> bool)
    requires forall i :: 0 <= i < |s| ==> p(s[i])
    ensures Filter(s, p) == s
    decreases |s|
  {
    if s != [] {
      FilterAll(s[1..], p);
    }
  }

  /** The number of elements satisfying `p`. */
  function Count<T>(s: seq<T>, p: T -> bool): (n: nat)
    ensures n == |Filter(s, p)|
    ensures n <= |s|
  {
    if s == [] then 0 else (if p(s[0]) then 1 else 0) + Count(s[1..], p)
  }

  predicate NoDup<T(==)>(s: seq<T>) {
    forall i, j :: 0 <= i < j < |s| ==> s[i] != s[j]
  }

  /** A list without duplicates holds each value at most once. */
  lemma {:induction false} NoDupCount<T>(s: seq<T>, x: T)
    requires NoDup(s)
    ensures multiset(s)[x] <= 1
    decreases |s|
  {
    if s != [] {
      assert s == [s[0]] + s[1..];
      assert NoDup(s[1..]);
      NoDupCount(s[1..], x);
      if s[0] == x {
        assert x !in s[1..];
      }
    }
  }

  /** A list whose values each occur at most once has no duplicates. */
  /** A list without duplicates has as many elements as its set. */
  lemma {:induction false} NoDupCard<T>(s: seq<T>)
    requires NoDup(s)
    ensures |set x | x in s| == |s|
    decreases |s|
  {
    if s != [] {
      NoDupCard(s[1..]);
      assert (set x | x in s) == {s[0]} + (set x | x in s[1..]);
      assert s[0] !in s[1..];
    }
  }

  lemma CountNoDup<T>(s: seq<T>)
    requires forall x :: multiset(s)[x] <= 1
    ensures NoDup(s)
  {
    forall i, j | 0 <= i < j < |s| ensures s[i] != s[j] {
      assert s == s[..j] + s[j..];
      assert multiset(s) == multiset(s[..j]) + multiset(s[j..]);
      assert s[i] in multiset(s[..j]) && s[j] in multiset(s[j..]);
      assert multiset(s)[s[j]] >= multiset(s[..j])[s[j]] + 1;
    }
  }

  /** Taking some of the elements of a list without duplicates (filtering,
      or reordering) gives a list without duplicates. */
  lemma NoDupSub<T>(a: seq<T>, b: seq<T>)
    requires multiset(a) <= multiset(b) && NoDup(b)
    ensures NoDup(a)
  {
    forall x ensures multiset(a)[x] <= 1 {
      NoDupCount(b, x);
    }
    CountNoDup(a);
  }

  /** `[...new Set(s)]`: each distinct value once, in order of first occurrence. */
  function Distinct<T(==)>(s: seq<T>): (r: seq<T>)
    ensures NoDup(r)
    ensures forall i :: 0 <= i < |r| ==> r[i] in s
    ensures forall i :: 0 <= i < |s| ==> s[i] in r
    ensures |r| <= |s|
    decreases |s|
  {
    if s == [] then []
    else
      var d := Distinct(s[..|s| - 1]);
      assert forall i :: 0 <= i < |s| - 1 ==> s[i] == s[..|s| - 1][i];
      if s[|s| - 1] in d then d else d + [s[|s| - 1]]
  }

  /** Appending a value already seen leaves the distinct values unchanged;
      appending a new one adds it at the end (first occurrences keep their order). */
  lemma DistinctSnoc<T>(s: seq<T>, x: T)
    ensures Distinct(s + [x]) == if x in s then Distinct(s) else Distinct(s) + [x]
  {
    assert (s + [x])[..|s + [x]| - 1] == s;
  }

  /** A list without duplicates is its own set of distinct values. */
  lemma {:induction false} DistinctNoDup<T>(s: seq<T>)
    requires NoDup(s)
    ensures Distinct(s) == s
    decreases |s|
  {
    if s != [] {
      var init := s[..|s| - 1];
      assert NoDup(init);
      DistinctNoDup(init);
      assert s[|s| - 1] !in init;
      assert s == init + [s[|s| - 1]];
    }
  }

  /** `le` is a total preorder: any two elements compare, and comparison is
      transitive. Every comparator the system sorts with is of this kind. */
  ghost predicate TotalPreorder<T(!new)>(le: (T, T) -> bool) {
    (forall a, b :: le(a, b) || le(b, a)) &&
    (forall a, b, c :: le(a, b) && le(b, c) ==> le(a, c))
  }

  /** Every element comes before every later one by `le`. */
  predicate SortedBy<T>(s: seq<T>, le: (T, T) -> bool) {
    forall i, j :: 0 <= i < j < |s| ==> le(s[i], s[j])
  }

  /** Put `x` into the sorted `s` in front of the first element it may
      precede, so ahead of every element equal to it: sorting with it keeps
      equal elements in their original order, as `Array.prototype.sort`
      does. */
  function Insert<T>(x: T, s: seq<T>, le: (T, T) -> bool): (r: seq<T>)
    ensures multiset(r) == multiset(s) + multiset{x}
    ensures |r| == |s| + 1
  {
    if s == [] || le(x, s[0]) then [x] + s
    else
      assert s == [s[0]] + s[1..];
      [s[0]] + Insert(x, s[1..], le)
  }

  lemma {:induction false} InsertSorted<T(!new)>(x: T, s: seq<T>, le: (T, T) -> bool)
    requires TotalPreorder(le) && SortedBy(s, le)
    ensures SortedBy(Insert(x, s, le), le)
    decreases |s|
  {
    if s != [] && !le(x, s[0]) {
      InsertSorted(x, s[1..], le);
      var t := Insert(x, s[1..], le);
      assert forall y :: y in multiset(t) ==> y == x || y in s[1..] by {
        assert multiset(t) == multiset(s[1..]) + multiset{x};
      }
      forall j | 0 <= j < |t| ensures le(s[0], t[j]) {
        assert t[j] in multiset(t);
      }
    }
  }

  /** The list sorted by `le` (the result of `[...s].sort(cmp)`, or of a
      store query with `orderBy`). */
  function Sort<T>(s: seq<T>, le: (T, T) -> bool): (r: seq<T>)
    ensures multiset(r) == multiset(s)
    ensures |r| == |s|
  {
    if s == [] then []
    else
      assert s == [s[0]] + s[1..];
      Insert(s[0], Sort(s[1..], le), le)
  }

  lemma {:induction false} SortSorted<T(!new)>(s: seq<T>, le: (T, T) -> bool)
    requires TotalPreorder(le)
    ensures SortedBy(Sort(s, le), le)
    decreases |s|
  {
    if s != [] {
      SortSorted(s[1..], le);
      InsertSorted(s[0], Sort(s[1..], le), le);
    }
  }

  /** When the head fails `p`, "no element before `i` of the tail
      satisfies `p`" is "no element before `i + 1` of the whole". */
  lemma NoneBeforeShift<T>(s: seq<T>, p: T -> bool, i: nat)
    requires s != [] && !p(s[0]) && i < |s|
    requires forall j :: 0 <= j < i ==> !p(s[1..][j])
    ensures forall j :: 0 <= j < i + 1 ==> !p(s[j])
  {
    forall j | 0 < j < i + 1 ensures !p(s[j]) {
      assert s[j] == s[1..][j - 1];
    }
  }

  /** A sequence ending with `p` is what comes before `p`, then `p`. */
  lemma SplitSuffix<T>(s: seq<T>, p: seq<T>)
    requires |p| <= |s| && s[|s| - |p|..] == p
    ensures s == s[..|s| - |p|] + p
  {
  }

  lemma SliceOfSlice<T>(s: seq<T>, lo: int, hi: int, x: int, y: int)
    requires 0 <= lo <= hi <= |s| && 0 <= x <= y <= hi - lo
    ensures s[lo..hi][x..y] == s[lo + x..lo + y]
  {
    var u := s[lo..hi];
    forall k | 0 <= k < y - x ensures u[x..y][k] == s[lo + x + k] {
      assert u[x..y][k] == u[x + k];
    }
  }

  /** `s.slice(0, n)`. */
  function Take<T>(s: seq<T>, n: nat): (r: seq<T>)
    ensures |r| <= n && |r| <= |s|
    ensures |s| <= n ==> r == s
    ensures n < |s| ==> |r| == n
    ensures forall i :: 0 <= i < |r| ==> r[i] == s[i]
  {
    if |s| <= n then s else s[..n]
  }

  /** An element that passes `p` with fewer than `n` passing elements
      before it is among the first `n` that pass. */
  lemma TakeFilterFirst<T>(s: seq<T>, p: T -> bool, n: nat, i: nat)
    requires i < |s| && p(s[i]) && Count(s[..i], p) < n
    ensures s[i] in Take(Filter(s, p), n)
  {
    var a, b := s[..i], s[i..];
    assert s == a + b;
    FilterAppend(a, b, p);
    assert b[0] == s[i];
    assert Filter(b, p)[0] == s[i];
    var k := |Filter(a, p)|;
    assert Filter(s, p)[k] == s[i];
    assert Take(Filter(s, p), n)[k] == s[i];
  }

  /** `s.reverse()`. */
  function Reverse<T>(s: seq<T>): (r: seq<T>)
    ensures |r| == |s|
    ensures forall i :: 0 <= i < |s| ==> r[i] == s[|s| - 1 - i]
  {
    seq(|s|, i requires 0 <= i < |s| => s[|s| - 1 - i])
  }
}

=== FILE: local_app_context.dfy ===
/** The state provider of the stand-alone client, which keeps everything in
    the browser: registered users, the current user, food logs, inventory
    and categories. Ids and timestamps (`Date.now()`) are parameters. */
module LocalAppContext {
  import opened Wrappers
  import Lists
  import opened ClientData

  const DefaultCategories: seq<string> :=
    ["Fruits", "Vegetables", "Grains", "Protein", "Dairy", "Snacks", "Beverages", "Other"]

  /** `users.find(u => u.email === email)`: the first user with that
      e-mail. */
  function FindByEmail(users: seq<User>, email: string): (r: Option<User>)
    ensures r.None? <==> forall i :: 0 <= i < |users| ==> users[i].email != email
    ensures r.Some? ==> exists i :: 0 <= i < |users| && users[i] == r.value && r.value.email == email
                                    && forall j :: 0 <= j < i ==> users[j].email != email
  {
    if users == [] then None
    else if users[0].email == email then Some(users[0])
    else
      var r := FindByEmail(users[1..], email);
      assert forall j :: 1 <= j < |users| ==> users[j] == users[1..][j - 1];
      if r.Some? then
        var i :| 0 <= i < |users[1..]| && users[1..][i] == r.value && r.value.email == email
                 && forall j :: 0 <= j < i ==> users[1..][j].email != email;
        assert users[i + 1] == r.value;
        r
      else
        r
  }

  lemma DefaultCategoriesDistinct()
    ensures Lists.NoDup(DefaultCategories)
  {
  }

  class LocalState {
    var currentUser: Option<User>
    var users: seq<User>
    var foodLogs: seq<FoodLog>
    var inventory: seq<InventoryItem>
    var categories: seq<string>

    /** The category list never holds a name twice. */
    ghost predicate Valid()
      reads this
    {
      Lists.NoDup(categories)
    }

    constructor()
      ensures Valid()
      ensures currentUser == None && users == [] && foodLogs == [] && inventory == []
      ensures categories == DefaultCategories
    {
      currentUser, users, foodLogs, inventory := None, [], [], [];
      categories := DefaultCategories;
    }

    /** `login`: succeeds exactly when some stored user has the e-mail,
        whatever the password, and makes that user current. */
    method Login(email: string, password: string) returns (ok: bool)
      modifies this
      ensures ok <==> exists i :: 0 <= i < |users| && users[i].email == email
      ensures ok ==> currentUser == FindByEmail(users, email)
      ensures !ok ==> currentUser == old(currentUser)
      ensures users == old(users) && foodLogs == old(foodLogs) && inventory == old(inventory)
      ensures categories == old(categories)
    {
      var user := FindByEmail(users, email);
      if user.Some? {
        currentUser := user;
        return true;
      }
      return false;
    }

    /** `register`: refused when any user has the e-mail; otherwise the new
        user (the data under the id `id`) is appended and made current. */
    method Register(userData: User, password: string, id: string) returns (ok: bool)
      modifies this
      ensures ok <==> forall i :: 0 <= i < |old(users)| ==> old(users)[i].email != userData.email
      ensures !ok ==> users == old(users) && currentUser == old(currentUser)
      ensures ok ==> users == old(users) + [userData.(id := id)] && currentUser == Some(userData.(id := id))
      ensures foodLogs == old(foodLogs) && inventory == old(inventory) && categories == old(categories)
    {
      if FindByEmail(users, userData.email).Some? {
        return false;
      }
      var newUser := userData.(id := id);
      users := users + [newUser];
      currentUser := Some(newUser);
      return true;
    }

    /** `logout`: only the current user is cleared. */
    method Logout()
      modifies this
      ensures currentUser == None
      ensures users == old(users) && foodLogs == old(foodLogs) && inventory == old(inventory)
      ensures categories == old(categories)
    {
      currentUser := None;
    }

    /** `updateProfile`: nothing without a current user; otherwise the
        updates are spread into it and every stored user with its id is
        replaced by the result. */
    method UpdateProfile(updates: UserPatch)
      modifies this
      ensures old(currentUser).None? ==> currentUser == None && users == old(users)
      ensures old(currentUser).Some? ==>
        currentUser == Some(MergeUser(old(currentUser).value, updates))
        && users == ReplaceKey(old(users), UserId, old(currentUser).value.id,
                               Const(MergeUser(old(currentUser).value, updates)))
      ensures foodLogs == old(foodLogs) && inventory == old(inventory) && categories == old(categories)
    {
      if currentUser.None? {
        return;
      }
      var updated := MergeUser(currentUser.value, updates);
      users := ReplaceKey(users, UserId, currentUser.value.id, Const(updated));
      currentUser := Some(updated);
    }

    /** `addFoodLog`: the log, under the id `id`, is appended. */
    method AddFoodLog(log: FoodLog, id: string)
      modifies this
      ensures foodLogs == old(foodLogs) + [log.(id := id)]
      ensures currentUser == old(currentUser) && users == old(users) && inventory == old(inventory)
      ensures categories == old(categories)
    {
      foodLogs := foodLogs + [log.(id := id)];
    }

    /** `deleteFoodLog`: every log with the id is removed. */
    method DeleteFoodLog(id: string)
      modifies this
      ensures foodLogs == RemoveKey(old(foodLogs), LogId, id)
      ensures currentUser == old(currentUser) && users == old(users) && inventory == old(inventory)
      ensures categories == old(categories)
    {
      foodLogs := RemoveKey(foodLogs, LogId, id);
    }

    /** `addInventoryItem`: the item, under the id `id` and added at `now`,
        is appended. */
    method AddInventoryItem(item: InventoryItem, id: string, now: int)
      modifies this
      ensures inventory == old(inventory) + [item.(id := id, dateAdded := now)]
      ensures currentUser == old(currentUser) && users == old(users) && foodLogs == old(foodLogs)
      ensures categories == old(categories)
    {
      inventory := inventory + [item.(id := id, dateAdded := now)];
    }

    /** `updateInventoryItem`: the updates are spread into every item with
        the id; the others, the length and the order stay. */
    method UpdateInventoryItem(id: string, updates: ItemPatch)
      modifies this
      ensures inventory == ReplaceKey(old(inventory), ItemId, id, Spread(updates))
      ensures currentUser == old(currentUser) && users == old(users) && foodLogs == old(foodLogs)
      ensures categories == old(categories)
    {
      inventory := ReplaceKey(inventory, ItemId, id, Spread(updates));
    }

    /** `deleteInventoryItem`: every item with the id is removed. */
    method DeleteInventoryItem(id: string)
      modifies this
      ensures inventory == RemoveKey(old(inventory), ItemId, id)
      ensures currentUser == old(currentUser) && users == old(users) && foodLogs == old(foodLogs)
      ensures categories == old(categories)
    {
      inventory := RemoveKey(inventory, ItemId, id);
    }

    /** `addCategory`: appended only when absent. */
    method AddCategory(category: string)
      requires Valid()
      modifies this
      ensures Valid()
      ensures categories == AddAbsent(old(categories), category)
      ensures currentUser == old(currentUser) && users == old(users) && foodLogs == old(foodLogs)
      ensures inventory == old(inventory)
    {
      CategoriesStayDistinct(categories, category);
      categories := AddAbsent(categories, category);
    }

    /** `deleteCategory`: every occurrence is removed. */
    method DeleteCategory(category: string)
      requires Valid()
      modifies this
      ensures Valid()
      ensures categories == RemoveAll(old(categories), category)
      ensures currentUser == old(currentUser) && users == old(users) && foodLogs == old(foodLogs)
      ensures inventory == old(inventory)
    {
      CategoriesStayDistinct(categories, category);
      categories := RemoveAll(categories, category);
    }
  }

  function UserId(u: User): string { u.id }

  function Const(u: User): User -> User { _ => u }

  /** `item => ({ ...item, ...updates })`. */
  function Spread(updates: ItemPatch): InventoryItem -> InventoryItem {
    item => MergeItem(item, updates)
  }

  /** After a successful `register`, logging in with the same e-mail
      succeeds and finds a user with it: the list holds no earlier user
      with that e-mail. */
  lemma RegisterThenLogin(users: seq<User>, userData: User, id: string)
    requires forall i :: 0 <= i < |users| ==> users[i].email != userData.email
    ensures FindByEmail(users + [userData.(id := id)], userData.email) == Some(userData.(id := id))
  {
    var s := users + [userData.(id := id)];
    assert s[|users|] == userData.(id := id);
    var r := FindByEmail(s, userData.email);
    var i :| 0 <= i < |s| && s[i] == r.value && r.value.email == userData.email
             && forall j :: 0 <= j < i ==> s[j].email != userData.email;
  }

  /** Updating inventory keeps the ids of all other items in place, and an
      update whose patch has no id keeps every id. */
  lemma UpdateKeepsIds(inventory: seq<InventoryItem>, id: string, updates: ItemPatch)
    requires updates.id.None?
    ensures forall i :: 0 <= i < |inventory| ==>
      ReplaceKey(inventory, ItemId, id, Spread(updates))[i].id == inventory[i].id
  {
  }
}

=== FILE: local_food_logs.dfy ===
/** The food-log page of the stand-alone client: the category filter, the
    newest-first order, and what a submission sends and leaves in the
    form. */
module LocalFoodLogs {
  import opened Wrappers
  import Lists
  import opened ClientData
  import opened FoodLogEntries

  function InCategory(c: string): FoodLog -> bool {
    (l: FoodLog) => l.category == c
  }

  /** `filterCategory === 'all' ? foodLogs : foodLogs.filter(...)`. */
  function Shown(logs: seq<FoodLog>, categoryFilter: string): (r: seq<FoodLog>)
    ensures categoryFilter == "all" ==> r == logs
    ensures categoryFilter != "all" ==>
      (forall i :: 0 <= i < |r| ==> r[i].category == categoryFilter && r[i] in logs)
      && (forall i :: 0 <= i < |logs| && logs[i].category == categoryFilter ==> logs[i] in r)
  {
    if categoryFilter == "all" then logs else Lists.Filter(logs, InCategory(categoryFilter))
  }

  /** The table's rows: exactly the shown logs, each as often as it is
      shown, newest first, and none of another category when one is
      chosen. */
  function Displayed(logs: seq<FoodLog>, categoryFilter: string): (r: seq<FoodLog>)
    ensures multiset(r) == multiset(Shown(logs, categoryFilter))
    ensures forall i, j :: 0 <= i < j < |r| ==> r[i].date >= r[j].date
    ensures categoryFilter != "all" ==> forall i :: 0 <= i < |r| ==> r[i].category == categoryFilter
    ensures categoryFilter == "all" ==> multiset(r) == multiset(logs)
  {
    var shown := Shown(logs, categoryFilter);
    var r := NewestFirst(shown);
    forall i | 0 <= i < |r| ensures r[i] in shown {
      assert r[i] in multiset(shown);
    }
    r
  }

  /** `handleSubmit`: the log sent carries the uploaded image's address, or
      none when that is empty; the form goes back to an empty name and
      category, one piece, whatever it held. */
  function Submit(form: LogForm, uploadedUrl: string, today: string): (r: (LogDraft, LogForm))
    ensures r.0.imageUrl.None? <==> uploadedUrl == []
    ensures r.0.imageUrl.Some? ==> r.0.imageUrl.value == uploadedUrl
    ensures r.0.itemName == form.itemName && r.0.quantity == form.quantity && r.0.date == form.date
    ensures r.0.category == form.category && r.0.unit == form.unit
    ensures r.1.itemName == [] && r.1.category == [] && r.1.quantity == 1.0 && r.1.unit == Pcs
    ensures r.1.date == today
  {
    (Draft(form, NonEmpty(uploadedUrl)), EmptyLogForm(today))
  }
}

=== FILE: login.dfy ===
/** The sign-in page of the browser-only client: the login form and the
    registration form, which checks the password before it registers a
    user with the defaults that onboarding later completes. Each handler
    returns the message the page shows. */
module LoginPage {
  import opened Wrappers
  import opened ClientData
  import opened LocalAppContext

  const WelcomeBack: string := "Welcome back!"
  const InvalidCredentials: string := "Invalid credentials. Please check your email and password."
  const PasswordTooShort: string := "Password must be at least 6 characters long"
  const PasswordsDiffer: string := "Passwords do not match"
  const AccountCreated: string := "Account created successfully!"
  const EmailExists: string := "Email already exists. Please login instead."

  datatype RegisterForm = RegisterForm(name: string, email: string, password: string, confirmPassword: string)

  /** The checks of `handleRegister`, in their order: at least six
      characters, then the confirmation. */
  function PasswordError(form: RegisterForm): (e: Option<string>)
    ensures e.None? <==> |form.password| >= 6 && form.password == form.confirmPassword
    ensures e == Some(PasswordTooShort) <==> |form.password| < 6
    ensures e == Some(PasswordsDiffer) <==> |form.password| >= 6 && form.password != form.confirmPassword
  {
    if |form.password| < 6 then Some(PasswordTooShort)
    else if form.password != form.confirmPassword then Some(PasswordsDiffer)
    else None
  }

  /** The user registered from the form: its name and e-mail, a household
      of one, no preferences, an empty location, onboarding not done. */
  function NewUser(form: RegisterForm): (u: User)
    ensures u.name == form.name && u.email == form.email
    ensures u.householdSize == 1 && u.dietaryPreferences == [] && u.location == Location("", "")
    ensures u.onboardingCompleted == Some(false)
    ensures u.role.None? && u.imageUrl.None?
  {
    User("", form.name, form.email, None, 1, [], None, None, Location("", ""), None, Some(false))
  }

  /** `handleLogin`: the message follows whether `login` succeeded. */
  method HandleLogin(app: LocalState, email: string, password: string) returns (message: string)
    modifies app
    ensures message == WelcomeBack <==> exists i :: 0 <= i < |old(app.users)| && old(app.users)[i].email == email
    ensures message == InvalidCredentials <==> message != WelcomeBack
    ensures message == WelcomeBack ==> app.currentUser == FindByEmail(old(app.users), email)
    ensures message != WelcomeBack ==> app.currentUser == old(app.currentUser)
    ensures app.users == old(app.users) && app.foodLogs == old(app.foodLogs) && app.inventory == old(app.inventory)
  {
    var ok := app.Login(email, password);
    message := if ok then WelcomeBack else InvalidCredentials;
  }

  /** `handleRegister`: a password that fails the checks registers nothing
      and shows the check's message; otherwise the new user is registered
      under `id` unless the e-mail is taken. */
  method HandleRegister(app: LocalState, form: RegisterForm, id: string) returns (message: string)
    modifies app
    ensures PasswordError(form).Some? ==>
      message == PasswordError(form).value && app.users == old(app.users) && app.currentUser == old(app.currentUser)
    ensures PasswordError(form).None? ==>
      (message == AccountCreated <==> forall i :: 0 <= i < |old(app.users)| ==> old(app.users)[i].email != form.email)
    ensures message == AccountCreated ==>
      app.users == old(app.users) + [NewUser(form).(id := id)] && app.currentUser == Some(NewUser(form).(id := id))
    ensures message != AccountCreated ==> app.users == old(app.users) && app.currentUser == old(app.currentUser)
    ensures app.foodLogs == old(app.foodLogs) && app.inventory == old(app.inventory)
  {
    var error := PasswordError(form);
    if error.Some? {
      return error.value;
    }
    var ok := app.Register(NewUser(form), form.password, id);
    message := if ok then AccountCreated else EmailExists;
  }

  /** Registering and then signing in with the same e-mail welcomes the
      user back. */
  method RegisterThenSignIn(app: LocalState, form: RegisterForm, id: string) returns (first: string, second: string)
    requires PasswordError(form).None?
    requires forall i :: 0 <= i < |app.users| ==> app.users[i].email != form.email
    modifies app
    ensures first == AccountCreated && second == WelcomeBack
    ensures app.currentUser == Some(NewUser(form).(id := id))
  {
    var registered := NewUser(form).(id := id);
    first := HandleRegister(app, form, id);
    assert app.users == old(app.users) + [registered];
    RegisterThenLogin(old(app.users), NewUser(form), id);
    assert app.users[|app.users| - 1].email == form.email;
    second := HandleLogin(app, form.email, form.password);
  }
}

=== FILE: onboarding.dfy ===
/** The three-step onboarding of the server-backed client: location,
    household size, dietary preferences. The page holds the step and the
    collected data; continuing from the last step, or skipping, produces
    the profile update it sends. */
module Onboarding {
  import opened Wrappers
  import opened ClientData

  /** `onboardingData`. */
  datatype OnboardingData = OnboardingData(location: Location, householdSize: int, dietaryPreferences: seq<string>)

  const NotSpecified: string := "Not specified"
  const Omnivore: string := "Everything (Omnivore)"

  /** The update sent on completion: the collected data and the completed
      flag, nothing else. */
  function CompletionUpdate(data: OnboardingData): (p: UserPatch)
    ensures p.location == Some(data.location) && p.householdSize == Some(data.householdSize)
    ensures p.dietaryPreferences == Some(data.dietaryPreferences)
    ensures p.onboardingCompleted == Some(Some(true))
    ensures p.id.None? && p.name.None? && p.email.None? && p.role.None? && p.imageUrl.None?
    ensures p.budgetPreference.None? && p.monthlyBudget.None?
  {
    UserPatch(None, None, None, None, Some(data.householdSize), Some(data.dietaryPreferences), None, None,
              Some(data.location), None, Some(Some(true)))
  }

  /** `handleSkip`: the data as collected, except that a missing district
      puts "Not specified" in both location fields and no preference puts
      the omnivore one. */
  function SkipUpdate(data: OnboardingData): (p: UserPatch)
    ensures p.onboardingCompleted == Some(Some(true))
    ensures p.householdSize == Some(data.householdSize)
    ensures data.location.district != [] ==> p.location == Some(data.location)
    ensures data.location.district == [] ==> p.location == Some(Location(NotSpecified, NotSpecified))
    ensures p.dietaryPreferences == Some(if data.dietaryPreferences == [] then [Omnivore] else data.dietaryPreferences)
    ensures p.dietaryPreferences.value != []
  {
    var location := if data.location.district != [] then data.location else Location(NotSpecified, NotSpecified);
    var prefs := if |data.dietaryPreferences| > 0 then data.dietaryPreferences else [Omnivore];
    CompletionUpdate(OnboardingData(location, data.householdSize, prefs))
  }

  /** Completing onboarding, whichever way, marks the user as onboarded
      and leaves the id, name and e-mail alone. */
  lemma CompletionMarksOnboarded(u: User, data: OnboardingData)
    ensures MergeUser(u, CompletionUpdate(data)).onboardingCompleted == Some(true)
    ensures MergeUser(u, SkipUpdate(data)).onboardingCompleted == Some(true)
    ensures MergeUser(u, SkipUpdate(data)).id == u.id && MergeUser(u, SkipUpdate(data)).email == u.email
    ensures MergeUser(u, CompletionUpdate(data)).name == u.name
  {
  }

  /** A household-size control: one of the buttons 1 to 8, the "More
      than 8" button, or the number typed in the field shown after it (what
      `parseInt` made of it). */
  datatype SizeChoice = SizeButton(n: int) | MoreThanEight | Typed(parsed: Option<int>)

  class Wizard {
    var step: int
    var data: OnboardingData

    /** The step is one of the three. */
    ghost predicate Valid()
      reads this
    {
      1 <= step <= 3
    }

    constructor()
      ensures Valid()
      ensures step == 1 && data == OnboardingData(Location("", ""), 1, [])
    {
      step := 1;
      data := OnboardingData(Location("", ""), 1, []);
    }

    /** `handleContinue`: step 1 needs a district and a division, step 2
        always advances, step 3 sends the completion update and stays. */
    method Continue() returns (sent: Option<UserPatch>)
      requires Valid()
      modifies this
      ensures Valid()
      ensures data == old(data)
      ensures old(step) == 1 ==>
        step == (if data.location.district != [] && data.location.division != [] then 2 else 1) && sent.None?
      ensures old(step) == 2 ==> step == 3 && sent.None?
      ensures old(step) == 3 ==> step == 3 && sent == Some(CompletionUpdate(data))
    {
      sent := None;
      if step == 1 {
        if data.location.district == [] || data.location.division == [] {
          return;
        }
        step := 2;
      } else if step == 2 {
        step := 3;
      } else if step == 3 {
        sent := Some(CompletionUpdate(data));
      }
    }

    /** The back button, shown only after the first step. */
    method Back()
      requires Valid()
      modifies this
      ensures Valid()
      ensures step == if old(step) > 1 then old(step) - 1 else old(step)
      ensures data == old(data)
    {
      if step > 1 {
        step := step - 1;
      }
    }

    method SetLocation(district: string, division: string)
      modifies this
      ensures data == old(data).(location := Location(district, division)) && step == old(step)
    {
      data := data.(location := Location(district, division));
    }

    /** The household-size controls: a button sets its number, "More than
        8" sets 9, the typed number is kept unless it is missing or zero,
        which give 1. */
    method ChooseSize(choice: SizeChoice)
      modifies this
      ensures choice.SizeButton? ==> data.householdSize == choice.n
      ensures choice.MoreThanEight? ==> data.householdSize == 9
      ensures choice.Typed? ==> data.householdSize == ParsedOr(choice.parsed, 1)
      ensures data.location == old(data).location && data.dietaryPreferences == old(data).dietaryPreferences
      ensures step == old(step)
    {
      var size := match choice
        case SizeButton(n) => n
        case MoreThanEight => 9
        case Typed(parsed) => ParsedOr(parsed, 1);
      data := data.(householdSize := size);
    }

    /** `toggleDietaryPreference`. */
    method Toggle(pref: string)
      modifies this
      ensures data == old(data).(dietaryPreferences := TogglePreference(old(data).dietaryPreferences, pref))
      ensures step == old(step)
    {
      data := data.(dietaryPreferences := TogglePreference(data.dietaryPreferences, pref));
    }
  }

  /** The walk through the wizard: with a district and a division filled
      in, three presses of continue send the completion update of the data
      as collected. */
  method ThreeContinues(w: Wizard) returns (sent: Option<UserPatch>)
    requires w.Valid() && w.step == 1
    requires w.data.location.district != [] && w.data.location.division != []
    modifies w
    ensures sent == Some(CompletionUpdate(old(w.data))) && w.step == 3
  {
    sent := w.Continue();
    sent := w.Continue();
    sent := w.Continue();
  }
}

=== FILE: profile.dfy ===
/** The profile page of the server-backed client: the edit form, filled
    from the current user and reset on cancel, the preference toggle, the
    household-size input, and the texts the page shows for the size and
    the location. */
module Profile {
  import opened Wrappers
  import opened ClientData

  datatype ProfileForm = ProfileForm(name: string, email: string, householdSize: int,
                                     dietaryPreferences: seq<string>, location: Location)

  /** The form filled from the current user: `|| ''` on the texts, `|| 1`
      on the size (so zero becomes one), the user's lists as they are, and
      empty texts and an empty list without a user. */
  function FormFrom(user: Option<User>): (f: ProfileForm)
    ensures user.None? ==> f == ProfileForm("", "", 1, [], Location("", ""))
    ensures user.Some? ==> f.name == user.value.name && f.email == user.value.email
                           && f.dietaryPreferences == user.value.dietaryPreferences
                           && f.location == user.value.location
    ensures user.Some? && user.value.householdSize != 0 ==> f.householdSize == user.value.householdSize
    ensures f.householdSize != 0
  {
    if user.None? then ProfileForm("", "", 1, [], Location("", ""))
    else
      var u := user.value;
      ProfileForm(u.name, u.email, if u.householdSize == 0 then 1 else u.householdSize, u.dietaryPreferences,
                  u.location)
  }

  /** What `updateProfile(formData)` receives: the five form fields. */
  function FormUpdate(f: ProfileForm): (p: UserPatch)
    ensures p.name == Some(f.name) && p.email == Some(f.email) && p.householdSize == Some(f.householdSize)
    ensures p.dietaryPreferences == Some(f.dietaryPreferences) && p.location == Some(f.location)
    ensures p.id.None? && p.role.None? && p.onboardingCompleted.None?
    ensures p.budgetPreference.None? && p.monthlyBudget.None? && p.imageUrl.None?
  {
    UserPatch(None, Some(f.name), Some(f.email), None, Some(f.householdSize), Some(f.dietaryPreferences), None,
              None, Some(f.location), None, None)
  }

  /** Saving a form taken untouched from a user with a non-zero size
      changes nothing in that user. */
  lemma UntouchedSaveKeepsUser(u: User)
    requires u.householdSize != 0
    ensures MergeUser(u, FormUpdate(FormFrom(Some(u)))) == u
  {
  }

  class Editor {
    var isEditing: bool
    var form: ProfileForm

    constructor(user: Option<User>)
      ensures !isEditing && form == FormFrom(user)
    {
      isEditing := false;
      form := FormFrom(user);
    }

    method Edit()
      modifies this
      ensures isEditing && form == old(form)
    {
      isEditing := true;
    }

    /** `handleSave`: the form is sent and editing ends. */
    method Save() returns (sent: UserPatch)
      modifies this
      ensures sent == FormUpdate(old(form)) && !isEditing && form == old(form)
    {
      sent := FormUpdate(form);
      isEditing := false;
    }

    /** `handleCancel`: the form is filled again from the current user and
        editing ends. */
    method Cancel(user: Option<User>)
      modifies this
      ensures form == FormFrom(user) && !isEditing
    {
      form := FormFrom(user);
      isEditing := false;
    }

    /** `toggleDietaryPreference`. */
    method Toggle(pref: string)
      modifies this
      ensures form == old(form).(dietaryPreferences := TogglePreference(old(form).dietaryPreferences, pref))
      ensures isEditing == old(isEditing)
    {
      form := form.(dietaryPreferences := TogglePreference(form.dietaryPreferences, pref));
    }

    /** The household-size field: `parseInt(value) || 1`. */
    method TypeHouseholdSize(parsed: Option<int>)
      modifies this
      ensures form == old(form).(householdSize := ParsedOr(parsed, 1)) && isEditing == old(isEditing)
    {
      form := form.(householdSize := ParsedOr(parsed, 1));
    }
  }

  /** "person" for a household of one, "people" for any other size. */
  function PeopleLabel(householdSize: int): (s: string)
    ensures s == "person" <==> householdSize == 1
    ensures s == "people" <==> householdSize != 1
  {
    if householdSize == 1 then "person" else "people"
  }

  /** `district || division || 'Not specified'`. */
  function LocationSummary(location: Location): (s: string)
    ensures location.district != [] ==> s == location.district
    ensures location.district == [] && location.division != [] ==> s == location.division
    ensures s == "Not specified" <==>
      (location.district == [] && location.division == [])
      || location.district == "Not specified"
      || (location.district == [] && location.division == "Not specified")
    ensures s != []
  {
    if location.district != [] then location.district
    else if location.division != [] then location.division
    else "Not specified"
  }
}

=== FILE: resource_library.dfy ===
/** The resources page of the stand-alone client, over a fixed catalogue:
    the category and type lists, the three filters, the grouping of the
    filtered resources by category, and the counts shown beneath. */
module ResourceLibrary {
  import Text
  import Lists
  import opened ClientData

  /** Search on title or description ignoring case, then the category and
      the type filter, each passing everything on `'all'`. */
  predicate Keep(query: string, categoryFilter: string, typeFilter: string, r: Resource) {
    (Text.ContainsIgnoringCase(r.title, query) || Text.ContainsIgnoringCase(r.description, query))
    && (categoryFilter == "all" || r.category == categoryFilter)
    && (typeFilter == "all" || r.kind == typeFilter)
  }

  function Filtered(resources: seq<Resource>, query: string, categoryFilter: string, typeFilter: string)
    : (r: seq<Resource>)
    ensures forall i :: 0 <= i < |r| ==> Keep(query, categoryFilter, typeFilter, r[i]) && r[i] in resources
    ensures forall i :: 0 <= i < |resources| && Keep(query, categoryFilter, typeFilter, resources[i]) ==>
      resources[i] in r
  {
    Lists.Filter(resources, x => Keep(query, categoryFilter, typeFilter, x))
  }

  function InCategory(c: string): Resource -> bool {
    (r: Resource) => r.category == c
  }

  /** `categories.reduce((acc, c) => { acc[c] = filtered.filter(...) })`:
      one bucket per category, each holding the filtered resources of that
      category in order. */
  function Grouped(categories: seq<string>, filtered: seq<Resource>): (m: map<string, seq<Resource>>)
    decreases |categories|
  {
    if categories == [] then map[]
    else
      var c := categories[|categories| - 1];
      Grouped(categories[..|categories| - 1], filtered)[c := Lists.Filter(filtered, InCategory(c))]
  }

  /** Each category has a bucket, and the bucket is exactly the filtered
      resources of that category, in order. */
  lemma {:induction false} GroupedBuckets(categories: seq<string>, filtered: seq<Resource>)
    ensures forall c :: c in Grouped(categories, filtered) <==> c in categories
    ensures forall c :: c in Grouped(categories, filtered) ==>
      Grouped(categories, filtered)[c] == Lists.Filter(filtered, InCategory(c))
    decreases |categories|
  {
    if categories != [] {
      var front := categories[..|categories| - 1];
      GroupedBuckets(front, filtered);
      assert categories == front + [categories[|categories| - 1]];
    }
  }

  /** The buckets partition the filtered list: every filtered resource is
      in the bucket of its own category and in no other. */
  lemma GroupedPartition(resources: seq<Resource>, query: string, categoryFilter: string, typeFilter: string)
    ensures var f := Filtered(resources, query, categoryFilter, typeFilter);
            var g := Grouped(ResourceCategories(resources), f);
            forall i :: 0 <= i < |f| ==>
              f[i].category in g && f[i] in g[f[i].category]
              && forall c :: c in g && f[i] in g[c] ==> c == f[i].category
  {
    var f := Filtered(resources, query, categoryFilter, typeFilter);
    var cats := ResourceCategories(resources);
    var g := Grouped(cats, f);
    GroupedBuckets(cats, f);
    forall i | 0 <= i < |f|
      ensures f[i].category in g && f[i] in g[f[i].category]
      ensures forall c :: c in g && f[i] in g[c] ==> c == f[i].category
    {
      var j :| 0 <= j < |resources| && resources[j] == f[i];
      assert f[i] in Lists.Filter(f, InCategory(f[i].category));
    }
  }

  /** The totals shown beneath the list: all of them, the articles, the
      videos and the categories, whatever the filters. */
  datatype Totals = Totals(resources: nat, articles: nat, videos: nat, categories: nat)

  function IsKind(k: string): Resource -> bool {
    (r: Resource) => r.kind == k
  }

  function CatalogueTotals(resources: seq<Resource>): (t: Totals)
    ensures t.resources == |resources|
    ensures t.articles == |Lists.Filter(resources, IsKind("article"))|
    ensures t.videos == |Lists.Filter(resources, IsKind("video"))|
    ensures t.categories == |set i | 0 <= i < |resources| :: resources[i].category|
    ensures t.articles + t.videos <= t.resources
    ensures t.categories <= t.resources
  {
    DisjointCounts(resources, IsKind("article"), IsKind("video"));
    var cats := ResourceCategories(resources);
    Lists.NoDupCard(cats);
    assert (set x | x in cats) == (set i | 0 <= i < |resources| :: resources[i].category);
    Totals(|resources|, Lists.Count(resources, IsKind("article")), Lists.Count(resources, IsKind("video")),
           |ResourceCategories(resources)|)
  }

  /** Two tests no element passes together count at most the whole list. */
  lemma {:induction false} DisjointCounts(s: seq<Resource>, p: Resource -> bool, q: Resource -> bool)
    requires forall x :: !(p(x) && q(x))
    ensures Lists.Count(s, p) + Lists.Count(s, q) <= |s|
    decreases |s|
  {
    if s != [] {
      DisjointCounts(s[1..], p, q);
    }
  }
}

=== FILE: resources_page.dfy ===
/** The resources page of the server-backed client: the page-number list
    with ellipses under the resource grid, the category the page asks the
    server for, the search and type filters, and the list of types. */
module ResourcesPage {
  import opened Wrappers
  import Text
  import Lists
  import opened ClientData

  /** An entry of the page list: a page number or one of the two
      ellipses. */
  datatype PageItem = PageNum(n: int) | EllipsisStart | EllipsisEnd

  datatype Pagination = Pagination(page: int, totalPages: int, hasNextPage: bool, hasPreviousPage: bool)

  function Max(a: int, b: int): int { if a < b then b else a }
  function Min(a: int, b: int): int { if a < b then a else b }

  /** The page numbers `lo..hi`, empty when `hi < lo`. */
  function Range(lo: int, hi: int): (r: seq<PageItem>)
    ensures |r| == Max(0, hi - lo + 1)
    ensures forall i :: 0 <= i < |r| ==> r[i] == PageNum(lo + i)
  {
    seq(Max(0, hi - lo + 1), i requires 0 <= i < Max(0, hi - lo + 1) => PageNum(lo + i))
  }

  /** The list for more than seven pages: the first page, an ellipsis when
      the window leaves a gap after it, the window around the current page,
      an ellipsis when it leaves a gap before the last page, the last page. */
  function Windowed(page: int, totalPages: int): seq<PageItem> {
    [PageNum(1)]
    + (if page > 3 then [EllipsisStart] else [])
    + Range(Max(2, page - 1), Min(totalPages - 1, page + 1))
    + (if page < totalPages - 2 then [EllipsisEnd] else [])
    + [PageNum(totalPages)]
  }

  /** The page list for `page` of `totalPages`. */
  function PageList(page: int, totalPages: int): seq<PageItem> {
    if totalPages <= 7 then Range(1, totalPages) else Windowed(page, totalPages)
  }

  /** `renderPagination`: no list without pagination data or with at most
      one page; otherwise the list, filled with loops. */
  method RenderPagination(info: Option<Pagination>) returns (pages: Option<seq<PageItem>>)
    ensures info.None? || info.value.totalPages <= 1 ==> pages.None?
    ensures info.Some? && info.value.totalPages > 1 ==>
      pages == Some(PageList(info.value.page, info.value.totalPages))
  {
    if info.None? || info.value.totalPages <= 1 {
      return None;
    }
    var page, totalPages := info.value.page, info.value.totalPages;
    var list: seq<PageItem> := [];
    if totalPages <= 7 {
      for i := 1 to totalPages + 1
        invariant list == Range(1, i - 1)
      {
        list := list + [PageNum(i)];
      }
    } else {
      list := list + [PageNum(1)];
      if page > 3 {
        list := list + [EllipsisStart];
      }
      var head := list;
      assert head == [PageNum(1)] + (if page > 3 then [EllipsisStart] else []);
      var start := Max(2, page - 1);
      var end := Min(totalPages - 1, page + 1);
      var i := start;
      while i <= end
        invariant start <= i <= Max(start, end + 1)
        invariant list == head + Range(start, i - 1)
      {
        list := list + [PageNum(i)];
        i := i + 1;
      }
      assert Range(start, i - 1) == Range(start, end);
      var middle := list;
      if page < totalPages - 2 {
        list := list + [EllipsisEnd];
      }
      list := list + [PageNum(totalPages)];
      assert list == middle + (if page < totalPages - 2 then [EllipsisEnd] else []) + [PageNum(totalPages)];
      assert list == Windowed(page, totalPages);
    }
    return Some(list);
  }

  /** Seven pages or fewer: exactly the pages `1..totalPages`. */
  lemma SmallListIsAllPages(page: int, totalPages: int)
    requires 1 < totalPages <= 7
    ensures |PageList(page, totalPages)| == totalPages
    ensures forall i :: 0 <= i < totalPages ==> PageList(page, totalPages)[i] == PageNum(i + 1)
  {
  }

  /** More than seven pages: the list starts with page 1, ends with the last
      page, shows the first ellipsis exactly when `page > 3` and the second
      exactly when `page < totalPages - 2`. */
  lemma LargeListShape(page: int, totalPages: int)
    requires totalPages > 7
    ensures PageList(page, totalPages)[0] == PageNum(1)
    ensures PageList(page, totalPages)[|PageList(page, totalPages)| - 1] == PageNum(totalPages)
    ensures EllipsisStart in PageList(page, totalPages) <==> page > 3
    ensures EllipsisEnd in PageList(page, totalPages) <==> page < totalPages - 2
  {
    var lo, hi := Max(2, page - 1), Min(totalPages - 1, page + 1);
    var s := if page > 3 then [EllipsisStart] else [];
    var e := if page < totalPages - 2 then [EllipsisEnd] else [];
    var l := PageList(page, totalPages);
    assert l == [PageNum(1)] + s + Range(lo, hi) + e + [PageNum(totalPages)];
    assert EllipsisStart !in Range(lo, hi) && EllipsisEnd !in Range(lo, hi);
  }

  /** The page numbers of a list rise strictly from left to right. */
  predicate Increasing(l: seq<PageItem>) {
    forall i, j :: 0 <= i < j < |l| && l[i].PageNum? && l[j].PageNum? ==> l[i].n < l[j].n
  }

  /** For a page within range, the numbers shown rise strictly and include
      the current page. */
  lemma ListIncreasingWithPage(page: int, totalPages: int)
    requires 1 < totalPages && 1 <= page <= totalPages
    ensures Increasing(PageList(page, totalPages))
    ensures PageNum(page) in PageList(page, totalPages)
  {
    var l := PageList(page, totalPages);
    if totalPages <= 7 {
      assert l[page - 1] == PageNum(page);
    } else {
      var lo, hi := Max(2, page - 1), Min(totalPages - 1, page + 1);
      var s := if page > 3 then [EllipsisStart] else [];
      var e := if page < totalPages - 2 then [EllipsisEnd] else [];
      var w := Range(lo, hi);
      var front := [PageNum(1)] + s;
      assert l == front + w + (e + [PageNum(totalPages)]);
      WindowIncreasing(front, w, e + [PageNum(totalPages)], lo, hi, totalPages);
      if page == 1 {
        assert l[0] == PageNum(page);
      } else if page == totalPages {
        assert l[|l| - 1] == PageNum(page);
      } else {
        assert w[page - lo] == PageNum(page);
        assert l[|front| + page - lo] == PageNum(page);
      }
    }
  }

  /** Gluing page 1 and an ellipsis, a window inside `2..totalPages-1`, and
      an ellipsis and the last page gives a strictly rising list. */
  lemma WindowIncreasing(front: seq<PageItem>, w: seq<PageItem>, back: seq<PageItem>, lo: int, hi: int,
                         totalPages: int)
    requires 2 <= lo && hi <= totalPages - 1 && 1 < totalPages
    requires w == Range(lo, hi)
    requires forall i :: 0 <= i < |front| && front[i].PageNum? ==> front[i].n == 1
    requires forall i :: 0 <= i < |back| && back[i].PageNum? ==> back[i].n == totalPages
    requires |front| <= 2 && |back| <= 2
    requires forall i, j :: 0 <= i < j < |front| ==> !(front[i].PageNum? && front[j].PageNum?)
    requires forall i, j :: 0 <= i < j < |back| ==> !(back[i].PageNum? && back[j].PageNum?)
    ensures Increasing(front + w + back)
  {
    var l := front + w + back;
    forall i, j | 0 <= i < j < |l| && l[i].PageNum? && l[j].PageNum? ensures l[i].n < l[j].n {
      if j < |front| {
      } else if i < |front| {
        assert l[i] == front[i];
        if j < |front| + |w| {
          assert l[j] == w[j - |front|];
        } else {
          assert l[j] == back[j - |front| - |w|];
        }
      } else if i < |front| + |w| {
        assert l[i] == w[i - |front|];
        if j < |front| + |w| {
          assert l[j] == w[j - |front|];
        } else {
          assert l[j] == back[j - |front| - |w|];
        }
      }
    }
  }

  /** The category sent to the server: the active tab unless it is
      `'all'`, else the category filter unless it is `'all'`, else none. */
  function ServerCategory(activeTab: string, categoryFilter: string): (c: Option<string>)
    ensures activeTab != "all" ==> c == Some(activeTab)
    ensures activeTab == "all" && categoryFilter != "all" ==> c == Some(categoryFilter)
    ensures c.None? <==> activeTab == "all" && categoryFilter == "all"
  {
    if activeTab != "all" then Some(activeTab)
    else if categoryFilter != "all" then Some(categoryFilter)
    else None
  }

  /** The search matches the title or the description, ignoring case, and
      the type filter is `'all'` or equal. */
  predicate Keep(query: string, typeFilter: string, r: Resource) {
    (Text.ContainsIgnoringCase(r.title, query) || Text.ContainsIgnoringCase(r.description, query))
    && (typeFilter == "all" || r.kind == typeFilter)
  }

  function Filtered(resources: seq<Resource>, query: string, typeFilter: string): (r: seq<Resource>)
    ensures forall i :: 0 <= i < |r| ==> Keep(query, typeFilter, r[i]) && r[i] in resources
    ensures forall i :: 0 <= i < |resources| && Keep(query, typeFilter, resources[i]) ==> resources[i] in r
  {
    Lists.Filter(resources, x => Keep(query, typeFilter, x))
  }

  /** An empty search and the `'all'` type keep every resource. */
  lemma EmptySearchKeepsAll(resources: seq<Resource>)
    ensures Filtered(resources, "", "all") == resources
  {
    forall i | 0 <= i < |resources| ensures Keep("", "all", resources[i]) {
      Text.ContainsEmpty(Text.Lower(resources[i].title));
    }
    Lists.FilterAll(resources, x => Keep("", "all", x));
  }
}

=== FILE: seed_food_database.dfy ===
/** Seeding the food database at start-up: only into an empty table, one
    record per seed entry, each with the first matching image from the
    assets folder when one exists and its upload succeeds. */
module SeedFoodDatabase {
  import opened Wrappers
  import Text
  import Lists
  import opened Keyed
  import opened FoodDatabaseService

  /** An entry of the seed file. */
  datatype SeedItem = SeedItem(name: string, category: string, expirationEstimate: real)

  const ImageExtensions: seq<string> := ["jpg", "jpeg", "png", "gif", "webp"]

  /** The first of `exts` that `s` ends with after a dot. */
  function FirstExtension(s: string, exts: seq<string>): (r: Option<string>)
    ensures r.Some? <==> exists i :: 0 <= i < |exts| && Text.EndsWith(s, "." + exts[i])
    ensures r.Some? ==> Text.EndsWith(s, "." + r.value) && r.value in exts
  {
    if exts == [] then None
    else if Text.EndsWith(s, "." + exts[0]) then Some(exts[0])
    else
      var r := FirstExtension(s, exts[1..]);
      assert forall i :: 1 <= i < |exts| ==> exts[i] == exts[1..][i - 1];
      r
  }

  /** `/\.(jpg|jpeg|png|gif|webp)$/i`: the file name ends with a dot and
      one of the image extensions, in any case. */
  predicate IsImage(file: string) {
    FirstExtension(Text.Lower(file), ImageExtensions).Some?
  }

  /** `file.replace(/\.(jpg|jpeg|png|gif|webp)$/i, '').toLowerCase()`: the
      file name without its image extension, lower-cased. */
  function Stem(file: string): (r: string)
    ensures IsImage(file) ==>
      exists i :: 0 <= i < |ImageExtensions| && Text.Lower(file) == r + "." + ImageExtensions[i]
    ensures !IsImage(file) ==> r == Text.Lower(file)
  {
    match FirstExtension(Text.Lower(file), ImageExtensions)
    case Some(ext) =>
      StemSplits(file, ext, ImageExtensions);
      Text.Lower(file[..|file| - |ext| - 1])
    case None => Text.Lower(file)
  }

  /** A file whose lower-cased name ends with `.ext`, for `ext` one of
      `exts`, is its lower-cased stem, the dot and that extension. */
  lemma StemSplits(file: string, ext: string, exts: seq<string>)
    requires Text.EndsWith(Text.Lower(file), "." + ext) && ext in exts
    ensures |ext| + 1 <= |file|
    ensures exists i :: 0 <= i < |exts| && Text.Lower(file) == Text.Lower(file[..|file| - |ext| - 1]) + "." + exts[i]
  {
    var low := Text.Lower(file);
    var n := |file| - |ext| - 1;
    Lists.SplitSuffix(low, "." + ext);
    Text.LowerSlice(file, 0, n);
    var i :| 0 <= i < |exts| && exts[i] == ext;
    assert low[..n] + ("." + ext) == low[..n] + "." + exts[i];
  }

  /** The image files, sorted. */
  function Candidates(files: seq<string>): (r: seq<string>)
    ensures multiset(r) == multiset(Lists.Filter(files, IsImage))
    ensures Lists.SortedBy(r, Text.LexLe)
    ensures forall i :: 0 <= i < |r| ==> IsImage(r[i]) && r[i] in files
  {
    var hits := Lists.Filter(files, IsImage);
    StringOrderTotal();
    Lists.SortSorted(hits, Text.LexLe);
    var r := Lists.Sort(hits, Text.LexLe);
    assert forall i :: 0 <= i < |r| ==> r[i] in multiset(hits);
    r
  }

  lemma StringOrderTotal()
    ensures Lists.TotalPreorder(Text.LexLe)
  {
    forall a, b ensures Text.LexLe(a, b) || Text.LexLe(b, a) {
      Text.LexLeTotal(a, b);
    }
    forall a, b, c | Text.LexLe(a, b) && Text.LexLe(b, c) ensures Text.LexLe(a, c) {
      Text.LexLeTrans(a, b, c);
    }
  }

  /** `.replace(/\s+/g, '-')`, reading left to right: `inRun` says the
      previous character was white space, so a run yields one `-`. */
  function Hyphenate(s: string, inRun: bool): (r: string)
    ensures |r| <= |s|
    decreases |s|
  {
    if s == [] then [] else Emit(s[0], inRun) + Hyphenate(s[1..], Text.IsSpace(s[0]))
  }

  /** What one character becomes: itself, a `-` opening a run, or nothing
      inside a run. */
  function Emit(c: char, inRun: bool): (r: string)
    ensures |r| <= 1
    ensures forall i :: 0 <= i < |r| ==> !Text.IsSpace(r[i])
    ensures !Text.IsSpace(c) ==> r == [c]
  {
    if !Text.IsSpace(c) then [c] else if inRun then [] else "-"
  }

  /** The name an image file should carry: `name.toLowerCase()` with its
      white-space runs hyphenated. */
  function NormalizedName(name: string): string {
    Hyphenate(Text.Lower(name), false)
  }

  /** No white space is left. */
  lemma {:induction false} HyphenateNoSpaceLeft(s: string, inRun: bool)
    ensures forall i :: 0 <= i < |Hyphenate(s, inRun)| ==> !Text.IsSpace(Hyphenate(s, inRun)[i])
    decreases |s|
  {
    if s != [] {
      HyphenateNoSpaceLeft(s[1..], Text.IsSpace(s[0]));
      var e, t := Emit(s[0], inRun), Hyphenate(s[1..], Text.IsSpace(s[0]));
      assert forall i :: 0 <= i < |e + t| ==> (e + t)[i] == if i < |e| then e[i] else t[i - |e|];
    }
  }

  /** Text without white space is left alone. */
  lemma {:induction false} HyphenateNoSpace(s: string, inRun: bool)
    requires forall i :: 0 <= i < |s| ==> !Text.IsSpace(s[i])
    ensures Hyphenate(s, inRun) == s
    decreases |s|
  {
    if s != [] {
      HyphenateNoSpace(s[1..], false);
    }
  }

  /** Hyphenating twice changes nothing more. */
  lemma HyphenateIdempotent(s: string)
    ensures Hyphenate(Hyphenate(s, false), false) == Hyphenate(s, false)
  {
    HyphenateNoSpaceLeft(s, false);
    HyphenateNoSpace(Hyphenate(s, false), false);
  }

  /** The tail of a concatenation with a non-empty front. */
  lemma TailOfConcat(x: string, r: string)
    requires x != []
    ensures (x + r)[0] == x[0] && (x + r)[1..] == x[1..] + r
  {
  }

  /** Inside a run, the rest of the run adds nothing. */
  lemma {:induction false} RestOfRun(w: string, y: string)
    requires Text.AllSpace(w) && (y == [] || !Text.IsSpace(y[0]))
    ensures Hyphenate(w + y, true) == Hyphenate(y, false)
    decreases |w|
  {
    if w == [] {
      assert w + y == y;
      if y != [] {
        TailOfConcat(y, []);
      }
    } else {
      TailOfConcat(w, y);
      RestOfRun(w[1..], y);
    }
  }

  /** A white-space run between two non-space boundaries becomes exactly
      one `-`, and the text on either side is hyphenated on its own. */
  lemma {:induction false} HyphenateRun(x: string, w: string, y: string, inRun: bool)
    requires w != [] && Text.AllSpace(w)
    requires x == [] || !Text.IsSpace(x[|x| - 1])
    requires y == [] || !Text.IsSpace(y[0])
    requires x == [] ==> !inRun
    ensures Hyphenate(x + (w + y), inRun) == Hyphenate(x, inRun) + ("-" + Hyphenate(y, false))
    decreases |x|
  {
    if x == [] {
      RunFirst(w, y);
      assert x + (w + y) == w + y;
    } else {
      var t := x[1..];
      if t == [] {
        assert x[0] == x[|x| - 1];
      } else {
        assert t[|t| - 1] == x[|x| - 1];
      }
      HyphenateRun(t, w, y, Text.IsSpace(x[0]));
      RunLater(x, w + y, inRun, "-" + Hyphenate(y, false));
    }
  }

  /** `HyphenateRun` with nothing before the run. */
  lemma RunFirst(w: string, y: string)
    requires w != [] && Text.AllSpace(w)
    requires y == [] || !Text.IsSpace(y[0])
    ensures Hyphenate(w + y, false) == "-" + Hyphenate(y, false)
  {
    TailOfConcat(w, y);
    RestOfRun(w[1..], y);
  }

  /** The step of `HyphenateRun`: what the tail of `x` followed by `r`
      becomes carries over to `x` followed by `r`. */
  lemma RunLater(x: string, r: string, inRun: bool, suffix: string)
    requires x != []
    requires Hyphenate(x[1..] + r, Text.IsSpace(x[0])) == Hyphenate(x[1..], Text.IsSpace(x[0])) + suffix
    ensures Hyphenate(x + r, inRun) == Hyphenate(x, inRun) + suffix
  {
    TailOfConcat(x, r);
  }

  /** The stem of `file` contains the normalised name. */
  predicate Fits(normalized: string, file: string) {
    Text.Contains(Stem(file), normalized)
  }

  /** `candidates[i]` fits and no earlier candidate does. */
  predicate FirstFit(normalized: string, candidates: seq<string>, i: int) {
    0 <= i < |candidates| && Fits(normalized, candidates[i])
    && forall j :: 0 <= j < i ==> !Fits(normalized, candidates[j])
  }

  /** A first fit in the tail of a list whose head does not fit is the
      first fit of the whole list. */
  lemma FirstFitShift(normalized: string, candidates: seq<string>, i: int)
    requires candidates != [] && !Fits(normalized, candidates[0])
    requires FirstFit(normalized, candidates[1..], i)
    ensures FirstFit(normalized, candidates, i + 1)
  {
    Lists.NoneBeforeShift(candidates, (c: string) => Fits(normalized, c), i);
    assert candidates[i + 1] == candidates[1..][i];
  }

  lemma NoFitShift(normalized: string, candidates: seq<string>)
    requires candidates != [] && !Fits(normalized, candidates[0])
    requires forall i :: 0 <= i < |candidates[1..]| ==> !Fits(normalized, candidates[1..][i])
    ensures forall i :: 0 <= i < |candidates| ==> !Fits(normalized, candidates[i])
  {
    Lists.NoneBeforeShift(candidates, (c: string) => Fits(normalized, c), |candidates| - 1);
  }

  /** `imageFiles.find(...)`: the first candidate whose stem equals or
      contains the normalised name. */
  function MatchImage(normalized: string, candidates: seq<string>): (r: Option<string>)
    ensures r.None? <==> forall i :: 0 <= i < |candidates| ==> !Fits(normalized, candidates[i])
    ensures r.Some? ==> exists i :: FirstFit(normalized, candidates, i) && candidates[i] == r.value
    decreases |candidates|
  {
    if candidates == [] then None
    else if Stem(candidates[0]) == normalized || Text.Contains(Stem(candidates[0]), normalized) then
      StemEqualContains(Stem(candidates[0]));
      assert FirstFit(normalized, candidates, 0);
      Some(candidates[0])
    else
      var r := MatchImage(normalized, candidates[1..]);
      if r.Some? then
        var i :| FirstFit(normalized, candidates[1..], i) && candidates[1..][i] == r.value;
        FirstFitShift(normalized, candidates, i);
        r
      else
        NoFitShift(normalized, candidates);
        r
  }

  /** Equal stems also contain each other, so only containment decides. */
  lemma StemEqualContains(s: string)
    ensures Text.Contains(s, s)
  {
    assert s[..|s|] == s;
  }

  /** The image URL a seed entry gets: the upload (`upload`, the image
      host's answer for a file) of its matching image, or none. */
  function ImageUrlFor(item: SeedItem, candidates: seq<string>, upload: string -> Option<string>): (r: Option<string>)
    ensures MatchImage(NormalizedName(item.name), candidates).None? ==> r.None?
    ensures MatchImage(NormalizedName(item.name), candidates).Some? ==>
      r == upload(MatchImage(NormalizedName(item.name), candidates).value)
  {
    match MatchImage(NormalizedName(item.name), candidates)
    case None => None
    case Some(file) => upload(file)
  }

  /** The row a seed entry becomes under the id `id`. */
  function Row(id: Id, item: SeedItem, candidates: seq<string>, upload: string -> Option<string>): FoodItem {
    FoodItem(id, item.name, item.category, item.expirationEstimate, ImageUrlFor(item, candidates, upload))
  }

  /** `Row` with the image choice of one seed run fixed. */
  function RowMaker(candidates: seq<string>, upload: string -> Option<string>): (Id, SeedItem) -> FoodItem {
    (id: Id, item: SeedItem) => Row(id, item, candidates, upload)
  }

  /** Entries under consecutive ids from `start`, the `i`-th made by
      `make(start + i, items[i])`. */
  function Numbered<T, U>(start: Id, items: seq<T>, make: (Id, T) -> U): map<Id, U>
    decreases |items|
  {
    if items == [] then map[]
    else
      var n := |items| - 1;
      Numbered(start, items[..n], make)[start + n := make(start + n, items[n])]
  }

  lemma {:induction false} NumberedEntries<T, U>(start: Id, items: seq<T>, make: (Id, T) -> U)
    ensures forall k :: k in Numbered(start, items, make) <==> start <= k < start + |items|
    ensures forall i :: 0 <= i < |items| ==> Numbered(start, items, make)[start + i] == make(start + i, items[i])
    decreases |items|
  {
    if items != [] {
      var n := |items| - 1;
      var front := items[..n];
      NumberedEntries(start, front, make);
      var m := Numbered(start, items, make);
      var prev := Numbered(start, front, make);
      forall i | 0 <= i < |items| ensures m[start + i] == make(start + i, items[i]) {
        if i < n {
          assert front[i] == items[i] && m[start + i] == prev[start + i];
        }
      }
    }
  }

  /** The rows the seed entries become, under consecutive ids from
      `start`. */
  function Seeded(start: Id, items: seq<SeedItem>, candidates: seq<string>, upload: string -> Option<string>)
    : map<Id, FoodItem>
  {
    Numbered(start, items, RowMaker(candidates, upload))
  }

  /** Each seed entry yields exactly one row, with its own name, category
      and estimate, and nothing else is created. */
  lemma {:induction false} SeededRows(start: Id, items: seq<SeedItem>, candidates: seq<string>,
                                      upload: string -> Option<string>)
    ensures forall k :: k in Seeded(start, items, candidates, upload) <==> start <= k < start + |items|
    ensures forall i :: 0 <= i < |items| ==>
      Seeded(start, items, candidates, upload)[start + i] == Row(start + i, items[i], candidates, upload)
  {
    NumberedEntries(start, items, RowMaker(candidates, upload));
  }

  /** One more seed entry adds its row under the next id. */
  lemma SeededSnoc(start: Id, items: seq<SeedItem>, i: nat, candidates: seq<string>,
                   upload: string -> Option<string>)
    requires i < |items|
    ensures Seeded(start, items[..i + 1], candidates, upload)
         == Seeded(start, items[..i], candidates, upload)[start + i := Row(start + i, items[i], candidates, upload)]
  {
    assert items[..i + 1][..i] == items[..i];
  }

  /** `seedFoodDatabase`: nothing happens when the table has a row or the
      seed file cannot be read (`seeds` is `None`); otherwise the entries
      are inserted in order. `files` is the assets folder's listing, `None`
      when the folder is missing; every failure is absorbed, nothing is
      raised. */
  method Seed(store: FoodDatabaseStore, seeds: Option<seq<SeedItem>>, files: Option<seq<string>>,
              upload: string -> Option<string>)
    requires store.Valid()
    modifies store
    ensures store.Valid()
    ensures |old(store.rows)| > 0 || seeds.None? ==> store.rows == old(store.rows)
    ensures |old(store.rows)| == 0 && seeds.Some? ==>
      store.rows == Seeded(old(store.nextId), seeds.value, Candidates(files.GetOr([])), upload)
  {
    if |store.rows| > 0 || seeds.None? {
      return;
    }
    InsertAll(store, seeds.value, Candidates(files.GetOr([])), upload);
  }

  /** The insertion loop of `seedFoodDatabase`, one `create` per entry. */
  method InsertAll(store: FoodDatabaseStore, items: seq<SeedItem>, cands: seq<string>,
                   upload: string -> Option<string>)
    requires store.Valid() && store.rows == map[]
    modifies store
    ensures store.Valid()
    ensures store.rows == Seeded(old(store.nextId), items, cands, upload)
  {
    var start := store.nextId;
    for i := 0 to |items|
      invariant store.Valid()
      invariant store.nextId == start + i
      invariant store.rows == Seeded(start, items[..i], cands, upload)
    {
      SeededSnoc(start, items, i, cands, upload);
      store.rows := store.rows[store.nextId := Row(store.nextId, items[i], cands, upload)];
      store.nextId := store.nextId + 1;
    }
    assert items[..|items|] == items;
  }
}

=== FILE: text.dfy ===
/** String helpers shared by the server and the client: ASCII case mapping
    (the model restricts `toLowerCase`/`toUpperCase` to ASCII letters), the
    whitespace set that JavaScript's `trim` and `\s` use, and substring tests. */
module Text {

  predicate IsAsciiUpper(c: char) { 'A' <= c <= 'Z' }
  predicate IsAsciiLower(c: char) { 'a' <= c <= 'z' }
  predicate IsDigit(c: char) { '0' <= c <= '9' }

  function LowerChar(c: char): char {
    if IsAsciiUpper(c) then (c as int + 32) as char else c
  }

  function UpperChar(c: char): char {
    if IsAsciiLower(c) then (c as int - 32) as char else c
  }

  /** `s.toLowerCase()`, on ASCII letters. */
  function Lower(s: string): (r: string)
    ensures |r| == |s|
    ensures forall i :: 0 <= i < |s| ==> r[i] == LowerChar(s[i])
  {
    seq(|s|, i requires 0 <= i < |s| => LowerChar(s[i]))
  }

  /** `s.toUpperCase()`, on ASCII letters. */
  function Upper(s: string): (r: string)
    ensures |r| == |s|
    ensures forall i :: 0 <= i < |s| ==> r[i] == UpperChar(s[i])
  {
    seq(|s|, i requires 0 <= i < |s| => UpperChar(s[i]))
  }

  /** The characters JavaScript counts as white space or line terminators
      (what `trim` removes and what `\s` matches). */
  predicate IsSpace(c: char) {
    c == '\t' || c == '\n' || c == '\U{000B}' || c == '\U{000C}' || c == '\r' || c == ' '
    || c == '\U{00A0}' || c == '\U{1680}' || ('\U{2000}' <= c <= '\U{200A}')
    || c == '\U{2028}' || c == '\U{2029}' || c == '\U{202F}' || c == '\U{205F}'
    || c == '\U{3000}' || c == '\U{FEFF}'
  }

  predicate AllSpace(s: string) { forall i :: 0 <= i < |s| ==> IsSpace(s[i]) }

  function TrimStart(s: string): (r: string)
    ensures |r| <= |s| && r == s[|s| - |r|..]
    ensures r == [] || !IsSpace(r[0])
  {
    if |s| > 0 && IsSpace(s[0]) then TrimStart(s[1..]) else s
  }

  /** What `TrimStart` removes is white space. */
  lemma {:induction false} TrimStartDropsSpace(s: string)
    ensures AllSpace(s[..|s| - |TrimStart(s)|])
    decreases |s|
  {
    if |s| > 0 && IsSpace(s[0]) {
      var r := TrimStart(s[1..]);
      TrimStartDropsSpace(s[1..]);
      var dropped := s[1..][..|s| - 1 - |r|];
      var all := s[..|s| - |r|];
      forall k | 0 <= k < |all| ensures IsSpace(all[k]) {
        if k > 0 {
          assert all[k] == dropped[k - 1];
        }
      }
    }
  }

  function TrimEnd(s: string): (r: string)
    ensures |r| <= |s| && r == s[..|r|]
    ensures r == [] || !IsSpace(r[|r| - 1])
  {
    if |s| > 0 && IsSpace(s[|s| - 1]) then TrimEnd(s[..|s| - 1]) else s
  }

  /** What `TrimEnd` removes is white space. */
  lemma {:induction false} TrimEndDropsSpace(s: string)
    ensures AllSpace(s[|TrimEnd(s)|..])
    decreases |s|
  {
    if |s| > 0 && IsSpace(s[|s| - 1]) {
      var r := TrimEnd(s[..|s| - 1]);
      TrimEndDropsSpace(s[..|s| - 1]);
      var dropped := s[..|s| - 1][|r|..];
      var all := s[|r|..];
      forall k | 0 <= k < |all| ensures IsSpace(all[k]) {
        if k < |s| - 1 - |r| {
          assert all[k] == dropped[k];
        }
      }
    }
  }

  /** `s.trim()`: remove the white space at both ends; what is left neither
      starts nor ends with white space. */
  function Trim(s: string): (r: string)
    ensures |r| <= |s|
    ensures r == [] || (!IsSpace(r[0]) && !IsSpace(r[|r| - 1]))
  {
    TrimEnd(TrimStart(s))
  }

  /** A string is blank (`!s.trim()`) exactly when it holds only white space. */
  lemma TrimEmptyIffBlank(s: string)
    ensures Trim(s) == [] <==> AllSpace(s)
  {
    var t := TrimStart(s);
    var u := TrimEnd(t);
    TrimStartDropsSpace(s);
    TrimEndDropsSpace(t);
    if u == [] {
      assert t[|u|..] == t;
      AllSpaceConcat(s[..|s| - |t|], t);
      assert s == s[..|s| - |t|] + t;
    } else {
      assert u[0] == t[0] && t[0] == s[|s| - |t|];
    }
  }

  lemma AllSpaceConcat(a: string, b: string)
    requires AllSpace(a) && AllSpace(b)
    ensures AllSpace(a + b)
  {
    forall i | 0 <= i < |a + b| ensures IsSpace((a + b)[i]) {
      if i >= |a| {
        assert (a + b)[i] == b[i - |a|];
      }
    }
  }

  /** Lower-casing leaves no upper-case ASCII letter. */
  lemma LowerNoUpper(s: string)
    ensures forall i :: 0 <= i < |Lower(s)| ==> !IsAsciiUpper(Lower(s)[i])
  {
    forall i | 0 <= i < |s| ensures !IsAsciiUpper(Lower(s)[i]) {
      var c := s[i];
      if IsAsciiUpper(c) {
        assert 'a' as int <= c as int + 32 <= 'z' as int;
      }
    }
  }

  lemma LowerSlice(s: string, i: nat, j: nat)
    requires i <= j <= |s|
    ensures Lower(s[i..j]) == Lower(s)[i..j]
  {
  }

  lemma LowerKeepsSpace(c: char)
    ensures IsSpace(LowerChar(c)) == IsSpace(c)
  {
  }

  /** Lower-casing never creates or removes white space, so trimming and
      lower-casing commute: `s.trim().toLowerCase() == s.toLowerCase().trim()`. */
  lemma LowerTrimCommute(s: string)
    ensures Lower(Trim(s)) == Trim(Lower(s))
  {
    LowerTrimStart(s);
    LowerTrimEnd(TrimStart(s));
  }

  lemma {:induction false} LowerTrimStart(s: string)
    ensures Lower(TrimStart(s)) == TrimStart(Lower(s))
    decreases |s|
  {
    if |s| > 0 {
      var l := Lower(s);
      assert l[0] == LowerChar(s[0]);
      LowerKeepsSpace(s[0]);
      if IsSpace(s[0]) {
        LowerSlice(s, 1, |s|);
        assert s[1..|s|] == s[1..] && l[1..|s|] == l[1..];
        calc {
          Lower(TrimStart(s));
          Lower(TrimStart(s[1..]));
          { LowerTrimStart(s[1..]); }
          TrimStart(Lower(s[1..]));
          TrimStart(l[1..]);
          TrimStart(l);
        }
      } else {
        assert TrimStart(l) == l;
      }
    }
  }

  lemma {:induction false} LowerTrimEnd(s: string)
    ensures Lower(TrimEnd(s)) == TrimEnd(Lower(s))
    decreases |s|
  {
    if |s| > 0 {
      var l := Lower(s);
      assert l[|s| - 1] == LowerChar(s[|s| - 1]);
      LowerKeepsSpace(s[|s| - 1]);
      if IsSpace(s[|s| - 1]) {
        LowerSlice(s, 0, |s| - 1);
        LowerTrimEnd(s[..|s| - 1]);
        assert TrimEnd(l) == TrimEnd(l[..|s| - 1]);
      } else {
        assert TrimEnd(l) == l;
      }
    }
  }

  /** Lower-casing is idempotent. */
  lemma LowerIdempotent(s: string)
    ensures Lower(Lower(s)) == Lower(s)
  {
  }

  predicate StartsWith(s: string, p: string) {
    |p| <= |s| && s[..|p|] == p
  }

  predicate EndsWith(s: string, p: string) {
    |p| <= |s| && s[|s| - |p|..] == p
  }

  /** `s.includes(p)`. */
  predicate Contains(s: string, p: string)
    decreases |s|
  {
    StartsWith(s, p) || (|s| > 0 && Contains(s[1..], p))
  }

  predicate OccursAt(s: string, p: string, i: int) {
    0 <= i <= |s| - |p| && s[i..i + |p|] == p
  }

  lemma OccursShift(s: string, p: string, i: int)
    requires 0 < i && OccursAt(s, p, i)
    ensures OccursAt(s[1..], p, i - 1)
  {
    assert s[1..][i - 1..i - 1 + |p|] == s[i..i + |p|];
  }

  lemma OccursUnshift(s: string, p: string, i: int)
    requires |s| > 0 && OccursAt(s[1..], p, i)
    ensures OccursAt(s, p, i + 1)
  {
    assert s[1..][i..i + |p|] == s[i + 1..i + 1 + |p|];
  }

  /** `s.includes(p)` holds exactly when `p` occurs in `s` at some index. */
  lemma {:induction false} ContainsIff(s: string, p: string)
    ensures Contains(s, p) <==> exists i :: OccursAt(s, p, i)
    decreases |s|
  {
    if StartsWith(s, p) {
      assert OccursAt(s, p, 0);
    } else {
      assert !OccursAt(s, p, 0);
      if |s| > 0 {
        ContainsIff(s[1..], p);
        if Contains(s[1..], p) {
          var i :| OccursAt(s[1..], p, i);
          OccursUnshift(s, p, i);
        } else {
          forall i | 0 < i && OccursAt(s, p, i) ensures OccursAt(s[1..], p, i - 1) {
            OccursShift(s, p, i);
          }
        }
      }
    }
  }

  /** The empty query is contained in every string. */
  lemma ContainsEmpty(s: string)
    ensures Contains(s, [])
  {
  }

  /** `s.toLowerCase().includes(q.toLowerCase())`. */
  predicate ContainsIgnoringCase(s: string, q: string) {
    Contains(Lower(s), Lower(q))
  }

  /** Code-point lexicographic order (`orderBy: { name: 'asc' }`). */
  predicate LexLe(a: string, b: string)
    decreases |a|
  {
    a == [] || (b != [] && (a[0] < b[0] || (a[0] == b[0] && LexLe(a[1..], b[1..]))))
  }

  lemma {:induction false} LexLeTotal(a: string, b: string)
    ensures LexLe(a, b) || LexLe(b, a)
    decreases |a|
  {
    if a != [] && b != [] && a[0] == b[0] {
      LexLeTotal(a[1..], b[1..]);
    }
  }

  lemma {:induction false} LexLeTrans(a: string, b: string, c: string)
    requires LexLe(a, b) && LexLe(b, c)
    ensures LexLe(a, c)
    decreases |a|
  {
    if a != [] && a[0] == b[0] && b[0] == c[0] {
      LexLeTrans(a[1..], b[1..], c[1..]);
    }
  }

  /** Strings equal in the order are equal. */
  lemma {:induction false} LexLeAntisymmetric(a: string, b: string)
    requires LexLe(a, b) && LexLe(b, a)
    ensures a == b
    decreases |a|
  {
    if a != [] {
      LexLeAntisymmetric(a[1..], b[1..]);
      assert a == [a[0]] + a[1..] && b == [b[0]] + b[1..];
    }
  }
}

=== FILE: top_bar.dfy ===
/** The avatar initials of the top bar (both clients have the same
    `getInitials`): the name is split at each space, the first character of
    every piece is kept (an empty piece gives none), the result is put in
    upper case and cut to two characters. */
module TopBar {
  import Text
  import Lists

  /** `s.split(sep)`: the pieces between separators, empty ones included,
      so there is always at least one. */
  function SplitOn(s: string, sep: char): (parts: seq<string>)
    ensures |parts| >= 1
    ensures forall i :: 0 <= i < |parts| ==> sep !in parts[i]
  {
    if s == [] then [[]]
    else
      var rest := SplitOn(s[1..], sep);
      if s[0] == sep then [[]] + rest else [[s[0]] + rest[0]] + rest[1..]
  }

  /** `parts.join(sep)`. */
  function Join(parts: seq<string>, sep: char): string
    requires |parts| >= 1
  {
    if |parts| == 1 then parts[0] else parts[0] + [sep] + Join(parts[1..], sep)
  }

  /** Splitting and joining back gives the string again. */
  lemma {:induction false} SplitJoin(s: string, sep: char)
    ensures Join(SplitOn(s, sep), sep) == s
  {
    if s != [] {
      var rest := SplitOn(s[1..], sep);
      SplitJoin(s[1..], sep);
      if s[0] == sep {
        assert ([[]] + rest)[1..] == rest;
      } else {
        var parts := [[s[0]] + rest[0]] + rest[1..];
        if |rest| > 1 {
          assert parts[1..] == rest[1..];
          assert Join(rest, sep) == rest[0] + [sep] + Join(rest[1..], sep);
        }
      }
    }
  }

  /** `.map(n => n[0]).join('')`: `n[0]` of an empty piece is `undefined`,
      which `join` writes as nothing. */
  function Heads(words: seq<string>): (r: string)
    ensures |r| <= |words|
  {
    if words == [] then []
    else (if words[0] == [] then [] else [words[0][0]]) + Heads(words[1..])
  }

  function Initials(name: string): (r: string)
    ensures |r| <= 2
  {
    Lists.Take(Text.Upper(Heads(SplitOn(name, ' '))), 2)
  }

  lemma {:induction false} HeadsAppend(x: seq<string>, y: seq<string>)
    ensures Heads(x + y) == Heads(x) + Heads(y)
  {
    if x != [] {
      assert (x + y)[1..] == x[1..] + y;
      HeadsAppend(x[1..], y);
    } else {
      assert x + y == y;
    }
  }

  /** A separator splits the string into the pieces of each side. */
  lemma {:induction false} SplitAtSeparator(a: string, b: string, sep: char)
    ensures SplitOn(a + [sep] + b, sep) == SplitOn(a, sep) + SplitOn(b, sep)
  {
    if a == [] {
      assert [sep] + b == a + [sep] + b;
      assert ([sep] + b)[1..] == b;
    } else {
      assert (a + [sep] + b)[1..] == a[1..] + [sep] + b;
      SplitAtSeparator(a[1..], b, sep);
    }
  }

  /** A string without the separator is one piece. */
  lemma {:induction false} SplitWord(w: string, sep: char)
    requires sep !in w
    ensures SplitOn(w, sep) == [w]
  {
    if w != [] {
      SplitWord(w[1..], sep);
      assert [w[0]] + w[1..] == w;
    }
  }

  /** The pieces have no first character at all exactly when the string
      is only separators. */
  lemma {:induction false} HeadsEmptyIffOnlySeparators(s: string, sep: char)
    ensures Heads(SplitOn(s, sep)) == [] <==> forall i :: 0 <= i < |s| ==> s[i] == sep
  {
    if s != [] {
      var rest := SplitOn(s[1..], sep);
      HeadsEmptyIffOnlySeparators(s[1..], sep);
      if s[0] == sep {
        assert ([[]] + rest)[1..] == rest;
        assert (forall i :: 0 <= i < |s| ==> s[i] == sep) <==> (forall i :: 0 <= i < |s[1..]| ==> s[1..][i] == sep) by {
          if forall i :: 0 <= i < |s[1..]| ==> s[1..][i] == sep {
            forall i | 0 <= i < |s| ensures s[i] == sep {
              if i > 0 { assert s[i] == s[1..][i - 1]; }
            }
          }
        }
      }
    }
  }

  /** A blank name (empty or only spaces) has no initials; any other name
      has at least one. */
  lemma BlankNameNoInitials(name: string)
    ensures Initials(name) == [] <==> forall i :: 0 <= i < |name| ==> name[i] == ' '
  {
    HeadsEmptyIffOnlySeparators(name, ' ');
  }

  /** A one-word name gives its first letter in upper case. */
  lemma OneWord(w: string)
    requires w != [] && ' ' !in w
    ensures Initials(w) == [Text.UpperChar(w[0])]
  {
    SplitWord(w, ' ');
  }

  /** Two words, and whatever follows them after a space, give the upper
      case first letters of the two words: later words are cut off. */
  lemma FirstTwoWords(w1: string, w2: string, rest: string)
    requires w1 != [] && ' ' !in w1 && w2 != [] && ' ' !in w2
    ensures Initials(w1 + " " + w2) == [Text.UpperChar(w1[0]), Text.UpperChar(w2[0])]
    ensures Initials(w1 + " " + w2 + " " + rest) == [Text.UpperChar(w1[0]), Text.UpperChar(w2[0])]
  {
    SplitWord(w1, ' ');
    SplitWord(w2, ' ');
    SplitAtSeparator(w1, w2, ' ');
    assert w1 + " " + w2 == w1 + [' '] + w2;
    HeadsAppend([w1], [w2]);
    assert Heads([w1]) == [w1[0]];
    assert Heads([w2]) == [w2[0]];
    var both := w1 + " " + w2;
    SplitAtSeparator(both, rest, ' ');
    assert both + " " + rest == both + [' '] + rest;
    HeadsAppend(SplitOn(both, ' '), SplitOn(rest, ' '));
  }

  /** Spaces before a name change nothing: the empty pieces they make
      have no first character. */
  lemma LeadingSpaceIgnored(name: string)
    ensures Initials(" " + name) == Initials(name)
  {
    assert (" " + name)[1..] == name;
    assert ([[]] + SplitOn(name, ' '))[1..] == SplitOn(name, ' ');
  }
}

=== FILE: wrappers.dfy ===
/** Optional values and success/failure results, used wherever the system
    returns "nothing found" or raises an error instead of a value. */
module Wrappers {

  datatype Option<+T> = None | Some(value: T) {
    function GetOr(default: T): T {
      match this
      case Some(v) => v
      case None => default
    }
  }

  datatype Result<+T, +E> = Ok(value: T) | Err(error: E) {
    predicate IsOk() { Ok? }
  }
}
